=== FILE: README.md ===
# Advent of Code puzzle solutions, modelled in Dafny

This project models the puzzle logic of a set of JavaScript Advent of Code
solutions (days 1 to 5 and 8 to 12 of 2025, and days 1 to 7 of 2024). Each
solution reads a puzzle input, parses it line by line and computes an answer.
Each solution file becomes one Dafny module. Its parsing, its helper functions
and its main loops are written as pure functions, or as methods where the source
loops over mutable state. Contracts and lemmas then relate each operation to an
independent statement of what it computes.

Three shared modules hold what several solutions lean on:

- `Text` models the JavaScript coercions the solutions use: `String(n)`,
  `Number(s)`, `parseInt(s)`, `trim`, `split` and `indexOf`. It proves that
  numbers written in decimal read back as themselves.
- `Sorting` models `Array.prototype.sort(compare)` as a stable insertion sort.
  ECMAScript 2019 requires the sort to be stable, and ECMAScript fixes its
  result only for a consistent comparator, which is a strict weak order.
- `StableSort` holds the theory of that case. For such an order,
  `StableSort.SortByIsTheStableSort` proves that the insertion sort gives the
  only sorted arrangement that keeps tied elements in input order. So for
  such an order the model returns exactly what any conforming engine returns.

| module | source |
|---|---|
| `Dial` | 1/index.mjs |
| `RepeatedIds` | 2/index.mjs |
| `Joltage` | 3/index.mjs |
| `PaperRolls` | 4/index.mjs |
| `Ranges` | 5/index.mjs |
| `Circuits` | 8/index.mjs |
| `Polygon` | 9/index.mjs |
| `ButtonLine` | 10/index.mjs |
| `PathCount` | 11/index.mjs |
| `Shapes`, `Packing` | 12/index.mjs |
| `Similarity` | _2024/1/index.mjs |
| `Reports` | _2024/2/index.mjs |
| `MulScanner` | _2024/3/index.mjs |
| `XMas` | _2024/4/index.mjs |
| `PageOrder` | _2024/5/index.mjs |
| `GuardWalk` | _2024/6/indes.mjs |
| `Calibration` | _2024/7/index.mjs |

Reading the input file and printing to the console are not modelled. Every
operation takes the input text (or its lines) as a parameter and returns
what the solution prints.

Day 10 hands each machine to a minimum-press solver `solve` at
10/index.mjs:39, but that solver is defined in no file of the repository.
The model follows the code: `ButtonLine.Results` and `ButtonLine.Report` take the solver as a function
parameter and prove what the reporting loop does with its answers.

## Model

| member | source | states |
|---|---|---|
| Text.DigitChar | _2024/7/index.mjs:37 | the character printed for a digit value d < 10 is a digit whose value is d |
| Text.Decimal | _2024/7/index.mjs:37 | `String(n)` for a natural n: at least one character, all digits, no leading zero unless the text is "0" |
| Text.DecimalRoundTrip | _2024/7/index.mjs:37 | reading back the digits of `String(n)` gives n |
| Text.DigitsValueBound | _2024/7/index.mjs:37 | a string of k digits has a value below 10^k |
| Text.DigitsValueAppend | _2024/7/index.mjs:37 | digits s followed by digits t have the value value(s)·10^len(t) + value(t) |
| Text.TrimStart | 5/index.mjs:10 | the trimmed text is a suffix of the input, does not start with white space, and everything cut off is white space |
| Text.TrimEnd | 5/index.mjs:10 | the trimmed text is a prefix of the input, does not end with white space, and everything cut off is white space |
| Text.BlankIsTrimEmpty | 5/index.mjs:10 | a line is blank exactly when `line.trim() == ''` |
| Text.NumberOfDigits | 5/index.mjs:15-18 | `Number` of a non-empty digit string is its decimal value |
| Text.NumberOfDecimal | 5/index.mjs:15-18 | `Number(String(n))` is n again |
| Text.NumberOfBlank | _2024/2/index.mjs:30 | `Number` (unary `+`) of empty or white-space text is 0, not NaN |
| Text.NumberOfNoMinus | 1/index.mjs:12 | text without a minus sign never reads as a negative number |
| Text.NumbersOf | _2024/5/index.mjs:23 | `parts.map(Number)` without NaN: a list that reads has one number per piece, each what `Number` makes of that piece, in order |
| Text.NumbersOfReads | _2024/5/index.mjs:23 | the list reads exactly when every piece reads as a number |
| Text.DigitPrefix | 10/index.mjs:19 | the longest prefix of digits: all digits, a prefix of the input, and followed by a non-digit if it stops early |
| Text.ParseIntDigits | 10/index.mjs:19 | `parseInt` of a non-empty digit string is its decimal value |
| Text.ParseIntDecimal | 12/index.mjs:19-20 | `parseInt(String(n))` is n |
| Text.DigitPrefixAll | 10/index.mjs:19 | the digit prefix of a digit string is the whole string |
| Text.IndexOf | _2024/3/index.mjs:21 | `indexOf(sub, from)`: either -1 or an occurrence at or after from, and no occurrence lies between from and the result (none at all for -1) |
| Text.Split | 1/index.mjs:5 | `split(sep)` yields at least one piece |
| Text.SplitJoin | 1/index.mjs:5 | joining the pieces of a split with the separator gives the text back |
| Text.JoinSplit | 8/index.mjs:5 | splitting a join of pieces free of a one-character separator gives exactly those pieces |
| Text.SplitPair | 8/index.mjs:5 | two separator-free pieces joined by a one-character separator split back into those two |
| Text.SplitPairBy | _2024/1/index.mjs:8 | two pieces without the separator's first character, joined by the separator, split back into those two |
| Text.SplitWhole | 2/index.mjs:35 | text without the separator's first character splits into itself alone |
| Text.NoOccurrence | 2/index.mjs:35 | text without a one-character separator splits into itself alone |
| Text.SplitPiecesAvoidSep | 1/index.mjs:5 | no piece of a split on a character contains that character |
| Text.SplitPiecesAvoid | _2024/6/indes.mjs:129 | a character absent from the text is absent from every piece |
| Text.DecimalAvoids | _2024/7/index.mjs:37 | `String(n)` holds digits only, so no other character |
| Text.RemoveCR | 3/index.mjs:26 | `replace(/\r/g, '')` leaves no carriage return, never lengthens the text, and leaves text without one unchanged |
| Text.NonBlank | 3/index.mjs:26 | the filter on `line.trim().length > 0` keeps no blank line |
| Text.Sections | 5/index.mjs:9-20 | once the blank line has been seen, no further line goes to the first section |
| Text.SectionsSecond | 5/index.mjs:9-20 | after the blank line, the second section is exactly the non-blank remaining lines |
| Text.SectionsCons | 5/index.mjs:14-16 | a non-blank line before the first blank line goes to the first section, in order |
| Text.SectionsAtFirstBlank | 5/index.mjs:9-20 | the first section is exactly the lines before the first blank line; the second is the non-blank lines after it |
| Sorting.Insert | 5/index.mjs:33 | inserting into a sorted sequence adds exactly the one element |
| Sorting.InsertSorted | 5/index.mjs:33 | when lt is a strict order on the elements involved, inserting into a sorted sequence keeps it sorted |
| Sorting.SortBy | 5/index.mjs:33 | `sort(cmp)` returns a permutation of its input: same length, same multiset |
| Sorting.SortBySorted | 5/index.mjs:33 | under a strict order, the result of the sort is sorted |
| Sorting.SortBySortedOn | _2024/5/index.mjs:60 | when lt is a strict order on the elements sorted (it need not be one elsewhere), the result is sorted |
| StableSort.TiedWithAppend | _2024/5/index.mjs:60 | the elements tied with x in a concatenation are those of the first part, then those of the second |
| StableSort.WeakSplit | _2024/5/index.mjs:30-40 | in a strict weak order, a before c puts every b after a or before c |
| StableSort.InsertTied | _2024/5/index.mjs:60 | under a strict weak order, inserting y into a sorted sequence puts it after every element tied with it already there |
| StableSort.SortByStable | _2024/5/index.mjs:60 | under a strict weak order the sort is stable: the elements tied with any x keep their input order |
| StableSort.StableSortUnique | _2024/5/index.mjs:60 | two sorted permutations of each other that order every tied group alike are equal |
| StableSort.SortByIsTheStableSort | _2024/5/index.mjs:60 | under a strict weak order on the elements, any sorted, stable permutation of the input is exactly the model's result, so a consistent comparator fixes what `sort` returns |
| Sorting.SortedHeads | 12/index.mjs:65 | two sorted permutations of each other under a strict total order start with the same element |
| Sorting.SortedUnique | 12/index.mjs:65 | two sorted permutations of each other under a strict total order are equal, so the sorted result depends only on the multiset |
| Dial.ParseRotation | 1/index.mjs:11-12 | an empty line, or one whose first character is neither `L` nor `R`, turns nothing |
| Dial.ParseRotationTurn | 1/index.mjs:11-12 | `L` or `R` followed by digits is a left or right turn by the number those digits spell |
| Dial.FloorDiv100 | 1/index.mjs:30 | `Math.floor(a / 100)`: the q with 100q ≤ a < 100q + 100, also for negative a |
| Dial.JsRem100 | 1/index.mjs:33 | JavaScript's `% 100`: congruent to a, in [0, 100) for a ≥ 0 and in (-100, 0] for a < 0 |
| Dial.Turned | 1/index.mjs:18-29 | `L` subtracts the count, `R` adds it, any other line leaves the dial where it is |
| Dial.Step | 1/index.mjs:18-33 | one line adds exactly the absolute number of hundreds, rounded down, of the turned position to the zero count; the new position is congruent to the turned one mod 100 and lands on the face unless the turn went below -100, where it can stay negative |
| Dial.FoldBack | 1/index.mjs:33 | `(curr + 100) % 100` is congruent to curr; in [0, 100) when curr ≥ -100, in (-100, 0) otherwise unless curr is a multiple of 100 |
| Dial.Run | 1/index.mjs:16-40 | `lines.forEach`: the lines applied one after the other from the start; its properties are stated by `Dial.ZerosMonotone`, `Dial.ZerosArePrefixLaps` and `Dial.SmallTurnsStayOnFace` |
| Dial.Password | 1/index.mjs:8-42 | the printed count after every line from position 50; `Dial.PasswordIsLaps` states what it adds up |
| Dial.RunSnoc | 1/index.mjs:16-40 | running one more line is one more step after the others |
| Dial.ZerosArePrefixLaps | 1/index.mjs:16-40 | after the first k lines the zero count has grown by exactly the laps of those k turns, each taken from where the dial stood before it |
| Dial.PasswordIsLaps | 1/index.mjs:30 | the password is the sum over the lines of the absolute number of hundreds, rounded down, each turn reaches from where the dial stood |
| Dial.ZerosMonotone | 1/index.mjs:10-39 | the password only grows as lines are processed: every prefix's count lies between the start and the whole run |
| Dial.SmallTurnsStayOnFace | 1/index.mjs:18-33 | if no turn exceeds 100 clicks the dial always stays on the face 0..99 |
| Dial.LongLeftTurnLeavesFace | 1/index.mjs:33 | from the start, `L200` leaves the dial at -50, off the face, having counted two zeros |
| RepeatedIds.Repeat | 2/index.mjs:10 | `substring.repeat(n)` has n times the length |
| RepeatedIds.RepeatAt | 2/index.mjs:10 | the i-th character of a repetition is the block's character at i mod the block length |
| RepeatedIds.RepeatIffPeriodic | 2/index.mjs:8-11 | the repetition of the first k characters equals the text exactly when the text has period k |
| RepeatedIds.RepetitionFromSpec | 2/index.mjs:6-16 | the length loop succeeds exactly when some block length from its start, at most half the text and dividing it, repeats to the text |
| RepeatedIds.IsRepetitionSpec | 2/index.mjs:3-17 | an id is invalid exactly when its decimal text is one block repeated at least twice |
| RepeatedIds.IsRepetition | 2/index.mjs:3-17 | `isRepetetion`; `RepeatedIds.IsRepetitionSpec` states when it holds |
| RepeatedIds.SingleDigitNever | 2/index.mjs:6 | a single-digit id is never invalid (the loop does not run) |
| RepeatedIds.IsRepetitionTwice | 2/index.mjs:19-28 | the two-halves test holds exactly when the text has even length and its halves agree |
| RepeatedIds.TwiceIsRepetition | 2/index.mjs:19-28 | every id the two-halves test accepts is also invalid under the general test |
| RepeatedIds.SumRange | 2/index.mjs:38-43 | the loop from `from` to `to` adds exactly the invalid ids of that range, and nothing when to < from |
| RepeatedIds.ParseRangeText | 2/index.mjs:35-37 | a piece written `from-to` reads back as its two bounds |
| RepeatedIds.AnswerOneRange | 2/index.mjs:32-44 | an input of the one range `from-to` sums exactly the invalid ids of that range |
| RepeatedIds.RangesSum | 2/index.mjs:34-44 | the loop over the comma pieces; `RepeatedIds.SumRange` states what each range adds |
| RepeatedIds.Answer | 2/index.mjs:30-45 | the printed sum; `RepeatedIds.AnswerOneRange` states it for one range |
| RepeatedIds.ExampleRepetitions | 2/index.mjs:3-28 | 1212 is invalid under both tests; 111 is invalid only under the general one |
| Similarity.ParseLine | _2024/1/index.mjs:8-9 | a line reads only when splitting on three spaces gives at least two pieces |
| Similarity.ParseLineText | _2024/1/index.mjs:8-9 | two numbers written with three spaces between read back as that pair |
| Similarity.Count | _2024/1/index.mjs:18 | `b.filter(bi => bi == x).length` is the multiplicity of x in b |
| Similarity.Score | _2024/1/index.mjs:13-20 | `score`: each left value times its count on the right, added up; stated by the `Similarity.Score…` lemmas below |
| Similarity.ScoreOnlyMatches | _2024/1/index.mjs:16-20 | a left value absent from the right list adds nothing, wherever and however often it appears |
| Similarity.ScorePrefix | _2024/1/index.mjs:16-20 | the score of a concatenated left list is the sum of the parts' scores |
| Similarity.ScoreReorder | _2024/1/index.mjs:16-20 | reordering the right list does not change the score |
| Similarity.ScoreAppendRight | _2024/1/index.mjs:16-20 | one more right value y adds y times the number of y on the left |
| Similarity.ScoreEmptyRight | _2024/1/index.mjs:16-20 | against an empty right list the score is 0 |
| Similarity.ScoreSymmetric | _2024/1/index.mjs:16-20 | the score does not change when the two lists swap places |
| Reports.SafeFrom | _2024/2/index.mjs:6-19 | the loop from i returns true exactly when every later step is one of 1..3 in the chosen direction |
| Reports.IsSafe | _2024/2/index.mjs:3-21 | `isSafe(row)`; `Reports.IsSafeGradual` states when it holds |
| Reports.IsSafeGradual | _2024/2/index.mjs:3-21 | a row is safe exactly when it is shorter than two or strictly increasing or strictly decreasing with steps of at most 3 |
| Reports.RemoveAt | _2024/2/index.mjs:38 | `row.filter((_, k) => k !== i)`: one shorter, the other elements in order |
| Reports.Dampened | _2024/2/index.mjs:32-45 | a row counts exactly when it is safe or some single removal makes it safe |
| Reports.CountSafe | _2024/2/index.mjs:28-47 | the count is the number of rows that count, at most the number of rows |
| Reports.BlankLineIsSafe | _2024/2/index.mjs:28-32 | an empty line reads as the row `[0]`, which is safe, so a trailing newline adds one to the count |
| Ranges.ParseRange | 5/index.mjs:15 | a range reads only when splitting on `-` gives at least two pieces |
| Ranges.ParseRangeText | 5/index.mjs:15 | a line written `lo-hi` reads back as that range |
| Ranges.ParseRanges | 5/index.mjs:14-16 | the ranges read exactly when every line reads, one range per line in order |
| Ranges.ReadInput | 5/index.mjs:9-20 | the input reads exactly when every line before the first blank reads as a range, one range per line; each later line is kept as what `Number` makes of it, NaN included |
| Ranges.ByStartIsStrictOrder | 5/index.mjs:33 | ordering by start value is a strict order |
| Ranges.SortByStart | 5/index.mjs:33 | the sorted ranges are a permutation of the input with non-decreasing starts |
| Ranges.Absorb | 5/index.mjs:38-44 | the inner loop keeps the slots before it, keeps the current start and never shrinks the current end |
| Ranges.AbsorbCovers | 5/index.mjs:38-44 | merging neighbours into the current range covers exactly the ids covered before |
| Ranges.AbsorbNulls | 5/index.mjs:42 | every slot either keeps its range or is set to null |
| Ranges.CondenseCovers | 5/index.mjs:35-46 | the condensed list covers exactly the ids the remaining slots cover |
| Ranges.CondenseCoversSame | 5/index.mjs:33-47 | condensing covers exactly the ids the input covers |
| Ranges.CondenseIsSeparated | 5/index.mjs:33-47 | condensed ranges are in order with a gap of at least one id between neighbours |
| Ranges.CondenseValid | 5/index.mjs:35-46 | ranges with lo ≤ hi condense to ranges with lo ≤ hi |
| Ranges.CondenseKeepsValid | 5/index.mjs:33-47 | condensing valid ranges yields valid ranges |
| Ranges.Span | 5/index.mjs:50 | a range covers exactly lo..hi, which is hi - lo + 1 ids |
| Ranges.Covered | 5/index.mjs:48-51 | the set of ids that some range covers |
| Ranges.SizeCountsCovered | 5/index.mjs:48-51 | for separated valid ranges, the sum of hi - lo + 1 is the number of distinct ids covered |
| Ranges.CountIsDistinctIds | 5/index.mjs:32-52 | the printed sum is the number of distinct ids the input ranges cover |
| Ranges.CondenseCovered | 5/index.mjs:33-47 | condensing does not change the set of covered ids |
| Joltage.EnumerateIsMax | 3/index.mjs:5-22 | `getNumsRecursive` leaves in `lineMax` the larger of its old value and the best number built from the digits so far plus the best choice of the remaining digits |
| Joltage.Enumerate | 3/index.mjs:5-22 | the `for (b …)` loop of `getNumsRecursive`; `Joltage.EnumerateIsMax` states what it leaves in `lineMax` |
| Joltage.EnumeratorFindsMax | 3/index.mjs:5-22 | started at index -1 with nothing built, the enumerator finds the largest number formed by `picks` digits of the line taken in order |
| Joltage.MaxCandsIsMax | 3/index.mjs:5-22 | the reference maximum over first positions is reached by some position and no position beats it |
| Joltage.MaxFromBound | 3/index.mjs:9 | k digits make a number below 10^k |
| Joltage.MaxDigitIsMax | 3/index.mjs:36 | `Math.max(...avaliable)`: no digit of the window is larger, and some digit of it is that large |
| Joltage.IndexOfFirst | 3/index.mjs:37 | `avaliable.indexOf(maxNum)` finds the first position of that digit in the window |
| Joltage.PickIsFirstMax | 3/index.mjs:35-37 | each round picks the leftmost largest digit of the window that still leaves enough digits for the remaining picks |
| Joltage.PickBeatsOthers | 3/index.mjs:35-38 | no other first position yields a larger number than the greedy pick |
| Joltage.GreedyIsMax | 3/index.mjs:32-41 | the greedy choice of digits equals the largest number over all in-order choices |
| Joltage.Greedy | 3/index.mjs:32-41 | the number the greedy rounds build; `Joltage.GreedyIsMax` states it is the largest in-order choice |
| Joltage.GreedyRound | 3/index.mjs:34-39 | one round of the loop: the pick lies in the window, holds its leftmost largest digit, and is appended to num |
| Joltage.BankJoltage | 3/index.mjs:32-41 | the loop's number is the greedy number, the largest in-order choice of `picks` digits, and what the recursive enumerator finds |
| Joltage.Total | 3/index.mjs:26-59 | `sum` adds each bank's largest twelve-digit (or `picks`-digit) choice |
| MulScanner.Locations | _2024/3/index.mjs:16-28 | `locations` returns, in increasing order, exactly the positions where the substring occurs |
| MulScanner.Reset | _2024/3/index.mjs:37-38 | a reset goes back to state 0 with both numbers 0, keeping the sum and the gate |
| MulScanner.CharNumber | _2024/3/index.mjs:52-53 | `+curr` of one character is its digit value, 0 for white space, NaN otherwise |
| MulScanner.TryAddChar | _2024/3/index.mjs:33-82 | only a `)` closing the second number changes the sum; the gate never changes; a rejected character resets the match |
| MulScanner.Advance | _2024/3/index.mjs:98-103 | a rejected character is tried again from the reset state, keeping the scanner well formed |
| MulScanner.RetryStartsMatch | _2024/3/index.mjs:102-103 | an `m` that breaks a match starts a new one |
| MulScanner.Feed | _2024/3/index.mjs:90-104 | feeding text keeps the scanner well formed and leaves the gate as it was |
| MulScanner.FeedAppend | _2024/3/index.mjs:90-104 | feeding s then t is feeding s + t |
| MulScanner.AdvanceDigit | _2024/3/index.mjs:58-59 | a digit inside a number appends to that number in decimal |
| MulScanner.FeedDigitsA | _2024/3/index.mjs:52-60 | digits read in the first number append to it in decimal |
| MulScanner.FeedDigitsB | _2024/3/index.mjs:72-80 | digits read in the second number append to it in decimal |
| MulScanner.FeedOpen | _2024/3/index.mjs:34-43 | `mul(` moves a fresh scanner to reading the first number |
| MulScanner.MulAdds | _2024/3/index.mjs:33-82 | reading `mul(x,y)` from a fresh scanner adds x·y when enabled and nothing otherwise, and ends fresh |
| MulScanner.Gate | _2024/3/index.mjs:91-96 | a `don't()` at the position disables, else a `do()` enables, else the gate stays; nothing else changes |
| MulScanner.Scanned | _2024/3/index.mjs:90-104 | after any number of positions the scanner is well formed |
| MulScanner.EnabledStep | _2024/3/index.mjs:91-96 | the gate at one more position follows the `do()`/`don't()` starting there |
| MulScanner.ScannedGate | _2024/3/index.mjs:86-96 | the gate after n positions is on exactly when no `don't()` started before n, or a `do()` started after the last one |
| MulScanner.AdvanceM | _2024/3/index.mjs:33-103 | an `m` leaves the scanner in the same state whatever match it interrupts, because a rejected `m` is retried from the reset state |
| MulScanner.FeedMul | _2024/3/index.mjs:33-103 | `mul(x,y)` read from any state, even in the middle of another match, adds x·y when enabled and ends fresh |
| MulScanner.MulTextNoMarkers | _2024/3/index.mjs:91-96 | no `do()` or `don't()` starts inside a `mul(x,y)`, so the gate cannot change while one is read |
| MulScanner.ScannedFeed | _2024/3/index.mjs:90-104 | over a stretch where no marker starts, the main loop is exactly the scanner fed that stretch |
| MulScanner.MulAt | _2024/3/index.mjs:90-104 | wherever `mul(x,y)` occurs in the input, the main loop adds x·y over it when the gate is on, adds nothing when it is off, and ends fresh |
| MulScanner.MulAtEnabled | _2024/3/index.mjs:86-104 | the same with the gate read from the text: x·y is added exactly when no `don't()` before the `mul` is left unanswered by a later `do()` |
| MulScanner.ScannedMul | _2024/3/index.mjs:84-105 | the input `mul(x,y)` alone makes the program print x·y |
| MulScanner.Run | _2024/3/index.mjs:84-106 | the printed sum is the sum the main loop reaches after the whole input; MulAt, MulAtEnabled and ScannedMul say what that loop adds for each `mul(x,y)` |
| Calibration.Concatenate | _2024/7/index.mjs:37 | `Number(String(a) + String(b))` is a shifted left by the digits of b, plus b |
| Calibration.DigitOfOp | _2024/7/index.mjs:26-38 | every operator has a base-3 digit below 3 that selects it |
| Calibration.Pow3 | _2024/7/index.mjs:16 | `Math.pow(3, n)` is at least 1 |
| Calibration.OpsOf | _2024/7/index.mjs:24-28 | a counter chooses one operator per gap |
| Calibration.ComboOf | _2024/7/index.mjs:16-19 | every operator sequence has a counter below 3^n |
| Calibration.OpsOfComboOf | _2024/7/index.mjs:19-28 | the counter of an operator sequence decodes back to that sequence, so the search meets every choice |
| Calibration.EvalLoopOps | _2024/7/index.mjs:21-39 | the inner loop from position i evaluates, left to right, exactly the operators the counter encodes |
| Calibration.EvalCombo | _2024/7/index.mjs:20-39 | the result of one counter value; `Calibration.EvalComboSpec` states it is the left-to-right value under the operators the counter encodes |
| Calibration.EvalComboSpec | _2024/7/index.mjs:19-39 | the result for a counter is the left-to-right value under the operators it encodes |
| Calibration.Solvable | _2024/7/index.mjs:18-47 | some operator choice makes the numbers evaluate to the target; `Calibration.Search` states that the loops decide it |
| Calibration.Search | _2024/7/index.mjs:18-47 | `found` is set exactly when some operator choice makes the numbers evaluate to the target |
| Calibration.TotalCalibration | _2024/7/index.mjs:9-52 | the total adds the target of each solvable line once |
| Calibration.SingleNumber | _2024/7/index.mjs:15-21 | a line with one number evaluates to that number whatever the counter |
| Calibration.Examples | _2024/7/index.mjs:29-38 | `10 19` multiply to 190 under counter 1; `15 6` concatenate to 156 |
| Calibration.ParseNumbers | _2024/7/index.mjs:12 | one number per piece |
| Calibration.ParseLine | _2024/7/index.mjs:10-12 | a line that reads has at least one number |
| Calibration.ParseLineText | _2024/7/index.mjs:10-12 | `t: x` reads back as target t with the one number x |
| PageOrder.ParseRuleText | _2024/5/index.mjs:16 | a rule written as X, a vertical bar and Y reads back as itself |
| PageOrder.ParseRules | _2024/5/index.mjs:14-21 | the rules read exactly when every line reads, one rule per line in order |
| PageOrder.ParseUpdates | _2024/5/index.mjs:22-24 | the updates read exactly when every line reads, one update per line in order |
| PageOrder.Befores | _2024/5/index.mjs:17-21 | the pages listed for y are exactly the `before` sides of the rules with `after` y |
| PageOrder.Conditions | _2024/5/index.mjs:14-21 | `conditions` has a key exactly for pages that some rule puts after another, holding that page's befores |
| PageOrder.Find | _2024/5/index.mjs:49 | `indexOf`: -1 exactly when absent, otherwise the first position of the page |
| PageOrder.BeforesOk | _2024/5/index.mjs:48-53 | the inner loop passes exactly when no listed before has a larger index than the page |
| PageOrder.GoodFrom | _2024/5/index.mjs:45-56 | the page loop passes exactly when every page from k on passes its befores |
| PageOrder.IsGood | _2024/5/index.mjs:43-56 | `isUpdateGood`; `PageOrder.IsGoodSpec` states when it holds |
| PageOrder.IsGoodSpec | _2024/5/index.mjs:43-56 | an update is good exactly when every rule whose later page is present has its earlier page at no larger index, an absent earlier page counting as index -1 |
| PageOrder.BadIsNonEmpty | _2024/5/index.mjs:58-62 | a bad update has at least one page, so its middle exists |
| PageOrder.Compare | _2024/5/index.mjs:30-40 | `comparePages(a, b)`; `PageOrder.CompareSpec` states its value in terms of the rules |
| PageOrder.CompareSpec | _2024/5/index.mjs:30-40 | the comparator returns -1 when a rule puts a first, else 1 when one puts b first, else 0 |
| PageOrder.Fixed | _2024/5/index.mjs:60 | the fixed update is a permutation of the update |
| PageOrder.FixedIsGood | _2024/5/index.mjs:58-62 | when the rules' precedence is a strict order on the update's pages, the fixed update breaks no rule |
| PageOrder.FixedIsTheStableSort | _2024/5/index.mjs:60 | when the rules' precedence is a strict weak order on the update's pages, the fixed update is the one a stable sort with `comparePages` must return |
| PageOrder.Middle | _2024/5/index.mjs:62 | `fixedUpdate[Math.floor(fixedUpdate.length / 2)]`; it is what `PageOrder.Answer` adds for each bad update |
| PageOrder.Answer | _2024/5/index.mjs:42-65 | the sum adds the middle page of every bad update after fixing it; it is the program's sum when the rules are a strict weak order on each bad update's pages (`PageOrder.FixedIsTheStableSort`) |
| PageOrder.Example | _2024/5/index.mjs:43-56 | `53,47,97` breaks the rule that 47 comes before 53 |
| PageOrder.OneThreeTies | _2024/5/index.mjs:30-40 | with the single rule putting 1 before 3, page 1 comes before 3 and page 2 is tied with each |
| PageOrder.OneThreeBad | _2024/5/index.mjs:43-56 | with the single rule putting 1 before 3, the update `3,2,1` is bad |
| PageOrder.OneThreeNotWeak | _2024/5/index.mjs:30-40 | the single rule putting 1 before 3 is not a strict weak order on the pages 1, 2, 3 |
| PageOrder.SortThreeTwoOne | _2024/5/index.mjs:60 | any order putting 1 before 3, and not 2 before 3, sorts `3,2,1` to `1,3,2` |
| PageOrder.OneThreeFixed | _2024/5/index.mjs:60-62 | under the single rule putting 1 before 3 the model fixes `3,2,1` to `1,3,2` and adds 3 |
| PageOrder.NoStableSortExample | _2024/5/index.mjs:60 | under the single rule putting 1 before 3 no sorted arrangement of `3,2,1` keeps its tied pages in update order, so the language does not fix the engine's result |
| Circuits.ParsePosText | 8/index.mjs:5 | a line written `x,y,z` reads back as that position |
| Circuits.EmptyLineUnread | 8/index.mjs:5 | the empty last line a final newline leaves is not read as a position (the source reads it as `[0]`) |
| Circuits.Dist | 8/index.mjs:19 | the squared distance is never negative and is 0 exactly for equal positions |
| Circuits.DistSymmetric | 8/index.mjs:19 | the distance from a to b is the distance from b to a |
| Circuits.Row | 8/index.mjs:14-20 | the inner loop lists, in increasing k, exactly the pairs (i, k) for k from its start, each with its distance |
| Circuits.PairsFrom | 8/index.mjs:12-27 | the double loop lists, in row-major order, exactly the pairs i < k with their distances |
| Circuits.CloserIsStrictOrder | 8/index.mjs:29 | ordering pairs by distance is a strict order |
| Circuits.Links | 8/index.mjs:29 | `dists` after sorting: a permutation of all pairs in non-decreasing distance |
| Circuits.LinksComplete | 8/index.mjs:12-29 | every pair i < k appears in the sorted list |
| Circuits.LinksStable | 8/index.mjs:12-29 | the sort is stable: links at the same distance keep the order the loops pushed them into `dists` |
| Circuits.Singletons | 8/index.mjs:6 | each box starts in a circuit of its own, and these circuits partition the boxes |
| Circuits.OneHome | 8/index.mjs:52-57 | in disjoint circuits a box has one home |
| Circuits.Owner | 8/index.mjs:56-57 | `cirquits.find(c => c.includes(v))`: the first circuit holding v, or none when no circuit does |
| Circuits.Splice | 8/index.mjs:58 | removing circuit ck leaves one circuit fewer |
| Circuits.SpliceEntry | 8/index.mjs:58-59 | after the splice each position holds its old circuit, except the one of c_i, which gains c_k's boxes |
| Circuits.Join | 8/index.mjs:51-60 | wiring two boxes of one circuit changes nothing; otherwise there is one circuit fewer |
| Circuits.JoinEntry | 8/index.mjs:51-60 | the boxes lie in different circuits, and each circuit after the merge is its old self or c_i followed by c_k |
| Circuits.JoinMembers | 8/index.mjs:51-60 | a box is in a merged circuit exactly when it was in the corresponding old one, or in c_k for the circuit of c_i |
| Circuits.JoinPartition | 8/index.mjs:51-60 | wiring keeps the circuits a partition of the boxes |
| Circuits.JoinKeepsSame | 8/index.mjs:51-60 | after wiring the two boxes share a circuit, and boxes that shared one still do |
| Circuits.AllSameIsOne | 8/index.mjs:67 | when every box shares a circuit with box 0 there is exactly one circuit |
| Circuits.JoinAll | 8/index.mjs:67-73 | wiring a list of pairs keeps a partition |
| Circuits.JoinAllSame | 8/index.mjs:67-73 | every wired pair ends up in one circuit |
| Circuits.WiredStep | 8/index.mjs:69-72 | the circuits after p + 1 pairs are those after p pairs with the next pair wired |
| Circuits.WiredAll | 8/index.mjs:67-73 | after all pairs a non-empty set of boxes is one circuit, so the loop ends before running out of pairs |
| Circuits.WiredZero | 8/index.mjs:6 | before any pair is wired there is one circuit per box |
| Circuits.MergeDone | 8/index.mjs:67-73 | when the loop stops, one circuit is left, every earlier count had more, and the last pair used made the final merge |
| Circuits.MergeUntilOne | 8/index.mjs:65-73 | the loop wires the fewest pairs that leave one circuit, and `last` is the pair that merged the final two |
| Circuits.Answer | 8/index.mjs:77-79 | with fewer than two boxes there is no last pair; otherwise the answer multiplies the x coordinates of the pair that made the final merge |
| PathCount.ParseLine | 11/index.mjs:7-8 | a line reads exactly when it has a colon, and lists at least one next node |
| PathCount.ColonSplits | 11/index.mjs:7 | splitting on `:` gives two pieces or more exactly when the line has a colon |
| PathCount.ParseFormat | 11/index.mjs:6-9 | a line written `from: a b c` with plain names reads back as that node and list |
| PathCount.Build | 11/index.mjs:6-10 | the graph has a key for each node named on a line, holding the list of the last such line |
| PathCount.ParseGraph | 11/index.mjs:6-10 | the graph reads exactly when every line has a colon |
| PathCount.Enter | 11/index.mjs:25-28 | entering `dac` or `fft` sets its flag; the other flags and the node are kept |
| PathCount.EnterTwice | 11/index.mjs:25-28 | entering never clears a flag, and entering the same node again changes nothing |
| PathCount.States | 11/index.mjs:28 | the possible keys are the nodes with a list, with each pair of flags |
| PathCount.FindPaths | 11/index.mjs:23-50 | the memo only grows, stored counts keep their values, nothing on the stack is memoised, and a state that is expanded is memoised with the count returned |
| PathCount.FindAll | 11/index.mjs:41-45 | the loop over the next nodes keeps the memo tidy and only adds to its count |
| PathCount.FindPathsGuards | 11/index.mjs:31-39 | a state on the stack counts 0, a memoised one its stored count, `out` 1 exactly when both flags are set, a node without a list 0 |
| PathCount.FindPathsCount | 11/index.mjs:23-50 | on an acyclic graph the memoised search returns the number of paths to `out` through both `dac` and `fft`, and leaves a memo of true counts |
| PathCount.FindAllCount | 11/index.mjs:41-45 | the loop adds, for each remaining next node, the number of paths from it |
| PathCount.AnswerCount | 11/index.mjs:52 | on an acyclic graph the printed number is the count of paths from `svr` to `out` visiting both `dac` and `fft` |
| PathCount.Answer | 11/index.mjs:52 | `findPathes('svr', 0, 0)` on an empty memo; `PathCount.AnswerCount` states what it counts |
| PaperRolls.ReadRow | 4/index.mjs:7 | a cell holds a roll exactly when its character is `@` |
| PaperRolls.ReadGrid | 4/index.mjs:5-8 | one row per line, each read cell by cell |
| PaperRolls.IsFree | 4/index.mjs:10-15 | a position is taken exactly when it lies inside the grid and holds a roll; row -1, column -1 and anything past the edge are free |
| PaperRolls.Taken | 4/index.mjs:21-30 | the count of taken neighbours is at most 8 |
| PaperRolls.MarksRow | 4/index.mjs:20-36 | the column loop marks exactly the cells of the row, before its bound, that are marked |
| PaperRolls.MarksRows | 4/index.mjs:19-38 | `toFree` holds exactly the marked cells of the rows scanned so far: a roll, column below the number of rows, fewer than four taken neighbours |
| PaperRolls.Marks | 4/index.mjs:18-38 | `toFree` after both loops; `PaperRolls.MarksRows` states which cells it holds and `PaperRolls.CollectMarks` that the loops build it |
| PaperRolls.PassGrid | 4/index.mjs:17-41 | after a pass a cell holds a roll exactly when it did and was not marked; the shape is kept |
| PaperRolls.Clear | 4/index.mjs:39-41 | clearing a list of cells removes exactly those rolls and keeps the shape |
| PaperRolls.CollectMarks | 4/index.mjs:19-38 | the scanning loops build exactly the marks, in scan order |
| PaperRolls.ClearAll | 4/index.mjs:39-41 | the clearing loop does what Clear describes |
| PaperRolls.ClearMarks | 4/index.mjs:17-41 | clearing the marks found by the scan gives the grid after the pass |
| PaperRolls.OnePass | 4/index.mjs:17-45 | `onePass` leaves the grid after the pass and returns the number of marks |
| PaperRolls.RowBalance | 4/index.mjs:39-43 | in one row, the rolls left plus the rolls marked are the rolls before |
| PaperRolls.GridBalance | 4/index.mjs:39-43 | over the first n rows, the rolls left plus the rolls marked are the rolls before |
| PaperRolls.PassBalance | 4/index.mjs:39-44 | a pass removes exactly as many rolls as it reports |
| PaperRolls.NoMarksStable | 4/index.mjs:46 | a pass that marks nothing leaves the grid unchanged |
| PaperRolls.Settle | 4/index.mjs:46 | `while (onePass());` as a definition: passes repeat while one marks a roll, and the grid reached has nothing to mark |
| PaperRolls.RemoveAll | 4/index.mjs:16-48 | the passes end on the grid the passes settle on, and `count` is the rolls at the start minus the rolls left there; that grid has nothing to mark and only rolls of the start |
| PaperRolls.OctagonSettles | 4/index.mjs:46-48 | the 4×4 grid `.@@./@@@@/@@@@/.@@.`, where every roll has at least four neighbours, settles at once and removes nothing |
| XMas.At | _2024/4/index.mjs:43 | a cell reads exactly when the row exists and the column lies inside it |
| XMas.CheckPair | _2024/4/index.mjs:35-52 | `checkPair`; `XMas.FindNextLetterSpec` states what a centre needs from its two pairs |
| XMas.FindNextLetter | _2024/4/index.mjs:28-62 | the test returns 0 or 1 |
| XMas.FindNextLetterSpec | _2024/4/index.mjs:28-62 | the test gives 1 exactly when the cell is an `A` whose two diagonals each read `MAS` one way or the other, and 0 otherwise |
| XMas.CountWords | _2024/4/index.mjs:64-77 | `words` is the number of cells that centre an X-MAS |
| XMas.NoCentreOnBorder | _2024/4/index.mjs:43 | a cell in the first row, the first column or the last row never counts |
| XMas.Example | _2024/4/index.mjs:50-55 | `M.S/.A./M.S` counts; `M.M/.A./M.S` does not |
| GuardWalk.TurnRight | _2024/6/indes.mjs:174-179 | a right turn rotates the step (dx, dy) to (dy, -dx) and always changes the direction |
| GuardWalk.TurnFour | _2024/6/indes.mjs:174-179 | four right turns face the original way, and two or three never do |
| GuardWalk.ReadLines | _2024/6/indes.mjs:129 | every line kept is non-empty and free of carriage returns |
| GuardWalk.NonEmpty | _2024/6/indes.mjs:129 | `filter(line => line.length > 0)`: a line is kept exactly when it is an input line and non-empty, and nothing is added |
| GuardWalk.ReadMap | _2024/6/indes.mjs:134-164 | one row per line, one cell per character, and a cell is an obstacle exactly when its character is `#` |
| GuardWalk.GlyphInRow | _2024/6/indes.mjs:136-162 | the last guard glyph of the row before k, with its direction, and none after it; none when the row has none |
| GuardWalk.GlyphIn | _2024/6/indes.mjs:134-164 | the start is the last guard glyph in reading order; without one the default start stays |
| GuardWalk.StartIsLand | _2024/6/indes.mjs:140-159 | the cell under the guard glyph is land |
| GuardWalk.StepFrom | _2024/6/indes.mjs:187-207 | one loop turn leaves exactly when the next cell is outside row 0's width or the rows; turns right when it is blocked; otherwise moves onto a free cell inside |
| GuardWalk.NextMove | _2024/6/indes.mjs:187-207 | the next move lands inside the map |
| GuardWalk.After | _2024/6/indes.mjs:187-207 | after one or more moves the guard stands inside the map |
| GuardWalk.AfterTurn | _2024/6/indes.mjs:201-202 | a turn in place does not use up a move |
| GuardWalk.AfterMove | _2024/6/indes.mjs:203-206 | a move uses up one move and clears the turn count |
| GuardWalk.AfterExit | _2024/6/indes.mjs:194-196 | a guard facing the edge is gone after its next move |
| GuardWalk.Walk | _2024/6/indes.mjs:181-208 | the recorded cells include the start and the last cell, and every other one lies inside the map |
| GuardWalk.WalkMoreFuel | _2024/6/indes.mjs:187 | once the walk finishes, more fuel does not change it |
| GuardWalk.TrackExit | _2024/6/indes.mjs:194-196 | a walk that leaves at once has visited only its start |
| GuardWalk.TrackTurn | _2024/6/indes.mjs:201-202 | turning in place keeps the track of the rest of the walk |
| GuardWalk.TrackMove | _2024/6/indes.mjs:203-206 | moving adds the cell left to the track of the rest of the walk |
| GuardWalk.WalkTrack | _2024/6/indes.mjs:181-210 | part 1's set holds exactly the cells the guard stands on before leaving, and its last cell is followed by the exit |
| GuardWalk.Part1 | _2024/6/indes.mjs:181-210 | `visitedPositions.size`; `GuardWalk.WalkTrack` states which cells it counts |
| GuardWalk.TrialTrack | _2024/6/indes.mjs:233-259 | a trial loops exactly when the guard is still inside after the full budget of moves, escapes when it leaves first |
| GuardWalk.Trial | _2024/6/indes.mjs:226-259 | the trial walk; `GuardWalk.TrialTrack` states when it loops and `GuardWalk.RunTrial` that the loop computes it |
| GuardWalk.TrialStep | _2024/6/indes.mjs:233-252 | one turn of the trial loop: escape past the edge, turn at an obstacle or the temporary obstacle, or move and count a step |
| GuardWalk.RunTrial | _2024/6/indes.mjs:226-259 | the trial loop's verdict is the trial's outcome, loop exactly when the budget of moves is used up inside the map |
| GuardWalk.PlaceCells | _2024/6/indes.mjs:224 | placing changes exactly the one cell and no other row |
| GuardWalk.PlaceRestore | _2024/6/indes.mjs:223-262 | restoring the original cell gives the original map back |
| GuardWalk.AgreesTrans | _2024/6/indes.mjs:262 | maps that read alike chain: agreement is transitive |
| GuardWalk.RestoreAgrees | _2024/6/indes.mjs:223-262 | after placing and restoring, the map reads like the original everywhere |
| GuardWalk.PlaceAgrees | _2024/6/indes.mjs:224 | placing the same cell in maps that read alike keeps them alike |
| GuardWalk.TrialAgrees | _2024/6/indes.mjs:233-254 | maps that read alike give the same trial |
| GuardWalk.LoopSet | _2024/6/indes.mjs:216-220 | the looping candidates are among the visited cells and never include the start |
| GuardWalk.LoopSetAdd | _2024/6/indes.mjs:256-259 | one more candidate adds one to the loop count exactly when its trial loops |
| GuardWalk.TrialRound | _2024/6/indes.mjs:222-262 | one round's trial is the trial on the original map with the obstacle at p, and the restored map reads like the original |
| GuardWalk.Round | _2024/6/indes.mjs:222-262 | one round returns that trial's outcome and leaves a map reading like the original |
| GuardWalk.TallyStep | _2024/6/indes.mjs:216-259 | each round adds one to `loopCount` exactly for a looping candidate other than the start |
| GuardWalk.Visit | _2024/6/indes.mjs:216-263 | a round stops the count exactly when the guard gets boxed in, else extends the tally by the cell |
| GuardWalk.Tour | _2024/6/indes.mjs:216-263 | the rounds over all visited cells either meet a boxed-in guard or count every looping candidate |
| GuardWalk.CountLoops | _2024/6/indes.mjs:213-265 | `loopCount` is the number of visited cells other than the start where a temporary obstacle makes the guard loop; none when some trial boxes the guard in |
| GuardWalk.Solve | _2024/6/indes.mjs:127-265 | part 1 is the number of cells the walk stands on; part 2 counts the looping candidates among exactly those cells |
| Polygon.ParsePointText | 9/index.mjs:80 | a line written `x,y` reads back as that corner |
| Polygon.ParsePoly | 9/index.mjs:80 | the corners read exactly when every line reads, one corner per line in order |
| Polygon.TrailingNewlineUnread | 9/index.mjs:80 | lines ending with the empty line a final newline leaves do not read as corners |
| Polygon.Min | 9/index.mjs:12-13 | `Math.min`: one of its arguments and no larger than either |
| Polygon.Max | 9/index.mjs:12-13 | `Math.max`: one of its arguments and no smaller than either |
| Polygon.Prev | 9/index.mjs:7 | `j` of the loop is a corner index |
| Polygon.PrevWraps | 9/index.mjs:7 | `j` is the corner just before `i`, wrapping from the first to the last |
| Polygon.OnFromSpec | 9/index.mjs:12-13 | the edge test fires from edge i on exactly when the point lies on some later edge |
| Polygon.RaySpec | 9/index.mjs:7-20 | the loop from edge i returns true exactly when the point lies on a remaining edge or the flag, flipped once per remaining crossing, ends true |
| Polygon.PointIn | 9/index.mjs:4-21 | `pointInPolygon`; `Polygon.PointInSpec` states when it holds |
| Polygon.PointInSpec | 9/index.mjs:4-21 | a point is in the polygon exactly when it lies on the boundary or the ray to the right crosses an odd number of edges |
| Polygon.CornerInside | 9/index.mjs:4-21 | in a polygon with only horizontal and vertical edges every corner counts as inside |
| Polygon.NoCutH | 9/index.mjs:30-39 | the edge loop passes exactly when no vertical edge strictly between x1 and x2 strictly spans y |
| Polygon.NoCutV | 9/index.mjs:48-57 | the edge loop passes exactly when no horizontal edge strictly between y1 and y2 strictly spans x |
| Polygon.HSegmentInside | 9/index.mjs:24-41 | `hSegmentInside`: both ends in and no vertical edge cutting across, as `Polygon.NoCutH` states |
| Polygon.VSegmentInside | 9/index.mjs:44-59 | `vSegmentInside`; `Polygon.CutsTranspose` states it is the horizontal test on the transposed polygon |
| Polygon.Transpose | 9/index.mjs:44-59 | transposing swaps the coordinates of every corner |
| Polygon.CutsTranspose | 9/index.mjs:44-59 | the vertical-segment test is the horizontal one on the transposed polygon |
| Polygon.RectInside | 9/index.mjs:62-76 | a rectangle that passes has all four corners in the polygon |
| Polygon.RectInsideSides | 9/index.mjs:62-76 | a rectangle passes exactly when its four sides pass the segment tests |
| Polygon.Bounds | 9/index.mjs:89-92 | the bounding rectangle has x1 ≤ x2 and y1 ≤ y2 |
| Polygon.BoundsCorners | 9/index.mjs:89-92 | its x bounds are the two corners' x values, and its y bounds their y values |
| Polygon.Area | 9/index.mjs:95 | a rectangle counts its tiles inclusively, at least 1 |
| Polygon.ScanRow | 9/index.mjs:88-102 | the inner loop keeps the largest area of any inside rectangle with corner i, realised by the pair it keeps, and every pair visited before that one is smaller |
| Polygon.MaxArea | 9/index.mjs:83-105 | `maxArea` is the largest area over all pairs whose rectangle is inside, and `bestRect` is the first pair in loop order that reaches it (the test is a strict `>`); none and 0 when no pair qualifies |
| ButtonLine.CharIndex | 10/index.mjs:15 | the first position at or after `from` holding c, or -1 when there is none |
| ButtonLine.Groups | 10/index.mjs:15 | the matches of `/\(([^)]+)\)/g`: each inner text is non-empty and free of the closing bracket; no opening bracket, no match |
| ButtonLine.GroupsOfGroup | 10/index.mjs:15 | a bracketed group at the front is the first match, and matching resumes after it |
| ButtonLine.GroupsSkip | 10/index.mjs:15 | text without an opening bracket adds no match |
| ButtonLine.Numbers | 10/index.mjs:19 | one `parseInt` result per comma-separated piece |
| ButtonLine.ParseLine | 10/index.mjs:13-28 | one button per parenthesised group; no `(` means no buttons and no `{` means no joltage |
| ButtonLine.NumbersText | 10/index.mjs:19 | numbers written with commas contain no bracket or brace |
| ButtonLine.ButtonsText | 10/index.mjs:15 | written buttons contain no brace |
| ButtonLine.Read | 10/index.mjs:19 | what `parseInt` yields for each written number: the number itself |
| ButtonLine.NumbersRoundTrip | 10/index.mjs:19 | numbers written with commas read back as themselves |
| ButtonLine.ButtonsGroups | 10/index.mjs:15-20 | the written buttons come back as the bracketed groups, in order |
| ButtonLine.FormatButtons | 10/index.mjs:15-20 | a whole written machine yields exactly its buttons' texts as parenthesised groups |
| ButtonLine.FormatJoltage | 10/index.mjs:23-25 | a whole written machine yields exactly its joltage text as the brace group |
| ButtonLine.ParseFormat | 10/index.mjs:13-28 | a machine written out as a line parses back to the same buttons and joltage |
| ButtonLine.Outcome | 10/index.mjs:41-46 | a negative press count reports no solution; any other count is reported as it is |
| ButtonLine.Outcomes | 10/index.mjs:37-47 | one report per line, in order |
| ButtonLine.TallyOutcomes | 10/index.mjs:41-46 | adding up the reported counts gives the sum over the solved lines |
| ButtonLine.SolvedSum | 10/index.mjs:41-46 | the total is never negative, and 0 when no line has a solution |
| ButtonLine.SolvedSumAppend | 10/index.mjs:37-47 | the total over two runs of lines is the sum of their totals |
| ButtonLine.ReportStep | 10/index.mjs:37-47 | one more line adds one report and, when solved, its count to the total |
| ButtonLine.Results | 10/index.mjs:37-39 | the press count of each line is the solver's answer for that line's machine |
| ButtonLine.Report | 10/index.mjs:31-50 | the loop reports one outcome per line, and `totalSum` is the sum of the non-negative press counts |
| Shapes.BeforeTotal | 12/index.mjs:65 | the comparator of `normalize` (row first, then column) is a strict total order on cells |
| Shapes.RowCells | 12/index.mjs:50-54 | the cells of one pattern row are exactly its `#` positions, in column order |
| Shapes.ParseShape | 12/index.mjs:47-57 | a cell is in the shape exactly when the pattern has `#` there; cells come row by row, left to right |
| Shapes.TurnFour | 12/index.mjs:70-72 | four quarter turns give the shape back |
| Shapes.FlipTwice | 12/index.mjs:75-77 | mirroring twice gives the shape back |
| Shapes.FlipRotate | 12/index.mjs:70-77 | mirroring after a quarter turn equals three quarter turns after mirroring |
| Shapes.TurnsAdd | 12/index.mjs:70-72 | `b` quarter turns after `a` quarter turns are `a + b` quarter turns |
| Shapes.TurnsMod | 12/index.mjs:70-72 | only the number of quarter turns modulo four matters |
| Shapes.ShiftShift | 12/index.mjs:64 | two translations compose into one by the summed offsets |
| Shapes.RotateShift | 12/index.mjs:70-72 | turning a moved shape equals moving the turned shape by the turned offset |
| Shapes.FlipShift | 12/index.mjs:75-77 | mirroring a moved shape equals moving the mirrored shape by the mirrored offset |
| Shapes.TurnsShift | 12/index.mjs:70-72 | any number of turns of a moved shape is the turned shape, moved |
| Shapes.LowX | 12/index.mjs:62 | the position of a cell with the smallest column |
| Shapes.LowY | 12/index.mjs:63 | the position of a cell with the smallest row |
| Shapes.ToOrigin | 12/index.mjs:62-64 | moving by minus the minima leaves every cell at non-negative coordinates with some cell in column 0 and some in row 0 |
| Shapes.AtOriginPerm | 12/index.mjs:65 | reordering the cells keeps them at the origin |
| Shapes.Normalize | 12/index.mjs:60-67 | the same number of cells; for a non-empty shape, the same cells as the shape moved by minus its minima |
| Shapes.NormalizeSorted | 12/index.mjs:65 | the normalised cells are sorted row first, then column |
| Shapes.NormalizeOrigin | 12/index.mjs:60-66 | a normalised non-empty shape touches column 0 and row 0 and has no negative coordinate |
| Shapes.OriginMin | 12/index.mjs:62-63 | a shape at the origin has both minima 0 |
| Shapes.ShiftZero | 12/index.mjs:64 | moving by zero changes nothing |
| Shapes.NormalizeIdempotent | 12/index.mjs:60-67 | normalising twice is normalising once |
| Shapes.ShiftMin | 12/index.mjs:62-64 | moving a shape moves its minima by the same offset |
| Shapes.NormalizeShift | 12/index.mjs:60-67 | a moved shape normalises to the same key as the shape itself |
| Shapes.Candidates | 12/index.mjs:84-95 | the eight normalised shapes the two loops visit |
| Shapes.Dedup | 12/index.mjs:87-92 | the first occurrence of each candidate, never more than there were |
| Shapes.DedupKeeps | 12/index.mjs:81-92 | the kept shapes are exactly the candidates, without repeats, and the first candidate is kept first |
| Shapes.DedupStep | 12/index.mjs:88-92 | one more candidate is appended exactly when its key is not yet in `seen` |
| Shapes.CandidateAt | 12/index.mjs:85-95 | candidate `k` is the normalised `k`-th raw orientation |
| Shapes.RawAt | 12/index.mjs:84-95 | the raw orientation at `4f + r` is `r` quarter turns of the shape, mirrored when `f` is 1 |
| Shapes.Orientations | 12/index.mjs:80-99 | a shape is among the orientations exactly when it is among the eight candidates |
| Shapes.OrientationsShape | 12/index.mjs:80-99 | between one and eight orientations, the normalised shape first, no two equal, each normalised and of the shape's size |
| Shapes.TurnNormsAt | 12/index.mjs:84-95 | each pass of the outer loop visits four successive quarter turns of the shape or of its mirror |
| Shapes.KeepOne | 12/index.mjs:87-92 | one step of the inner loop keeps `orientations` equal to the deduplicated candidates so far and `seen` equal to their keys |
| Shapes.KeepTurns | 12/index.mjs:86-94 | the inner loop over four turns extends the deduplicated candidates by four |
| Shapes.AllOrientations | 12/index.mjs:80-99 | `getAllOrientations` returns exactly `Orientations` of its shape |
| Shapes.RawRotate | 12/index.mjs:70-95 | the raw orientations of a turned shape are those of the shape, renumbered |
| Shapes.OrientationsRotate | 12/index.mjs:80-99 | a turned shape has the same set of orientations |
| Shapes.RawFlip | 12/index.mjs:75-95 | the raw orientations of a mirrored shape are those of the shape, renumbered |
| Shapes.OrientationsFlip | 12/index.mjs:80-99 | a mirrored shape has the same set of orientations |
| Shapes.OrientationsShift | 12/index.mjs:80-99 | a moved shape has exactly the same orientations, in the same order |
| Packing.EmptyGrid | 12/index.mjs:185 | `h` rows of `w` empty squares |
| Packing.CanPlace | 12/index.mjs:102-110 | yes exactly when every moved cell lies within the first row's width and the grid's height, on an empty square |
| Packing.Paint | 12/index.mjs:113-124 | same dimensions; a square changes to `v` exactly when it is a moved cell of the shape |
| Packing.Place | 12/index.mjs:113-117 | `placeShape`; `Packing.Paint` states which squares change and `Packing.PlaceRemove` that removal undoes it |
| Packing.Remove | 12/index.mjs:120-124 | `removeShape`; `Packing.PlaceRemove` states that it undoes a placement that fitted |
| Packing.CanPlaceInside | 12/index.mjs:102-110 | a shape that can be placed lies inside the grid |
| Packing.PlaceRemove | 12/index.mjs:113-124 | removing a shape just placed where it fitted restores the grid |
| Packing.Total | 12/index.mjs:138 | the sum is 0 exactly when every count is 0 |
| Packing.TotalUpdate | 12/index.mjs:162 | changing one count changes the sum by the difference |
| Packing.FirstType | 12/index.mjs:149-153 | the first type from `i` on with copies left and orientations; no earlier type qualifies |
| Packing.SucceededCons | 12/index.mjs:159-166 | a fitting placement followed by a successful search is a successful search |
| Packing.Solve | 12/index.mjs:137-180 | done when nothing is left; on failure grid and counts are as they were; on success every requested copy is placed once, in one of its orientations, without overlap, counts all zero, and the first placement uses the first type with copies left |
| Packing.TryAll | 12/index.mjs:149-179 | the orientation, row and column loops for one type: failure leaves grid and counts unchanged, success is a full packing starting with that type |
| Packing.TryAt | 12/index.mjs:159-171 | place, recurse, and on failure undo: the grid and counts come back exactly as they were |
| Packing.OrientationTable | 12/index.mjs:188-193 | orientations exist exactly for the types with copies requested and a shape given, and are `getAllOrientations` of that shape |
| Packing.CanFitSound | 12/index.mjs:183-209 | a yes is backed by a packing: each requested copy placed once, in an orientation of its shape, inside the area, without overlap |
| Packing.CanFit | 12/index.mjs:183-209 | `canFitShapes`; `Packing.CanFitCases` and `Packing.CanFitSound` state its answers |
| Packing.CellsNone | 12/index.mjs:196-201 | with no copy requested the covered squares total 0 |
| Packing.CanFitCases | 12/index.mjs:195-208 | too many squares is a no and a yes never exceeds the area; nothing requested is a yes; the error happens exactly for an area without rows with copies still requested |

## Left out

- Reading `task.txt` and printing with `console.log`: the model takes the file's text or lines as parameters and returns the answer instead of printing it. Five answer members start from values that are already parsed, with the parsing modelled as its own member: `Circuits.Answer` takes the positions (`Circuits.ParsePos`), `Polygon.MaxArea` the corners (`Polygon.ParsePoly`), `Similarity.Score` the two lists (`Similarity.ParseLine`), `Reports.CountSafe` the rows (`Reports.ParseRow`) and `Calibration.TotalCalibration` the equations (`Calibration.ParseLine`).
- A file ending in a newline, in days 8 and 9: 8/index.mjs:5 and 9/index.mjs:80 split the text on `\n` and keep every piece, so a final newline adds a last line `""`. `"".split(',').map(Number)` is `[0]`, a box or corner whose other coordinates are `undefined`. `Circuits.ParsePos` and `Polygon.ParsePoint` read that line as None (`Circuits.EmptyLineUnread`, `Polygon.TrailingNewlineUnread`), so such files are outside the model. In day 8 every distance to that box is NaN, which makes the comparator at 8/index.mjs:29 inconsistent, so the engine's order of the pairs and with it the final merge and the answer can differ from any the model computes. In day 9 every area with that corner is NaN and never beats `maxArea`, but the corner still takes part in the edge tests of `pointInPolygon`, which the model's integer corners cannot express.
- The minimum-press solver called at 10/index.mjs:39 is not part of this model. It is defined in no source file, so `ButtonLine.Report` takes it as a parameter.
- JavaScript numbers: the model reads and writes only optionally signed decimal integers, with surrounding white space trimmed. Hexadecimal, exponent and fraction syntax, `Infinity`, the 2^53 limit of exact integers and the exponent form `String(n)` takes for huge values are not modelled. All arithmetic is on unbounded integers.
- NaN: where a piece of a line is not a number, the parsing functions return None instead of carrying NaN into the arithmetic as the source does.
- Lines on which the source throws a `TypeError` are modelled as None. These are a calibration line without `:` (_2024/7), a device line without `:` (11), fewer than two junction boxes (8) and an empty map in part 2 (_2024/6).
- `parseInput` of 12/index.mjs (its regular expressions and its `shapes` and `areas` records) and its main loop over the areas: the model starts from the shape table and the counts of one area. Counts are natural numbers; a count that `Number` reads as NaN or negative is not modelled.
- `findFirstEmpty` of 12/index.mjs is never called and is not modelled.
- Packing.Solve: only soundness is stated, meaning a success is a real packing. Completeness, meaning a failure proves no packing exists, is not claimed. The search tries only the first type with copies left, and completeness would need an argument about that `break`.
- Packing.CanFitSound: states the yes direction only, for the reason given for `Packing.Solve`.
- GuardWalk.Walk: the part 1 walk of _2024/6/indes.mjs is a `while (true)` loop. It is modelled with a fuel bound and yields None when the fuel runs out. A guard boxed in on all four sides turns forever in the source; the model yields None after four turns in a row. The part 2 trials need no fuel because the source bounds them by `totalCells` steps; a trial that boxes the guard in yields `Stuck`.
- GuardWalk.NonEmpty: states which lines are kept, not that their order is preserved.
- PageOrder.Answer: the sum is the program's only when, on each bad update, the rules' precedence is a strict weak order on its pages (no cycle, and pages tied with a common page tied with each other). Section 23.1.3.30 of ECMAScript 2024 leaves the result of `sort` implementation-defined for any other comparator, and an engine may return a different arrangement: for the single rule putting 1 before 3 and the update `3,2,1` the model adds 3, while V8's TimSort sees `3,2,1` as one run in order, keeps it and so adds 2 (`PageOrder.NoStableSortExample`). `PageOrder.FixedIsGood` needs only a strict order on the update's pages.
- Ranges.CountIsDistinctIds: requires every range to have start at most end. The merge of 5/index.mjs never loses an id, and `Ranges.CondenseCovered` and `Ranges.CondenseIsSeparated` hold for every input. But a reversed range (start above end) that no earlier range absorbs stays in `condensed` and adds end − start + 1 ≤ 0 to the sum: the ranges `1-10` and `20-15` cover 10 ids and print 6.
- Joltage.Total: requires every bank to be a line of digits at least as long as the number of digits picked. On a shorter bank the first window's end index at 3/index.mjs:35 is at most 0, so `substring` returns "", `Math.max()` of nothing is `-Infinity`, and `num` and the printed `sum` become `-Infinity`, not an integer. A character other than a digit or white space in the window makes `Math.max` give `NaN`, also not an integer. White space is different: 3/index.mjs:26 drops blank lines but does not trim the lines it keeps, and `Number` reads a blank as 0, so a bank such as `987654321111111 ` (with a trailing space) prints an integer. The model does not cover such banks either: the blank lengthens the line, which shifts the windows, and when a window's maximum 0 comes only from blanks `indexOf` at 3/index.mjs:37 finds no `0` and returns -1, so the next window starts where this one did and the picks are no longer an in-order choice of the bank's digits.
- PaperRolls.MarksRows: the column loop of 4/index.mjs runs up to `map.length`, the number of rows, not the row width. This is modelled as written, so on a grid wider than it is tall the columns past the number of rows are never marked.
- Similarity.ParseLine: its own contract states only the piece count. The round trip is stated by `Similarity.ParseLineText`.
- Ranges.ParseRange: its own contract states only the piece count. The round trip is stated by `Ranges.ParseRangeText`.
- Calibration.ParseLine: its own contract states only that a line that reads has a number; the round trip is stated by `Calibration.ParseLineText`, for one number. The model reads only non-negative numbers, so a line with a negative number is None. The source reads such a line: `+` and `*` treat negatives as usual, so `-6: -2 3` is solvable there, and `||` gives NaN only when its right operand is negative, since `String(-5) + String(3)` is `-53` but `String(5) + String(-3)` is `5-3`.
- Polygon.PointIn: the ray test at 9/index.mjs:16 divides in floating point. `Polygon.Crosses` instead compares exactly, with both sides multiplied by the edge's height, so rounding of that division is not modelled.

=== FILE: button_line.dfy ===
/**
 * 10/index.mjs: each machine line lists button groups `(0,2)` and a joltage
 * target `{3,5,4,7}`. `parseLine` reads them; the reporting loop adds up the
 * minimum press counts of the lines that have a solution. The solver itself
 * is a parameter here.
 */
module ButtonLine {
  import opened Text

  /** A number read by `parseInt`; None stands for NaN. */
  type Num = Option<int>

  datatype Machine = Machine(buttons: seq<seq<Num>>, joltage: seq<Num>)

  // ---------------------------------------------------------------------------
  // Bracketed groups
  // ---------------------------------------------------------------------------

  /** The first index at or after from holding c, or -1. */
  function CharIndex(s: string, c: char, from: nat): (k: int)
    requires from <= |s|
    ensures k == -1 || (from <= k < |s| && s[k] == c)
    ensures forall i :: from <= i < |s| && (k == -1 || i < k) ==> s[i] != c
    decreases |s| - from
  {
    if from == |s| then -1 else if s[from] == c then from else CharIndex(s, c, from + 1)
  }

  /**
   * The inner texts of the matches of `/\(([^)]+)\)/g` (with open and close
   * for the brackets), left to right. A match starts at an opening bracket
   * followed by at least one character before the next closing one; the
   * scan resumes after the closing bracket, or one character on when the
   * bracket opens no match.
   */
  function Groups(s: string, open: char, close: char): (gs: seq<string>)
    ensures forall i :: 0 <= i < |gs| ==> |gs[i]| > 0 && close !in gs[i]
    ensures open !in s ==> gs == []
    decreases |s|
  {
    if |s| == 0 then []
    else if s[0] != open then Groups(s[1..], open, close)
    else
      var e := CharIndex(s, close, 1);
      if e > 1 then
        assert forall i :: 0 <= i < |s[1..e]| ==> s[1..e][i] == s[i + 1];
        [s[1..e]] + Groups(s[e + 1..], open, close)
      else Groups(s[1..], open, close)
  }

  /** A group written out is read back first, and the scan goes on after it. */
  lemma GroupsOfGroup(inner: string, rest: string, open: char, close: char)
    requires |inner| > 0 && close !in inner && open != close
    ensures Groups([open] + inner + [close] + rest, open, close) == [inner] + Groups(rest, open, close)
  {
    var s := [open] + inner + [close] + rest;
    assert forall i :: 1 <= i < |inner| + 1 ==> s[i] == inner[i - 1];
    assert s[|inner| + 1] == close;
    assert CharIndex(s, close, 1) == |inner| + 1;
    assert s[1..|inner| + 1] == inner;
    assert s[|inner| + 2..] == rest;
  }

  /** Text without an opening bracket in front contributes no group. */
  lemma {:induction false} GroupsSkip(pre: string, rest: string, open: char, close: char)
    requires open !in pre
    ensures Groups(pre + rest, open, close) == Groups(rest, open, close)
    decreases |pre|
  {
    if |pre| > 0 {
      assert (pre + rest)[0] == pre[0];
      assert (pre + rest)[1..] == pre[1..] + rest;
      GroupsSkip(pre[1..], rest, open, close);
    } else {
      assert pre + rest == rest;
    }
  }

  // ---------------------------------------------------------------------------
  // parseLine
  // ---------------------------------------------------------------------------

  /** `text.split(',').map(num => parseInt(num.trim()))`. */
  function Numbers(text: string): (ns: seq<Num>)
    ensures |ns| == |Split(text, ",")|
  {
    var parts := Split(text, ",");
    seq(|parts|, i requires 0 <= i < |parts| => ParseInt(Trim(parts[i])))
  }

  /** `parseLine(line)`: every `(…)` group in order, and the first `{…}` group or none. */
  function ParseLine(line: string): (m: Machine)
    ensures |m.buttons| == |Groups(line, '(', ')')|
    ensures '(' !in line ==> m.buttons == []
    ensures '{' !in line ==> m.joltage == []
  {
    var groups := Groups(line, '(', ')');
    var braces := Groups(line, '{', '}');
    Machine(
      seq(|groups|, i requires 0 <= i < |groups| => Numbers(groups[i])),
      if |braces| == 0 then [] else Numbers(braces[0]))
  }

  // ---------------------------------------------------------------------------
  // Writing a machine back as a line
  // ---------------------------------------------------------------------------

  /** The numbers in decimal, joined by commas. */
  function NumbersText(ns: seq<nat>): (t: string)
    requires |ns| > 0
    ensures '(' !in t && ')' !in t && '{' !in t && '}' !in t
  {
    var parts := seq(|ns|, i requires 0 <= i < |ns| => Decimal(ns[i]));
    JoinNoBrackets(parts);
    Join(parts, ",")
  }

  lemma {:induction false} JoinNoBrackets(parts: seq<string>)
    requires |parts| >= 1
    requires forall i :: 0 <= i < |parts| ==> AllDigits(parts[i])
    ensures var t := Join(parts, ","); '(' !in t && ')' !in t && '{' !in t && '}' !in t
    decreases |parts|
  {
    if |parts| > 1 {
      JoinNoBrackets(parts[1..]);
    }
  }

  /** `(a,b) (c) ` for each button in turn. */
  function ButtonsText(buttons: seq<seq<nat>>): (t: string)
    requires forall i :: 0 <= i < |buttons| ==> |buttons[i]| > 0
    ensures '{' !in t
  {
    if |buttons| == 0 then ""
    else "(" + NumbersText(buttons[0]) + ") " + ButtonsText(buttons[1..])
  }

  /** A machine line as the puzzle writes one: buttons, then the joltage target. */
  function Format(buttons: seq<seq<nat>>, joltage: seq<nat>): string
    requires forall i :: 0 <= i < |buttons| ==> |buttons[i]| > 0
    requires |joltage| > 0
  {
    ButtonsText(buttons) + "{" + NumbersText(joltage) + "}"
  }

  /** The numbers as `parseInt` gives them back. */
  function Read(ns: seq<nat>): (r: seq<Num>)
    ensures |r| == |ns| && forall i :: 0 <= i < |ns| ==> r[i] == Some(ns[i] as int)
  {
    seq(|ns|, i requires 0 <= i < |ns| => Some(ns[i] as int))
  }

  /** Reading a numbers text gives back the numbers. */
  lemma NumbersRoundTrip(ns: seq<nat>)
    requires |ns| > 0
    ensures Numbers(NumbersText(ns)) == Read(ns)
  {
    var parts := seq(|ns|, i requires 0 <= i < |ns| => Decimal(ns[i]));
    forall p | p in parts ensures ',' !in p {
      var i :| 0 <= i < |parts| && parts[i] == p;
      DecimalRoundTrip(ns[i]);
    }
    JoinSplit(parts, ',');
    forall i | 0 <= i < |ns| ensures ParseInt(Trim(parts[i])) == Some(ns[i] as int) {
      DecimalRoundTrip(ns[i]);
      TrimNoSpace(parts[i]);
      ParseIntDecimal(ns[i]);
    }
  }

  /** The text of each button's numbers. */
  function ButtonTexts(buttons: seq<seq<nat>>): (ts: seq<string>)
    requires forall i :: 0 <= i < |buttons| ==> |buttons[i]| > 0
    ensures |ts| == |buttons| && forall i :: 0 <= i < |buttons| ==> ts[i] == NumbersText(buttons[i])
  {
    seq(|buttons|, i requires 0 <= i < |buttons| => NumbersText(buttons[i]))
  }

  /** The buttons text opens with the first button's group and a space. */
  lemma ButtonsTextCons(buttons: seq<seq<nat>>, rest: string)
    requires forall i :: 0 <= i < |buttons| ==> |buttons[i]| > 0
    requires |buttons| > 0
    ensures ButtonsText(buttons) + rest
      == ['('] + NumbersText(buttons[0]) + [')'] + (" " + (ButtonsText(buttons[1..]) + rest))
  {
  }

  lemma ButtonTextsCons(buttons: seq<seq<nat>>)
    requires forall i :: 0 <= i < |buttons| ==> |buttons[i]| > 0
    requires |buttons| > 0
    ensures ButtonTexts(buttons) == [NumbersText(buttons[0])] + ButtonTexts(buttons[1..])
  {
  }

  /** The groups of the buttons text are the buttons' numbers texts, whatever follows without a `(`. */
  lemma {:induction false} ButtonsGroups(buttons: seq<seq<nat>>, rest: string)
    requires forall i :: 0 <= i < |buttons| ==> |buttons[i]| > 0
    requires '(' !in rest
    ensures Groups(ButtonsText(buttons) + rest, '(', ')') == ButtonTexts(buttons)
    decreases |buttons|
  {
    if |buttons| > 0 {
      var inner := NumbersText(buttons[0]);
      var after := ButtonsText(buttons[1..]) + rest;
      ButtonsTextCons(buttons, rest);
      calc {
        Groups(ButtonsText(buttons) + rest, '(', ')');
        Groups(['('] + inner + [')'] + (" " + after), '(', ')');
        { GroupsOfGroup(inner, " " + after, '(', ')'); }
        [inner] + Groups(" " + after, '(', ')');
        { GroupsSkip(" ", after, '(', ')'); }
        [inner] + Groups(after, '(', ')');
        { ButtonsGroups(buttons[1..], rest); }
        [inner] + ButtonTexts(buttons[1..]);
      }
      ButtonTextsCons(buttons);
    }
  }

  /** The `(…)` groups of a formatted line are the buttons' texts. */
  lemma FormatButtons(buttons: seq<seq<nat>>, joltage: seq<nat>)
    requires forall i :: 0 <= i < |buttons| ==> |buttons[i]| > 0
    requires |joltage| > 0
    ensures Groups(Format(buttons, joltage), '(', ')') == ButtonTexts(buttons)
  {
    var inner := NumbersText(joltage);
    assert Format(buttons, joltage) == ButtonsText(buttons) + ("{" + inner + "}");
    ButtonsGroups(buttons, "{" + inner + "}");
  }

  /** The first `{…}` group of a formatted line is the joltage text. */
  lemma FormatJoltage(buttons: seq<seq<nat>>, joltage: seq<nat>)
    requires forall i :: 0 <= i < |buttons| ==> |buttons[i]| > 0
    requires |joltage| > 0
    ensures Groups(Format(buttons, joltage), '{', '}') == [NumbersText(joltage)]
  {
    var inner := NumbersText(joltage);
    var braces := ['{'] + inner + ['}'] + "";
    assert Format(buttons, joltage) == ButtonsText(buttons) + braces;
    GroupsSkip(ButtonsText(buttons), braces, '{', '}');
    GroupsOfGroup(inner, "", '{', '}');
  }

  /** `parseLine` reads back every button and the joltage target of a formatted line. */
  lemma ParseFormat(buttons: seq<seq<nat>>, joltage: seq<nat>)
    requires forall i :: 0 <= i < |buttons| ==> |buttons[i]| > 0
    requires |joltage| > 0
    ensures var m := ParseLine(Format(buttons, joltage));
      && |m.buttons| == |buttons|
      && (forall i :: 0 <= i < |buttons| ==> m.buttons[i] == Read(buttons[i]))
      && m.joltage == Read(joltage)
  {
    FormatButtons(buttons, joltage);
    FormatJoltage(buttons, joltage);
    forall i | 0 <= i < |buttons| ensures Numbers(NumbersText(buttons[i])) == Read(buttons[i]) {
      NumbersRoundTrip(buttons[i]);
    }
    NumbersRoundTrip(joltage);
  }

  // ---------------------------------------------------------------------------
  // The reporting loop
  // ---------------------------------------------------------------------------

  /** `input.replace(/\r/g, '').split('\n').filter(l => l.trim())`. */
  function ReadLines(input: string): seq<string> {
    NonBlank(Split(RemoveCR(input), "\n"))
  }

  /** What a line reports: None for "No solution found", else the press count. */
  function Outcome(presses: int): (o: Option<int>)
    ensures o.Some? <==> presses >= 0
    ensures o.Some? ==> o.value == presses
  {
    if presses < 0 then None else Some(presses)
  }

  /** The report of every line. */
  function Outcomes(results: seq<int>): (os: seq<Option<int>>)
    ensures |os| == |results| && forall i :: 0 <= i < |results| ==> os[i] == Outcome(results[i])
  {
    seq(|results|, i requires 0 <= i < |results| => Outcome(results[i]))
  }

  /** The press counts reported, added up. */
  function Tally(shown: seq<Option<int>>): int {
    if |shown| == 0 then 0
    else Tally(shown[..|shown| - 1]) + (match shown[|shown| - 1] case Some(n) => n case None => 0)
  }

  /** The total is the sum of the counts the lines report. */
  lemma {:induction false} TallyOutcomes(results: seq<int>)
    ensures Tally(Outcomes(results)) == SolvedSum(results)
    decreases |results|
  {
    if |results| > 0 {
      var init := results[..|results| - 1];
      assert Outcomes(results)[..|results| - 1] == Outcomes(init);
      TallyOutcomes(init);
    }
  }

  /** `totalSum` over the first lines: the results that are not negative. */
  function SolvedSum(results: seq<int>): (total: int)
    ensures total >= 0
    ensures (forall i :: 0 <= i < |results| ==> results[i] < 0) ==> total == 0
  {
    if |results| == 0 then 0
    else SolvedSum(results[..|results| - 1]) + (if results[|results| - 1] < 0 then 0 else results[|results| - 1])
  }

  /** The total splits over consecutive runs of lines. */
  lemma {:induction false} SolvedSumAppend(a: seq<int>, b: seq<int>)
    ensures SolvedSum(a + b) == SolvedSum(a) + SolvedSum(b)
    decreases |b|
  {
    if |b| > 0 {
      assert (a + b)[..|a + b| - 1] == a + b[..|b| - 1];
      SolvedSumAppend(a, b[..|b| - 1]);
    } else {
      assert a + b == a;
    }
  }

  /** One more line: its report is appended and its count added when it has one. */
  lemma ReportStep(results: seq<int>, i: nat)
    requires i < |results|
    ensures Outcomes(results[..i + 1]) == Outcomes(results[..i]) + [Outcome(results[i])]
    ensures SolvedSum(results[..i + 1]) == SolvedSum(results[..i]) + (if results[i] < 0 then 0 else results[i])
  {
    assert results[..i + 1][..i] == results[..i];
  }

  /** `solve(parseLine(line))` for every line. */
  function Results(lines: seq<string>, solve: Machine -> int): (rs: seq<int>)
    ensures |rs| == |lines| && forall i :: 0 <= i < |lines| ==> rs[i] == solve(ParseLine(lines[i]))
  {
    seq(|lines|, i requires 0 <= i < |lines| => solve(ParseLine(lines[i])))
  }

  /**
   * `main` after reading: each line is parsed and solved, reported, and added
   * to the total unless it has no solution.
   */
  method Report(lines: seq<string>, solve: Machine -> int) returns (total: int, shown: seq<Option<int>>)
    ensures |shown| == |lines|
    ensures shown == Outcomes(Results(lines, solve))
    ensures total == SolvedSum(Results(lines, solve))
  {
    ghost var results := Results(lines, solve);
    total := 0;
    shown := [];
    var i := 0;
    while i < |lines|
      invariant 0 <= i <= |lines|
      invariant |shown| == i
      invariant shown == Outcomes(results[..i])
      invariant total == SolvedSum(results[..i])
    {
      var m := ParseLine(lines[i]);
      var minPresses := solve(m);
      assert results[i] == minPresses;
      ReportStep(results, i);
      shown := shown + [Outcome(minPresses)];
      if minPresses >= 0 {
        total := total + minPresses;
      }
      i := i + 1;
    }
    assert results[..|lines|] == results;
  }
}

=== FILE: calibration.dfy ===
/**
 * _2024/7/index.mjs: a calibration line `target: n0 n1 ... nk` is solvable
 * when some choice of `+`, `*` or `||` (decimal concatenation) between the
 * numbers, evaluated strictly left to right, gives the target. The choices
 * are enumerated as the base-3 digits of a counter.
 */
module Calibration {
  import opened Text

  datatype Op = Add | Mul | Concat

  datatype Equation = Equation(target: int, numbers: seq<nat>)

  /** `Number(String(a) + String(b))`: the digits of b written after those of a. */
  function Concatenate(a: nat, b: nat): (r: nat)
    ensures r == a * Pow10(|Decimal(b)|) + b
  {
    DigitsValueAppend(Decimal(a), Decimal(b));
    DecimalRoundTrip(a);
    DecimalRoundTrip(b);
    DigitsValue(Decimal(a) + Decimal(b))
  }

  /** Operator digit 0 adds, 1 multiplies, anything else concatenates. */
  function OpOfDigit(d: nat): Op {
    if d == 0 then Add else if d == 1 then Mul else Concat
  }

  function DigitOfOp(op: Op): (d: nat)
    ensures d < 3 && OpOfDigit(d) == op
  {
    match op
    case Add => 0
    case Mul => 1
    case Concat => 2
  }

  function Apply(op: Op, a: nat, b: nat): nat {
    match op
    case Add => a + b
    case Mul => a * b
    case Concat => Concatenate(a, b)
  }

  function Pow3(n: nat): (p: nat)
    ensures p >= 1
  {
    if n == 0 then 1 else 3 * Pow3(n - 1)
  }

  /** The operators a counter chooses: its n lowest base-3 digits, least significant first. */
  function OpsOf(combo: nat, n: nat): (ops: seq<Op>)
    ensures |ops| == n
  {
    if n == 0 then [] else [OpOfDigit(combo % 3)] + OpsOf(combo / 3, n - 1)
  }

  /** The counter that chooses the given operators. */
  function ComboOf(ops: seq<Op>): (combo: nat)
    ensures combo < Pow3(|ops|)
  {
    if |ops| == 0 then 0 else DigitOfOp(ops[0]) + 3 * ComboOf(ops[1..])
  }

  /** Every operator sequence is chosen by some counter below 3^n. */
  lemma {:induction false} OpsOfComboOf(ops: seq<Op>)
    ensures OpsOf(ComboOf(ops), |ops|) == ops
    decreases |ops|
  {
    if |ops| > 0 {
      var c := ComboOf(ops);
      assert c % 3 == DigitOfOp(ops[0]) && c / 3 == ComboOf(ops[1..]);
      OpsOfComboOf(ops[1..]);
    }
  }

  /** Left-to-right evaluation, no precedence: ((n0 op0 n1) op1 n2) ... */
  function EvalOps(numbers: seq<nat>, ops: seq<Op>): nat
    requires |numbers| >= 1 && |ops| == |numbers| - 1
    decreases |ops|
  {
    if |ops| == 0 then numbers[0]
    else Apply(ops[|ops| - 1], EvalOps(numbers[..|numbers| - 1], ops[..|ops| - 1]), numbers[|numbers| - 1])
  }

  /** The inner `for` loop: operator i is `comboValue % 3`, then `comboValue` drops that digit. */
  function EvalLoop(numbers: seq<nat>, result: nat, i: nat, comboValue: nat): nat
    requires i <= |numbers| - 1
    decreases |numbers| - 1 - i
  {
    if i == |numbers| - 1 then result
    else EvalLoop(numbers, Apply(OpOfDigit(comboValue % 3), result, numbers[i + 1]), i + 1, comboValue / 3)
  }

  /** The result the source computes for one counter value. */
  function EvalCombo(numbers: seq<nat>, combo: nat): nat
    requires |numbers| >= 1
  {
    EvalLoop(numbers, numbers[0], 0, combo)
  }

  lemma {:induction false} EvalLoopOps(numbers: seq<nat>, i: nat, comboValue: nat, ops: seq<Op>)
    requires |numbers| >= 1 && i <= |numbers| - 1
    requires |ops| == |numbers| - 1
    requires ops[i..] == OpsOf(comboValue, |numbers| - 1 - i)
    ensures EvalLoop(numbers, EvalOps(numbers[..i + 1], ops[..i]), i, comboValue) == EvalOps(numbers, ops)
    decreases |numbers| - 1 - i
  {
    if i == |numbers| - 1 {
      assert numbers[..i + 1] == numbers;
      assert ops[..i] == ops;
    } else {
      var prefix := numbers[..i + 2];
      assert prefix[..|prefix| - 1] == numbers[..i + 1];
      assert ops[..i + 1][..i] == ops[..i];
      assert ops[i] == OpOfDigit(comboValue % 3);
      assert ops[i + 1..] == OpsOf(comboValue / 3, |numbers| - 1 - (i + 1));
      EvalLoopOps(numbers, i + 1, comboValue / 3, ops);
    }
  }

  /** The counter's loop evaluates exactly the operators it encodes, left to right. */
  lemma EvalComboSpec(numbers: seq<nat>, combo: nat)
    requires |numbers| >= 1
    ensures EvalCombo(numbers, combo) == EvalOps(numbers, OpsOf(combo, |numbers| - 1))
  {
    var ops := OpsOf(combo, |numbers| - 1);
    assert ops[0..] == ops;
    assert numbers[..1] == [numbers[0]];
    EvalLoopOps(numbers, 0, combo, ops);
  }

  /** Some operator choice makes the numbers evaluate to the target. */
  ghost predicate Solvable(e: Equation)
    requires |e.numbers| >= 1
  {
    exists ops: seq<Op> :: |ops| == |e.numbers| - 1 && EvalOps(e.numbers, ops) == e.target
  }

  /** The `for (combo ...)` search, stopping at the first counter that hits the target. */
  method Search(e: Equation) returns (found: bool)
    requires |e.numbers| >= 1
    ensures found <==> Solvable(e)
  {
    var n := |e.numbers| - 1;
    var total := Pow3(n);
    var combo := 0;
    while combo < total
      invariant 0 <= combo <= total
      invariant forall c :: 0 <= c < combo ==> EvalCombo(e.numbers, c) != e.target
    {
      if EvalCombo(e.numbers, combo) == e.target {
        EvalComboSpec(e.numbers, combo);
        return true;
      }
      combo := combo + 1;
    }
    forall ops: seq<Op> | |ops| == n ensures EvalOps(e.numbers, ops) != e.target {
      OpsOfComboOf(ops);
      EvalComboSpec(e.numbers, ComboOf(ops));
    }
    return false;
  }

  /** The targets of the solvable lines, added up. */
  ghost function SolvableSum(es: seq<Equation>): int
    requires forall i :: 0 <= i < |es| ==> |es[i].numbers| >= 1
  {
    if |es| == 0 then 0
    else SolvableSum(es[..|es| - 1]) + (if Solvable(es[|es| - 1]) then es[|es| - 1].target else 0)
  }

  /** `totalCalibration`: each solvable line adds its target once. */
  method TotalCalibration(es: seq<Equation>) returns (total: int)
    requires forall i :: 0 <= i < |es| ==> |es[i].numbers| >= 1
    ensures total == SolvableSum(es)
  {
    total := 0;
    var i := 0;
    while i < |es|
      invariant 0 <= i <= |es|
      invariant total == SolvableSum(es[..i])
    {
      var found := Search(es[i]);
      assert es[..i + 1][..i] == es[..i];
      if found {
        total := total + es[i].target;
      }
      i := i + 1;
    }
    assert es[..|es|] == es;
  }

  /** A single number evaluates to itself, whatever the counter. */
  lemma SingleNumber(x: nat, combo: nat)
    ensures EvalCombo([x], combo) == x
  {
  }

  /** `190: 10 19` is solved by multiplication, `156: 15 6` only by concatenation. */
  lemma Examples()
    ensures EvalCombo([10, 19], 1) == 190
    ensures EvalOps([15, 6], [Concat]) == 156
  {
    assert Decimal(6) == "6";
  }

  /** Every piece read as a number, in order; None when one is NaN or negative. */
  function ParseNumbers(parts: seq<string>): (r: Option<seq<nat>>)
    ensures r.Some? <==> forall i :: 0 <= i < |parts| ==> NumberOf(parts[i]).Some? && NumberOf(parts[i]).value >= 0
    ensures r.Some? ==> |r.value| == |parts| && forall i :: 0 <= i < |parts| ==> NumberOf(parts[i]) == Some(r.value[i])
  {
    if |parts| == 0 then Some([])
    else match (NumberOf(parts[0]), ParseNumbers(parts[1..]))
      case (Some(x), Some(xs)) => if x < 0 then None else Some([x as nat] + xs)
      case _ => None
  }

  /**
   * `line.split(':')`, `Number(before)` and `after.trim().split(' ').map(Number)`;
   * None for a line without ':', a NaN or a negative number.
   */
  function ParseLine(line: string): (r: Option<Equation>)
    ensures r.Some? ==> |r.value.numbers| >= 1
  {
    var parts := Split(line, ":");
    if |parts| < 2 then None
    else match (NumberOf(parts[0]), ParseNumbers(Split(Trim(parts[1]), " ")))
      case (Some(t), Some(ns)) => Some(Equation(t, ns))
      case _ => None
  }

  /** `after.trim()` of ` x` is the decimal text of x. */
  lemma TrimAfterColon(x: nat)
    ensures Trim(" " + Decimal(x)) == Decimal(x)
  {
    var d := Decimal(x);
    assert (" " + d)[1..] == d;
    assert TrimStart(" " + d) == TrimStart(d);
    TrimNoSpace(d);
  }

  /** The one number after the colon reads as the list [x]. */
  lemma ParseOneNumber(x: nat)
    ensures ParseNumbers(Split(Trim(" " + Decimal(x)), " ")) == Some([x])
  {
    var d := Decimal(x);
    TrimAfterColon(x);
    DecimalAvoids(x, ' ');
    NoOccurrence(d, ' ');
    assert Split(Trim(" " + d), " ") == [d];
    NumberOfDecimal(x);
    ParseSingle(d, x);
  }

  lemma ParseSingle(d: string, x: nat)
    requires NumberOf(d) == Some(x)
    ensures ParseNumbers([d]) == Some([x])
  {
    assert [d][1..] == [];
    assert ParseNumbers([]) == Some([]);
    var r := ParseNumbers([d]);
    assert r == Some([x] + []);
    assert [x] + [] == [x];
  }

  /** An equation `t: x` with one number reads back as target t and the list [x]. */
  lemma ParseLineText(t: nat, x: nat)
    ensures ParseLine(Decimal(t) + ": " + Decimal(x)) == Some(Equation(t, [x]))
  {
    var line := Decimal(t) + ": " + Decimal(x);
    var rhs := " " + Decimal(x);
    assert line == Decimal(t) + [':'] + rhs;
    DecimalAvoids(t, ':');
    DecimalAvoids(x, ':');
    SplitPair(Decimal(t), rhs, ':');
    NumberOfDecimal(t);
    ParseOneNumber(x);
    ParseLineOf(line, Decimal(t), rhs, t, [x]);
  }

  lemma ParseLineOf(line: string, before: string, after: string, t: int, ns: seq<nat>)
    requires Split(line, ":") == [before, after]
    requires NumberOf(before) == Some(t)
    requires ParseNumbers(Split(Trim(after), " ")) == Some(ns)
    ensures ParseLine(line) == Some(Equation(t, ns))
  {
  }
}

=== FILE: circuits.dfy ===
/**
 * 8/index.mjs: junction boxes in space are wired up pair by pair, closest
 * pairs first. Each box starts in a circuit of its own; wiring two boxes of
 * different circuits merges those circuits. Wiring stops once a single
 * circuit is left, and the answer multiplies the x coordinates of the last
 * pair wired.
 */
module Circuits {
  import opened Text
  import opened Sorting
  import opened StableSort

  datatype Pos = Pos(x: int, y: int, z: int)

  /** An entry `[i, k, dist]` of `dists`. */
  datatype Link = Link(i: nat, k: nat, dist: int)

  /**
   * `ln.split(',').map(Number)` as a position: the first three pieces; None
   * when there are fewer or one of them is NaN.
   */
  function ParsePos(line: string): Option<Pos> {
    var parts := Split(line, ",");
    if |parts| < 3 then None
    else match (NumberOf(parts[0]), NumberOf(parts[1]), NumberOf(parts[2]))
      case (Some(x), Some(y), Some(z)) => Some(Pos(x, y, z))
      case _ => None
  }

  /**
   * The empty line a final newline leaves is not a position: the source
   * reads it as `[0]`, with y and z undefined.
   */
  lemma EmptyLineUnread()
    ensures ParsePos("") == None
  {
    NoOccurrence("", ',');
  }

  /** A position written out as `x,y,z` reads back as itself. */
  lemma ParsePosText(x: nat, y: nat, z: nat)
    ensures ParsePos(Decimal(x) + "," + Decimal(y) + "," + Decimal(z)) == Some(Pos(x, y, z))
  {
    var line := Decimal(x) + "," + Decimal(y) + "," + Decimal(z);
    DecimalAvoids(x, ',');
    DecimalAvoids(y, ',');
    DecimalAvoids(z, ',');
    assert Text.Join([Decimal(x), Decimal(y), Decimal(z)], ",") == line by {
      assert Text.Join([Decimal(y), Decimal(z)], ",") == Decimal(y) + "," + Text.Join([Decimal(z)], ",");
    }
    JoinSplit([Decimal(x), Decimal(y), Decimal(z)], ',');
    NumberOfDecimal(x);
    NumberOfDecimal(y);
    NumberOfDecimal(z);
  }

  // ---------------------------------------------------------------------------
  // Distances and the sorted pair list
  // ---------------------------------------------------------------------------

  /** The squared Euclidean distance, `Math.pow(a[0] - b[0], 2) + ...`. */
  function Dist(a: Pos, b: Pos): (d: int)
    ensures d >= 0
    ensures d == 0 <==> a == b
  {
    var dx := a.x - b.x;
    var dy := a.y - b.y;
    var dz := a.z - b.z;
    assert dx * dx >= 0 && dy * dy >= 0 && dz * dz >= 0;
    assert dx * dx + dy * dy + dz * dz == 0 ==> dx == 0 && dy == 0 && dz == 0;
    dx * dx + dy * dy + dz * dz
  }

  lemma DistSymmetric(a: Pos, b: Pos)
    ensures Dist(a, b) == Dist(b, a)
  {
  }

  /** The links of box i to boxes k, k+1, ..., in that order. */
  function Row(poses: seq<Pos>, i: nat, k: nat): (r: seq<Link>)
    requires i < |poses|
    ensures forall t :: 0 <= t < |r| ==> r[t].i == i
    ensures forall a, b :: 0 <= a < b < |r| ==> r[a].k < r[b].k
    ensures forall l :: l in r <==> l.i == i && k <= l.k < |poses| && l.dist == Dist(poses[i], poses[l.k])
    decreases |poses| - k
  {
    if k >= |poses| then []
    else [Link(i, k, Dist(poses[i], poses[k]))] + Row(poses, i, k + 1)
  }

  /** The two loops filling `dists` from box i on: every pair i < k once, row by row. */
  function PairsFrom(poses: seq<Pos>, i: nat): (r: seq<Link>)
    ensures forall a, b :: 0 <= a < b < |r| ==> r[a].i < r[b].i || (r[a].i == r[b].i && r[a].k < r[b].k)
    ensures forall l :: l in r <==> i <= l.i < l.k < |poses| && l.dist == Dist(poses[l.i], poses[l.k])
    decreases |poses| - i
  {
    if i + 1 >= |poses| then []
    else
      var row := Row(poses, i, i + 1);
      var rest := PairsFrom(poses, i + 1);
      assert forall t :: 0 <= t < |rest| ==> rest[t] in rest;
      row + rest
  }

  /** `dists` before sorting. Every pair is new then, as `pairs` is still empty. */
  function AllPairs(poses: seq<Pos>): seq<Link> {
    PairsFrom(poses, 0)
  }

  predicate Closer(a: Link, b: Link) {
    a.dist < b.dist
  }

  lemma CloserIsStrictOrder()
    ensures StrictOrder(Closer)
  {
  }

  /** `dists.sort((a, b) => a[2] - b[2])`: every pair once, nearest first. */
  function Links(poses: seq<Pos>): (r: seq<Link>)
    ensures multiset(r) == multiset(AllPairs(poses))
    ensures forall a, b :: 0 <= a < b < |r| ==> r[a].dist <= r[b].dist
  {
    CloserIsStrictOrder();
    SortBySorted(AllPairs(poses), Closer);
    var r := SortBy(AllPairs(poses), Closer);
    assert forall a, b :: 0 <= a < b < |r| ==> !Closer(r[b], r[a]);
    r
  }

  /** Links at the same distance are tied, and ties are transitive. */
  lemma CloserIsStrictWeakOrder(d: set<Link>)
    ensures StrictWeakOrderOn(Closer, d)
  {
  }

  /**
   * The engine's sort is stable: the links at any one distance keep the
   * order `dists` was built in, the order of `AllPairs`.
   */
  lemma LinksStable(poses: seq<Pos>)
    ensures Stable(Links(poses), AllPairs(poses), Closer)
  {
    var s := AllPairs(poses);
    var d := set l | l in s;
    CloserIsStrictWeakOrder(d);
    forall x | x in s ensures TiedWith(Links(poses), x, Closer) == TiedWith(s, x, Closer) {
      SortByStable(s, x, Closer, d);
    }
  }

  /** Every pair of boxes is in the list. */
  lemma LinksComplete(poses: seq<Pos>, i: nat, k: nat)
    requires i < k < |poses|
    ensures exists q :: 0 <= q < |Links(poses)| && Links(poses)[q].i == i && Links(poses)[q].k == k
  {
    var l := Link(i, k, Dist(poses[i], poses[k]));
    assert l in AllPairs(poses);
    assert l in multiset(Links(poses));
    var q :| 0 <= q < |Links(poses)| && Links(poses)[q] == l;
  }

  // ---------------------------------------------------------------------------
  // Circuits
  // ---------------------------------------------------------------------------

  /** Some circuit holds v: `cirquits.find(c => c.includes(v))` is defined. */
  predicate Member(cs: seq<seq<nat>>, v: nat) {
    exists j :: 0 <= j < |cs| && v in cs[j]
  }

  /** No box is in two circuits. */
  predicate Disjoint(cs: seq<seq<nat>>) {
    forall j1, j2, v :: 0 <= j1 < j2 < |cs| && v in cs[j1] ==> v !in cs[j2]
  }

  /** Each box 0..n-1 in exactly one circuit, no other box, and no circuit empty. */
  predicate Partition(cs: seq<seq<nat>>, n: nat) {
    && (forall j :: 0 <= j < |cs| ==> |cs[j]| > 0)
    && (forall j, v :: 0 <= j < |cs| && v in cs[j] ==> v < n)
    && (forall v :: 0 <= v < n ==> Member(cs, v))
    && Disjoint(cs)
  }

  /** Two circuits holding the same box are the same circuit. */
  lemma OneHome(cs: seq<seq<nat>>, a: nat, b: nat, v: nat)
    requires Disjoint(cs) && a < |cs| && b < |cs| && v in cs[a] && v in cs[b]
    ensures a == b
  {
  }

  /** `poses.map((_, i) => [i])`. */
  function Singletons(n: nat): (cs: seq<seq<nat>>)
    ensures |cs| == n && Partition(cs, n)
  {
    var cs := seq(n, i requires 0 <= i < n => [i]);
    forall v | 0 <= v < n ensures Member(cs, v) {
      assert v in cs[v];
    }
    cs
  }

  /** u and v are in one circuit. */
  predicate Same(cs: seq<seq<nat>>, u: nat, v: nat) {
    exists j :: 0 <= j < |cs| && u in cs[j] && v in cs[j]
  }

  /** `cirquits.find(c => c.includes(v))` as an index, -1 when there is none. */
  function Owner(cs: seq<seq<nat>>, v: nat): (j: int)
    ensures -1 <= j < |cs|
    ensures j == -1 <==> !Member(cs, v)
    ensures j >= 0 ==> v in cs[j] && forall t :: 0 <= t < j ==> v !in cs[t]
  {
    if |cs| == 0 then -1
    else if v in cs[0] then 0
    else
      var j := Owner(cs[1..], v);
      assert forall t :: 1 <= t < |cs| ==> cs[t] == cs[1..][t - 1];
      if j == -1 then -1 else j + 1
  }

  /** The index in the old list of entry t of the list with entry ck removed. */
  function Src(t: nat, ck: nat): (j: nat)
    ensures j != ck
  {
    if t < ck then t else t + 1
  }

  /** The entry of the list with entry ck removed that came from entry j. */
  function Dst(j: nat, ck: nat): (t: nat)
    requires j != ck
    ensures Src(t, ck) == j
  {
    if j < ck then j else j - 1
  }

  /**
   * `joinCirquit(i, k)`: nothing when one circuit holds both; else k's circuit
   * is spliced out and its boxes appended to i's. Both boxes must be in some
   * circuit, or the source fails on an undefined circuit.
   */
  function Join(cs: seq<seq<nat>>, i: nat, k: nat): (r: seq<seq<nat>>)
    requires Member(cs, i) && Member(cs, k)
    ensures Same(cs, i, k) ==> r == cs
    ensures !Same(cs, i, k) ==> |r| == |cs| - 1
  {
    if Same(cs, i, k) then cs
    else
      var ci := Owner(cs, i);
      var ck := Owner(cs, k);
      assert i in cs[ci] && k !in cs[ci];
      Splice(cs, ci, ck)
  }

  /** Circuit ck appended to circuit ci, and its own entry removed. */
  function Splice(cs: seq<seq<nat>>, ci: nat, ck: nat): (r: seq<seq<nat>>)
    requires ci < |cs| && ck < |cs| && ci != ck
    ensures |r| == |cs| - 1
  {
    var merged := cs[ci := cs[ci] + cs[ck]];
    merged[..ck] + merged[ck + 1..]
  }

  lemma SpliceEntry(cs: seq<seq<nat>>, ci: nat, ck: nat, t: nat)
    requires ci < |cs| && ck < |cs| && ci != ck && t < |cs| - 1
    ensures Splice(cs, ci, ck)[t] == if Src(t, ck) == ci then cs[ci] + cs[ck] else cs[Src(t, ck)]
  {
  }

  /** Entry t after a join: its source circuit, with k's circuit appended for i's. */
  lemma JoinEntry(cs: seq<seq<nat>>, i: nat, k: nat, t: nat)
    requires Member(cs, i) && Member(cs, k) && !Same(cs, i, k)
    requires t < |Join(cs, i, k)|
    ensures Owner(cs, i) != Owner(cs, k)
    ensures var ci := Owner(cs, i); var ck := Owner(cs, k);
      Join(cs, i, k)[t] == if Src(t, ck) == ci then cs[ci] + cs[ck] else cs[Src(t, ck)]
  {
    var ci := Owner(cs, i);
    var ck := Owner(cs, k);
    assert i in cs[ci] && k !in cs[ci];
    assert Join(cs, i, k) == Splice(cs, ci, ck);
    SpliceEntry(cs, ci, ck, t);
  }

  /** Membership after a join: in the source circuit, or in k's circuit for i's entry. */
  lemma JoinMembers(cs: seq<seq<nat>>, i: nat, k: nat, t: nat, v: nat)
    requires Member(cs, i) && Member(cs, k) && !Same(cs, i, k)
    requires t < |Join(cs, i, k)|
    ensures var ci := Owner(cs, i); var ck := Owner(cs, k);
      v in Join(cs, i, k)[t] <==> v in cs[Src(t, ck)] || (Src(t, ck) == ci && v in cs[ck])
  {
    JoinEntry(cs, i, k, t);
  }

  /** The boxes of a partition are members. */
  lemma PartitionMembers(cs: seq<seq<nat>>, n: nat, v: nat)
    requires Partition(cs, n) && v < n
    ensures Member(cs, v)
  {
  }

  /** After a join, v is in the entry holding its old circuit, or i's entry if that was k's. */
  lemma JoinHome(cs: seq<seq<nat>>, i: nat, k: nat, j: nat, v: nat)
    requires Member(cs, i) && Member(cs, k) && !Same(cs, i, k)
    requires j < |cs| && v in cs[j]
    ensures var ci := Owner(cs, i); var ck := Owner(cs, k);
      var home := if j == ck then ci else j;
      home != ck && Dst(home, ck) < |Join(cs, i, k)| && v in Join(cs, i, k)[Dst(home, ck)]
  {
    var ci := Owner(cs, i);
    var ck := Owner(cs, k);
    assert i in cs[ci] && k !in cs[ci];
    var home := if j == ck then ci else j;
    JoinMembers(cs, i, k, Dst(home, ck), v);
  }

  /** Joining keeps the circuits a partition of the boxes. */
  lemma JoinPartition(cs: seq<seq<nat>>, n: nat, i: nat, k: nat)
    requires Partition(cs, n) && i < n && k < n
    ensures Member(cs, i) && Member(cs, k)
    ensures Partition(Join(cs, i, k), n)
  {
    PartitionMembers(cs, n, i);
    PartitionMembers(cs, n, k);
    if !Same(cs, i, k) {
      JoinNonEmpty(cs, n, i, k);
      JoinBounded(cs, n, i, k);
      JoinCovers(cs, n, i, k);
      JoinDisjoint(cs, n, i, k);
    }
  }

  lemma JoinNonEmpty(cs: seq<seq<nat>>, n: nat, i: nat, k: nat)
    requires Partition(cs, n) && Member(cs, i) && Member(cs, k) && !Same(cs, i, k)
    ensures forall t :: 0 <= t < |Join(cs, i, k)| ==> |Join(cs, i, k)[t]| > 0
  {
    forall t | 0 <= t < |Join(cs, i, k)| ensures |Join(cs, i, k)[t]| > 0 {
      JoinEntry(cs, i, k, t);
    }
  }

  lemma JoinBounded(cs: seq<seq<nat>>, n: nat, i: nat, k: nat)
    requires Partition(cs, n) && Member(cs, i) && Member(cs, k) && !Same(cs, i, k)
    ensures forall t, v :: 0 <= t < |Join(cs, i, k)| && v in Join(cs, i, k)[t] ==> v < n
  {
    forall t, v | 0 <= t < |Join(cs, i, k)| && v in Join(cs, i, k)[t] ensures v < n {
      JoinMembers(cs, i, k, t, v);
    }
  }

  lemma JoinCovers(cs: seq<seq<nat>>, n: nat, i: nat, k: nat)
    requires Partition(cs, n) && Member(cs, i) && Member(cs, k) && !Same(cs, i, k)
    ensures forall v :: 0 <= v < n ==> Member(Join(cs, i, k), v)
  {
    forall v | 0 <= v < n ensures Member(Join(cs, i, k), v) {
      PartitionMembers(cs, n, v);
      var j :| 0 <= j < |cs| && v in cs[j];
      JoinHome(cs, i, k, j, v);
    }
  }

  lemma JoinDisjoint(cs: seq<seq<nat>>, n: nat, i: nat, k: nat)
    requires Partition(cs, n) && Member(cs, i) && Member(cs, k) && !Same(cs, i, k)
    ensures Disjoint(Join(cs, i, k))
  {
    var r := Join(cs, i, k);
    forall t1, t2, v | 0 <= t1 < t2 < |r| && v in r[t1] ensures v !in r[t2] {
      JoinApart(cs, i, k, t1, t2, v);
    }
  }

  lemma JoinApart(cs: seq<seq<nat>>, i: nat, k: nat, t1: nat, t2: nat, v: nat)
    requires Disjoint(cs) && Member(cs, i) && Member(cs, k) && !Same(cs, i, k)
    requires t1 < t2 < |Join(cs, i, k)| && v in Join(cs, i, k)[t1]
    ensures v !in Join(cs, i, k)[t2]
  {
    var ci := Owner(cs, i);
    var ck := Owner(cs, k);
    var s1 := Src(t1, ck);
    var s2 := Src(t2, ck);
    assert s1 < s2 && s1 != ck && s2 != ck;
    JoinMembers(cs, i, k, t1, v);
    JoinMembers(cs, i, k, t2, v);
    var h := if v in cs[s1] then s1 else ck;
    assert v in cs[h] && (h == ck ==> s1 == ci);
    forall h' | 0 <= h' < |cs| && v in cs[h'] ensures h' == h {
      OneHome(cs, h, h', v);
    }
  }

  /** Boxes that shared a circuit still do after a join, and the two joined boxes now do. */
  lemma JoinKeepsSame(cs: seq<seq<nat>>, n: nat, i: nat, k: nat, u: nat, v: nat)
    requires Partition(cs, n) && i < n && k < n
    ensures Member(cs, i) && Member(cs, k)
    ensures Same(Join(cs, i, k), i, k)
    ensures Same(cs, u, v) ==> Same(Join(cs, i, k), u, v)
  {
    JoinPartition(cs, n, i, k);
    if !Same(cs, i, k) {
      var ci := Owner(cs, i);
      JoinHome(cs, i, k, ci, i);
      JoinHome(cs, i, k, Owner(cs, k), k);
      if Same(cs, u, v) {
        var j :| 0 <= j < |cs| && u in cs[j] && v in cs[j];
        JoinHome(cs, i, k, j, u);
        JoinHome(cs, i, k, j, v);
      }
    }
  }

  /** Every circuit is box 0's when every box shares a circuit with box 0. */
  lemma AllSameHome(cs: seq<seq<nat>>, n: nat, j0: nat, j: nat)
    requires Partition(cs, n) && j0 < |cs| && 0 in cs[j0] && j < |cs|
    requires forall v :: 0 <= v < n ==> Same(cs, 0, v)
    ensures j == j0
  {
    var v := cs[j][0];
    assert v in cs[j];
    assert v < n;
    assert Same(cs, 0, v);
    var j' :| 0 <= j' < |cs| && 0 in cs[j'] && v in cs[j'];
    OneHome(cs, j', j0, 0);
    OneHome(cs, j', j, v);
  }

  /** When every box shares a circuit with box 0, there is one circuit. */
  lemma AllSameIsOne(cs: seq<seq<nat>>, n: nat)
    requires Partition(cs, n) && n > 0
    requires forall v :: 0 <= v < n ==> Same(cs, 0, v)
    ensures |cs| == 1
  {
    PartitionMembers(cs, n, 0);
    var j0 :| 0 <= j0 < |cs| && 0 in cs[j0];
    AllSameHome(cs, n, j0, 0);
    AllSameHome(cs, n, j0, |cs| - 1);
  }

  // ---------------------------------------------------------------------------
  // Wiring until one circuit is left
  // ---------------------------------------------------------------------------

  /** Every link joins two of the boxes 0..n-1. */
  predicate InRange(links: seq<Link>, n: nat) {
    forall q :: 0 <= q < |links| ==> links[q].i < n && links[q].k < n
  }

  /** The circuits after wiring the links in order. */
  function JoinAll(cs: seq<seq<nat>>, n: nat, links: seq<Link>): (r: seq<seq<nat>>)
    requires Partition(cs, n)
    requires InRange(links, n)
    ensures Partition(r, n)
    decreases |links|
  {
    if |links| == 0 then cs
    else
      var init := links[..|links| - 1];
      var prev := JoinAll(cs, n, init);
      var l := links[|links| - 1];
      JoinPartition(prev, n, l.i, l.k);
      Join(prev, l.i, l.k)
  }

  /** After wiring, every wired pair shares a circuit. */
  lemma {:induction false} JoinAllSame(cs: seq<seq<nat>>, n: nat, links: seq<Link>, q: nat)
    requires Partition(cs, n)
    requires InRange(links, n)
    requires q < |links|
    ensures Same(JoinAll(cs, n, links), links[q].i, links[q].k)
    decreases |links|
  {
    var init := links[..|links| - 1];
    var l := links[|links| - 1];
    var prev := JoinAll(cs, n, init);
    if q < |links| - 1 {
      JoinAllSame(cs, n, init, q);
      assert init[q] == links[q];
    }
    JoinKeepsSame(prev, n, l.i, l.k, links[q].i, links[q].k);
  }

  /** The links are all in range. */
  lemma LinksInRange(poses: seq<Pos>)
    ensures InRange(Links(poses), |poses|)
  {
    forall q | 0 <= q < |Links(poses)| ensures Links(poses)[q].i < |poses| && Links(poses)[q].k < |poses| {
      assert Links(poses)[q] in multiset(AllPairs(poses));
    }
  }

  /** The circuits once the first p links of a list are wired. */
  function WiredBy(n: nat, links: seq<Link>, p: nat): (cs: seq<seq<nat>>)
    requires InRange(links, n) && p <= |links|
    ensures Partition(cs, n)
  {
    JoinAll(Singletons(n), n, links[..p])
  }

  /** Wiring link p joins the circuits the first p links left. */
  lemma WiredByStep(n: nat, links: seq<Link>, p: nat)
    requires InRange(links, n) && p < |links|
    ensures var l := links[p];
      && l.i < n && l.k < n
      && Member(WiredBy(n, links, p), l.i) && Member(WiredBy(n, links, p), l.k)
      && WiredBy(n, links, p + 1) == Join(WiredBy(n, links, p), l.i, l.k)
  {
    var pre := links[..p + 1];
    assert pre[..p] == links[..p] && pre[p] == links[p];
    JoinAllLast(Singletons(n), n, pre);
  }

  /** Wiring a list of links ends with wiring its last link. */
  lemma JoinAllLast(cs: seq<seq<nat>>, n: nat, links: seq<Link>)
    requires Partition(cs, n) && |links| > 0
    requires InRange(links, n)
    ensures var prev := JoinAll(cs, n, links[..|links| - 1]); var l := links[|links| - 1];
      && l.i < n && l.k < n && Member(prev, l.i) && Member(prev, l.k)
      && JoinAll(cs, n, links) == Join(prev, l.i, l.k)
  {
    var l := links[|links| - 1];
    JoinPartition(JoinAll(cs, n, links[..|links| - 1]), n, l.i, l.k);
  }

  /** The circuits once the first p links are wired. */
  function Wired(poses: seq<Pos>, p: nat): (cs: seq<seq<nat>>)
    requires p <= |Links(poses)|
    ensures Partition(cs, |poses|)
  {
    LinksInRange(poses);
    WiredBy(|poses|, Links(poses), p)
  }

  /** Wiring link p joins the circuits the first p links left. */
  lemma WiredStep(poses: seq<Pos>, p: nat)
    requires p < |Links(poses)|
    ensures var l := Links(poses)[p];
      && l.i < |poses| && l.k < |poses|
      && Member(Wired(poses, p), l.i) && Member(Wired(poses, p), l.k)
      && Wired(poses, p + 1) == Join(Wired(poses, p), l.i, l.k)
  {
    LinksInRange(poses);
    WiredByStep(|poses|, Links(poses), p);
  }

  /** Once every link is wired, box 0 shares a circuit with every box. */
  lemma WiredAllSame(poses: seq<Pos>, v: nat)
    requires 0 < v < |poses|
    ensures Same(Wired(poses, |Links(poses)|), 0, v)
  {
    var n := |poses|;
    var links := Links(poses);
    LinksInRange(poses);
    assert links[..|links|] == links;
    LinksComplete(poses, 0, v);
    var q :| 0 <= q < |links| && links[q].i == 0 && links[q].k == v;
    JoinAllSame(Singletons(n), n, links, q);
  }

  /** Wiring every link leaves one circuit. */
  lemma WiredAll(poses: seq<Pos>)
    requires |poses| > 0
    ensures |Wired(poses, |Links(poses)|)| == 1
  {
    var n := |poses|;
    var r := Wired(poses, |Links(poses)|);
    forall v | 0 <= v < n ensures Same(r, 0, v) {
      if v == 0 {
        PartitionMembers(r, n, 0);
        var j :| 0 <= j < |r| && 0 in r[j];
      } else {
        WiredAllSame(poses, v);
      }
    }
    AllSameIsOne(r, n);
  }

  /** Link q is the one whose wiring merged the final two circuits into one. */
  predicate FinalMerge(poses: seq<Pos>, q: nat) {
    && q < |Links(poses)|
    && |Wired(poses, q)| == 2 && |Wired(poses, q + 1)| == 1
    && !Same(Wired(poses, q), Links(poses)[q].i, Links(poses)[q].k)
  }

  /** Before any link is wired, each box is its own circuit. */
  lemma WiredZero(poses: seq<Pos>)
    ensures Wired(poses, 0) == Singletons(|poses|) && |Wired(poses, 0)| == |poses|
  {
    assert Links(poses)[..0] == [];
  }

  /** Wiring every link leaves at most one circuit. */
  lemma WiredEnd(poses: seq<Pos>)
    ensures |Wired(poses, |Links(poses)|)| <= 1
  {
    if |poses| > 0 {
      WiredAll(poses);
    } else {
      WiredZero(poses);
      assert |multiset(Links(poses))| == 0;
    }
  }

  /** More than one circuit was left before each of the first p links. */
  predicate Unmerged(poses: seq<Pos>, p: nat)
    requires p <= |Links(poses)|
  {
    forall q :: 0 <= q < p ==> |Wired(poses, q)| > 1
  }

  lemma UnmergedStep(poses: seq<Pos>, p: nat)
    requires p < |Links(poses)| && Unmerged(poses, p) && |Wired(poses, p)| > 1
    ensures Unmerged(poses, p + 1)
  {
  }

  /** A link that takes more than one circuit down to one merged the last two. */
  lemma LastMerge(poses: seq<Pos>, q: nat)
    requires q < |Links(poses)|
    requires |Wired(poses, q)| > 1 && |Wired(poses, q + 1)| == 1
    ensures FinalMerge(poses, q)
  {
    WiredStep(poses, q);
  }

  /** What holds once the loop stops after `used` links. */
  lemma MergeDone(poses: seq<Pos>, used: nat)
    requires used <= |Links(poses)| && Unmerged(poses, used) && |Wired(poses, used)| <= 1
    ensures |poses| > 0 ==> |Wired(poses, used)| == 1
    ensures forall q :: 0 <= q < used ==> |Wired(poses, q)| > 1
    ensures used > 0 <==> |poses| >= 2
    ensures used > 0 ==> FinalMerge(poses, used - 1)
  {
    MergeDoneSize(poses, used);
    if used > 0 {
      LastMerge(poses, used - 1);
    }
  }

  lemma MergeDoneSize(poses: seq<Pos>, used: nat)
    requires used <= |Links(poses)| && Unmerged(poses, used) && |Wired(poses, used)| <= 1
    ensures |poses| > 0 ==> |Wired(poses, used)| == 1
    ensures used > 0 <==> |poses| >= 2
  {
    var n := |poses|;
    WiredZero(poses);
    if n > 0 {
      PartitionMembers(Wired(poses, used), n, 0);
    }
    if used > 0 {
      assert |Wired(poses, 0)| > 1;
    }
  }

  /**
   * The `while (cirquits.length > 1)` loop: links are wired nearest first until
   * one circuit is left. Returns the circuits, how many links were wired and
   * the last one, which merged the final two circuits.
   */
  method MergeUntilOne(poses: seq<Pos>) returns (cirquits: seq<seq<nat>>, used: nat, last: Option<(nat, nat)>)
    ensures used <= |Links(poses)| && cirquits == Wired(poses, used)
    ensures Partition(cirquits, |poses|)
    ensures |poses| > 0 ==> |cirquits| == 1
    ensures forall q :: 0 <= q < used ==> |Wired(poses, q)| > 1
    ensures used > 0 <==> |poses| >= 2
    ensures used > 0 ==> (FinalMerge(poses, used - 1)
                          && last == Some((Links(poses)[used - 1].i, Links(poses)[used - 1].k)))
    ensures used == 0 ==> last == None
  {
    var n := |poses|;
    var dists := Links(poses);
    cirquits := Singletons(n);
    last := None;
    var p := 0;
    WiredZero(poses);
    WiredEnd(poses);
    while |cirquits| > 1
      invariant p <= |dists|
      invariant cirquits == Wired(poses, p)
      invariant Unmerged(poses, p)
      invariant last == if p == 0 then None else Some((dists[p - 1].i, dists[p - 1].k))
      decreases |dists| - p
    {
      var l := dists[p];
      WiredStep(poses, p);
      UnmergedStep(poses, p);
      cirquits := Join(cirquits, l.i, l.k);
      last := Some((l.i, l.k));
      p := p + 1;
    }
    used := p;
    MergeDone(poses, used);
  }

  /** `poses[i][0] * poses[k][0]` for the last pair wired; None with fewer than two boxes. */
  method Answer(poses: seq<Pos>) returns (product: Option<int>)
    ensures product == None <==> |poses| < 2
    ensures product.Some? ==> exists q: nat :: (FinalMerge(poses, q)
                                             && Links(poses)[q].i < |poses| && Links(poses)[q].k < |poses|
                                             && product.value == poses[Links(poses)[q].i].x * poses[Links(poses)[q].k].x)
  {
    var cirquits, used, last := MergeUntilOne(poses);
    LinksInRange(poses);
    match last
    case None =>
      product := None;
    case Some((i, k)) =>
      product := Some(poses[i].x * poses[k].x);
  }
}

=== FILE: dial.dfy ===
/**
 * 1/index.mjs: a dial numbered 0..99 starts at 50; each line `L<n>` or `R<n>`
 * turns it, every turn adds |floor(position / 100)| to a zero counter, and the
 * position is then folded back with JavaScript's truncating `%`.
 */
module Dial {
  import opened Text

  /** One input line: its first character chooses the direction. */
  datatype Rotation = Left(count: int) | Right(count: int) | Other

  datatype Dial = Dial(curr: int, zeros: nat)

  const Start := Dial(50, 0)

  /** `line[0]` and `+line.slice(1)`; None when an L/R count is NaN. */
  function ParseRotation(line: string): (r: Option<Rotation>)
    ensures |line| == 0 ==> r == Some(Other)
    ensures |line| > 0 && line[0] !in {'L', 'R'} ==> r == Some(Other)
  {
    if |line| == 0 || line[0] !in {'L', 'R'} then Some(Other)
    else match NumberOf(line[1..])
      case None => None
      case Some(n) => if line[0] == 'L' then Some(Left(n)) else Some(Right(n))
  }

  /** A direction letter followed by digits reads as a turn by their value. */
  lemma ParseRotationTurn(line: string)
    requires |line| > 1 && line[0] in {'L', 'R'} && AllDigits(line[1..])
    ensures line[0] == 'L' ==> ParseRotation(line) == Some(Left(DigitsValue(line[1..])))
    ensures line[0] == 'R' ==> ParseRotation(line) == Some(Right(DigitsValue(line[1..])))
  {
    NumberOfDigits(line[1..]);
  }

  /** `Math.floor(a / 100)`. */
  function FloorDiv100(a: int): (q: int)
    ensures q * 100 <= a < q * 100 + 100
  {
    a / 100
  }

  /** JavaScript's `a % 100`: the remainder takes the sign of the dividend. */
  function JsRem100(a: int): (r: int)
    ensures (a - r) % 100 == 0
    ensures a >= 0 ==> 0 <= r < 100
    ensures a < 0 ==> -100 < r <= 0
  {
    if a >= 0 then a % 100 else -((-a) % 100)
  }

  function Abs(a: int): nat {
    if a < 0 then -a else a
  }

  /** The position after the turn, before it is folded back. */
  function Turned(curr: int, r: Rotation): (moved: int)
    ensures r.Left? ==> moved == curr - r.count
    ensures r.Right? ==> moved == curr + r.count
    ensures r.Other? ==> moved == curr
  {
    match r
    case Left(n) => curr - n
    case Right(n) => curr + n
    case Other => curr
  }

  /** One line of input applied to the dial. */
  function Step(d: Dial, r: Rotation): (d': Dial)
    ensures d'.zeros == d.zeros + Abs(FloorDiv100(Turned(d.curr, r)))
    ensures (d'.curr - Turned(d.curr, r)) % 100 == 0
    ensures Turned(d.curr, r) >= -100 ==> 0 <= d'.curr < 100
    ensures Turned(d.curr, r) < -100 && Turned(d.curr, r) % 100 != 0 ==> -100 < d'.curr < 0
    ensures Turned(d.curr, r) < -100 && Turned(d.curr, r) % 100 == 0 ==> d'.curr == 0
  {
    var moved := Turned(d.curr, r);
    FoldBack(moved);
    Dial(JsRem100(moved + 100), d.zeros + Abs(FloorDiv100(moved)))
  }

  /** Where `(moved + 100) % 100` lands: on the face, or just below it for far left turns. */
  lemma FoldBack(moved: int)
    ensures (JsRem100(moved + 100) - moved) % 100 == 0
    ensures moved >= -100 ==> 0 <= JsRem100(moved + 100) < 100
    ensures moved < -100 && moved % 100 != 0 ==> -100 < JsRem100(moved + 100) < 0
    ensures moved < -100 && moved % 100 == 0 ==> JsRem100(moved + 100) == 0
  {
    if moved >= -100 {
      FoldUp(moved);
    } else {
      FoldDown(moved);
    }
  }

  lemma FoldUp(moved: int)
    requires moved >= -100
    ensures (JsRem100(moved + 100) - moved) % 100 == 0 && 0 <= JsRem100(moved + 100) < 100
  {
    var a := moved + 100;
    assert JsRem100(a) == a % 100;
    assert a % 100 - moved == 100 * (1 - a / 100);
  }

  lemma FoldDown(moved: int)
    requires moved < -100
    ensures (JsRem100(moved + 100) - moved) % 100 == 0
    ensures moved % 100 == 0 <==> JsRem100(moved + 100) == 0
    ensures -100 < JsRem100(moved + 100) <= 0
  {
    var b := -(moved + 100);
    var q, m := b / 100, b % 100;
    assert b == 100 * q + m && 0 <= m < 100;
    assert JsRem100(moved + 100) == -m;
    assert moved == 100 * (-q - 1) - m;
    assert -m - moved == 100 * (q + 1);
  }


  /** The dial after all the lines, from the given state. */
  function Run(d: Dial, rs: seq<Rotation>): Dial
    decreases |rs|
  {
    if |rs| == 0 then d else Run(Step(d, rs[0]), rs[1..])
  }

  /** The password: the zero counter after every line, starting at 50. */
  function Password(rs: seq<Rotation>): nat {
    Run(Start, rs).zeros
  }

  /** The laps line k adds: how many hundreds its turn moves away from where the dial then stands. */
  ghost function LapsOn(d: Dial, rs: seq<Rotation>, k: nat): nat
    requires k < |rs|
  {
    Abs(FloorDiv100(Turned(Run(d, rs[..k]).curr, rs[k])))
  }

  /** The laps of the first k lines, added up line by line. */
  ghost function LapsUpTo(d: Dial, rs: seq<Rotation>, k: nat): nat
    requires k <= |rs|
    decreases k
  {
    if k == 0 then 0 else LapsUpTo(d, rs, k - 1) + LapsOn(d, rs, k - 1)
  }

  /** Running one more line is one more step. */
  lemma {:induction false} RunSnoc(d: Dial, rs: seq<Rotation>, r: Rotation)
    ensures Run(d, rs + [r]) == Step(Run(d, rs), r)
    decreases |rs|
  {
    if |rs| > 0 {
      assert (rs + [r])[1..] == rs[1..] + [r];
      RunSnoc(Step(d, rs[0]), rs[1..], r);
    }
  }

  /** After the first k lines the counter has gained exactly their laps. */
  lemma {:induction false} ZerosArePrefixLaps(d: Dial, rs: seq<Rotation>, k: nat)
    requires k <= |rs|
    ensures Run(d, rs[..k]).zeros == d.zeros + LapsUpTo(d, rs, k)
    decreases k
  {
    if k == 0 {
      assert rs[..k] == [];
    } else {
      ZerosArePrefixLaps(d, rs, k - 1);
      assert rs[..k] == rs[..k - 1] + [rs[k - 1]];
      RunSnoc(d, rs[..k - 1], rs[k - 1]);
    }
  }

  /** The password is the sum, over the lines, of the laps each turn makes. */
  lemma PasswordIsLaps(rs: seq<Rotation>)
    ensures Password(rs) == LapsUpTo(Start, rs, |rs|)
  {
    ZerosArePrefixLaps(Start, rs, |rs|);
    assert rs[..|rs|] == rs;
  }

  /** The counter never goes down: a prefix of the input never counts more. */
  lemma {:induction false} ZerosMonotone(d: Dial, rs: seq<Rotation>, k: nat)
    requires k <= |rs|
    ensures d.zeros <= Run(d, rs[..k]).zeros <= Run(d, rs).zeros
    decreases |rs|
  {
    if |rs| > 0 {
      if k == 0 {
        assert rs[..k] == [];
        ZerosMonotone(Step(d, rs[0]), rs[1..], 0);
      } else {
        assert rs[..k][1..] == rs[1..][..k - 1];
        ZerosMonotone(Step(d, rs[0]), rs[1..], k - 1);
      }
    }
  }

  /** Turns of at most 100 clicks keep the dial on its face 0..99. */
  lemma {:induction false} SmallTurnsStayOnFace(d: Dial, rs: seq<Rotation>)
    requires 0 <= d.curr < 100
    requires forall i :: 0 <= i < |rs| ==> rs[i].Other? || 0 <= rs[i].count <= 100
    ensures 0 <= Run(d, rs).curr < 100
    decreases |rs|
  {
    if |rs| > 0 {
      SmallTurnsStayOnFace(Step(d, rs[0]), rs[1..]);
    }
  }

  /** A turn that ends below -100 leaves the dial off its face, at a negative position. */
  lemma LongLeftTurnLeavesFace()
    ensures Step(Start, Left(200)) == Dial(-50, 2)
  {
  }
}

=== FILE: guard_walk.dfy ===
/**
 * _2024/6/indes.mjs: a guard walks a map, stepping forward and turning right
 * in place in front of an obstacle, until the next step would leave the map.
 * Part 1 collects the cells the guard stands on. Part 2 puts a temporary
 * obstacle on each of those cells but the start, one at a time, and counts
 * the trials in which the guard makes as many moves as the map has cells
 * without leaving.
 */
module GuardWalk {
  import opened Text

  /** `Land`, `Obstacle` and `TemporaryObstacle`, as cell kinds only. */
  datatype Cell = Land | Obstacle | TempObstacle

  datatype Dir = Up | Right | Down | Left

  /** `map`: rows of cells, indexed `map[x][y]`. */
  type Map = seq<seq<Cell>>

  /** A position (x, y): row x, column y. */
  type Pos = (int, int)

  // ---------------------------------------------------------------------------
  // Directions
  // ---------------------------------------------------------------------------

  /** `directionDeltas`. */
  function Delta(d: Dir): (int, int) {
    match d
    case Up => (-1, 0)
    case Down => (1, 0)
    case Left => (0, -1)
    case Right => (0, 1)
  }

  /** `turnRight`: a quarter turn clockwise. */
  function TurnRight(d: Dir): (r: Dir)
    ensures Delta(r) == (Delta(d).1, -Delta(d).0)
    ensures r != d
  {
    match d
    case Up => Right
    case Right => Down
    case Down => Left
    case Left => Up
  }

  /** Four right turns face the guard the way it started. */
  lemma TurnFour(d: Dir)
    ensures TurnRight(TurnRight(TurnRight(TurnRight(d)))) == d
    ensures TurnRight(TurnRight(d)) != d && TurnRight(TurnRight(TurnRight(d))) != d
  {
  }

  // ---------------------------------------------------------------------------
  // Reading the map
  // ---------------------------------------------------------------------------

  /** The lines of the input with carriage returns removed and empty lines dropped. */
  function ReadLines(input: string): (lines: seq<string>)
    ensures forall l :: l in lines ==> |l| > 0 && '\r' !in l
  {
    var all := Split(RemoveCR(input), "\n");
    SplitPiecesAvoid(RemoveCR(input), "\n", '\r');
    NonEmpty(all)
  }

  /** `filter(line => line.length > 0)`. */
  function NonEmpty(lines: seq<string>): (r: seq<string>)
    ensures forall l :: l in r <==> l in lines && |l| > 0
    ensures |r| <= |lines|
  {
    if |lines| == 0 then []
    else if |lines[0]| == 0 then NonEmpty(lines[1..])
    else [lines[0]] + NonEmpty(lines[1..])
  }

  /** The direction a guard glyph `^ v > <` faces; None for any other character. */
  function GlyphDir(c: char): Option<Dir> {
    if c == '^' then Some(Up)
    else if c == 'v' then Some(Down)
    else if c == '>' then Some(Right)
    else if c == '<' then Some(Left)
    else None
  }

  /** The map built from the lines: `#` is an obstacle, every other character land. */
  function ReadMap(lines: seq<string>): (m: Map)
    ensures |m| == |lines|
    ensures forall x :: 0 <= x < |lines| ==> |m[x]| == |lines[x]|
    ensures forall x, y :: 0 <= x < |lines| && 0 <= y < |lines[x]| ==>
              m[x][y] != TempObstacle && (m[x][y] == Obstacle <==> lines[x][y] == '#')
  {
    seq(|lines|, x requires 0 <= x < |lines| =>
      seq(|lines[x]|, y requires 0 <= y < |lines[x]| => if lines[x][y] == '#' then Obstacle else Land))
  }

  /** The last guard glyph among the first k characters of a line. */
  function GlyphInRow(line: string, k: nat): (r: Option<(nat, Dir)>)
    requires k <= |line|
    ensures r.Some? ==> r.value.0 < k && GlyphDir(line[r.value.0]) == Some(r.value.1)
    ensures r.Some? ==> forall y :: r.value.0 < y < k ==> GlyphDir(line[y]).None?
    ensures r.None? ==> forall y :: 0 <= y < k ==> GlyphDir(line[y]).None?
  {
    if k == 0 then None
    else match GlyphDir(line[k - 1])
      case Some(d) => Some((k - 1, d))
      case None => GlyphInRow(line, k - 1)
  }

  /** The last guard glyph of the first n lines in reading order: the one the loop keeps. */
  function GlyphIn(lines: seq<string>, n: nat): (r: Option<((nat, nat), Dir)>)
    requires n <= |lines|
    ensures r.Some? ==> var (x, y) := r.value.0;
      x < n && y < |lines[x]| && GlyphDir(lines[x][y]) == Some(r.value.1)
    ensures r.Some? ==> forall y :: r.value.0.1 < y < |lines[r.value.0.0]| ==> GlyphDir(lines[r.value.0.0][y]).None?
    ensures r.Some? ==> forall x, y :: r.value.0.0 < x < n && 0 <= y < |lines[x]| ==> GlyphDir(lines[x][y]).None?
    ensures r.None? ==> forall x, y :: 0 <= x < n && 0 <= y < |lines[x]| ==> GlyphDir(lines[x][y]).None?
  {
    if n == 0 then None
    else match GlyphInRow(lines[n - 1], |lines[n - 1]|)
      case Some((y, d)) => Some(((n - 1, y), d))
      case None => GlyphIn(lines, n - 1)
  }

  /** `initialGuardX`, `initialGuardY` and `initialDirection`: (0, 0) facing up without a glyph. */
  function Start(lines: seq<string>): ((nat, nat), Dir) {
    match GlyphIn(lines, |lines|)
    case Some(g) => g
    case None => ((0, 0), Up)
  }

  /** The guard stands on land. */
  lemma StartIsLand(lines: seq<string>)
    requires GlyphIn(lines, |lines|).Some?
    ensures var (x, y) := Start(lines).0;
      x < |ReadMap(lines)| && y < |ReadMap(lines)[x]| && ReadMap(lines)[x][y] == Land
  {
  }

  // ---------------------------------------------------------------------------
  // One step
  // ---------------------------------------------------------------------------

  /** `map[x][y]`: a missing cell past a row's end reads as no obstacle. */
  function At(m: Map, x: int, y: int): Cell
    requires 0 <= x < |m| && 0 <= y
  {
    if y < |m[x]| then m[x][y] else Land
  }

  /** `isOutOfBounds`: the width is that of row 0, read only once x is a row. */
  predicate Outside(m: Map, x: int, y: int) {
    x < 0 || x >= |m| || y < 0 || y >= |m[0]|
  }

  predicate InBounds(m: Map, p: Pos) {
    !Outside(m, p.0, p.1)
  }

  /** `isObstacle`, in the trial form that also sees a temporary obstacle. */
  predicate Blocked(m: Map, x: int, y: int)
    requires 0 <= x < |m| && 0 <= y
  {
    At(m, x, y) == Obstacle || At(m, x, y) == TempObstacle
  }

  datatype Step = Exit | Turn(d: Dir) | Move(p: Pos)

  /** One turn of the walking loop: leave, turn right in place, or move one cell. */
  function StepFrom(m: Map, p: Pos, d: Dir): (s: Step)
    ensures s == Exit <==> Outside(m, p.0 + Delta(d).0, p.1 + Delta(d).1)
    ensures s.Turn? ==> s.d == TurnRight(d) && Blocked(m, p.0 + Delta(d).0, p.1 + Delta(d).1)
    ensures s.Move? ==> s.p == (p.0 + Delta(d).0, p.1 + Delta(d).1) && InBounds(m, s.p) && !Blocked(m, s.p.0, s.p.1)
  {
    var next := (p.0 + Delta(d).0, p.1 + Delta(d).1);
    if Outside(m, next.0, next.1) then Exit
    else if Blocked(m, next.0, next.1) then Turn(TurnRight(d))
    else Move(next)
  }

  // ---------------------------------------------------------------------------
  // The guard's track, move by move
  // ---------------------------------------------------------------------------

  /** Where the guard is after some moves, or that it has left, or that it is boxed in. */
  datatype Next = Moved(p: Pos, d: Dir) | Gone | Boxed

  /**
   * The next move from p facing d after `turns` turns already made there:
   * turns until a cell ahead is free or the map ends. Four turns in a row
   * mean every side is blocked.
   */
  function NextMove(m: Map, p: Pos, d: Dir, turns: nat): (r: Next)
    requires turns <= 4
    ensures r.Moved? ==> InBounds(m, r.p)
    decreases 4 - turns
  {
    if turns == 4 then Boxed
    else match StepFrom(m, p, d)
      case Exit => Gone
      case Turn(d') => NextMove(m, p, d', turns + 1)
      case Move(q) => Moved(q, d)
  }

  /** The guard after k moves, Moved(p, d) for none. */
  function After(m: Map, p: Pos, d: Dir, turns: nat, k: nat): (r: Next)
    requires turns <= 4
    ensures k > 0 && r.Moved? ==> InBounds(m, r.p)
    decreases k
  {
    if k == 0 then Moved(p, d)
    else match NextMove(m, p, d, turns)
      case Moved(q, d') => After(m, q, d', 0, k - 1)
      case other => other
  }

  /** A turn in place changes nothing about the moves that follow. */
  lemma AfterTurn(m: Map, p: Pos, d: Dir, turns: nat, k: nat)
    requires turns < 4 && StepFrom(m, p, d).Turn?
    ensures k > 0 ==> After(m, p, d, turns, k) == After(m, p, StepFrom(m, p, d).d, turns + 1, k)
  {
  }

  /** A move takes the guard to the next cell with one move fewer to go. */
  lemma AfterMove(m: Map, p: Pos, d: Dir, turns: nat, k: nat)
    requires turns < 4 && StepFrom(m, p, d).Move? && k > 0
    ensures After(m, p, d, turns, k) == After(m, StepFrom(m, p, d).p, d, 0, k - 1)
  {
  }

  /** Walking off the map ends the track. */
  lemma AfterExit(m: Map, p: Pos, d: Dir, turns: nat, k: nat)
    requires turns < 4 && StepFrom(m, p, d) == Exit && k > 0
    ensures After(m, p, d, turns, k) == Gone
  {
  }

  // ---------------------------------------------------------------------------
  // Part 1
  // ---------------------------------------------------------------------------

  /** The part-1 walk: the cells stood on, the last one, and the number of moves. */
  datatype Walked = Walked(visited: set<Pos>, last: Pos, moves: nat)

  /**
   * The `while(true)` walk of part 1, given fuel for its turns: a cell is
   * recorded when the guard moves off it and when it leaves the map from it.
   * None when the fuel runs out, which includes a guard boxed in on four sides.
   */
  function Walk(m: Map, p: Pos, d: Dir, turns: nat, fuel: nat): (r: Option<Walked>)
    requires turns <= 4
    ensures r.Some? ==> p in r.value.visited && r.value.last in r.value.visited
    ensures r.Some? ==> forall q :: q in r.value.visited ==> q == p || InBounds(m, q)
    decreases fuel
  {
    if fuel == 0 || turns == 4 then None
    else match StepFrom(m, p, d)
      case Exit => Some(Walked({p}, p, 0))
      case Turn(d') => Walk(m, p, d', turns + 1, fuel - 1)
      case Move(q) =>
        match Walk(m, q, d, 0, fuel - 1)
        case None => None
        case Some(w) => Some(Walked(w.visited + {p}, w.last, w.moves + 1))
  }

  /** More fuel never changes a walk that finished. */
  lemma {:induction false} WalkMoreFuel(m: Map, p: Pos, d: Dir, turns: nat, fuel: nat, more: nat)
    requires turns <= 4 && Walk(m, p, d, turns, fuel).Some? && fuel <= more
    ensures Walk(m, p, d, turns, more) == Walk(m, p, d, turns, fuel)
    decreases fuel
  {
    if turns < 4 {
      match StepFrom(m, p, d)
      case Exit =>
      case Turn(d') => WalkMoreFuel(m, p, d', turns + 1, fuel - 1, more - 1);
      case Move(q) => WalkMoreFuel(m, q, d, 0, fuel - 1, more - 1);
    }
  }

  /**
   * w describes the track from p: its cells are exactly the positions after
   * 0 to w.moves moves, the last of them is w.last, and the move after that
   * leaves the map.
   */
  ghost predicate Tracks(m: Map, p: Pos, d: Dir, turns: nat, w: Walked)
    requires turns <= 4
  {
    && After(m, p, d, turns, w.moves).Moved? && After(m, p, d, turns, w.moves).p == w.last
    && After(m, p, d, turns, w.moves + 1) == Gone
    && forall q :: Visits(m, p, d, turns, w, q)
  }

  /** q is in w's cells iff the guard stands on q after at most w.moves moves. */
  ghost predicate Visits(m: Map, p: Pos, d: Dir, turns: nat, w: Walked, q: Pos)
    requires turns <= 4
  {
    q in w.visited <==> exists k :: 0 <= k <= w.moves && StandsOn(m, p, d, turns, k, q)
  }

  /** After k moves the guard stands on q. */
  ghost predicate StandsOn(m: Map, p: Pos, d: Dir, turns: nat, k: nat, q: Pos)
    requires turns <= 4
  {
    After(m, p, d, turns, k).Moved? && After(m, p, d, turns, k).p == q
  }

  lemma TrackExit(m: Map, p: Pos, d: Dir, turns: nat)
    requires turns < 4 && StepFrom(m, p, d) == Exit
    ensures Tracks(m, p, d, turns, Walked({p}, p, 0))
  {
    var w := Walked({p}, p, 0);
    assert StandsOn(m, p, d, turns, 0, p);
    forall v ensures Visits(m, p, d, turns, w, v) {
      assert StandsOn(m, p, d, turns, 0, v) <==> v == p;
    }
  }

  lemma TrackTurn(m: Map, p: Pos, d: Dir, turns: nat, w: Walked)
    requires turns < 4 && StepFrom(m, p, d).Turn?
    requires Tracks(m, p, StepFrom(m, p, d).d, turns + 1, w)
    ensures Tracks(m, p, d, turns, w)
  {
    var d' := StepFrom(m, p, d).d;
    var t' := turns + 1;
    AfterTurn(m, p, d, turns, w.moves + 1);
    AfterTurn(m, p, d, turns, w.moves);
    forall v ensures Visits(m, p, d, turns, w, v) {
      assert Visits(m, p, d', t', w, v);
      forall k | 0 <= k <= w.moves ensures StandsOn(m, p, d, turns, k, v) <==> StandsOn(m, p, d', t', k, v) {
        AfterTurn(m, p, d, turns, k);
      }
      if exists k :: 0 <= k <= w.moves && StandsOn(m, p, d', t', k, v) {
        var k :| 0 <= k <= w.moves && StandsOn(m, p, d', t', k, v);
        assert StandsOn(m, p, d, turns, k, v);
      }
      if exists k :: 0 <= k <= w.moves && StandsOn(m, p, d, turns, k, v) {
        var k :| 0 <= k <= w.moves && StandsOn(m, p, d, turns, k, v);
        assert StandsOn(m, p, d', t', k, v);
      }
    }
  }

  lemma TrackMove(m: Map, p: Pos, d: Dir, turns: nat, w: Walked)
    requires turns < 4 && StepFrom(m, p, d).Move?
    requires Tracks(m, StepFrom(m, p, d).p, d, 0, w)
    ensures Tracks(m, p, d, turns, Walked(w.visited + {p}, w.last, w.moves + 1))
  {
    var q := StepFrom(m, p, d).p;
    var w' := Walked(w.visited + {p}, w.last, w.moves + 1);
    forall k | 0 < k
      ensures After(m, p, d, turns, k) == After(m, q, d, 0, k - 1)
    {
    }
    forall v ensures Visits(m, p, d, turns, w', v) {
      assert Visits(m, q, d, 0, w, v);
      assert StandsOn(m, p, d, turns, 0, v) <==> v == p;
      forall k | 0 < k <= w'.moves ensures StandsOn(m, p, d, turns, k, v) <==> StandsOn(m, q, d, 0, k - 1, v) {
      }
      if v in w.visited {
        var k :| 0 <= k <= w.moves && StandsOn(m, q, d, 0, k, v);
        assert StandsOn(m, p, d, turns, k + 1, v);
      }
    }
  }

  /**
   * The part-1 set is exactly the positions of the guard's track up to its
   * last cell, and the move after that leaves the map.
   */
  lemma {:induction false} WalkTrack(m: Map, p: Pos, d: Dir, turns: nat, fuel: nat)
    requires turns <= 4 && Walk(m, p, d, turns, fuel).Some?
    ensures Tracks(m, p, d, turns, Walk(m, p, d, turns, fuel).value)
    decreases fuel
  {
    match StepFrom(m, p, d)
    case Exit =>
      TrackExit(m, p, d, turns);
    case Turn(d') =>
      WalkTrack(m, p, d', turns + 1, fuel - 1);
      TrackTurn(m, p, d, turns, Walk(m, p, d', turns + 1, fuel - 1).value);
    case Move(q) =>
      WalkTrack(m, q, d, 0, fuel - 1);
      TrackMove(m, p, d, turns, Walk(m, q, d, 0, fuel - 1).value);
  }

  /** Part 1: the number of cells stood on; None when the walk does not finish within the fuel. */
  function Part1(m: Map, start: Pos, dir: Dir, fuel: nat): Option<nat> {
    match Walk(m, start, dir, 0, fuel)
    case None => None
    case Some(w) => Some(|w.visited|)
  }

  // ---------------------------------------------------------------------------
  // Part 2: one trial
  // ---------------------------------------------------------------------------

  /**
   * How a trial ends: the guard walks off, makes the full budget of moves
   * (counted as a loop), or turns forever in place, boxed in; the source
   * never returns from the last.
   */
  datatype Outcome = Escaped | Looped | Stuck

  /** The trial walk of part 2 with `steps` moves made and `turns` turns since the last move. */
  function Trial(m: Map, p: Pos, d: Dir, steps: nat, total: nat, turns: nat): Outcome
    requires turns <= 4
    decreases total - steps, 4 - turns
  {
    if steps >= total then Looped
    else if turns == 4 then Stuck
    else match StepFrom(m, p, d)
      case Exit => Escaped
      case Turn(d') => Trial(m, p, d', steps, total, turns + 1)
      case Move(q) => Trial(m, q, d, steps + 1, total, 0)
  }

  function Verdict(n: Next): Outcome {
    match n
    case Moved(_, _) => Looped
    case Gone => Escaped
    case Boxed => Stuck
  }

  /**
   * A trial is a loop iff the guard can make the whole budget of moves
   * without leaving; it escapes iff the guard leaves first.
   */
  lemma {:induction false} TrialTrack(m: Map, p: Pos, d: Dir, steps: nat, total: nat, turns: nat)
    requires turns <= 4
    ensures Trial(m, p, d, steps, total, turns) == Verdict(After(m, p, d, turns, if steps >= total then 0 else total - steps))
    decreases total - steps, 4 - turns
  {
    if steps < total && turns < 4 {
      var k := total - steps;
      match StepFrom(m, p, d)
      case Exit =>
        AfterExit(m, p, d, turns, k);
      case Turn(d') =>
        TrialTrack(m, p, d', steps, total, turns + 1);
        AfterTurn(m, p, d, turns, k);
      case Move(q) =>
        TrialTrack(m, q, d, steps + 1, total, 0);
        AfterMove(m, p, d, turns, k);
    }
  }

  /** One turn of the trial loop, in the loop's own tests. */
  lemma TrialStep(m: Map, p: Pos, d: Dir, steps: nat, total: nat, turns: nat)
    requires turns < 4 && steps < total
    ensures var next := (p.0 + Delta(d).0, p.1 + Delta(d).1);
      Trial(m, p, d, steps, total, turns) ==
        if Outside(m, next.0, next.1) then Escaped
        else if Blocked(m, next.0, next.1) then Trial(m, p, TurnRight(d), steps, total, turns + 1)
        else Trial(m, next, d, steps + 1, total, 0)
  {
  }

  /** `totalCells`: the rows times the width of row 0. */
  function Total(m: Map): nat
    requires |m| > 0
  {
    |m| * |m[0]|
  }

  /** The `while(steps < totalCells)` loop of one trial. */
  method RunTrial(m: Map, start: Pos, dir: Dir, total: nat) returns (outcome: Outcome)
    ensures outcome == Trial(m, start, dir, 0, total, 0)
    ensures outcome == Verdict(After(m, start, dir, 0, total))
  {
    TrialTrack(m, start, dir, 0, total, 0);
    var guard := start;
    var direction := dir;
    var steps := 0;
    var turns := 0;
    while steps < total
      invariant turns <= 4
      invariant Trial(m, guard, direction, steps, total, turns) == Trial(m, start, dir, 0, total, 0)
      decreases total - steps, 4 - turns
    {
      if turns == 4 {
        return Stuck;
      }
      TrialStep(m, guard, direction, steps, total, turns);
      var next := (guard.0 + Delta(direction).0, guard.1 + Delta(direction).1);
      if Outside(m, next.0, next.1) {
        return Escaped;
      }
      if Blocked(m, next.0, next.1) {
        direction := TurnRight(direction);
        turns := turns + 1;
      } else {
        guard := next;
        steps := steps + 1;
        turns := 0;
      }
    }
    return Looped;
  }

  // ---------------------------------------------------------------------------
  // Part 2: placing and restoring the temporary obstacle
  // ---------------------------------------------------------------------------

  /** `map[x][y] = c`; a row too short first grows, with missing cells that read as land. */
  function Place(m: Map, p: Pos, c: Cell): (r: Map)
    requires 0 <= p.0 < |m| && 0 <= p.1
    ensures |r| == |m|
  {
    var row := m[p.0];
    var padded := if p.1 < |row| then row else row + seq(p.1 - |row| + 1, _ => Land);
    m[p.0 := padded[p.1 := c]]
  }

  /** Placing changes the one cell and no other row; an existing row keeps its width. */
  lemma PlaceCells(m: Map, p: Pos, c: Cell)
    requires 0 <= p.0 < |m| && 0 <= p.1
    ensures forall x :: 0 <= x < |m| && x != p.0 ==> Place(m, p, c)[x] == m[x]
    ensures p.1 < |m[p.0]| ==> |Place(m, p, c)[p.0]| == |m[p.0]|
    ensures forall x, y :: 0 <= x < |m| && 0 <= y ==> At(Place(m, p, c), x, y) == if (x, y) == p then c else At(m, x, y)
  {
  }

  /** Restoring the original cell gives the map back exactly, when the cell existed. */
  lemma PlaceRestore(m: Map, p: Pos, c: Cell)
    requires 0 <= p.0 < |m| && 0 <= p.1 < |m[p.0]|
    ensures Place(Place(m, p, c), p, At(m, p.0, p.1)) == m
  {
    PlaceCells(m, p, c);
    PlaceCells(Place(m, p, c), p, At(m, p.0, p.1));
    var r := Place(Place(m, p, c), p, At(m, p.0, p.1));
    assert r[p.0] == m[p.0];
  }

  /** Two maps that no walk can tell apart: same size, same width, same cells. */
  ghost predicate Agrees(a: Map, b: Map) {
    && |a| == |b| && Width(a) == Width(b)
    && forall x, y :: SameCell(a, b, x, y)
  }

  /** The width the bounds check uses: that of row 0. */
  function Width(m: Map): nat {
    if |m| == 0 then 0 else |m[0]|
  }

  /** Cell (x, y) reads the same on a and b, as far as it is a cell of a. */
  ghost predicate SameCell(a: Map, b: Map, x: int, y: int)
    requires |a| == |b|
  {
    0 <= x < |a| && 0 <= y ==> At(a, x, y) == At(b, x, y)
  }

  lemma AgreesTrans(a: Map, b: Map, c: Map)
    requires Agrees(a, b) && Agrees(b, c)
    ensures Agrees(a, c)
  {
    forall x, y ensures SameCell(a, c, x, y) {
      assert SameCell(a, b, x, y) && SameCell(b, c, x, y);
    }
  }

  /** Restoring the original cell gives a map no walk can tell from the original. */
  lemma RestoreAgrees(m: Map, p: Pos, c: Cell)
    requires InBounds(m, p)
    ensures Agrees(Place(Place(m, p, c), p, At(m, p.0, p.1)), m)
  {
    PlaceCells(m, p, c);
    var r := Place(Place(m, p, c), p, At(m, p.0, p.1));
    PlaceCells(Place(m, p, c), p, At(m, p.0, p.1));
    forall x, y ensures SameCell(r, m, x, y) {
    }
  }

  lemma PlaceAgrees(a: Map, b: Map, p: Pos, c: Cell)
    requires Agrees(a, b) && InBounds(a, p)
    ensures Agrees(Place(a, p, c), Place(b, p, c))
  {
    PlaceCells(a, p, c);
    PlaceCells(b, p, c);
    forall x, y ensures SameCell(Place(a, p, c), Place(b, p, c), x, y) {
      assert SameCell(a, b, x, y);
    }
  }

  /** Walks on maps that agree end the same way. */
  lemma {:induction false} TrialAgrees(a: Map, b: Map, p: Pos, d: Dir, steps: nat, total: nat, turns: nat)
    requires Agrees(a, b) && turns <= 4
    ensures Trial(a, p, d, steps, total, turns) == Trial(b, p, d, steps, total, turns)
    decreases total - steps, 4 - turns
  {
    assert SameCell(a, b, p.0 + Delta(d).0, p.1 + Delta(d).1);
    assert StepFrom(a, p, d) == StepFrom(b, p, d);
    if steps < total && turns < 4 {
      match StepFrom(a, p, d)
      case Exit =>
      case Turn(d') => TrialAgrees(a, b, p, d', steps, total, turns + 1);
      case Move(q) => TrialAgrees(a, b, q, d, steps + 1, total, 0);
    }
  }

  /** The trial with the temporary obstacle at p, on the original map. */
  function TrialOf(m: Map, start: Pos, dir: Dir, p: Pos): Outcome
    requires InBounds(m, p)
  {
    Trial(Place(m, p, TempObstacle), start, dir, 0, Total(m), 0)
  }

  /** A temporary obstacle at p, not the start, makes the guard loop. */
  predicate LoopsAt(m: Map, start: Pos, dir: Dir, p: Pos) {
    p != start && InBounds(m, p) && TrialOf(m, start, dir, p) == Looped
  }

  /** The candidates of s whose trial loops: never the start. */
  function LoopSet(m: Map, start: Pos, dir: Dir, s: set<Pos>): (r: set<Pos>)
    ensures r <= s && start !in r
  {
    set p | p in s && LoopsAt(m, start, dir, p)
  }

  lemma LoopSetAdd(m: Map, start: Pos, dir: Dir, s: set<Pos>, p: Pos)
    requires p !in s
    ensures |LoopSet(m, start, dir, s + {p})| == |LoopSet(m, start, dir, s)| + if LoopsAt(m, start, dir, p) then 1 else 0
  {
    if LoopsAt(m, start, dir, p) {
      assert LoopSet(m, start, dir, s + {p}) == LoopSet(m, start, dir, s) + {p};
    } else {
      assert LoopSet(m, start, dir, s + {p}) == LoopSet(m, start, dir, s);
    }
  }

  /**
   * One round on a map that agrees with the original: the trial ends as on
   * the original, and the restored map still agrees with it.
   */
  lemma TrialRound(m: Map, m0: Map, start: Pos, dir: Dir, p: Pos)
    requires Agrees(m, m0) && InBounds(m0, p)
    ensures Trial(Place(m, p, TempObstacle), start, dir, 0, |m| * |m[0]|, 0) == TrialOf(m0, start, dir, p)
    ensures Agrees(Place(Place(m, p, TempObstacle), p, At(m, p.0, p.1)), m0)
  {
    PlaceAgrees(m, m0, p, TempObstacle);
    TrialAgrees(Place(m, p, TempObstacle), Place(m0, p, TempObstacle), start, dir, 0, Total(m0), 0);
    RestoreAgrees(m, p, TempObstacle);
    AgreesTrans(Place(Place(m, p, TempObstacle), p, At(m, p.0, p.1)), m, m0);
  }

  /**
   * One turn of the part-2 loop: place the temporary obstacle at p, run the
   * trial, and put the original cell back.
   */
  method Round(m: Map, ghost m0: Map, start: Pos, dir: Dir, p: Pos) returns (m': Map, outcome: Outcome)
    requires Agrees(m, m0) && InBounds(m0, p)
    ensures outcome == TrialOf(m0, start, dir, p)
    ensures Agrees(m', m0)
    ensures p.1 < |m[p.0]| ==> m' == m
  {
    var original := At(m, p.0, p.1);
    var trialMap := Place(m, p, TempObstacle);
    outcome := RunTrial(trialMap, start, dir, |m| * |m[0]|);
    TrialRound(m, m0, start, dir, p);
    m' := Place(trialMap, p, original);
    if p.1 < |m[p.0]| {
      PlaceRestore(m, p, TempObstacle);
    }
  }

  /** A cell of done is the start, or a cell in bounds whose trial does not box the guard in. */
  ghost predicate Fine(m0: Map, start: Pos, dir: Dir, done: set<Pos>, q: Pos) {
    q in done ==> q == start || (InBounds(m0, q) && TrialOf(m0, start, dir, q) != Stuck)
  }

  /** loops counts the looping trials of done, and none of them boxed the guard in. */
  ghost predicate Tally(m0: Map, start: Pos, dir: Dir, done: set<Pos>, loops: nat) {
    && loops == |LoopSet(m0, start, dir, done)|
    && forall q :: Fine(m0, start, dir, done, q)
  }

  lemma TallyStep(m0: Map, start: Pos, dir: Dir, done: set<Pos>, loops: nat, p: Pos, outcome: Outcome)
    requires Tally(m0, start, dir, done, loops) && p !in done && (p == start || InBounds(m0, p))
    requires p != start ==> outcome == TrialOf(m0, start, dir, p) && outcome != Stuck
    ensures Tally(m0, start, dir, done + {p}, loops + if p != start && outcome == Looped then 1 else 0)
  {
    LoopSetAdd(m0, start, dir, done, p);
    var done' := done + {p};
    forall q ensures Fine(m0, start, dir, done', q) {
      assert Fine(m0, start, dir, done, q);
    }
  }

  /** A tally of every cell leaves no cell whose trial boxes the guard in. */
  lemma TallyNoneBoxed(m0: Map, start: Pos, dir: Dir, done: set<Pos>, loops: nat, p: Pos)
    requires Tally(m0, start, dir, done, loops) && p in done && p != start
    ensures InBounds(m0, p) && TrialOf(m0, start, dir, p) != Stuck
  {
    assert Fine(m0, start, dir, done, p);
  }

  /**
   * One pass of the part-2 loop at p: the start is skipped, any other cell
   * gets its round. None when the trial boxes the guard in.
   */
  method Visit(m: Map, ghost m0: Map, start: Pos, dir: Dir, p: Pos, ghost done: set<Pos>, loops: nat) returns (m': Map, next: Option<nat>)
    requires Agrees(m, m0) && Tally(m0, start, dir, done, loops)
    requires p !in done && (p == start || InBounds(m0, p))
    ensures Agrees(m', m0)
    ensures next.None? <==> p != start && TrialOf(m0, start, dir, p) == Stuck
    ensures next.Some? ==> Tally(m0, start, dir, done + {p}, next.value)
  {
    m' := m;
    var outcome := Escaped;
    if p != start {
      m', outcome := Round(m, m0, start, dir, p);
      if outcome == Stuck {
        return m', None;
      }
    }
    var found := if p != start && outcome == Looped then 1 else 0;
    TallyStep(m0, start, dir, done, loops, p, outcome);
    next := Some(loops + found);
  }

  /**
   * The `for (const posStr of visitedPositions)` loop, in whatever order the
   * set yields its cells: each cell but the start gets a temporary obstacle,
   * a trial, and its original cell back. None as soon as a trial boxes the
   * guard in.
   */
  method Tour(m0: Map, start: Pos, dir: Dir, visited: set<Pos>) returns (count: Option<nat>)
    requires forall p :: p in visited ==> p == start || InBounds(m0, p)
    ensures count.None? ==> exists p :: p in visited && p != start && InBounds(m0, p) && TrialOf(m0, start, dir, p) == Stuck
    ensures count.Some? ==> Tally(m0, start, dir, visited, count.value)
  {
    var m := m0;
    var loops := 0;
    var remaining := visited;
    ghost var done: set<Pos> := {};
    while remaining != {}
      invariant remaining + done == visited && remaining !! done
      invariant Agrees(m, m0)
      invariant Tally(m0, start, dir, done, loops)
      decreases |remaining|
    {
      var p :| p in remaining;
      var next;
      m, next := Visit(m, m0, start, dir, p, done, loops);
      if next.None? {
        return None;
      }
      loops := next.value;
      done := done + {p};
      remaining := remaining - {p};
    }
    count := Some(loops);
  }

  /**
   * Part 2: the number of cells of the walk, bar the start, where a temporary
   * obstacle makes the guard loop. None for an empty map (the source fails
   * reading `map[0]`) or when a trial boxes the guard in.
   */
  method CountLoops(m0: Map, start: Pos, dir: Dir, visited: set<Pos>) returns (count: Option<nat>)
    requires forall p :: p in visited ==> p == start || InBounds(m0, p)
    ensures |m0| == 0 ==> count == None
    ensures |m0| > 0 ==> (count.None? <==> exists p :: p in visited && p != start && TrialOf(m0, start, dir, p) == Stuck)
    ensures count.Some? ==> count.value == |LoopSet(m0, start, dir, visited)|
  {
    if |m0| == 0 {
      return None;
    }
    count := Tour(m0, start, dir, visited);
    if count.Some? {
      forall p | p in visited && p != start
        ensures TrialOf(m0, start, dir, p) != Stuck
      {
        TallyNoneBoxed(m0, start, dir, visited, count.value, p);
      }
    }
  }

  /**
   * Both parts on the lines of the input: part 1 the cells stood on, part 2
   * the trials that loop. None for a part that does not finish (part 1 within
   * the fuel).
   */
  method Solve(lines: seq<string>, fuel: nat) returns (part1: Option<nat>, part2: Option<nat>)
    ensures part1 == Part1(ReadMap(lines), Start(lines).0, Start(lines).1, fuel)
    ensures part1.None? ==> part2.None?
    ensures part2.Some? ==> var w := Walk(ReadMap(lines), Start(lines).0, Start(lines).1, 0, fuel);
      w.Some? && part2.value == |LoopSet(ReadMap(lines), Start(lines).0, Start(lines).1, w.value.visited)|
  {
    var m := ReadMap(lines);
    var (start, dir) := Start(lines);
    var w := Walk(m, start, dir, 0, fuel);
    if w.None? {
      return None, None;
    }
    part1 := Some(|w.value.visited|);
    part2 := CountLoops(m, start, dir, w.value.visited);
  }
}

=== FILE: joltage.dfy ===
/**
 * 3/index.mjs: from each bank (a line of digits) pick 12 digits, keeping their
 * order, so that the 12-digit number they form is as large as possible. The
 * source does it greedily; its unused `getNumsRecursive` enumerates every
 * choice and keeps the largest, which serves here as the reference.
 */
module Joltage {
  import opened Text

  const Picks := 12

  function Max(a: int, b: int): int {
    if a >= b then a else b
  }

  // ---------------------------------------------------------------------------
  // Decimal place value, by repeated multiplication by ten
  // ---------------------------------------------------------------------------

  /** d followed by k zeros: `d * 10^k`. */
  function Shifted(d: nat, k: nat): nat {
    if k == 0 then d else 10 * Shifted(d, k - 1)
  }

  lemma {:induction false} ShiftedZero(k: nat)
    ensures Shifted(0, k) == 0
  {
    if k > 0 {
      ShiftedZero(k - 1);
    }
  }

  /** Shifting is multiplying by a power of ten. */
  lemma {:induction false} ShiftedIsProduct(d: nat, k: nat)
    ensures Shifted(d, k) == d * Pow10(k)
  {
    if k > 0 {
      ShiftedIsProduct(d, k - 1);
      assert d * (10 * Pow10(k - 1)) == 10 * (d * Pow10(k - 1));
    }
  }

  lemma {:induction false} ShiftedAdd(a: nat, b: nat, k: nat)
    ensures Shifted(a + b, k) == Shifted(a, k) + Shifted(b, k)
  {
    if k > 0 {
      ShiftedAdd(a, b, k - 1);
    }
  }

  lemma {:induction false} ShiftedTen(a: nat, k: nat)
    ensures Shifted(10 * a, k) == Shifted(a, k + 1)
  {
    if k > 0 {
      ShiftedTen(a, k - 1);
    }
  }

  /** A digit followed by k zeros stays below 10^(k+1) by at least 10^k. */
  lemma {:induction false} ShiftedBelow(d: nat, k: nat)
    requires d <= 9
    ensures Shifted(d, k) + Pow10(k) <= Pow10(k + 1)
  {
    if k > 0 {
      ShiftedBelow(d, k - 1);
    }
  }

  /** A smaller leading digit loses by at least 10^k. */
  lemma {:induction false} ShiftedMonotone(a: nat, b: nat, k: nat)
    requires a < b
    ensures Shifted(a, k) + Pow10(k) <= Shifted(b, k)
  {
    if k > 0 {
      ShiftedMonotone(a, b, k - 1);
    }
  }

  /** Appending digit d to num, then t more digits, is num followed by the t + 1 digits. */
  lemma LeadAppend(num: nat, d: nat, t: nat, rest: nat)
    ensures Lead(num * 10 + d, t, rest) == Lead(num, t + 1, Lead(d, t, rest))
  {
    ShiftedAdd(10 * num, d, t);
    ShiftedTen(num, t);
  }

  // ---------------------------------------------------------------------------
  // The reference: the largest number over all choices of k digits
  // ---------------------------------------------------------------------------

  /** Digit c first, then the best k-1 digits after it. */
  function Cand(s: string, c: nat, k: nat): nat
    requires AllDigits(s) && k >= 1 && c + k <= |s|
    decreases k, 0, 0
  {
    Lead(DigitValue(s[c]), k - 1, MaxFrom(s, c + 1, k - 1))
  }

  /** The largest number formed by k digits of s taken in order from index b on. */
  function MaxFrom(s: string, b: nat, k: nat): nat
    requires AllDigits(s) && b + k <= |s|
    decreases k, 2, 0
  {
    if k == 0 then 0 else MaxCands(s, b, |s| - k, k)
  }

  /** The largest of Cand(s, c, k) for lo <= c <= hi. */
  function MaxCands(s: string, lo: nat, hi: nat, k: nat): nat
    requires AllDigits(s) && k >= 1 && lo <= hi && hi + k <= |s|
    decreases k, 1, hi - lo
  {
    if lo == hi then Cand(s, hi, k) else Max(Cand(s, lo, k), MaxCands(s, lo + 1, hi, k))
  }

  lemma {:induction false} MaxCandsIsMax(s: string, lo: nat, hi: nat, k: nat)
    requires AllDigits(s) && k >= 1 && lo <= hi && hi + k <= |s|
    ensures forall c :: lo <= c <= hi ==> Cand(s, c, k) <= MaxCands(s, lo, hi, k)
    ensures exists c :: lo <= c <= hi && Cand(s, c, k) == MaxCands(s, lo, hi, k)
    decreases hi - lo
  {
    if lo == hi {
      assert Cand(s, hi, k) == MaxCands(s, lo, hi, k);
    } else {
      MaxCandsIsMax(s, lo + 1, hi, k);
      if Cand(s, lo, k) < MaxCands(s, lo + 1, hi, k) {
        var c :| lo + 1 <= c <= hi && Cand(s, c, k) == MaxCands(s, lo + 1, hi, k);
        assert Cand(s, c, k) == MaxCands(s, lo, hi, k);
      } else {
        assert Cand(s, lo, k) == MaxCands(s, lo, hi, k);
      }
    }
  }

  /** Starting later never gives a larger number. */
  lemma MaxFromMonotone(s: string, b: nat, b': nat, k: nat)
    requires AllDigits(s) && b <= b' && b' + k <= |s|
    ensures MaxFrom(s, b', k) <= MaxFrom(s, b, k)
  {
    if k > 0 {
      MaxCandsIsMax(s, b, |s| - k, k);
      MaxCandsIsMax(s, b', |s| - k, k);
    }
  }

  /** k digits make a number below 10^k. */
  lemma {:induction false} MaxFromBound(s: string, b: nat, k: nat)
    requires AllDigits(s) && b + k <= |s|
    ensures MaxFrom(s, b, k) < Pow10(k)
    decreases k
  {
    if k > 0 {
      MaxCandsIsMax(s, b, |s| - k, k);
      var c :| b <= c <= |s| - k && Cand(s, c, k) == MaxFrom(s, b, k);
      MaxFromBound(s, c + 1, k - 1);
      ShiftedBelow(DigitValue(s[c]), k - 1);
    }
  }

  // ---------------------------------------------------------------------------
  // getNumsRecursive, with the global lineMax threaded through
  // ---------------------------------------------------------------------------

  /**
   * The `for (b ...)` loop of `getNumsRecursive(line, b0, numSoFar, numsToGo)`
   * from a given b on: digit b is appended to numSoFar and either recorded in
   * lineMax (last digit) or extended by the recursive call.
   */
  function Enumerate(s: string, b: nat, soFar: nat, toGo: nat, lineMax: int): int
    requires AllDigits(s)
    decreases toGo, |s| - b
  {
    if b >= |s| - toGo then lineMax
    else
      var newNum := soFar * 10 + DigitValue(s[b]);
      var lm := if toGo == 0 then (if newNum > lineMax then newNum else lineMax)
                else Enumerate(s, b + 1, newNum, toGo - 1, lineMax);
      Enumerate(s, b + 1, soFar, toGo, lm)
  }

  /** The enumerator records the largest number over all choices, after what lineMax held. */
  lemma {:induction false} EnumerateIsMax(s: string, b: nat, soFar: nat, t: nat, lm: int)
    requires AllDigits(s)
    ensures b + t + 1 <= |s| ==> Enumerate(s, b, soFar, t, lm) == Max(lm, Lead(soFar, t + 1, MaxFrom(s, b, t + 1)))
    ensures b + t + 1 > |s| ==> Enumerate(s, b, soFar, t, lm) == lm
    decreases t, |s| - b
  {
    if b + t + 1 <= |s| {
      var d := DigitValue(s[b]);
      var newNum := soFar * 10 + d;
      var x := Shifted(soFar, t + 1);
      var lm1 := if t == 0 then (if newNum > lm then newNum else lm)
                 else Enumerate(s, b + 1, newNum, t - 1, lm);
      assert lm1 == Max(lm, x + Cand(s, b, t + 1)) by {
        if t == 0 {
          assert Cand(s, b, 1) == d;
          assert Shifted(soFar, 0) == soFar;
        } else {
          EnumerateIsMax(s, b + 1, newNum, t - 1, lm);
          LeadAppend(soFar, d, t, MaxFrom(s, b + 1, t));
          assert Lead(newNum, t, MaxFrom(s, b + 1, t)) == x + Cand(s, b, t + 1);
        }
      }
      EnumerateIsMax(s, b + 1, soFar, t, lm1);
      if b + 1 + t + 1 <= |s| {
        assert MaxFrom(s, b, t + 1) == Max(Cand(s, b, t + 1), MaxFrom(s, b + 1, t + 1));
      } else {
        assert MaxFrom(s, b, t + 1) == Cand(s, b, t + 1);
      }
    }
  }

  /** `getNumsRecursive(line, -1, 0, 11)` leaves the largest 12-digit choice in lineMax. */
  lemma EnumeratorFindsMax(s: string, picks: nat)
    requires AllDigits(s) && 1 <= picks <= |s|
    ensures Enumerate(s, 0, 0, picks - 1, -1) == MaxFrom(s, 0, picks)
  {
    EnumerateIsMax(s, 0, 0, picks - 1, -1);
    ShiftedZero(picks);
  }

  // ---------------------------------------------------------------------------
  // The greedy choice
  // ---------------------------------------------------------------------------

  /** `Math.max(...avaliable)`: the largest digit of the window s[lo..hi]. */
  function MaxDigit(s: string, lo: nat, hi: nat): nat
    requires AllDigits(s) && lo < hi <= |s|
    decreases hi - lo
  {
    if lo + 1 == hi then DigitValue(s[lo]) else Max(DigitValue(s[lo]), MaxDigit(s, lo + 1, hi))
  }

  /** No digit of the window is larger, and some digit of it is the largest. */
  lemma {:induction false} MaxDigitIsMax(s: string, lo: nat, hi: nat)
    requires AllDigits(s) && lo < hi <= |s|
    ensures forall j :: lo <= j < hi ==> DigitValue(s[j]) <= MaxDigit(s, lo, hi)
    ensures exists j :: lo <= j < hi && DigitValue(s[j]) == MaxDigit(s, lo, hi)
    decreases hi - lo
  {
    if lo + 1 < hi {
      MaxDigitIsMax(s, lo + 1, hi);
    }
  }

  /**
   * `avaliable.indexOf(m)` plus the window's offset: the first position of
   * digit m in s[lo..hi]. The last position stands for a digit that is
   * absent, which the caller never asks for.
   */
  function IndexOf(s: string, lo: nat, hi: nat, m: nat): (j: nat)
    requires AllDigits(s) && lo < hi <= |s|
    ensures lo <= j < hi
    decreases hi - lo
  {
    if lo + 1 == hi || DigitValue(s[lo]) == m then lo else IndexOf(s, lo + 1, hi, m)
  }

  /** A digit present in the window is found at its first position. */
  lemma {:induction false} IndexOfFirst(s: string, lo: nat, hi: nat, m: nat)
    requires AllDigits(s) && lo < hi <= |s|
    requires exists j :: lo <= j < hi && DigitValue(s[j]) == m
    ensures DigitValue(s[IndexOf(s, lo, hi, m)]) == m
    ensures forall j :: lo <= j < IndexOf(s, lo, hi, m) ==> DigitValue(s[j]) != m
    decreases hi - lo
  {
    if lo + 1 < hi && DigitValue(s[lo]) != m {
      IndexOfFirst(s, lo + 1, hi, m);
    }
  }

  /**
   * Where the greedy round picks when i digits are still to pick and the
   * window starts at start: it leaves i - 1 digits after it.
   */
  function PickAt(s: string, start: nat, i: nat): (p: nat)
    requires AllDigits(s) && i >= 1 && start + i <= |s|
    ensures start <= p <= |s| - i
  {
    IndexOf(s, start, |s| - i + 1, MaxDigit(s, start, |s| - i + 1))
  }

  /** The pick holds the window's largest digit, and no earlier digit of the window equals it. */
  lemma PickIsFirstMax(s: string, start: nat, i: nat)
    requires AllDigits(s) && i >= 1 && start + i <= |s|
    ensures var p := PickAt(s, start, i);
      && (forall j :: start <= j <= |s| - i ==> DigitValue(s[j]) <= DigitValue(s[p]))
      && (forall j :: start <= j < p ==> DigitValue(s[j]) < DigitValue(s[p]))
  {
    MaxDigitIsMax(s, start, |s| - i + 1);
    IndexOfFirst(s, start, |s| - i + 1, MaxDigit(s, start, |s| - i + 1));
  }

  /** The number the greedy rounds build from index start with i picks to go. */
  function Greedy(s: string, start: nat, i: nat): nat
    requires AllDigits(s) && start + i <= |s|
    decreases i
  {
    if i == 0 then 0
    else
      var p := PickAt(s, start, i);
      Lead(DigitValue(s[p]), i - 1, Greedy(s, p + 1, i - 1))
  }

  /** Digit d followed by a k-digit number. */
  function Lead(d: nat, k: nat, rest: nat): nat {
    Shifted(d, k) + rest
  }

  /** No candidate beats the greedy round's pick. */
  lemma PickBeatsOthers(s: string, start: nat, k: nat, c: nat)
    requires AllDigits(s) && k >= 1 && start + k <= |s|
    requires start <= c <= |s| - k
    ensures Cand(s, c, k) <= Cand(s, PickAt(s, start, k), k)
  {
    var p := PickAt(s, start, k);
    PickIsFirstMax(s, start, k);
    var m := DigitValue(s[p]);
    var dc := DigitValue(s[c]);
    if dc < m {
      MaxFromBound(s, c + 1, k - 1);
      ShiftedMonotone(dc, m, k - 1);
    } else {
      assert c >= p;
      MaxFromMonotone(s, p + 1, c + 1, k - 1);
    }
  }

  /** The greedy pick is the best choice: it equals the brute-force maximum. */
  lemma {:induction false} GreedyIsMax(s: string, start: nat, k: nat)
    requires AllDigits(s) && start + k <= |s|
    ensures Greedy(s, start, k) == MaxFrom(s, start, k)
    decreases k
  {
    if k > 0 {
      var p := PickAt(s, start, k);
      GreedyIsMax(s, p + 1, k - 1);
      GreedyCand(s, start, k, p, Greedy(s, p + 1, k - 1));
      PickIsMax(s, start, k);
    }
  }

  /** The greedy number is the pick's candidate once the rest is the best choice. */
  lemma GreedyCand(s: string, start: nat, k: nat, p: nat, rest: nat)
    requires AllDigits(s) && k >= 1 && start + k <= |s| && p == PickAt(s, start, k)
    requires rest == Greedy(s, p + 1, k - 1) && rest == MaxFrom(s, p + 1, k - 1)
    ensures Greedy(s, start, k) == Cand(s, p, k)
  {
    var d := DigitValue(s[p]);
    assert Greedy(s, start, k) == Lead(d, k - 1, Greedy(s, p + 1, k - 1));
    assert Cand(s, p, k) == Lead(d, k - 1, MaxFrom(s, p + 1, k - 1));
  }

  /** The pick's candidate is the best one. */
  lemma PickIsMax(s: string, start: nat, k: nat)
    requires AllDigits(s) && k >= 1 && start + k <= |s|
    ensures MaxFrom(s, start, k) == Cand(s, PickAt(s, start, k), k)
  {
    var p := PickAt(s, start, k);
    forall c | start <= c <= |s| - k ensures Cand(s, c, k) <= Cand(s, p, k) {
      PickBeatsOthers(s, start, k, c);
    }
    MaxCandsIsMax(s, start, |s| - k, k);
  }


  /** The number the loop ends with, when num is built and i picks from start remain. */
  function Pending(s: string, num: nat, start: nat, i: nat): nat
    requires AllDigits(s) && start + i <= |s|
  {
    Lead(num, i, Greedy(s, start, i))
  }

  /** A greedy round moves the picked digit from the pending part onto num. */
  lemma PendingStep(s: string, num: nat, start: nat, i: nat)
    requires AllDigits(s) && i >= 1 && start + i <= |s|
    ensures var p := PickAt(s, start, i);
      Pending(s, num, start, i) == Pending(s, num * 10 + DigitValue(s[p]), p + 1, i - 1)
  {
    var p := PickAt(s, start, i);
    LeadAppend(num, DigitValue(s[p]), i - 1, Greedy(s, p + 1, i - 1));
  }

  /**
   * One round of the loop: the pick `avaliable.indexOf(maxNum) + maxIndex + 1`
   * and the number `maxNum + num * 10` with the picked digit appended.
   */
  function GreedyRound(s: string, maxIndex: int, i: nat, num: nat): (r: (nat, nat))
    requires AllDigits(s) && i >= 1 && -1 <= maxIndex && maxIndex + 1 + i <= |s|
    ensures maxIndex < r.0 <= |s| - i
    ensures r.1 == num * 10 + DigitValue(s[r.0])
    ensures forall j :: maxIndex < j <= |s| - i ==> DigitValue(s[j]) <= DigitValue(s[r.0])
    ensures forall j :: maxIndex < j < r.0 ==> DigitValue(s[j]) < DigitValue(s[r.0])
    ensures Pending(s, num, maxIndex + 1, i) == Pending(s, r.1, r.0 + 1, i - 1)
  {
    var p := PickAt(s, maxIndex + 1, i);
    PickIsFirstMax(s, maxIndex + 1, i);
    PendingStep(s, num, maxIndex + 1, i);
    (p, num * 10 + DigitValue(s[p]))
  }

  /**
   * The body of `main` for one bank: twelve greedy rounds build the largest
   * number its digits can form in order, the one the enumerator records too.
   */
  method BankJoltage(s: string, picks: nat) returns (num: nat)
    requires AllDigits(s) && 1 <= picks <= |s|
    ensures num == Greedy(s, 0, picks)
    ensures num == MaxFrom(s, 0, picks)
    ensures num == Enumerate(s, 0, 0, picks - 1, -1)
  {
    num := 0;
    var maxIndex: int := -1;
    var i := picks;
    ShiftedZero(picks);
    while i > 0
      invariant 0 <= i <= picks
      invariant -1 <= maxIndex && maxIndex + 1 + i <= |s|
      invariant Pending(s, num, maxIndex + 1, i) == Greedy(s, 0, picks)
    {
      var round := GreedyRound(s, maxIndex, i, num);
      maxIndex, num := round.0, round.1;
      i := i - 1;
    }
    assert Pending(s, num, maxIndex + 1, 0) == num;
    GreedyIsMax(s, 0, picks);
    EnumeratorFindsMax(s, picks);
  }

  /** Every bank is a line of at least `picks` digits. */
  predicate Banks(banks: seq<string>, picks: nat) {
    forall j :: 0 <= j < |banks| ==> AllDigits(banks[j]) && |banks[j]| >= picks
  }

  /** The answer: the banks' largest `picks`-digit choices added up. */
  function TotalOf(banks: seq<string>, picks: nat): nat
    requires Banks(banks, picks)
  {
    if |banks| == 0 then 0 else TotalOf(banks[..|banks| - 1], picks) + MaxFrom(banks[|banks| - 1], 0, picks)
  }

  /** `sum` in `main`, which picks twelve digits per bank. */
  method Total(banks: seq<string>, picks: nat) returns (sum: nat)
    requires Banks(banks, picks) && picks >= 1
    ensures sum == TotalOf(banks, picks)
  {
    sum := 0;
    var k := 0;
    while k < |banks|
      invariant 0 <= k <= |banks|
      invariant sum == TotalOf(banks[..k], picks)
    {
      var num := BankJoltage(banks[k], picks);
      assert banks[..k + 1][..k] == banks[..k];
      sum := sum + num;
      k := k + 1;
    }
    assert banks[..|banks|] == banks;
  }
}

=== FILE: mul_scanner.dfy ===
/**
 * _2024/3/index.mjs: a character-at-a-time scanner for `mul(a,b)`. The
 * template is `m`, `u`, `l`, `(`, the first number, the comma, the second
 * number, `)`; a completed match adds a·b to the sum while multiplication is
 * enabled. `do()` enables it and `don't()` disables it from the position
 * where the marker starts.
 */
module MulScanner {
  import opened Text

  // ---------------------------------------------------------------------------
  // locations
  // ---------------------------------------------------------------------------

  /**
   * `locations(substring, string)`: every start index of sub in str below the
   * length of str, ascending; occurrences may overlap.
   */
  method Locations(sub: string, str: string) returns (positions: seq<nat>)
    ensures forall i, j :: 0 <= i < j < |positions| ==> positions[i] < positions[j]
    ensures forall k: nat :: k in positions <==> k < |str| && OccursAt(str, sub, k)
  {
    positions := [];
    var index := 0;
    while index < |str|
      invariant 0 <= index <= |str|
      invariant forall i, j :: 0 <= i < j < |positions| ==> positions[i] < positions[j]
      invariant forall i :: 0 <= i < |positions| ==> positions[i] < index
      invariant forall k: nat :: k < index ==> (k in positions <==> OccursAt(str, sub, k))
      decreases |str| - index
    {
      var foundIndex := IndexOf(str, sub, index);
      if foundIndex == -1 {
        break;
      }
      positions := positions + [foundIndex];
      index := foundIndex + 1;
    }
  }

  // ---------------------------------------------------------------------------
  // The scanner
  // ---------------------------------------------------------------------------

  /** The literal part of the template, matched in states 0 to 3. */
  const Template: string := "mul("
  /** The state reading the first number; a comma moves straight to NumB. */
  const NumA: nat := 4
  /** The state reading the second number until `)`. */
  const NumB: nat := 6

  /**
   * The scanner's globals: the template position, the two numbers, the sum
   * and whether multiplication is enabled. The `stack` of accepted
   * characters is only printed and is not kept.
   */
  datatype Scanner = Scanner(state: nat, a: nat, b: nat, sum: int, isDo: bool)

  /** Before the first character. */
  const Start := Scanner(0, 0, 0, 0, true)

  /** The states the scanner can be in, with the numbers a state has not reached still 0. */
  predicate Wf(sc: Scanner) {
    && sc.state in {0, 1, 2, 3, NumA, NumB}
    && (sc.state < NumA ==> sc.a == 0 && sc.b == 0)
    && (sc.state == NumA ==> sc.b == 0)
  }

  /** `stack = []; a = 0; b = 0; state = 0`. */
  function Reset(sc: Scanner): (r: Scanner)
    ensures Wf(r) && r.state == 0 && r.sum == sc.sum && r.isDo == sc.isDo
  {
    sc.(state := 0, a := 0, b := 0)
  }

  /**
   * `+curr` for one character: a digit is its value, white space is 0 and any
   * other character is NaN (None).
   */
  function CharNumber(c: char): (d: Option<int>)
    ensures d == (if IsDigit(c) then Some(DigitValue(c) as int) else if IsJsSpace(c) then Some(0) else None)
  {
    var t := [c];
    if IsJsSpace(c) then
      assert TrimStart(t) == TrimStart([]) == [];
      NumberOf(t)
    else
      assert TrimStart(t) == t;
      assert TrimEnd(t) == t;
      assert Trim(t) == t;
      assert AllDigits(t) <==> IsDigit(c);
      assert IsDigit(c) ==> DigitsValue(t) == DigitValue(c) by {
        if IsDigit(c) {
          assert t[..0] == [];
        }
      }
      NumberOf(t)
  }

  /**
   * `tryAddChar(curr)`: whether the character was accepted, and the scanner
   * after it. A rejected character resets the match. States 5 and 7 hold
   * the `next` and `END` markers, which no branch tests, so there nothing
   * changes and the result is falsy; the scanner never reaches them.
   */
  function TryAddChar(sc: Scanner, c: char): (r: (bool, Scanner))
    ensures r.1.sum == sc.sum || (sc.state == NumB && c == ')')
    ensures r.1.isDo == sc.isDo
    ensures Wf(sc) ==> Wf(r.1)
    ensures !r.0 ==> r.1 == Reset(sc) || r.1 == sc
    ensures Wf(sc) && !r.0 ==> r.1 == Reset(sc)
  {
    if sc.state < |Template| then
      if c != Template[sc.state] then (false, Reset(sc))
      else (true, sc.(state := sc.state + 1))
    else if sc.state == NumA then
      if c == ',' then (true, sc.(state := NumB))
      else match CharNumber(c)
        case None => (false, Reset(sc))
        case Some(digit) => (true, sc.(a := sc.a * 10 + digit))
    else if sc.state == NumB then
      if c == ')' then (true, Reset(sc).(sum := sc.sum + if sc.isDo then sc.a * sc.b else 0))
      else match CharNumber(c)
        case None => (false, Reset(sc))
        case Some(digit) => (true, sc.(b := sc.b * 10 + digit))
    else (false, sc)
  }

  /** The loop body: a rejected character is tried once more, from the reset state. */
  function Advance(sc: Scanner, c: char): (r: Scanner)
    ensures Wf(sc) ==> Wf(r)
    ensures r.isDo == sc.isDo
  {
    var (ok, next) := TryAddChar(sc, c);
    if ok then next else TryAddChar(next, c).1
  }

  /** A character that breaks a match is read again as a possible start: an `m` starts a new match. */
  lemma RetryStartsMatch(sc: Scanner)
    requires Wf(sc) && !TryAddChar(sc, 'm').0
    ensures Advance(sc, 'm') == Reset(sc).(state := 1)
  {
  }

  // ---------------------------------------------------------------------------
  // Feeding a stretch of text with the gate unchanged
  // ---------------------------------------------------------------------------

  /** The scanner after the characters of s, with `isDo` left as it is. */
  function Feed(sc: Scanner, s: string): (r: Scanner)
    ensures r.isDo == sc.isDo
    ensures Wf(sc) ==> Wf(r)
  {
    if |s| == 0 then sc else Advance(Feed(sc, s[..|s| - 1]), s[|s| - 1])
  }

  lemma {:induction false} FeedAppend(sc: Scanner, s: string, t: string)
    ensures Feed(sc, s + t) == Feed(Feed(sc, s), t)
    decreases |t|
  {
    if |t| == 0 {
      assert s + t == s;
    } else {
      assert (s + t)[..|s + t| - 1] == s + t[..|t| - 1];
      FeedAppend(sc, s, t[..|t| - 1]);
    }
  }

  lemma ShiftDigits(x: nat, p: nat, v: nat, d: nat)
    ensures (x * p + v) * 10 + d == x * (10 * p) + (v * 10 + d)
  {
  }

  /** A digit read in a number appends to it. */
  lemma AdvanceDigit(sc: Scanner, c: char)
    requires Wf(sc) && (sc.state == NumA || sc.state == NumB) && IsDigit(c)
    ensures sc.state == NumA ==> Advance(sc, c) == sc.(a := sc.a * 10 + DigitValue(c))
    ensures sc.state == NumB ==> Advance(sc, c) == sc.(b := sc.b * 10 + DigitValue(c))
  {
    assert CharNumber(c) == Some(DigitValue(c) as int);
  }

  /** x followed by the digits of d. */
  function Appended(x: nat, d: string): nat
    requires AllDigits(d)
  {
    x * Pow10(|d|) + DigitsValue(d)
  }

  /** Appending the digits of d one at a time. */
  lemma AppendedStep(x: nat, d: string)
    requires AllDigits(d) && |d| > 0
    ensures Appended(x, d) == Appended(x, d[..|d| - 1]) * 10 + DigitValue(d[|d| - 1])
  {
    var init := d[..|d| - 1];
    ShiftDigits(x, Pow10(|init|), DigitsValue(init), DigitValue(d[|d| - 1]));
    assert DigitsValue(d) == DigitsValue(init) * 10 + DigitValue(d[|d| - 1]);
    assert Pow10(|d|) == 10 * Pow10(|init|);
  }

  /** Digits read in the first number append to it in decimal. */
  lemma {:induction false} FeedDigitsA(sc: Scanner, d: string)
    requires Wf(sc) && sc.state == NumA && AllDigits(d)
    ensures Feed(sc, d) == sc.(a := Appended(sc.a, d))
    decreases |d|
  {
    if |d| > 0 {
      var init := d[..|d| - 1];
      var c := d[|d| - 1];
      FeedDigitsA(sc, init);
      var prev := Feed(sc, init);
      assert Feed(sc, d) == Advance(prev, c);
      AdvanceDigit(prev, c);
      AppendedStep(sc.a, d);
    }
  }

  /** Digits read in the second number append to it in decimal. */
  lemma {:induction false} FeedDigitsB(sc: Scanner, d: string)
    requires Wf(sc) && sc.state == NumB && AllDigits(d)
    ensures Feed(sc, d) == sc.(b := Appended(sc.b, d))
    decreases |d|
  {
    if |d| > 0 {
      var init := d[..|d| - 1];
      var c := d[|d| - 1];
      FeedDigitsB(sc, init);
      var prev := Feed(sc, init);
      assert Feed(sc, d) == Advance(prev, c);
      AdvanceDigit(prev, c);
      AppendedStep(sc.b, d);
    }
  }

  /** `mul(x,y)` written in decimal. */
  function MulText(x: nat, y: nat): string {
    "mul(" + Decimal(x) + "," + Decimal(y) + ")"
  }

  /** `mul(` takes a reset scanner to the first number. */
  lemma FeedOpen(sc: Scanner)
    requires sc.state == 0 && sc.a == 0 && sc.b == 0
    ensures Feed(sc, "mul(") == sc.(state := NumA)
  {
    assert "mul("[..3] == "mul";
    assert "mul"[..2] == "mu";
    assert "mu"[..1] == "m";
    assert "m"[..0] == "";
    assert Feed(sc, "m") == sc.(state := 1);
    assert Feed(sc, "mu") == sc.(state := 2);
    assert Feed(sc, "mul") == sc.(state := 3);
  }

  /**
   * From a reset scanner, `mul(x,y)` adds x·y to the sum exactly when
   * multiplication is enabled, and leaves the scanner reset again.
   */
  lemma MulAdds(sc: Scanner, x: nat, y: nat)
    requires sc.state == 0 && sc.a == 0 && sc.b == 0
    ensures Feed(sc, MulText(x, y)) == sc.(sum := sc.sum + if sc.isDo then x * y else 0)
  {
    var open := Feed(sc, "mul(");
    FeedOpen(sc);
    FeedAppend(sc, "mul(", Decimal(x));
    FeedDigitsA(open, Decimal(x));
    DecimalRoundTrip(x);
    var first := Feed(open, Decimal(x));
    assert first == sc.(state := NumA, a := x);
    FeedAppend(sc, "mul(" + Decimal(x), ",");
    var comma := Feed(first, ",");
    assert comma == sc.(state := NumB, a := x);
    FeedAppend(sc, "mul(" + Decimal(x) + ",", Decimal(y));
    FeedDigitsB(comma, Decimal(y));
    DecimalRoundTrip(y);
    var second := Feed(comma, Decimal(y));
    assert second == sc.(state := NumB, a := x, b := y);
    FeedAppend(sc, "mul(" + Decimal(x) + "," + Decimal(y), ")");
  }

  // ---------------------------------------------------------------------------
  // The main loop
  // ---------------------------------------------------------------------------

  /** `isDo` at a position: `don't()` starting there disables, else `do()` enables, else it stays. */
  function Gate(sc: Scanner, atDo: bool, atDont: bool): (r: Scanner)
    ensures r == sc.(isDo := r.isDo)
    ensures r.isDo == (!atDont && (atDo || sc.isDo))
  {
    if atDont then sc.(isDo := false) else if atDo then sc.(isDo := true) else sc
  }

  /** The scanner after the first n positions of the input, the gate read from the text itself. */
  function Scanned(input: string, n: nat): (sc: Scanner)
    requires n <= |input|
    ensures Wf(sc)
  {
    if n == 0 then Start
    else
      var p := n - 1;
      Advance(Gate(Scanned(input, p), OccursAt(input, "do()", p), OccursAt(input, "don't()", p)), input[p])
  }

  /** No `don't()` starts before n, or a `do()` starts after the last one and before n. */
  ghost predicate Enabled(input: string, n: nat) {
    forall q :: 0 <= q < n && OccursAt(input, "don't()", q) ==>
      exists r :: q < r < n && OccursAt(input, "do()", r)
  }

  /** How `Enabled` changes with one more position. */
  lemma EnabledStep(input: string, n: nat)
    requires n > 0
    ensures Enabled(input, n) ==
      (!OccursAt(input, "don't()", n - 1) && (OccursAt(input, "do()", n - 1) || Enabled(input, n - 1)))
  {
    var p := n - 1;
    if OccursAt(input, "don't()", p) {
      assert !exists r :: p < r < n && OccursAt(input, "do()", r);
    } else if OccursAt(input, "do()", p) {
      forall q | 0 <= q < n && OccursAt(input, "don't()", q) ensures exists r :: q < r < n && OccursAt(input, "do()", r) {
        assert q < p && OccursAt(input, "do()", p);
      }
    } else {
      if Enabled(input, n) {
        forall q | 0 <= q < p && OccursAt(input, "don't()", q) ensures exists r :: q < r < p && OccursAt(input, "do()", r) {
          var r :| q < r < n && OccursAt(input, "do()", r);
          assert r != p;
        }
      }
      if Enabled(input, p) {
        forall q | 0 <= q < n && OccursAt(input, "don't()", q) ensures exists r :: q < r < n && OccursAt(input, "do()", r) {
          assert q != p;
          var r :| q < r < p && OccursAt(input, "do()", r);
        }
      }
    }
  }

  /**
   * Multiplication is enabled after the first n positions exactly when no
   * `don't()` starts among them, or a `do()` starts after the last one.
   */
  lemma {:induction false} ScannedGate(input: string, n: nat)
    requires n <= |input|
    ensures Scanned(input, n).isDo == Enabled(input, n)
    decreases n
  {
    if n > 0 {
      ScannedGate(input, n - 1);
      EnabledStep(input, n);
    }
  }

  /** No `do()` or `don't()` starts at a position from m up to n. */
  predicate NoMarkers(input: string, m: nat, n: nat)
    decreases n
  {
    n <= m || (NoMarkers(input, m, n - 1) && !OccursAt(input, "do()", n - 1) && !OccursAt(input, "don't()", n - 1))
  }

  /** `NoMarkers` holds when no position of the stretch starts a marker. */
  lemma {:induction false} NoMarkersAll(input: string, m: nat, n: nat)
    requires forall p :: m <= p < n ==> !OccursAt(input, "do()", p) && !OccursAt(input, "don't()", p)
    ensures NoMarkers(input, m, n)
    decreases n
  {
    if n > m {
      NoMarkersAll(input, m, n - 1);
    }
  }

  /** One position where no marker starts is one step of the scanner. */
  lemma ScannedStep(input: string, n: nat)
    requires 0 < n <= |input| && NoMarkers(input, n - 1, n)
    ensures Scanned(input, n) == Advance(Scanned(input, n - 1), input[n - 1])
  {
  }

  lemma FeedLast(sc: Scanner, s: string)
    requires |s| > 0
    ensures Feed(sc, s) == Advance(Feed(sc, s[..|s| - 1]), s[|s| - 1])
  {
  }

  lemma SliceLast(input: string, m: nat, n: nat)
    requires m < n <= |input|
    ensures input[m..n][..n - m - 1] == input[m..n - 1] && input[m..n][n - m - 1] == input[n - 1]
  {
  }

  /**
   * Where no marker starts, the main loop feeds the text as it is: the
   * scanner after n positions is the one after m fed the characters between.
   */
  lemma {:induction false} ScannedFeed(input: string, m: nat, n: nat)
    requires m <= n <= |input| && NoMarkers(input, m, n)
    ensures Scanned(input, n) == Feed(Scanned(input, m), input[m..n])
    decreases n - m
  {
    if n == m {
      assert input[m..n] == [];
    } else {
      ScannedFeed(input, m, n - 1);
      ScannedStep(input, n);
      FeedLast(Scanned(input, m), input[m..n]);
      SliceLast(input, m, n);
    }
  }

  /** An `m` starts a new match whatever the scanner was in the middle of. */
  lemma AdvanceM(sc: Scanner)
    requires Wf(sc)
    ensures Advance(sc, 'm') == Advance(Reset(sc), 'm')
  {
    assert Advance(Reset(sc), 'm') == Reset(sc).(state := 1);
    if sc.state != 0 {
      MRejected(sc);
      RetryStartsMatch(sc);
    }
  }

  /** Past the template's first character, an `m` is rejected. */
  lemma MRejected(sc: Scanner)
    requires Wf(sc) && sc.state != 0
    ensures !TryAddChar(sc, 'm').0
  {
    if sc.state < |Template| {
      assert Template[sc.state] != 'm';
    } else {
      assert CharNumber('m') == None;
    }
  }

  lemma FeedFromM(sc: Scanner, rest: string)
    requires Wf(sc)
    ensures Feed(sc, "m" + rest) == Feed(Reset(sc), "m" + rest)
  {
    FeedAppend(sc, "m", rest);
    FeedAppend(Reset(sc), "m", rest);
    assert "m"[..0] == "";
    assert Feed(sc, "m") == Advance(sc, 'm');
    assert Feed(Reset(sc), "m") == Advance(Reset(sc), 'm');
    AdvanceM(sc);
  }

  /** Both markers start with a `d`. */
  lemma MarkerAt(input: string, p: nat)
    requires p < |input| && input[p] != 'd'
    ensures !OccursAt(input, "do()", p) && !OccursAt(input, "don't()", p)
  {
    if p + 4 <= |input| {
      assert input[p..p + 4][0] == input[p];
    }
    if p + 7 <= |input| {
      assert input[p..p + 7][0] == input[p];
    }
  }

  /** `mul(x,y)` holds no `d`, so no marker starts inside it. */
  lemma MulTextNoMarkers(input: string, m: nat, x: nat, y: nat)
    requires OccursAt(input, MulText(x, y), m)
    ensures NoMarkers(input, m, m + |MulText(x, y)|)
  {
    DecimalAvoids(x, 'd');
    DecimalAvoids(y, 'd');
    var t := MulText(x, y);
    assert 'd' !in t;
    forall p | m <= p < m + |t| ensures !OccursAt(input, "do()", p) && !OccursAt(input, "don't()", p) {
      assert input[p] == input[m..m + |t|][p - m] == t[p - m];
      assert t[p - m] in t;
      MarkerAt(input, p);
    }
    NoMarkersAll(input, m, m + |t|);
  }

  lemma MulTextHead(x: nat, y: nat)
    ensures MulText(x, y) == "m" + MulText(x, y)[1..]
  {
  }

  /** A whole `mul(x,y)` read from any state: the match restarts at its `m` and adds the product when enabled. */
  lemma FeedMul(sc: Scanner, x: nat, y: nat)
    requires Wf(sc)
    ensures Feed(sc, MulText(x, y)) == Reset(sc).(sum := sc.sum + if sc.isDo then x * y else 0)
  {
    var t := MulText(x, y);
    MulTextHead(x, y);
    FeedFromM(sc, t[1..]);
    MulAdds(Reset(sc), x, y);
  }

  /**
   * Every `mul(x,y)` in the input, whatever came before it, adds x·y to the
   * sum exactly when the gate is open where it starts, and leaves the
   * scanner ready for a new match.
   */
  lemma MulAt(input: string, m: nat, x: nat, y: nat)
    requires OccursAt(input, MulText(x, y), m)
    ensures Scanned(input, m + |MulText(x, y)|) == Reset(Scanned(input, m)).(sum := Scanned(input, m).sum + if Scanned(input, m).isDo then x * y else 0)
  {
    MulTextNoMarkers(input, m, x, y);
    ScannedFeed(input, m, m + |MulText(x, y)|);
    FeedMul(Scanned(input, m), x, y);
  }

  /** The same with the gate read from the text: enabled where the `mul` starts. */
  lemma MulAtEnabled(input: string, m: nat, x: nat, y: nat)
    requires OccursAt(input, MulText(x, y), m)
    ensures Scanned(input, m + |MulText(x, y)|).sum == Scanned(input, m).sum + if Enabled(input, m) then x * y else 0
  {
    MulAt(input, m, x, y);
    ScannedGate(input, m);
  }

  /** The input `mul(x,y)` alone scans to the sum x·y. */
  lemma ScannedMul(x: nat, y: nat)
    ensures Scanned(MulText(x, y), |MulText(x, y)|).sum == x * y
  {
    MulAt(MulText(x, y), 0, x, y);
  }

  /**
   * `main` after reading: the marker positions, then for every position the
   * gate, then the character, retried once if it was rejected.
   */
  method Run(input: string) returns (sum: int)
    ensures sum == Scanned(input, |input|).sum
  {
    var dos := Locations("do()", input);
    var donts := Locations("don't()", input);
    var sc := Start;
    for pos := 0 to |input|
      invariant sc == Scanned(input, pos)
    {
      var isDo := sc.isDo;
      if pos in dos {
        isDo := true;
      }
      if pos in donts {
        isDo := false;
      }
      sc := sc.(isDo := isDo);
      var curr := input[pos];
      var (ok, next) := TryAddChar(sc, curr);
      if ok {
        sc := next;
      } else {
        sc := TryAddChar(next, curr).1;
      }
    }
    sum := sc.sum;
  }
}

=== FILE: packing.dfy ===
/**
 * 12/index.mjs, second half: the grid of an area under the tree, placing and
 * removing a shape on it, and the backtracking search `solveWithEmpty` that
 * tries to place every requested present (empty squares are allowed).
 */
module Packing {
  import opened Text
  import opened Shapes

  /** A square of the grid: `'.'`, or the digits of the shape number placed on it. */
  datatype Square = Empty | Piece(id: nat)

  /** Rows of squares; the search only ever builds rectangular grids. */
  type Grid = seq<seq<Square>>

  /** `Array.from({ length: height }, () => Array(width).fill('.'))`. */
  function EmptyGrid(w: nat, h: nat): (g: Grid)
    ensures |g| == h
    ensures forall y :: 0 <= y < h ==> |g[y]| == w && forall x :: 0 <= x < w ==> g[y][x] == Empty
  {
    seq(h, _ => seq(w, _ => Empty))
  }

  // ---------------------------------------------------------------------------
  // Placing one shape
  // ---------------------------------------------------------------------------

  /**
   * One square of `canPlace`: inside the width of the first row and the
   * height of the grid, and empty. A square past the end of a shorter row
   * reads as `undefined`, which is not `'.'`.
   */
  predicate Fits(g: Grid, x: int, y: int)
    requires |g| > 0
  {
    && 0 <= x < |g[0]| && 0 <= y < |g|
    && x < |g[y]| && g[y][x] == Empty
  }

  /** `canPlace`: every cell of the shape, moved by (x0, y0), lands on a free square. */
  function CanPlace(g: Grid, s: Shape, x0: int, y0: int): (b: bool)
    requires |g| > 0
    ensures b <==> forall c :: c in s ==> Fits(g, x0 + c.x, y0 + c.y)
  {
    if |s| == 0 then true
    else Fits(g, x0 + s[0].x, y0 + s[0].y) && CanPlace(g, s[1..], x0, y0)
  }

  /** Every cell of the moved shape is a square of the grid. */
  ghost predicate Inside(g: Grid, s: Shape, x0: int, y0: int) {
    forall c :: c in s ==> 0 <= y0 + c.y < |g| && 0 <= x0 + c.x < |g[y0 + c.y]|
  }

  /** What `placeShape` and `removeShape` share: write `v` on every cell of the moved shape. */
  function Paint(g: Grid, s: Shape, x0: int, y0: int, v: Square): (r: Grid)
    requires Inside(g, s, x0, y0)
    decreases |s|
    ensures |r| == |g|
    ensures forall y :: 0 <= y < |g| ==> |r[y]| == |g[y]|
    ensures forall y, x :: 0 <= y < |g| && 0 <= x < |g[y]| ==>
      r[y][x] == if Cell(x - x0, y - y0) in s then v else g[y][x]
  {
    if |s| == 0 then g
    else
      var x, y := x0 + s[0].x, y0 + s[0].y;
      var g' := g[y := g[y][x := v]];
      assert Inside(g', s[1..], x0, y0);
      Paint(g', s[1..], x0, y0, v)
  }

  /** `placeShape(grid, shape, x, y, String(shapeId))`. */
  function Place(g: Grid, s: Shape, x0: int, y0: int, id: nat): Grid
    requires Inside(g, s, x0, y0)
  {
    Paint(g, s, x0, y0, Piece(id))
  }

  /** `removeShape(grid, shape, x, y)`. */
  function Remove(g: Grid, s: Shape, x0: int, y0: int): Grid
    requires Inside(g, s, x0, y0)
  {
    Paint(g, s, x0, y0, Empty)
  }

  lemma CanPlaceInside(g: Grid, s: Shape, x0: int, y0: int)
    requires |g| > 0 && CanPlace(g, s, x0, y0)
    ensures Inside(g, s, x0, y0)
  {
  }

  /**
   * Placing a shape where it fits covers exactly its cells, and removing it
   * again gives back the grid: the backtracking step undoes the placement.
   */
  lemma PlaceRemove(g: Grid, s: Shape, x0: int, y0: int, id: nat)
    requires |g| > 0 && CanPlace(g, s, x0, y0)
    ensures Inside(Place(g, s, x0, y0, id), s, x0, y0)
    ensures Remove(Place(g, s, x0, y0, id), s, x0, y0) == g
  {
    var p := Place(g, s, x0, y0, id);
    assert Inside(p, s, x0, y0);
    var r := Remove(p, s, x0, y0);
    assert |r| == |g|;
    forall y | 0 <= y < |g| ensures r[y] == g[y] {
      forall x | 0 <= x < |g[y]| ensures r[y][x] == g[y][x] {
        if Cell(x - x0, y - y0) in s {
          assert Fits(g, x0 + (x - x0), y0 + (y - y0));
        }
      }
    }
  }

  // ---------------------------------------------------------------------------
  // The presents still to place
  // ---------------------------------------------------------------------------

  /** `shapesToPlace.reduce((a, b) => a + b, 0)`. */
  function Total(counts: seq<nat>): (t: nat)
    ensures t == 0 <==> forall i :: 0 <= i < |counts| ==> counts[i] == 0
  {
    if |counts| == 0 then 0 else counts[0] + Total(counts[1..])
  }

  /** Changing one count changes the total by the difference. */
  lemma {:induction false} TotalUpdate(counts: seq<nat>, i: nat, v: nat)
    requires i < |counts|
    ensures Total(counts[i := v]) + counts[i] == Total(counts) + v
  {
    if i > 0 {
      TotalUpdate(counts[1..], i - 1, v);
      assert counts[i := v][1..] == counts[1..][i - 1 := v];
    }
  }

  /**
   * The shape type `solveWithEmpty` works on: the first one from `i` on with
   * copies left and orientations computed; the `break` stops the search there.
   */
  function FirstType(counts: seq<nat>, orients: map<nat, seq<Shape>>, i: nat): (r: Option<nat>)
    decreases |counts| - i
    ensures r.Some? ==> i <= r.value < |counts| && counts[r.value] > 0 && r.value in orients
    ensures forall j :: i <= j < |counts| && (r.Some? ==> j < r.value) ==> !(counts[j] > 0 && j in orients)
  {
    if i >= |counts| then None
    else if counts[i] > 0 && i in orients then Some(i)
    else FirstType(counts, orients, i + 1)
  }

  // ---------------------------------------------------------------------------
  // The search
  // ---------------------------------------------------------------------------

  /** One placed present: its shape number, the orientation used and where. */
  datatype Placement = Placement(id: nat, shape: Shape, x: int, y: int)

  /**
   * What a call of `solveWithEmpty` returns and leaves behind: the verdict,
   * the grid and counts it mutated, and (for the proofs) the placements made.
   */
  datatype Search = Search(ok: bool, grid: Grid, counts: seq<nat>, trail: seq<Placement>)

  /** Each placement fits on the grid left by the ones before it. */
  function Valid(g: Grid, trail: seq<Placement>): (b: bool)
    requires |g| > 0
    decreases |trail|
  {
    if |trail| == 0 then true
    else
      var p := trail[0];
      CanPlace(g, p.shape, p.x, p.y) &&
      (CanPlaceInside(g, p.shape, p.x, p.y);
       var g' := Place(g, p.shape, p.x, p.y, p.id);
       Valid(g', trail[1..]))
  }

  /** The grid after all placements of a valid trail. */
  function PlaceAll(g: Grid, trail: seq<Placement>): Grid
    requires |g| > 0 && Valid(g, trail)
    decreases |trail|
  {
    if |trail| == 0 then g
    else
      var p := trail[0];
      CanPlaceInside(g, p.shape, p.x, p.y);
      PlaceAll(Place(g, p.shape, p.x, p.y, p.id), trail[1..])
  }

  /** How many placements use shape number `i`. */
  function Tally(trail: seq<Placement>, i: nat): nat {
    if |trail| == 0 then 0
    else (if trail[0].id == i then 1 else 0) + Tally(trail[1..], i)
  }

  /** The placements use exactly the requested number of copies of each shape. */
  predicate Tallies(trail: seq<Placement>, counts: seq<nat>) {
    && (forall k :: 0 <= k < |trail| ==> trail[k].id < |counts|)
    && (forall i :: 0 <= i < |counts| ==> Tally(trail, i) == counts[i])
  }

  /** Every placement uses one of the orientations computed for its shape. */
  predicate Drawn(trail: seq<Placement>, orients: map<nat, seq<Shape>>) {
    forall k :: 0 <= k < |trail| ==> trail[k].id in orients && trail[k].shape in orients[trail[k].id]
  }

  /** What a successful search delivers, starting from grid `g` and counts `counts`. */
  predicate Succeeded(g: Grid, counts: seq<nat>, orients: map<nat, seq<Shape>>, r: Search)
    requires |g| > 0
  {
    && r.ok
    && Valid(g, r.trail) && r.grid == PlaceAll(g, r.trail)
    && Tallies(r.trail, counts) && Drawn(r.trail, orients)
    && |r.counts| == |counts| && Total(r.counts) == 0
  }

  /** A placement that fits, followed by a successful search on the grid it leaves, is a successful search. */
  lemma SucceededCons(g: Grid, counts: seq<nat>, orients: map<nat, seq<Shape>>, p: Placement, sub: Search)
    requires |g| > 0 && p.id < |counts| && counts[p.id] > 0
    requires p.id in orients && p.shape in orients[p.id]
    requires CanPlace(g, p.shape, p.x, p.y) && Inside(g, p.shape, p.x, p.y)
    requires Succeeded(Place(g, p.shape, p.x, p.y, p.id), counts[p.id := counts[p.id] - 1], orients, sub)
    ensures Succeeded(g, counts, orients, Search(true, sub.grid, sub.counts, [p] + sub.trail))
  {
    var trail := [p] + sub.trail;
    var g1 := Place(g, p.shape, p.x, p.y, p.id);
    var c1 := counts[p.id := counts[p.id] - 1];
    assert trail[0] == p && trail[1..] == sub.trail;
    assert Valid(g, trail) by {
      assert Valid(g1, sub.trail);
    }
    assert PlaceAll(g, trail) == PlaceAll(g1, sub.trail);
    forall i | 0 <= i < |counts| ensures Tally(trail, i) == counts[i] {
      assert Tally(trail, i) == (if p.id == i then 1 else 0) + Tally(sub.trail, i);
      assert Tally(sub.trail, i) == c1[i];
    }
    forall k | 0 <= k < |trail| ensures trail[k].id < |counts| && trail[k].id in orients && trail[k].shape in orients[trail[k].id] {
      if k > 0 {
        assert trail[k] == sub.trail[k - 1];
      }
    }
  }

  /**
   * `solveWithEmpty`: done when nothing is left; otherwise it tries the
   * first shape type with copies left, in every orientation at every
   * position, row by row, and recurses after each placement. A failed
   * recursive call is undone by removing the shape and giving the copy back.
   */
  function Solve(g: Grid, counts: seq<nat>, orients: map<nat, seq<Shape>>): (r: Search)
    requires Total(counts) == 0 || |g| > 0
    decreases Total(counts), 1, 0, 0, 0
    ensures |r.counts| == |counts|
    ensures !r.ok ==> r.grid == g && r.counts == counts
    ensures r.ok && |g| > 0 ==> Succeeded(g, counts, orients, r)
    ensures Total(counts) == 0 ==> r.ok && r.trail == []
    ensures r.ok && Total(counts) > 0 ==>
      |r.trail| > 0 && FirstType(counts, orients, 0) == Some(r.trail[0].id)
  {
    if Total(counts) == 0 then Search(true, g, counts, [])
    else match FirstType(counts, orients, 0)
      case None => Search(false, g, counts, [])
      case Some(id) => TryAll(g, counts, orients, id, 0, 0, 0)
  }

  /**
   * The three nested loops of `solveWithEmpty` for shape type `id`, resumed
   * at orientation `oi`, row `y` and column `x`.
   */
  function TryAll(g: Grid, counts: seq<nat>, orients: map<nat, seq<Shape>>, id: nat, oi: nat, y: nat, x: nat): (r: Search)
    requires |g| > 0 && id < |counts| && counts[id] > 0 && id in orients
    decreases Total(counts), 0, |orients[id]| - oi, |g| - y, |g[0]| - x, 1
    ensures |r.counts| == |counts|
    ensures !r.ok ==> r.grid == g && r.counts == counts
    ensures r.ok ==> Succeeded(g, counts, orients, r) && |r.trail| > 0 && r.trail[0].id == id
  {
    var os := orients[id];
    if oi >= |os| then Search(false, g, counts, [])
    else if y >= |g| then TryAll(g, counts, orients, id, oi + 1, 0, 0)
    else if x >= |g[0]| then TryAll(g, counts, orients, id, oi, y + 1, 0)
    else if !CanPlace(g, os[oi], x, y) then TryAll(g, counts, orients, id, oi, y, x + 1)
    else TryAt(g, counts, orients, id, oi, y, x)
  }

  /**
   * The body of the innermost loop once `canPlace` said yes: place, take a
   * copy, recurse, and on failure remove the shape, give the copy back and
   * go on with the next column.
   */
  function TryAt(g: Grid, counts: seq<nat>, orients: map<nat, seq<Shape>>, id: nat, oi: nat, y: nat, x: nat): (r: Search)
    requires |g| > 0 && id < |counts| && counts[id] > 0 && id in orients
    requires oi < |orients[id]| && y < |g| && x < |g[0]| && CanPlace(g, orients[id][oi], x, y)
    decreases Total(counts), 0, |orients[id]| - oi, |g| - y, |g[0]| - x, 0
    ensures |r.counts| == |counts|
    ensures !r.ok ==> r.grid == g && r.counts == counts
    ensures r.ok ==> Succeeded(g, counts, orients, r) && |r.trail| > 0 && r.trail[0].id == id
  {
    var s := orients[id][oi];
    CanPlaceInside(g, s, x, y);
    PlaceRemove(g, s, x, y, id);
    var g1 := Place(g, s, x, y, id);
    var c1 := counts[id := counts[id] - 1];
    TotalUpdate(counts, id, counts[id] - 1);
    var sub := Solve(g1, c1, orients);
    if sub.ok then
      var p := Placement(id, s, x, y);
      var found := Search(true, sub.grid, sub.counts, [p] + sub.trail);
      SucceededCons(g, counts, orients, p, sub);
      assert found.trail[0] == p;
      found
    else
      var back := Remove(sub.grid, s, x, y);
      var restored := sub.counts[id := sub.counts[id] + 1];
      assert back == g && restored == counts;
      TryAll(back, restored, orients, id, oi, y, x + 1)
  }

  // ---------------------------------------------------------------------------
  // One area
  // ---------------------------------------------------------------------------

  /** `allShapeOrientations`: computed for the shape types with copies requested and a shape given. */
  function OrientationTable(counts: seq<nat>, shapes: map<nat, Shape>): (t: map<nat, seq<Shape>>)
    ensures forall i: nat :: i in t <==> i < |counts| && counts[i] > 0 && i in shapes
    ensures forall i :: i in t ==> t[i] == Orientations(shapes[i])
  {
    map i | 0 <= i < |counts| && counts[i] > 0 && i in shapes :: Orientations(shapes[i])
  }

  /** `totalCells`: the squares the requested presents cover, over types from `i` on. */
  function Cells(counts: seq<nat>, shapes: map<nat, Shape>, i: nat): (n: nat)
    decreases |counts| - i
  {
    if i >= |counts| then 0
    else (if counts[i] > 0 && i in shapes then counts[i] * |shapes[i]| else 0) + Cells(counts, shapes, i + 1)
  }

  /**
   * `canFitShapes`: false when the presents cover more squares than the
   * area has, otherwise the verdict of the search on an empty grid. `None`
   * is the `TypeError` of `grid[0].length` when the area has no rows but
   * copies are still requested.
   */
  function CanFit(w: nat, h: nat, counts: seq<nat>, shapes: map<nat, Shape>): (r: Option<bool>)
  {
    if Cells(counts, shapes, 0) > w * h then Some(false)
    else if h == 0 && Total(counts) > 0 then None
    else Some(Solve(EmptyGrid(w, h), counts, OrientationTable(counts, shapes)).ok)
  }

  /** A packing of the presents into a `w` by `h` area: every copy placed, in an orientation of its shape, without overlap. */
  predicate IsPacking(w: nat, h: nat, counts: seq<nat>, shapes: map<nat, Shape>, trail: seq<Placement>) {
    && (if h == 0 then trail == [] else Valid(EmptyGrid(w, h), trail))
    && Tallies(trail, counts)
    && forall k :: 0 <= k < |trail| ==>
         trail[k].id in shapes && trail[k].shape in Orientations(shapes[trail[k].id])
  }

  /** A yes is backed by a packing. */
  lemma CanFitSound(w: nat, h: nat, counts: seq<nat>, shapes: map<nat, Shape>)
    ensures CanFit(w, h, counts, shapes) == Some(true) ==> exists t :: IsPacking(w, h, counts, shapes, t)
  {
    if CanFit(w, h, counts, shapes) == Some(true) {
      var orients := OrientationTable(counts, shapes);
      var r := Solve(EmptyGrid(w, h), counts, orients);
      if h == 0 {
        assert Total(counts) == 0;
        assert IsPacking(w, h, counts, shapes, []);
      } else {
        assert Succeeded(EmptyGrid(w, h), counts, orients, r);
        assert IsPacking(w, h, counts, shapes, r.trail);
      }
    }
  }

  /** With no copy requested the presents cover no square. */
  lemma {:induction false} CellsNone(counts: seq<nat>, shapes: map<nat, Shape>, i: nat)
    requires forall j :: i <= j < |counts| ==> counts[j] == 0
    ensures Cells(counts, shapes, i) == 0
    decreases |counts| - i
  {
    if i < |counts| {
      CellsNone(counts, shapes, i + 1);
    }
  }

  /**
   * The area check comes first: more squares requested than the area has is
   * a no, so a yes never exceeds the area. Nothing requested is a yes, and
   * the error is only possible for an area without rows.
   */
  lemma CanFitCases(w: nat, h: nat, counts: seq<nat>, shapes: map<nat, Shape>)
    ensures Cells(counts, shapes, 0) > w * h ==> CanFit(w, h, counts, shapes) == Some(false)
    ensures CanFit(w, h, counts, shapes) == Some(true) ==> Cells(counts, shapes, 0) <= w * h
    ensures Total(counts) == 0 ==> CanFit(w, h, counts, shapes) == Some(true)
    ensures CanFit(w, h, counts, shapes).None? <==> h == 0 && Total(counts) > 0 && Cells(counts, shapes, 0) == 0
  {
    if Total(counts) == 0 {
      CellsNone(counts, shapes, 0);
    }
  }
}

=== FILE: page_order.dfy ===
/**
 * _2024/5/index.mjs: page-ordering rules `X|Y` say page X must come before
 * page Y. An update (a list of pages) is good when it breaks no rule; every
 * bad update is sorted with a comparator built from the rules and its middle
 * page is added to the answer.
 */
module PageOrder {
  import opened Text
  import opened Sorting
  import opened StableSort

  /** `X|Y`: before must be printed before after. */
  datatype Rule = Rule(before: int, after: int)

  datatype Input = Input(rules: seq<Rule>, updates: seq<seq<int>>)

  // ---------------------------------------------------------------------------
  // Reading the input
  // ---------------------------------------------------------------------------

  /** `line.split('|').map(Number)` destructured; None when a side is missing or NaN. */
  function ParseRule(line: string): Option<Rule> {
    var parts := Split(line, "|");
    if |parts| < 2 then None
    else match (NumberOf(parts[0]), NumberOf(parts[1]))
      case (Some(b), Some(a)) => Some(Rule(b, a))
      case _ => None
  }

  /** A rule written out as `X|Y` reads back as itself. */
  lemma ParseRuleText(before: nat, after: nat)
    ensures ParseRule(Decimal(before) + "|" + Decimal(after)) == Some(Rule(before, after))
  {
    DecimalAvoids(before, '|');
    DecimalAvoids(after, '|');
    SplitPair(Decimal(before), Decimal(after), '|');
    NumberOfDecimal(before);
    NumberOfDecimal(after);
  }

  /** Every line read as a rule, in order; None as soon as one does not read. */
  function ParseRules(lines: seq<string>): (r: Option<seq<Rule>>)
    ensures r.Some? <==> forall i :: 0 <= i < |lines| ==> ParseRule(lines[i]).Some?
    ensures r.Some? ==> |r.value| == |lines| && forall i :: 0 <= i < |lines| ==> ParseRule(lines[i]) == Some(r.value[i])
  {
    if |lines| == 0 then Some([])
    else match (ParseRule(lines[0]), ParseRules(lines[1..]))
      case (Some(x), Some(xs)) => Some([x] + xs)
      case _ => None
  }

  /** `line.split(',').map(Number)`; None when a page is NaN. */
  function ParseUpdate(line: string): (r: Option<seq<int>>)
  {
    NumbersOf(Split(line, ","))
  }

  function ParseUpdates(lines: seq<string>): (r: Option<seq<seq<int>>>)
    ensures r.Some? <==> forall i :: 0 <= i < |lines| ==> ParseUpdate(lines[i]).Some?
    ensures r.Some? ==> |r.value| == |lines| && forall i :: 0 <= i < |lines| ==> ParseUpdate(lines[i]) == Some(r.value[i])
  {
    if |lines| == 0 then Some([])
    else match (ParseUpdate(lines[0]), ParseUpdates(lines[1..]))
      case (Some(x), Some(xs)) => Some([x] + xs)
      case _ => None
  }

  /** Rules before the first blank line, updates after it. */
  function ReadInput(lines: seq<string>): Option<Input> {
    var (first, second) := Sections(lines, false);
    match (ParseRules(first), ParseUpdates(second))
    case (Some(rules), Some(updates)) => Some(Input(rules, updates))
    case _ => None
  }

  // ---------------------------------------------------------------------------
  // conditions: for each page, the pages that must come before it
  // ---------------------------------------------------------------------------

  /** The `before` of every rule whose `after` is y, in rule order. */
  function Befores(rules: seq<Rule>, y: int): (bs: seq<int>)
    ensures forall x :: x in bs <==> Rule(x, y) in rules
  {
    if |rules| == 0 then []
    else
      var last := rules[|rules| - 1];
      assert forall r :: r in rules <==> r in rules[..|rules| - 1] || r == last by {
        assert rules == rules[..|rules| - 1] + [last];
      }
      Befores(rules[..|rules| - 1], y) + (if last.after == y then [last.before] else [])
  }

  /** One rule of the reading loop: push before onto `conditions[after]`, creating it if absent. */
  function AddRule(conditions: map<int, seq<int>>, r: Rule): map<int, seq<int>> {
    if r.after in conditions then conditions[r.after := conditions[r.after] + [r.before]]
    else conditions[r.after := [r.before]]
  }

  /** `conditions` after reading the rules in order. */
  function Conditions(rules: seq<Rule>): (c: map<int, seq<int>>)
    ensures forall y :: y in c <==> |Befores(rules, y)| > 0
    ensures forall y :: y in c ==> c[y] == Befores(rules, y)
  {
    if |rules| == 0 then map[]
    else AddRule(Conditions(rules[..|rules| - 1]), rules[|rules| - 1])
  }

  // ---------------------------------------------------------------------------
  // The update check
  // ---------------------------------------------------------------------------

  /** `update.indexOf(x)`: the first position of x, or -1. */
  function Find(u: seq<int>, x: int): (k: int)
    ensures -1 <= k < |u|
    ensures k == -1 <==> x !in u
    ensures k >= 0 ==> u[k] == x && forall j :: 0 <= j < k ==> u[j] != x
  {
    if |u| == 0 then -1
    else if u[0] == x then 0
    else
      var k := Find(u[1..], x);
      assert forall j :: 1 <= j < |u| ==> u[j] == u[1..][j - 1];
      if k == -1 then -1 else k + 1
  }

  /** The `for (before of mustBeBefore)` loop: no required predecessor sits after page. */
  function BeforesOk(u: seq<int>, befores: seq<int>, page: int): (ok: bool)
    ensures ok <==> forall b :: b in befores ==> Find(u, b) <= Find(u, page)
  {
    if |befores| == 0 then true
    else if Find(u, befores[0]) > Find(u, page) then
      assert befores[0] in befores;
      false
    else
      assert forall b :: b in befores <==> b == befores[0] || b in befores[1..];
      BeforesOk(u, befores[1..], page)
  }

  /** The `for (page of update)` loop from position k on. */
  function GoodFrom(u: seq<int>, conditions: map<int, seq<int>>, k: nat): (ok: bool)
    ensures ok <==> forall j :: k <= j < |u| && u[j] in conditions ==> BeforesOk(u, conditions[u[j]], u[j])
    decreases |u| - k
  {
    if k >= |u| then true
    else if u[k] in conditions && !BeforesOk(u, conditions[u[k]], u[k]) then false
    else GoodFrom(u, conditions, k + 1)
  }

  /** `isUpdateGood`. */
  function IsGood(u: seq<int>, conditions: map<int, seq<int>>): bool {
    GoodFrom(u, conditions, 0)
  }

  /** No rule whose later page is in the update has its earlier page after it. */
  ghost predicate Respects(u: seq<int>, rules: seq<Rule>) {
    forall r :: r in rules && r.after in u ==> Find(u, r.before) <= Find(u, r.after)
  }

  /** The loops accept an update exactly when it breaks no rule; an absent page breaks none. */
  lemma IsGoodSpec(u: seq<int>, rules: seq<Rule>)
    ensures IsGood(u, Conditions(rules)) <==> Respects(u, rules)
  {
    var c := Conditions(rules);
    if IsGood(u, c) {
      forall r | r in rules && r.after in u ensures Find(u, r.before) <= Find(u, r.after) {
        var j := Find(u, r.after);
        assert r.before in Befores(rules, r.after);
        assert u[j] in c;
      }
    }
    if Respects(u, rules) {
      forall j | 0 <= j < |u| && u[j] in c ensures BeforesOk(u, c[u[j]], u[j]) {
        forall b | b in c[u[j]] ensures Find(u, b) <= Find(u, u[j]) {
          assert Rule(b, u[j]) in rules;
        }
      }
    }
  }

  /** A bad update has a page, so the middle element of its fixed copy exists. */
  lemma BadIsNonEmpty(u: seq<int>, conditions: map<int, seq<int>>)
    requires !IsGood(u, conditions)
    ensures |u| > 0
  {
  }

  // ---------------------------------------------------------------------------
  // comparePages and the fixed update
  // ---------------------------------------------------------------------------

  /** `comparePages(a, b)`. */
  function Compare(conditions: map<int, seq<int>>, a: int, b: int): int {
    if b in conditions && a in conditions[b] then -1
    else if a in conditions && b in conditions[a] then 1
    else 0
  }

  /** -1 when a rule puts a first, else 1 when a rule puts b first, else 0. */
  lemma CompareSpec(rules: seq<Rule>, a: int, b: int)
    ensures Compare(Conditions(rules), a, b) ==
      if Rule(a, b) in rules then -1 else if Rule(b, a) in rules then 1 else 0
  {
  }

  /** The comparator as a "sorts before" relation. */
  function Precedes(conditions: map<int, seq<int>>): (int, int) -> bool {
    (a, b) => Compare(conditions, a, b) < 0
  }

  /**
   * `[...update].sort(comparePages)`: a sorted copy, the update itself is left
   * as it is. Array.prototype.sort is stable; when the comparator is not a
   * strict weak order on the update's pages the engine's result is
   * implementation-defined and need not be this one (NoStableSortExample).
   */
  function Fixed(u: seq<int>, conditions: map<int, seq<int>>): (f: seq<int>)
    ensures |f| == |u| && multiset(f) == multiset(u)
  {
    SortBy(u, Precedes(conditions))
  }

  /** When the rules order the update's pages strictly, its fixed copy is good. */
  lemma FixedIsGood(u: seq<int>, rules: seq<Rule>)
    requires StrictOrderOn(Precedes(Conditions(rules)), set x | x in u)
    ensures IsGood(Fixed(u, Conditions(rules)), Conditions(rules))
  {
    var c := Conditions(rules);
    var f := Fixed(u, c);
    SortBySortedOn(u, Precedes(c), set x | x in u);
    forall r | r in rules && r.after in f ensures Find(f, r.before) <= Find(f, r.after) {
      var i := Find(f, r.before);
      var j := Find(f, r.after);
      if i > j {
        assert !Precedes(c)(f[i], f[j]);
        CompareSpec(rules, r.before, r.after);
      }
    }
    IsGoodSpec(f, rules);
  }

  /**
   * When the rules are a strict weak order on the update's pages, the fixed
   * copy is what any stable sort with `comparePages` returns: the only sorted
   * arrangement of the pages that keeps tied pages in update order.
   */
  lemma FixedIsTheStableSort(u: seq<int>, r: seq<int>, rules: seq<Rule>)
    requires StrictWeakOrderOn(Precedes(Conditions(rules)), set x | x in u)
    requires multiset(r) == multiset(u) && SortedBy(r, Precedes(Conditions(rules)))
    requires Stable(r, u, Precedes(Conditions(rules)))
    ensures r == Fixed(u, Conditions(rules))
  {
    SortByIsTheStableSort(u, r, Precedes(Conditions(rules)));
  }

  /** With the single rule 1|3, page 2 is tied with 1 and with 3, which are not tied. */
  lemma OneThreeTies()
    ensures var lt := Precedes(Conditions([Rule(1, 3)]));
      lt(1, 3) && Tied(lt, 1, 2) && Tied(lt, 2, 3) && Tied(lt, 3, 3) && Tied(lt, 2, 2) && Tied(lt, 1, 1)
  {
    var rules := [Rule(1, 3)];
    CompareSpec(rules, 1, 3);
    CompareSpec(rules, 3, 1);
    CompareSpec(rules, 1, 2);
    CompareSpec(rules, 2, 1);
    CompareSpec(rules, 2, 3);
    CompareSpec(rules, 3, 2);
    CompareSpec(rules, 1, 1);
    CompareSpec(rules, 2, 2);
    CompareSpec(rules, 3, 3);
  }

  /** With the single rule 1|3, the update 3,2,1 is bad. */
  lemma OneThreeBad()
    ensures !IsGood([3, 2, 1], Conditions([Rule(1, 3)]))
  {
    var rules := [Rule(1, 3)];
    IsGoodSpec([3, 2, 1], rules);
    assert Find([3, 2, 1], 3) == 0 && Find([3, 2, 1], 1) == 2;
    assert Rule(1, 3) in rules;
  }

  /** The rule 1|3 alone is not a strict weak order on the pages 1, 2, 3. */
  lemma OneThreeNotWeak()
    ensures !StrictWeakOrderOn(Precedes(Conditions([Rule(1, 3)])), {1, 2, 3})
  {
    var lt := Precedes(Conditions([Rule(1, 3)]));
    OneThreeTies();
    assert 1 in {1, 2, 3} && 2 in {1, 2, 3} && 3 in {1, 2, 3};
    assert Tied(lt, 1, 2) && Tied(lt, 2, 3) && !Tied(lt, 1, 3);
  }

  /** Any order that does not put 2 before 3 leaves 3,2 as it is. */
  lemma SortThreeTwo(lt: (int, int) -> bool)
    requires !lt(2, 3)
    ensures SortBy([3, 2], lt) == [3, 2]
  {
    assert [3, 2][..1] == [3] && [3][..0] == [];
  }

  /** Any order that puts 1 before 3 and does not put 2 before 3 sorts 3,2,1 to 1,3,2. */
  lemma SortThreeTwoOne(lt: (int, int) -> bool)
    requires lt(1, 3) && !lt(2, 3)
    ensures SortBy([3, 2, 1], lt) == [1, 3, 2]
  {
    SortThreeTwo(lt);
    assert [3, 2, 1][..2] == [3, 2];
  }

  /** Under the rule 1|3 the model fixes 3,2,1 to 1,3,2, whose middle page is 3. */
  lemma OneThreeFixed()
    ensures Fixed([3, 2, 1], Conditions([Rule(1, 3)])) == [1, 3, 2]
  {
    OneThreeTies();
    SortThreeTwoOne(Precedes(Conditions([Rule(1, 3)])));
  }

  /**
   * Under the rule 1|3 no sorted arrangement of 3,2,1 keeps the pages tied
   * with 2 (all three) in update order: what the engine returns is not fixed
   * by the language, and the model's middle page 3 is only one possibility.
   */
  lemma NoStableSortExample(r: seq<int>)
    requires multiset(r) == multiset([3, 2, 1])
    requires SortedBy(r, Precedes(Conditions([Rule(1, 3)])))
    ensures !Stable(r, [3, 2, 1], Precedes(Conditions([Rule(1, 3)])))
  {
    OneThreeTies();
    NoStableSortOfThree(r, Precedes(Conditions([Rule(1, 3)])));
  }

  /** Any order with 1 before 3 and 2 tied with all three leaves 3,2,1 no stable sort. */
  lemma NoStableSortOfThree(r: seq<int>, lt: (int, int) -> bool)
    requires multiset(r) == multiset([3, 2, 1]) && SortedBy(r, lt)
    requires lt(1, 3) && Tied(lt, 1, 2) && Tied(lt, 2, 2) && Tied(lt, 3, 2)
    ensures !Stable(r, [3, 2, 1], lt)
  {
    AllTiedWithTwo(r, lt);
    AllTied(r, 2, lt);
    AllTiedWithTwo([3, 2, 1], lt);
    AllTied([3, 2, 1], 2, lt);
    assert 2 in [3, 2, 1];
  }

  /** Every page of an arrangement of 3,2,1 is tied with 2 when 1, 2 and 3 are. */
  lemma AllTiedWithTwo(r: seq<int>, lt: (int, int) -> bool)
    requires multiset(r) == multiset([3, 2, 1])
    requires Tied(lt, 1, 2) && Tied(lt, 2, 2) && Tied(lt, 3, 2)
    ensures forall k :: 0 <= k < |r| ==> Tied(lt, r[k], 2)
  {
    forall k | 0 <= k < |r| ensures Tied(lt, r[k], 2) {
      assert r[k] in multiset(r);
    }
  }

  // ---------------------------------------------------------------------------
  // The answer
  // ---------------------------------------------------------------------------

  /** The middle page `fixed[Math.floor(fixed.length / 2)]` of a bad update. */
  function Middle(u: seq<int>, conditions: map<int, seq<int>>): int
    requires !IsGood(u, conditions)
  {
    var f := Fixed(u, conditions);
    f[|f| / 2]
  }

  /** The bad updates' middle pages, added up. */
  ghost function BadSum(updates: seq<seq<int>>, rules: seq<Rule>): int {
    if |updates| == 0 then 0
    else
      var u := updates[|updates| - 1];
      BadSum(updates[..|updates| - 1], rules)
        + (if Respects(u, rules) then 0 else Fixed(u, Conditions(rules))[|u| / 2])
  }

  /** `sum`: the loops over updates, pages and befores, then the fix for each bad update. */
  method Answer(updates: seq<seq<int>>, rules: seq<Rule>) returns (sum: int)
    ensures sum == BadSum(updates, rules)
  {
    var conditions := Conditions(rules);
    sum := 0;
    var i := 0;
    while i < |updates|
      invariant 0 <= i <= |updates|
      invariant sum == BadSum(updates[..i], rules)
    {
      var update := updates[i];
      IsGoodSpec(update, rules);
      assert updates[..i + 1][..i] == updates[..i];
      if !IsGood(update, conditions) {
        sum := sum + Middle(update, conditions);
      }
      i := i + 1;
    }
    assert updates[..|updates|] == updates;
  }

  /** With rules 47|53 and 97|47, the update 53,47,97 is bad and fixes to 97,47,53. */
  lemma Example()
    ensures !IsGood([53, 47, 97], Conditions([Rule(47, 53), Rule(97, 47)]))
  {
    var rules := [Rule(47, 53), Rule(97, 47)];
    IsGoodSpec([53, 47, 97], rules);
    assert Find([53, 47, 97], 53) == 0;
    assert Find([53, 47, 97], 47) == 1;
    assert Rule(47, 53) in rules;
  }
}

=== FILE: paper_rolls.dfy ===
/**
 * 4/index.mjs: rolls of paper (`@`) on a grid. A pass marks every roll with
 * fewer than four rolls among its eight neighbours, judged on the grid as it
 * was before the pass, then removes the marked rolls together; passes repeat
 * until one removes nothing, and the answer counts every roll removed.
 */
module PaperRolls {
  import opened Text

  /** `map`: true where the cell is 1 (a roll). */
  type Grid = seq<seq<bool>>

  /** `line.split('').map(char => char == '@' ? 1 : 0)`. */
  function ReadRow(line: string): (row: seq<bool>)
    ensures |row| == |line| && forall j :: 0 <= j < |line| ==> (row[j] <==> line[j] == '@')
  {
    seq(|line|, j requires 0 <= j < |line| => line[j] == '@')
  }

  function ReadGrid(lines: seq<string>): (g: Grid)
    ensures |g| == |lines| && forall i :: 0 <= i < |lines| ==> g[i] == ReadRow(lines[i])
  {
    seq(|lines|, i requires 0 <= i < |lines| => ReadRow(lines[i]))
  }

  /**
   * `isFree(x, y)`: index -1, a missing row, or a missing or empty cell. The
   * coordinates are never below -1.
   */
  function IsFree(g: Grid, x: int, y: int): (free: bool)
    requires x >= -1 && y >= -1
    ensures !free <==> 0 <= x < |g| && 0 <= y < |g[x]| && g[x][y]
  {
    if x == -1 || y == -1 then true
    else if x >= |g| then true
    else if y >= |g[x]| || !g[x][y] then true
    else false
  }

  function Taken1(g: Grid, x: int, y: int): nat
    requires x >= -1 && y >= -1
  {
    if IsFree(g, x, y) then 0 else 1
  }

  /** `takenTiles`: the occupied cells among the eight around (i, j). */
  function Taken(g: Grid, i: nat, j: nat): (n: nat)
    ensures n <= 8
  {
    Taken1(g, i - 1, j - 1) + Taken1(g, i - 1, j) + Taken1(g, i - 1, j + 1)
      + Taken1(g, i, j - 1) + Taken1(g, i, j + 1)
      + Taken1(g, i + 1, j - 1) + Taken1(g, i + 1, j) + Taken1(g, i + 1, j + 1)
  }

  /**
   * The pass marks (i, j): a roll inside the scanned square (the column loop
   * stops at `map.length`, the number of rows) with fewer than four neighbours.
   */
  predicate Marked(g: Grid, i: nat, j: nat) {
    i < |g| && j < |g| && j < |g[i]| && g[i][j] && Taken(g, i, j) < 4
  }

  // ---------------------------------------------------------------------------
  // The marks of one pass, in scan order
  // ---------------------------------------------------------------------------

  /** The marks in row i with column below k. */
  function MarksRow(g: Grid, i: nat, k: nat): (m: seq<(nat, nat)>)
    ensures forall p :: p in m <==> p.0 == i && p.1 < k && Marked(g, i, p.1)
  {
    if k == 0 then [] else MarksRow(g, i, k - 1) + (if Marked(g, i, k - 1) then [(i, k - 1)] else [])
  }

  /** The marks in the first n rows. */
  function MarksRows(g: Grid, n: nat): (m: seq<(nat, nat)>)
    ensures forall p :: p in m <==> p.0 < n && Marked(g, p.0, p.1)
  {
    if n == 0 then [] else MarksRows(g, n - 1) + MarksRow(g, n - 1, |g|)
  }

  /** `toFree`. */
  function Marks(g: Grid): seq<(nat, nat)> {
    MarksRows(g, |g|)
  }

  /** Every mark of a pass removed at once. */
  function PassGrid(g: Grid): (g': Grid)
    ensures |g'| == |g| && forall i :: 0 <= i < |g| ==> |g'[i]| == |g[i]|
    ensures forall i, j :: 0 <= i < |g| && 0 <= j < |g[i]| ==> (g'[i][j] <==> g[i][j] && !Marked(g, i, j))
  {
    seq(|g|, i requires 0 <= i < |g| =>
      seq(|g[i]|, j requires 0 <= j < |g[i]| => g[i][j] && !Marked(g, i, j)))
  }

  /** `map[pair[0]][pair[1]] = 0` for each pair. */
  function Clear(g: Grid, pairs: seq<(nat, nat)>): (g': Grid)
    requires forall p :: p in pairs ==> p.0 < |g| && p.1 < |g[p.0]|
    ensures |g'| == |g| && forall i :: 0 <= i < |g| ==> |g'[i]| == |g[i]|
    ensures forall i, j :: 0 <= i < |g| && 0 <= j < |g[i]| ==> (g'[i][j] <==> g[i][j] && (i, j) !in pairs)
    decreases |pairs|
  {
    if |pairs| == 0 then g
    else
      var p: (nat, nat) := pairs[|pairs| - 1];
      var h := Clear(g, pairs[..|pairs| - 1]);
      assert pairs == pairs[..|pairs| - 1] + [p];
      h[p.0 := h[p.0][p.1 := false]]
  }

  /** The scan of `onePass()`: the loops over i and j collecting `toFree`. */
  method CollectMarks(g: Grid) returns (toFree: seq<(nat, nat)>)
    ensures toFree == Marks(g)
  {
    toFree := [];
    var i := 0;
    while i < |g|
      invariant 0 <= i <= |g|
      invariant toFree == MarksRows(g, i)
    {
      var j := 0;
      while j < |g|
        invariant 0 <= j <= |g|
        invariant toFree == MarksRows(g, i) + MarksRow(g, i, j)
      {
        if j < |g[i]| && g[i][j] {
          var takenTiles := Taken(g, i, j);
          if takenTiles < 4 {
            toFree := toFree + [(i, j)];
          }
        }
        assert MarksRow(g, i, j + 1) == MarksRow(g, i, j) + (if Marked(g, i, j) then [(i, j)] else []);
        j := j + 1;
      }
      assert MarksRows(g, i + 1) == MarksRows(g, i) + MarksRow(g, i, |g|);
      i := i + 1;
    }
  }

  /** The `for (pair of toFree)` loop. */
  method ClearAll(g: Grid, toFree: seq<(nat, nat)>) returns (g': Grid)
    requires forall p :: p in toFree ==> p.0 < |g| && p.1 < |g[p.0]|
    ensures g' == Clear(g, toFree)
  {
    g' := g;
    var k := 0;
    while k < |toFree|
      invariant 0 <= k <= |toFree|
      invariant g' == Clear(g, toFree[..k])
    {
      var pair := toFree[k];
      assert toFree[..k + 1][..k] == toFree[..k];
      g' := g'[pair.0 := g'[pair.0][pair.1 := false]];
      k := k + 1;
    }
    assert toFree[..|toFree|] == toFree;
  }

  /** Clearing the marks is the pass. */
  lemma ClearMarks(g: Grid)
    ensures Clear(g, Marks(g)) == PassGrid(g)
  {
    var a := Clear(g, Marks(g));
    var b := PassGrid(g);
    forall i | 0 <= i < |g| ensures a[i] == b[i] {
      forall j | 0 <= j < |g[i]| ensures a[i][j] == b[i][j] {
        assert (i, j) in Marks(g) <==> Marked(g, i, j);
      }
    }
  }

  /** `onePass()`: the scan collects the marks, then they are cleared; returns the number cleared. */
  method OnePass(g: Grid) returns (g': Grid, freed: nat)
    ensures g' == PassGrid(g)
    ensures freed == |Marks(g)|
  {
    var toFree := CollectMarks(g);
    g' := ClearAll(g, toFree);
    ClearMarks(g);
    freed := |toFree|;
  }

  // ---------------------------------------------------------------------------
  // Counting rolls
  // ---------------------------------------------------------------------------

  /** The rolls among the first k cells of a row. */
  function RowOnes(row: seq<bool>, k: nat): nat
    requires k <= |row|
  {
    if k == 0 then 0 else RowOnes(row, k - 1) + (if row[k - 1] then 1 else 0)
  }

  /** The rolls in the first n rows. */
  function Ones(g: Grid, n: nat): nat
    requires n <= |g|
  {
    if n == 0 then 0 else Ones(g, n - 1) + RowOnes(g[n - 1], |g[n - 1]|)
  }

  function Rolls(g: Grid): nat {
    Ones(g, |g|)
  }

  /** Past the end of the shorter of the row and the square, nothing more is marked. */
  lemma {:induction false} MarksRowStops(g: Grid, i: nat, k: nat)
    requires i < |g|
    ensures |MarksRow(g, i, k)| == |MarksRow(g, i, if k < |g[i]| then k else |g[i]|)|
    decreases k
  {
    if k > |g[i]| {
      MarksRowStops(g, i, k - 1);
    }
  }

  /** In one row, the rolls left plus the rolls marked are the rolls before. */
  lemma {:induction false} RowBalance(g: Grid, i: nat, k: nat)
    requires i < |g| && k <= |g[i]|
    ensures RowOnes(PassGrid(g)[i], k) + |MarksRow(g, i, k)| == RowOnes(g[i], k)
    decreases k
  {
    if k > 0 {
      RowBalance(g, i, k - 1);
    }
  }

  lemma {:induction false} GridBalance(g: Grid, n: nat)
    requires n <= |g|
    ensures Ones(PassGrid(g), n) + |MarksRows(g, n)| == Ones(g, n)
    decreases n
  {
    if n > 0 {
      GridBalance(g, n - 1);
      RowBalance(g, n - 1, |g[n - 1]|);
      MarksRowWidth(g, n - 1);
      GridStep(g, n);
    }
  }

  /** Row n - 1 adds its rolls and its marks to the counts of the first n - 1 rows. */
  lemma GridStep(g: Grid, n: nat)
    requires 0 < n <= |g|
    ensures Ones(PassGrid(g), n) == Ones(PassGrid(g), n - 1) + RowOnes(PassGrid(g)[n - 1], |g[n - 1]|)
    ensures |MarksRows(g, n)| == |MarksRows(g, n - 1)| + |MarksRow(g, n - 1, |g|)|
    ensures Ones(g, n) == Ones(g, n - 1) + RowOnes(g[n - 1], |g[n - 1]|)
  {
  }

  /** The marks of a row scanned to the square's side are those of the whole row. */
  lemma MarksRowWidth(g: Grid, i: nat)
    requires i < |g|
    ensures |MarksRow(g, i, |g|)| == |MarksRow(g, i, |g[i]|)|
  {
    MarksRowStops(g, i, |g|);
    MarksRowStops(g, i, |g[i]|);
    if |g| < |g[i]| {
      MarksRowShort(g, i, |g|, |g[i]|);
    }
  }

  /** No column at or beyond the square's side is marked. */
  lemma {:induction false} MarksRowShort(g: Grid, i: nat, k: nat, k': nat)
    requires i < |g| && |g| <= k <= k'
    ensures MarksRow(g, i, k') == MarksRow(g, i, k)
    decreases k' - k
  {
    if k' > k {
      MarksRowShort(g, i, k, k' - 1);
    }
  }

  /** A pass removes exactly the rolls it reports. */
  lemma PassBalance(g: Grid)
    ensures Rolls(PassGrid(g)) + |Marks(g)| == Rolls(g)
  {
    GridBalance(g, |g|);
  }

  // ---------------------------------------------------------------------------
  // Repeating passes
  // ---------------------------------------------------------------------------

  /** A pass that marks nothing leaves the grid as it is. */
  lemma NoMarksStable(g: Grid)
    requires |Marks(g)| == 0
    ensures PassGrid(g) == g
  {
    forall i | 0 <= i < |g| ensures PassGrid(g)[i] == g[i] {
      forall j | 0 <= j < |g[i]| ensures !Marked(g, i, j) {
        assert (i, j) in Marks(g) <==> Marked(g, i, j);
      }
    }
  }

  /** Every roll of g' is a roll of g. */
  ghost predicate Within(g': Grid, g: Grid) {
    |g'| == |g| && (forall i :: 0 <= i < |g| ==> |g'[i]| == |g[i]|)
    && forall i, j :: 0 <= i < |g| && 0 <= j < |g[i]| && g'[i][j] ==> g[i][j]
  }

  /**
   * The grid the passes settle on: passes repeat while the last one marked
   * something. Each such pass takes at least one roll away, so this ends.
   */
  ghost function Settle(g: Grid): (s: Grid)
    ensures |Marks(s)| == 0
    decreases Rolls(g)
  {
    if |Marks(g)| == 0 then g
    else
      PassBalance(g);
      Settle(PassGrid(g))
  }

  /**
   * `while (onePass());` with `count += toFree.length`: passes repeat until
   * one removes nothing. It stops because every other pass removes a roll.
   */
  method RemoveAll(g: Grid) returns (count: nat, final: Grid)
    ensures count + Rolls(final) == Rolls(g)
    ensures |Marks(final)| == 0 && PassGrid(final) == final
    ensures Within(final, g)
    ensures final == Settle(g) && count == Rolls(g) - Rolls(Settle(g))
  {
    count := 0;
    final := g;
    var freed := 1;
    while freed > 0
      invariant count + Rolls(final) == Rolls(g)
      invariant Within(final, g)
      invariant Settle(final) == Settle(g)
      invariant freed == 0 ==> |Marks(final)| == 0 && PassGrid(final) == final
      decreases Rolls(final), freed
    {
      var next;
      next, freed := OnePass(final);
      PassBalance(final);
      count := count + freed;
      if freed == 0 {
        NoMarksStable(final);
      }
      final := next;
    }
  }

  /** A grid whose every roll has four neighbours settles at once: nothing is removed. */
  lemma OctagonSettles()
    ensures var g := [[false, true, true, false], [true, true, true, true],
                      [true, true, true, true], [false, true, true, false]];
            Settle(g) == g && Rolls(g) - Rolls(Settle(g)) == 0
  {
    var g := [[false, true, true, false], [true, true, true, true],
              [true, true, true, true], [false, true, true, false]];
    assert Taken(g, 0, 1) == 4;
    assert Taken(g, 0, 2) == 4;
    assert Taken(g, 1, 0) == 4;
    assert Taken(g, 1, 1) == 7;
    assert Taken(g, 1, 2) == 7;
    assert Taken(g, 1, 3) == 4;
    assert Taken(g, 2, 0) == 4;
    assert Taken(g, 2, 1) == 7;
    assert Taken(g, 2, 2) == 7;
    assert Taken(g, 2, 3) == 4;
    assert Taken(g, 3, 1) == 4;
    assert Taken(g, 3, 2) == 4;
  }
}

=== FILE: path_count.dfy ===
/**
 * 11/index.mjs: a device graph given as lines `from: a b c`. `findPathes`
 * counts the paths from `svr` to `out` that pass through both `dac` and `fft`,
 * walking depth first over states (node, dac flag, fft flag). A state already
 * on the recursion stack counts 0, which cuts cycles, and completed states
 * are memoised.
 */
module PathCount {
  import opened Text

  /** `graph`: each `from` node with its list of next nodes. */
  type Graph = map<string, seq<string>>

  // ---------------------------------------------------------------------------
  // Parsing
  // ---------------------------------------------------------------------------

  /**
   * `line.split(':').map(s => s.trim())` and `toNodesRaw.split(' ')`. A line
   * without ':' has no `toNodesRaw`, on which the source fails: None.
   */
  function ParseLine(line: string): (r: Option<(string, seq<string>)>)
    ensures r == None <==> ':' !in line
    ensures r.Some? ==> |r.value.1| >= 1
  {
    var parts := Split(line, ":");
    ColonSplits(line);
    if |parts| < 2 then None
    else Some((Trim(parts[0]), Split(Trim(parts[1]), " ")))
  }

  /** A line splits at ':' into two or more pieces exactly when it holds a ':'. */
  lemma ColonSplits(line: string)
    ensures |Split(line, ":")| >= 2 <==> ':' in line
  {
    if ':' in line {
      var i :| 0 <= i < |line| && line[i] == ':';
      assert line[i..i + 1] == ":";
      assert OccursAt(line, ":", i);
    } else {
      NoOccurrence(line, ':');
    }
  }

  /** The way the puzzle writes a line: `from: a b c`. */
  function FormatLine(from: string, tos: seq<string>): string
    requires |tos| >= 1
  {
    from + ": " + Join(tos, " ")
  }

  /** A node name as the puzzle writes them: non-empty, no white space, no ':'. */
  predicate Name(s: string) {
    |s| > 0 && ':' !in s && forall i :: 0 <= i < |s| ==> !IsJsSpace(s[i])
  }

  /** The first and last characters of a join of non-empty pieces. */
  lemma {:induction false} JoinEnds(parts: seq<string>, sep: string)
    requires |parts| >= 1 && forall p :: p in parts ==> |p| > 0
    ensures |Join(parts, sep)| > 0
    ensures Join(parts, sep)[0] == parts[0][0]
    ensures Join(parts, sep)[|Join(parts, sep)| - 1] == parts[|parts| - 1][|parts[|parts| - 1]| - 1]
    decreases |parts|
  {
    if |parts| > 1 {
      assert parts[1..][|parts[1..]| - 1] == parts[|parts| - 1];
      JoinEnds(parts[1..], sep);
    }
  }

  /** Characters of a join come from the pieces or the separator. */
  lemma {:induction false} JoinChars(parts: seq<string>, c: char, d: char)
    requires |parts| >= 1 && forall p :: p in parts ==> d !in p
    requires c != d
    ensures d !in Join(parts, [c])
    decreases |parts|
  {
    if |parts| > 1 {
      JoinChars(parts[1..], c, d);
    }
  }

  /** Trimming leaves a text that starts and ends with non-space characters alone. */
  lemma TrimEnds(s: string)
    requires |s| > 0 && !IsJsSpace(s[0]) && !IsJsSpace(s[|s| - 1])
    ensures Trim(" " + s) == s
  {
    assert (" " + s)[1..] == s;
  }

  /** Parsing a line written as the puzzle writes it gives its node and list back. */
  lemma ParseFormat(from: string, tos: seq<string>)
    requires Name(from) && |tos| >= 1 && forall t :: t in tos ==> Name(t)
    ensures ParseLine(FormatLine(from, tos)) == Some((from, tos))
  {
    var rest := Join(tos, " ");
    assert tos[0] in tos && tos[|tos| - 1] in tos;
    JoinEnds(tos, " ");
    JoinChars(tos, ' ', ':');
    forall t | t in tos ensures ' ' !in t {
      assert Name(t);
      assert forall i :: 0 <= i < |t| ==> t[i] != ' ';
    }
    assert FormatLine(from, tos) == Join([from, " " + rest], ":");
    JoinSplit([from, " " + rest], ':');
    TrimNoSpace(from);
    TrimEnds(rest);
    JoinSplit(tos, ' ');
  }

  /** Entry i is the last entry for its node. */
  predicate Latest(entries: seq<(string, seq<string>)>, i: nat)
    requires i < |entries|
  {
    forall j :: i < j < |entries| ==> entries[j].0 != entries[i].0
  }

  /** `graph[fromNode] = toNodes` for each entry in turn: a later entry for a node replaces its list. */
  function Build(entries: seq<(string, seq<string>)>): (g: Graph)
    ensures forall n :: n in g <==> exists i :: 0 <= i < |entries| && entries[i].0 == n
    ensures forall i :: 0 <= i < |entries| && Latest(entries, i) ==> g[entries[i].0] == entries[i].1
  {
    if |entries| == 0 then map[]
    else
      var init := entries[..|entries| - 1];
      var last := entries[|entries| - 1];
      assert forall i :: 0 <= i < |init| ==> init[i] == entries[i];
      Build(init)[last.0 := last.1]
  }

  /** The `graph` object after every line; None when some line has no ':'. */
  function ParseGraph(lines: seq<string>): (r: Option<Graph>)
    ensures r.None? <==> exists i :: 0 <= i < |lines| && ':' !in lines[i]
  {
    if exists i :: 0 <= i < |lines| && ParseLine(lines[i]).None? then None
    else Some(Build(seq(|lines|, i requires 0 <= i < |lines| => ParseLine(lines[i]).value)))
  }

  // ---------------------------------------------------------------------------
  // The search
  // ---------------------------------------------------------------------------

  /** The memo and stack key `${node},${dacState},${fftState}`. */
  datatype Key = Key(node: string, dac: bool, fft: bool)

  /** The state after entering node: reaching `dac` or `fft` sets its flag. */
  function Enter(node: string, dac: bool, fft: bool): (k: Key)
    ensures k.node == node
    ensures k.dac <==> dac || node == "dac"
    ensures k.fft <==> fft || node == "fft"
  {
    Key(node, dac || node == "dac", fft || node == "fft")
  }

  /** Flags never revert, and entering a node twice changes nothing more. */
  lemma EnterTwice(node: string, dac: bool, fft: bool)
    ensures var k := Enter(node, dac, fft);
      && (dac ==> k.dac) && (fft ==> k.fft)
      && Enter(node, k.dac, k.fft) == k
  {
  }

  /** Every state that can be pushed: a node with a list, with either flag value. */
  function States(g: Graph): (u: set<Key>)
    ensures forall k :: k in u <==> k.node in g
  {
    var u := set n, d: bool, f: bool | n in g.Keys :: Key(n, d, f);
    forall k: Key | k.node in g ensures k in u {
      assert k == Key(k.node, k.dac, k.fft);
    }
    u
  }

  /** The result of `findPathes` together with `memo` and `onStack` afterwards. */
  datatype Search = Search(count: nat, memo: map<Key, nat>, stack: set<Key>)

  /** Pushing a new state shrinks the states not yet on the stack. */
  lemma PushShrinks(u: set<Key>, s: set<Key>, k: Key)
    requires k in u && k !in s
    ensures |u - (s + {k})| < |u - s|
  {
    assert u - s == (u - (s + {k})) + {k};
  }

  /** What every search call leaves behind: the stack restored, memo entries kept, new ones off the stack. */
  predicate Tidy(memo: map<Key, nat>, stack: set<Key>, r: Search) {
    && r.stack == stack
    && (forall k :: k in memo ==> k in r.memo && r.memo[k] == memo[k])
    && (forall k :: k in r.memo && k !in memo ==> k !in stack)
  }

  /**
   * `findPathes(node, dacState, fftState)` run with the given `memo` and
   * `onStack`: on the stack 0; memoised the stored count; `out` 1 iff both
   * flags are set; no list 0; otherwise the sum over the next nodes with the
   * state pushed, which is then popped and memoised.
   */
  function FindPaths(g: Graph, node: string, dac: bool, fft: bool, memo: map<Key, nat>, stack: set<Key>): (r: Search)
    requires stack <= States(g)
    ensures Tidy(memo, stack, r)
    ensures Enter(node, dac, fft) !in stack && node != "out" && node in g ==>
              Enter(node, dac, fft) in r.memo && r.memo[Enter(node, dac, fft)] == r.count
    decreases |States(g) - stack|, 0, 0
  {
    var key := Enter(node, dac, fft);
    if key in stack then Search(0, memo, stack)
    else if key in memo then Search(memo[key], memo, stack)
    else if node == "out" then Search(if key.dac && key.fft then 1 else 0, memo, stack)
    else if node !in g then Search(0, memo, stack)
    else
      PushShrinks(States(g), stack, key);
      var inner := FindAll(g, g[node], 0, key.dac, key.fft, 0, memo, stack + {key});
      assert (stack + {key}) - {key} == stack;
      assert key !in inner.memo;
      Search(inner.count, inner.memo[key := inner.count], inner.stack - {key})
  }

  /** The `for (const nextNode of graph[node])` loop from index i, adding to acc. */
  function FindAll(g: Graph, nexts: seq<string>, i: nat, dac: bool, fft: bool, acc: nat,
                   memo: map<Key, nat>, stack: set<Key>): (r: Search)
    requires i <= |nexts| && stack <= States(g)
    ensures Tidy(memo, stack, r)
    ensures r.count >= acc
    decreases |States(g) - stack|, 1, |nexts| - i
  {
    if i == |nexts| then Search(acc, memo, stack)
    else
      var s := FindPaths(g, nexts[i], dac, fft, memo, stack);
      FindAll(g, nexts, i + 1, dac, fft, acc + s.count, s.memo, s.stack)
  }

  /**
   * The guards before any recursion: a state on the stack counts 0 and
   * changes nothing; a memoised one its stored count; `out` 1 iff both flags
   * are set; a node without a list 0.
   */
  lemma FindPathsGuards(g: Graph, node: string, dac: bool, fft: bool, memo: map<Key, nat>, stack: set<Key>)
    requires stack <= States(g)
    ensures var r := FindPaths(g, node, dac, fft, memo, stack); var key := Enter(node, dac, fft);
      && (key in stack ==> r.count == 0 && r.memo == memo)
      && (key !in stack && key in memo ==> r.count == memo[key] && r.memo == memo)
      && (key !in stack && key !in memo && node == "out" ==> r.count <= 1 && (r.count == 1 <==> key.dac && key.fft))
      && (key !in stack && key !in memo && node != "out" && node !in g ==> r.count == 0)
  {
  }

  /** `findPathes('svr', 0, 0)` with an empty memo and stack. */
  function Answer(g: Graph): nat {
    FindPaths(g, "svr", false, false, map[], {}).count
  }

  // ---------------------------------------------------------------------------
  // Acyclic graphs: the reference count
  // ---------------------------------------------------------------------------

  /** A ranking that drops along every edge between nodes with lists: the graph has no cycle. */
  predicate Ranked(g: Graph, rank: map<string, nat>) {
    forall n :: n in g ==> n in rank && forall m :: m in g[n] && m in g ==> m in rank && rank[m] < rank[n]
  }

  /** The plain recursive path count: no memo, no stack. */
  function Count(g: Graph, rank: map<string, nat>, node: string, dac: bool, fft: bool): nat
    requires Ranked(g, rank)
    decreases if node in g then rank[node] + 1 else 0, 1
  {
    var key := Enter(node, dac, fft);
    if node == "out" then (if key.dac && key.fft then 1 else 0)
    else if node !in g then 0
    else CountFrom(g, rank, node, 0, key.dac, key.fft)
  }

  /** The counts from the next nodes of parent, from index i on, summed. */
  function CountFrom(g: Graph, rank: map<string, nat>, parent: string, i: nat, dac: bool, fft: bool): nat
    requires Ranked(g, rank) && parent in g && i <= |g[parent]|
    decreases rank[parent] + 1, 0, |g[parent]| - i
  {
    if i == |g[parent]| then 0
    else Count(g, rank, g[parent][i], dac, fft) + CountFrom(g, rank, parent, i + 1, dac, fft)
  }

  /** The memo entry of state k, if any, holds the reference count of k. */
  ghost predicate Stored(g: Graph, rank: map<string, nat>, memo: map<Key, nat>, k: Key)
    requires Ranked(g, rank)
  {
    k in memo ==> memo[k] == Count(g, rank, k.node, k.dac, k.fft)
  }

  /** Every memo entry holds the reference count of its state. */
  ghost predicate MemoOk(g: Graph, rank: map<string, nat>, memo: map<Key, nat>)
    requires Ranked(g, rank)
  {
    forall k :: Stored(g, rank, memo, k)
  }

  /** Every state on the stack ranks above node: the search cannot meet it again. */
  predicate Above(g: Graph, rank: map<string, nat>, stack: set<Key>, node: string)
    requires Ranked(g, rank) && stack <= States(g)
  {
    node in g ==> forall k :: k in stack ==> rank[node] < rank[k.node]
  }

  /** The reference count of a state is the count of the node entered with its flags. */
  lemma CountEnter(g: Graph, rank: map<string, nat>, node: string, dac: bool, fft: bool)
    requires Ranked(g, rank)
    ensures var k := Enter(node, dac, fft); Count(g, rank, node, dac, fft) == Count(g, rank, k.node, k.dac, k.fft)
  {
  }

  /** On a graph without cycles the cycle guard never fires and the memo holds true counts. */
  lemma {:induction false} FindPathsCount(g: Graph, rank: map<string, nat>, node: string, dac: bool, fft: bool,
                                          memo: map<Key, nat>, stack: set<Key>)
    requires Ranked(g, rank) && stack <= States(g) && MemoOk(g, rank, memo) && Above(g, rank, stack, node)
    ensures FindPaths(g, node, dac, fft, memo, stack).count == Count(g, rank, node, dac, fft)
    ensures MemoOk(g, rank, FindPaths(g, node, dac, fft, memo, stack).memo)
    decreases |States(g) - stack|, 0, 1
  {
    var key := Enter(node, dac, fft);
    CountEnter(g, rank, node, dac, fft);
    assert forall k :: k in stack ==> k.node != node;
    assert Stored(g, rank, memo, key);
    if key !in memo && node != "out" && node in g {
      FindPathsPush(g, rank, node, dac, fft, memo, stack);
    }
  }

  /** The case that recurses: the state is pushed, the next nodes counted, then popped and memoised. */
  lemma {:induction false} FindPathsPush(g: Graph, rank: map<string, nat>, node: string, dac: bool, fft: bool,
                                         memo: map<Key, nat>, stack: set<Key>)
    requires Ranked(g, rank) && stack <= States(g) && MemoOk(g, rank, memo) && Above(g, rank, stack, node)
    requires Enter(node, dac, fft) !in stack && Enter(node, dac, fft) !in memo && node != "out" && node in g
    ensures FindPaths(g, node, dac, fft, memo, stack).count == Count(g, rank, node, dac, fft)
    ensures MemoOk(g, rank, FindPaths(g, node, dac, fft, memo, stack).memo)
    decreases |States(g) - stack|, 0, 0
  {
    var key := Enter(node, dac, fft);
    PushShrinks(States(g), stack, key);
    var pushed := stack + {key};
    PushedAbove(g, rank, node, dac, fft, stack);
    FindAllCount(g, rank, node, 0, key.dac, key.fft, 0, memo, pushed);
    var inner := FindAll(g, g[node], 0, key.dac, key.fft, 0, memo, pushed);
    CountNode(g, rank, node, dac, fft);
    FindPathsPushStep(g, node, dac, fft, memo, stack);
    MemoOkAdd(g, rank, inner.memo, key, inner.count);
  }

  /** The stack with node's state pushed ranks at or above node. */
  lemma PushedAbove(g: Graph, rank: map<string, nat>, node: string, dac: bool, fft: bool, stack: set<Key>)
    requires Ranked(g, rank) && stack <= States(g) && Above(g, rank, stack, node) && node in g
    ensures forall k :: k in stack + {Enter(node, dac, fft)} ==> rank[node] <= rank[k.node]
  {
  }

  /** The reference count of a node with a list sums over its next nodes. */
  lemma CountNode(g: Graph, rank: map<string, nat>, node: string, dac: bool, fft: bool)
    requires Ranked(g, rank) && node in g && node != "out"
    ensures var key := Enter(node, dac, fft);
      Count(g, rank, node, dac, fft) == CountFrom(g, rank, node, 0, key.dac, key.fft)
  {
  }

  /** One unfolding of the recursing case. */
  lemma FindPathsPushStep(g: Graph, node: string, dac: bool, fft: bool, memo: map<Key, nat>, stack: set<Key>)
    requires stack <= States(g)
    requires Enter(node, dac, fft) !in stack && Enter(node, dac, fft) !in memo && node != "out" && node in g
    ensures var key := Enter(node, dac, fft);
      var inner := FindAll(g, g[node], 0, key.dac, key.fft, 0, memo, stack + {key});
      && FindPaths(g, node, dac, fft, memo, stack).count == inner.count
      && FindPaths(g, node, dac, fft, memo, stack).memo == inner.memo[key := inner.count]
  {
  }

  lemma {:induction false} FindAllCount(g: Graph, rank: map<string, nat>, parent: string, i: nat, dac: bool, fft: bool,
                                        acc: nat, memo: map<Key, nat>, stack: set<Key>)
    requires Ranked(g, rank) && parent in g && i <= |g[parent]|
    requires stack <= States(g) && MemoOk(g, rank, memo)
    requires forall k :: k in stack ==> rank[parent] <= rank[k.node]
    ensures FindAll(g, g[parent], i, dac, fft, acc, memo, stack).count == acc + CountFrom(g, rank, parent, i, dac, fft)
    ensures MemoOk(g, rank, FindAll(g, g[parent], i, dac, fft, acc, memo, stack).memo)
    decreases |States(g) - stack|, 1, |g[parent]| - i
  {
    if i < |g[parent]| {
      var next := g[parent][i];
      NextAbove(g, rank, parent, i, stack);
      FindPathsCount(g, rank, next, dac, fft, memo, stack);
      var s := FindPaths(g, next, dac, fft, memo, stack);
      FindAllStep(g, g[parent], i, dac, fft, acc, memo, stack);
      FindAllCount(g, rank, parent, i + 1, dac, fft, acc + s.count, s.memo, stack);
      var r := FindAll(g, g[parent], i + 1, dac, fft, acc + s.count, s.memo, stack);
      assert FindAll(g, g[parent], i, dac, fft, acc, memo, stack) == r;
      CountFromStep(g, rank, parent, i, dac, fft);
      assert r.count == acc + CountFrom(g, rank, parent, i, dac, fft);
    } else {
      FindAllEnd(g, g[parent], i, dac, fft, acc, memo, stack);
    }
  }

  lemma CountFromStep(g: Graph, rank: map<string, nat>, parent: string, i: nat, dac: bool, fft: bool)
    requires Ranked(g, rank) && parent in g && i < |g[parent]|
    ensures CountFrom(g, rank, parent, i, dac, fft)
      == Count(g, rank, g[parent][i], dac, fft) + CountFrom(g, rank, parent, i + 1, dac, fft)
  {
  }

  lemma FindAllEnd(g: Graph, nexts: seq<string>, i: nat, dac: bool, fft: bool, acc: nat,
                   memo: map<Key, nat>, stack: set<Key>)
    requires i == |nexts| && stack <= States(g)
    ensures FindAll(g, nexts, i, dac, fft, acc, memo, stack) == Search(acc, memo, stack)
  {
  }

  /** One turn of the loop: count next node i, then go on with its memo. */
  lemma FindAllStep(g: Graph, nexts: seq<string>, i: nat, dac: bool, fft: bool, acc: nat,
                    memo: map<Key, nat>, stack: set<Key>)
    requires i < |nexts| && stack <= States(g)
    ensures var s := FindPaths(g, nexts[i], dac, fft, memo, stack);
      FindAll(g, nexts, i, dac, fft, acc, memo, stack) == FindAll(g, nexts, i + 1, dac, fft, acc + s.count, s.memo, stack)
  {
  }

  /** The stack of a call for parent's next node ranks above that node. */
  lemma NextAbove(g: Graph, rank: map<string, nat>, parent: string, i: nat, stack: set<Key>)
    requires Ranked(g, rank) && parent in g && i < |g[parent]| && stack <= States(g)
    requires forall k :: k in stack ==> rank[parent] <= rank[k.node]
    ensures Above(g, rank, stack, g[parent][i])
  {
    assert g[parent][i] in g[parent];
  }

  lemma MemoOkAdd(g: Graph, rank: map<string, nat>, memo: map<Key, nat>, key: Key, v: nat)
    requires Ranked(g, rank) && MemoOk(g, rank, memo) && v == Count(g, rank, key.node, key.dac, key.fft)
    ensures MemoOk(g, rank, memo[key := v])
  {
    var m := memo[key := v];
    forall k ensures Stored(g, rank, m, k) {
      assert Stored(g, rank, memo, k);
    }
  }

  /** On a graph without cycles the answer is the number of `svr` to `out` paths through `dac` and `fft`. */
  lemma AnswerCount(g: Graph, rank: map<string, nat>)
    requires Ranked(g, rank)
    ensures Answer(g) == Count(g, rank, "svr", false, false)
  {
    FindPathsCount(g, rank, "svr", false, false, map[], {});
  }
}

=== FILE: polygon.dfy ===
/**
 * 9/index.mjs: the red tiles are the corners of a rectilinear polygon, in
 * order. A rectangle with two corner tiles as opposite corners counts when
 * it lies inside the polygon; the answer is the largest such area, both
 * ends inclusive.
 */
module Polygon {
  import opened Text

  datatype Point = Point(x: int, y: int)

  type Poly = seq<Point>

  // ---------------------------------------------------------------------------
  // Reading the corners
  // ---------------------------------------------------------------------------

  /**
   * `ln.split(',').map(Number)` as a point: the first two pieces; None when
   * there are fewer or one of them is NaN.
   */
  function ParsePoint(line: string): Option<Point> {
    var parts := Split(line, ",");
    if |parts| < 2 then None
    else match (NumberOf(parts[0]), NumberOf(parts[1]))
      case (Some(x), Some(y)) => Some(Point(x, y))
      case _ => None
  }

  /** A corner written out as `x,y` reads back as itself. */
  lemma ParsePointText(x: nat, y: nat)
    ensures ParsePoint(Decimal(x) + "," + Decimal(y)) == Some(Point(x, y))
  {
    DecimalAvoids(x, ',');
    DecimalAvoids(y, ',');
    SplitPair(Decimal(x), Decimal(y), ',');
    NumberOfDecimal(x);
    NumberOfDecimal(y);
  }

  /** Every line read as a corner, in order; None as soon as one does not read. */
  function ParsePoly(lines: seq<string>): (r: Option<Poly>)
    ensures r.Some? <==> forall i :: 0 <= i < |lines| ==> ParsePoint(lines[i]).Some?
    ensures r.Some? ==> |r.value| == |lines| && forall i :: 0 <= i < |lines| ==> ParsePoint(lines[i]) == Some(r.value[i])
  {
    if |lines| == 0 then Some([])
    else match (ParsePoint(lines[0]), ParsePoly(lines[1..]))
      case (Some(p), Some(ps)) => Some([p] + ps)
      case _ => None
  }

  /**
   * A file ending in a newline splits into lines ending with "", which is
   * not a corner, so the corners do not read.
   */
  lemma TrailingNewlineUnread(lines: seq<string>)
    requires |lines| > 0 && lines[|lines| - 1] == ""
    ensures ParsePoly(lines) == None
  {
    NoOccurrence("", ',');
    assert ParsePoint(lines[|lines| - 1]) == None;
  }

  // ---------------------------------------------------------------------------
  // Edges
  // ---------------------------------------------------------------------------

  function Min(a: int, b: int): (m: int)
    ensures m <= a && m <= b && (m == a || m == b)
  {
    if a < b then a else b
  }

  function Max(a: int, b: int): (m: int)
    ensures m >= a && m >= b && (m == a || m == b)
  {
    if a < b then b else a
  }

  /** The `j` of the edge loops: the previous corner, the last one for corner 0. */
  function Prev(poly: Poly, i: nat): (j: nat)
    requires i < |poly|
    ensures j < |poly|
  {
    if i == 0 then |poly| - 1 else i - 1
  }

  /** Corner i follows its previous corner, cyclically. */
  lemma PrevWraps(poly: Poly, i: nat)
    requires i < |poly|
    ensures (Prev(poly, i) + 1) % |poly| == i
  {
    var n := |poly|;
    if i == 0 {
      assert Prev(poly, i) + 1 == n;
    } else {
      assert Prev(poly, i) + 1 == i < n;
    }
  }

  /** The point lies on the horizontal or vertical edge from a to b. */
  predicate OnEdge(x: int, y: int, a: Point, b: Point) {
    || (a.y == b.y && a.y == y && Min(a.x, b.x) <= x <= Max(a.x, b.x))
    || (a.x == b.x && a.x == x && Min(a.y, b.y) <= y <= Max(a.y, b.y))
  }

  /**
   * The ray from (x, y) towards increasing x crosses the edge from a to b:
   * exactly one end is above y, and x is left of the edge at height y. The
   * division of the source is replaced by the exact comparison, multiplied
   * through by the height of the edge, which is not 0.
   */
  predicate Crosses(x: int, y: int, a: Point, b: Point) {
    && (a.y > y) != (b.y > y)
    && var d := b.y - a.y;
       assert d != 0;
       if d > 0 then (x - a.x) * d < (b.x - a.x) * (y - a.y)
       else (x - a.x) * d > (b.x - a.x) * (y - a.y)
  }

  /** The loop of `pointInPolygon` from edge i, with the crossing flag so far. */
  function Ray(poly: Poly, x: int, y: int, i: nat, inside: bool): bool
    requires i <= |poly|
    decreases |poly| - i
  {
    if i == |poly| then inside
    else
      var a := poly[i];
      var b := poly[Prev(poly, i)];
      if OnEdge(x, y, a, b) then true
      else Ray(poly, x, y, i + 1, if Crosses(x, y, a, b) then !inside else inside)
  }

  /** `pointInPolygon(x, y, polygon)`. */
  function PointIn(poly: Poly, x: int, y: int): bool {
    Ray(poly, x, y, 0, false)
  }

  /** The point lies on some edge. */
  predicate OnBoundary(poly: Poly, x: int, y: int) {
    exists i :: 0 <= i < |poly| && OnEdge(x, y, poly[i], poly[Prev(poly, i)])
  }

  /** How many edges from i on the ray crosses. */
  function CrossingsFrom(poly: Poly, x: int, y: int, i: nat): nat
    requires i <= |poly|
    decreases |poly| - i
  {
    if i == |poly| then 0
    else (if Crosses(x, y, poly[i], poly[Prev(poly, i)]) then 1 else 0) + CrossingsFrom(poly, x, y, i + 1)
  }

  /** Some edge from i on holds the point. */
  predicate OnFrom(poly: Poly, x: int, y: int, i: nat)
    requires i <= |poly|
    decreases |poly| - i
  {
    i < |poly| && (OnEdge(x, y, poly[i], poly[Prev(poly, i)]) || OnFrom(poly, x, y, i + 1))
  }

  lemma {:induction false} OnFromSpec(poly: Poly, x: int, y: int, i: nat)
    requires i <= |poly|
    ensures OnFrom(poly, x, y, i) <==> exists k :: i <= k < |poly| && OnEdge(x, y, poly[k], poly[Prev(poly, k)])
    decreases |poly| - i
  {
    if i < |poly| {
      OnFromSpec(poly, x, y, i + 1);
      if exists k :: i <= k < |poly| && OnEdge(x, y, poly[k], poly[Prev(poly, k)]) {
        var k :| i <= k < |poly| && OnEdge(x, y, poly[k], poly[Prev(poly, k)]);
        if k > i {
          assert OnFrom(poly, x, y, i + 1);
        }
      }
    }
  }

  lemma OddStep(n: nat)
    ensures ((n + 1) % 2 == 1) == !(n % 2 == 1)
  {
  }

  lemma {:induction false} RaySpec(poly: Poly, x: int, y: int, i: nat, inside: bool)
    requires i <= |poly|
    ensures Ray(poly, x, y, i, inside) <==>
      (OnFrom(poly, x, y, i) || (inside != (CrossingsFrom(poly, x, y, i) % 2 == 1)))
    decreases |poly| - i
  {
    if i < |poly| {
      var a := poly[i];
      var b := poly[Prev(poly, i)];
      if !OnEdge(x, y, a, b) {
        var c := Crosses(x, y, a, b);
        var n := CrossingsFrom(poly, x, y, i + 1);
        RaySpec(poly, x, y, i + 1, if c then !inside else inside);
        assert CrossingsFrom(poly, x, y, i) == (if c then 1 else 0) + n;
        assert OnFrom(poly, x, y, i) == OnFrom(poly, x, y, i + 1);
        OddStep(n);
      }
    }
  }

  /** A point is in when it is on an edge, or else when the ray crosses an odd number of edges. */
  lemma PointInSpec(poly: Poly, x: int, y: int)
    ensures PointIn(poly, x, y) <==> OnBoundary(poly, x, y) || CrossingsFrom(poly, x, y, 0) % 2 == 1
  {
    RaySpec(poly, x, y, 0, false);
    OnFromSpec(poly, x, y, 0);
  }

  /** Every edge is horizontal or vertical. */
  predicate Rectilinear(poly: Poly) {
    forall i :: 0 <= i < |poly| ==> poly[i].x == poly[Prev(poly, i)].x || poly[i].y == poly[Prev(poly, i)].y
  }

  /** In a rectilinear polygon every corner counts as inside. */
  lemma CornerInside(poly: Poly, i: nat)
    requires Rectilinear(poly) && i < |poly|
    ensures PointIn(poly, poly[i].x, poly[i].y)
  {
    assert OnEdge(poly[i].x, poly[i].y, poly[i], poly[Prev(poly, i)]);
    PointInSpec(poly, poly[i].x, poly[i].y);
  }

  // ---------------------------------------------------------------------------
  // Segments and rectangles
  // ---------------------------------------------------------------------------

  /** A vertical edge strictly between x1 and x2 whose span strictly contains y. */
  predicate CutsH(x1: int, x2: int, y: int, a: Point, b: Point) {
    a.x == b.x && x1 < a.x < x2 && Min(a.y, b.y) < y < Max(a.y, b.y)
  }

  /** A horizontal edge strictly between y1 and y2 whose span strictly contains x. */
  predicate CutsV(x: int, y1: int, y2: int, a: Point, b: Point) {
    a.y == b.y && y1 < a.y < y2 && Min(a.x, b.x) < x < Max(a.x, b.x)
  }

  /** The edge loop of `hSegmentInside` from edge i. */
  function NoCutH(poly: Poly, x1: int, x2: int, y: int, i: nat): (ok: bool)
    requires i <= |poly|
    ensures ok <==> forall k :: i <= k < |poly| ==> !CutsH(x1, x2, y, poly[k], poly[Prev(poly, k)])
    decreases |poly| - i
  {
    if i == |poly| then true
    else if CutsH(x1, x2, y, poly[i], poly[Prev(poly, i)]) then false
    else NoCutH(poly, x1, x2, y, i + 1)
  }

  /** The edge loop of `vSegmentInside` from edge i. */
  function NoCutV(poly: Poly, x: int, y1: int, y2: int, i: nat): (ok: bool)
    requires i <= |poly|
    ensures ok <==> forall k :: i <= k < |poly| ==> !CutsV(x, y1, y2, poly[k], poly[Prev(poly, k)])
    decreases |poly| - i
  {
    if i == |poly| then true
    else if CutsV(x, y1, y2, poly[i], poly[Prev(poly, i)]) then false
    else NoCutV(poly, x, y1, y2, i + 1)
  }

  /** `hSegmentInside(x1, x2, y, polygon)`: both ends in, and no vertical edge cuts across. */
  function HSegmentInside(poly: Poly, x1: int, x2: int, y: int): bool {
    PointIn(poly, x1, y) && PointIn(poly, x2, y) && NoCutH(poly, x1, x2, y, 0)
  }

  /** `vSegmentInside(x, y1, y2, polygon)`: both ends in, and no horizontal edge cuts across. */
  function VSegmentInside(poly: Poly, x: int, y1: int, y2: int): bool {
    PointIn(poly, x, y1) && PointIn(poly, x, y2) && NoCutV(poly, x, y1, y2, 0)
  }

  /** The polygon mirrored in the diagonal. */
  function Transpose(poly: Poly): (t: Poly)
    ensures |t| == |poly| && forall i :: 0 <= i < |poly| ==> t[i] == Point(poly[i].y, poly[i].x)
  {
    seq(|poly|, i requires 0 <= i < |poly| => Point(poly[i].y, poly[i].x))
  }

  /** The vertical test is the horizontal one on the mirrored polygon, as far as edges go. */
  lemma CutsTranspose(poly: Poly, x: int, y1: int, y2: int)
    ensures NoCutV(poly, x, y1, y2, 0) == NoCutH(Transpose(poly), y1, y2, x, 0)
  {
    var t := Transpose(poly);
    forall k | 0 <= k < |poly| ensures CutsV(x, y1, y2, poly[k], poly[Prev(poly, k)]) == CutsH(y1, y2, x, t[k], t[Prev(t, k)]) {
    }
  }

  /** A rectangle given by its low and high corners. */
  datatype Rect = Rect(x1: int, y1: int, x2: int, y2: int)

  /** `rectInside(x1, y1, x2, y2, polygon)`: the four corners, then the four sides. */
  function RectInside(poly: Poly, r: Rect): (ok: bool)
    ensures ok ==> (PointIn(poly, r.x1, r.y1) && PointIn(poly, r.x2, r.y1)
                    && PointIn(poly, r.x1, r.y2) && PointIn(poly, r.x2, r.y2))
  {
    if !PointIn(poly, r.x1, r.y1) then false
    else if !PointIn(poly, r.x2, r.y1) then false
    else if !PointIn(poly, r.x1, r.y2) then false
    else if !PointIn(poly, r.x2, r.y2) then false
    else if !HSegmentInside(poly, r.x1, r.x2, r.y1) then false
    else if !HSegmentInside(poly, r.x1, r.x2, r.y2) then false
    else if !VSegmentInside(poly, r.x1, r.y1, r.y2) then false
    else if !VSegmentInside(poly, r.x2, r.y1, r.y2) then false
    else true
  }

  /** The corner checks are implied by the sides: a rectangle is in exactly when its four sides are. */
  lemma RectInsideSides(poly: Poly, r: Rect)
    ensures RectInside(poly, r) <==>
      && HSegmentInside(poly, r.x1, r.x2, r.y1) && HSegmentInside(poly, r.x1, r.x2, r.y2)
      && VSegmentInside(poly, r.x1, r.y1, r.y2) && VSegmentInside(poly, r.x2, r.y1, r.y2)
  {
  }

  // ---------------------------------------------------------------------------
  // The largest rectangle
  // ---------------------------------------------------------------------------

  /** The rectangle with p and q as opposite corners. */
  function Bounds(p: Point, q: Point): (r: Rect)
    ensures r.x1 <= r.x2 && r.y1 <= r.y2
  {
    Rect(Min(p.x, q.x), Min(p.y, q.y), Max(p.x, q.x), Max(p.y, q.y))
  }

  /** The sides of the rectangle run through the two corners' coordinates. */
  lemma BoundsCorners(p: Point, q: Point)
    ensures var r := Bounds(p, q); {r.x1, r.x2} == {p.x, q.x} && {r.y1, r.y2} == {p.y, q.y}
  {
  }

  /** The tiles of a rectangle, both ends included. */
  function Area(r: Rect): (n: int)
    ensures r.x1 <= r.x2 && r.y1 <= r.y2 ==> n >= 1
  {
    (r.x2 - r.x1 + 1) * (r.y2 - r.y1 + 1)
  }

  /** Corners i < j span a rectangle inside the polygon. */
  predicate Candidate(poly: Poly, i: int, j: int) {
    0 <= i < j < |poly| && RectInside(poly, Bounds(poly[i], poly[j]))
  }

  /** The pair (i, j), if a candidate, is no larger than area. */
  ghost predicate Beaten(poly: Poly, area: int, i: int, j: int) {
    Candidate(poly, i, j) ==> Area(Bounds(poly[i], poly[j])) <= area
  }

  /** The pair (i, j), if a candidate, is smaller than area. */
  ghost predicate Below(poly: Poly, area: int, i: int, j: int) {
    Candidate(poly, i, j) ==> Area(Bounds(poly[i], poly[j])) < area
  }

  /**
   * best is a candidate pair of corners whose rectangle has area exactly
   * area, and every pair the loops visit before it is smaller.
   */
  ghost predicate Achieved(poly: Poly, best: Option<(Point, Point)>, area: int) {
    best.Some? ==> exists i, j :: (Candidate(poly, i, j)
                               && best.value == (poly[i], poly[j]) && Area(Bounds(poly[i], poly[j])) == area
                               && (forall i', j' :: (i' < i || (i' == i && j' < j)) ==> Below(poly, area, i', j')))
  }

  /**
   * The inner loop of `main` for corner i: every later corner j, keeping the
   * first pair that beats the area so far.
   */
  method ScanRow(poly: Poly, i: int, area0: int, best0: Option<(Point, Point)>) returns (maxArea: int, best: Option<(Point, Point)>)
    requires 0 <= i < |poly| && area0 >= 0 && (best0 == None <==> area0 == 0)
    requires Achieved(poly, best0, area0)
    requires forall i', j :: i' < i ==> Beaten(poly, area0, i', j)
    ensures maxArea >= area0 && (best == None <==> maxArea == 0)
    ensures forall j :: Beaten(poly, maxArea, i, j)
    ensures Achieved(poly, best, maxArea)
  {
    maxArea := area0;
    best := best0;
    var j := i + 1;
    while j < |poly|
      invariant i + 1 <= j <= |poly|
      invariant maxArea >= area0 && (best == None <==> maxArea == 0)
      invariant forall j' :: j' < j ==> Beaten(poly, maxArea, i, j')
      invariant Achieved(poly, best, maxArea)
    {
      var r := Bounds(poly[i], poly[j]);
      if RectInside(poly, r) {
        var area := Area(r);
        if area > maxArea {
          ghost var before := maxArea;
          maxArea := area;
          best := Some((poly[i], poly[j]));
          assert Candidate(poly, i, j);
          forall i', j' | i' < i || (i' == i && j' < j) ensures Below(poly, maxArea, i', j') {
            if i' < i {
              assert Beaten(poly, area0, i', j');
            } else {
              assert Beaten(poly, before, i, j');
            }
          }
          forall j' | j' < j ensures Beaten(poly, maxArea, i, j') {
            assert Beaten(poly, before, i, j');
          }
        }
      }
      assert Beaten(poly, maxArea, i, j);
      j := j + 1;
    }
  }

  /**
   * `main` after reading: every pair of corners, keeping the first pair that
   * reaches the largest area inside.
   */
  method MaxArea(poly: Poly) returns (maxArea: int, best: Option<(Point, Point)>)
    ensures maxArea >= 0
    ensures forall i, j :: Candidate(poly, i, j) ==> Area(Bounds(poly[i], poly[j])) <= maxArea
    ensures best == None <==> maxArea == 0
    ensures best.Some? ==> exists i, j :: (Candidate(poly, i, j)
                                     && best.value == (poly[i], poly[j]) && Area(Bounds(poly[i], poly[j])) == maxArea
                                     && (forall i', j' :: (i' < i || (i' == i && j' < j)) ==> Below(poly, maxArea, i', j')))
  {
    maxArea := 0;
    best := None;
    var i := 0;
    while i < |poly|
      invariant 0 <= i <= |poly|
      invariant maxArea >= 0 && (best == None <==> maxArea == 0)
      invariant forall i', j :: i' < i ==> Beaten(poly, maxArea, i', j)
      invariant Achieved(poly, best, maxArea)
    {
      ghost var before := maxArea;
      maxArea, best := ScanRow(poly, i, maxArea, best);
      forall i', j | i' < i + 1 ensures Beaten(poly, maxArea, i', j) {
        if i' < i {
          assert Beaten(poly, before, i', j);
        }
      }
      i := i + 1;
    }
    forall i', j ensures Candidate(poly, i', j) ==> Area(Bounds(poly[i'], poly[j])) <= maxArea {
      assert Beaten(poly, maxArea, i', j);
    }
  }


}

=== FILE: ranges.dfy ===
/**
 * 5/index.mjs: fresh-ingredient id ranges `a-b` (inclusive) are sorted by
 * start and merged, absorbing every later range that overlaps or touches the
 * current one; the answer adds up the sizes of the merged ranges, which is
 * the number of distinct ids the input ranges cover.
 */
module Ranges {
  import opened Text
  import opened Sorting

  /** An inclusive range `[lo, hi]`; it is empty when hi < lo. */
  datatype Range = Range(lo: int, hi: int)

  /** The ids are read with `Number(line)` and never used; a NaN id is None. */
  datatype Input = Input(ranges: seq<Range>, ids: seq<Option<int>>)

  predicate In(r: Range, x: int) {
    r.lo <= x <= r.hi
  }

  function Max(a: int, b: int): int {
    if a >= b then a else b
  }

  // ---------------------------------------------------------------------------
  // Reading the input
  // ---------------------------------------------------------------------------

  /** `line.split('-').map(Number)`; None when a bound is missing or NaN. */
  function ParseRange(line: string): (r: Option<Range>)
    ensures r.Some? ==> |Split(line, "-")| >= 2
  {
    var parts := Split(line, "-");
    if |parts| < 2 then None
    else match (NumberOf(parts[0]), NumberOf(parts[1]))
      case (Some(a), Some(b)) => Some(Range(a, b))
      case _ => None
  }

  /** A range written out as `lo-hi` reads back as itself. */
  lemma ParseRangeText(lo: nat, hi: nat)
    ensures ParseRange(Decimal(lo) + "-" + Decimal(hi)) == Some(Range(lo, hi))
  {
    DecimalAvoids(lo, '-');
    DecimalAvoids(hi, '-');
    SplitPair(Decimal(lo), Decimal(hi), '-');
    NumberOfDecimal(lo);
    NumberOfDecimal(hi);
  }

  /** Every line read as a range, in order; None as soon as one does not read. */
  function ParseRanges(lines: seq<string>): (r: Option<seq<Range>>)
    ensures r.Some? <==> forall i :: 0 <= i < |lines| ==> ParseRange(lines[i]).Some?
    ensures r.Some? ==> |r.value| == |lines| && forall i :: 0 <= i < |lines| ==> ParseRange(lines[i]) == Some(r.value[i])
  {
    if |lines| == 0 then Some([])
    else match (ParseRange(lines[0]), ParseRanges(lines[1..]))
      case (Some(x), Some(xs)) => Some([x] + xs)
      case _ => None
  }

  /**
   * The reading loop of `main`: ranges before the first blank line, ids after
   * it. Only a line that does not read as a range makes the input None; an id
   * that is NaN is kept as None, since the answer never looks at the ids.
   */
  function ReadInput(lines: seq<string>): (r: Option<Input>)
    ensures r.Some? <==> ParseRanges(Sections(lines, false).0).Some?
    ensures r.Some? ==> r.value.ranges == ParseRanges(Sections(lines, false).0).value
    ensures r.Some? ==> |r.value.ids| == |Sections(lines, false).1|
    ensures r.Some? ==> forall i :: 0 <= i < |r.value.ids| ==> r.value.ids[i] == NumberOf(Sections(lines, false).1[i])
  {
    var (first, second) := Sections(lines, false);
    match ParseRanges(first)
    case Some(rs) => Some(Input(rs, seq(|second|, i requires 0 <= i < |second| => NumberOf(second[i]))))
    case None => None
  }

  // ---------------------------------------------------------------------------
  // Sorting by start
  // ---------------------------------------------------------------------------

  /** `(a, b) => a[0] - b[0]` is negative. */
  predicate ByStart(a: Range, b: Range) {
    a.lo < b.lo
  }

  lemma ByStartIsStrictOrder()
    ensures StrictOrder(ByStart)
  {
  }

  /** `ranges.sort(...)`: the same ranges, in order of start. */
  function SortByStart(rs: seq<Range>): (r: seq<Range>)
    ensures multiset(r) == multiset(rs)
    ensures forall i, j :: 0 <= i < j < |r| ==> r[i].lo <= r[j].lo
  {
    ByStartIsStrictOrder();
    SortBySorted(rs, ByStart);
    var r := SortBy(rs, ByStart);
    assert forall i, j :: 0 <= i < j < |r| ==> !ByStart(r[j], r[i]);
    r
  }

  // ---------------------------------------------------------------------------
  // The merge loop, over slots that are nulled once absorbed
  // ---------------------------------------------------------------------------

  /** The starts of the live slots from index t on never decrease. */
  ghost predicate SortedFrom(slots: seq<Option<Range>>, t: nat) {
    forall j, j' :: t <= j < j' < |slots| && slots[j].Some? && slots[j'].Some? ==>
      slots[j].value.lo <= slots[j'].value.lo
  }

  /** Some live slot from index t on contains x. */
  function SlotsCover(slots: seq<Option<Range>>, t: nat, x: int): bool
    decreases |slots| - t
  {
    if t >= |slots| then false
    else (slots[t].Some? && In(slots[t].value, x)) || SlotsCover(slots, t + 1, x)
  }

  /**
   * The inner `for (k ...)` loop from slot t on: a live slot starting at most
   * one past the current end is absorbed (the end becomes the larger of the
   * two) and nulled.
   */
  function Absorb(slots: seq<Option<Range>>, cur: Range, t: nat): (r: (seq<Option<Range>>, Range))
    requires t <= |slots|
    ensures |r.0| == |slots| && r.0[..t] == slots[..t]
    ensures r.1.lo == cur.lo && r.1.hi >= cur.hi
    decreases |slots| - t
  {
    if t >= |slots| then (slots, cur)
    else if slots[t].Some? && slots[t].value.lo <= cur.hi + 1 then
      var r := Absorb(slots[t := None], Range(cur.lo, Max(cur.hi, slots[t].value.hi)), t + 1);
      assert r.0[..t] == r.0[..t + 1][..t];
      r
    else
      var r := Absorb(slots, cur, t + 1);
      assert r.0[..t] == r.0[..t + 1][..t];
      r
  }

  /** The outer `for (i ...)` loop from slot i on: every live slot heads one merged range. */
  function CondenseFrom(slots: seq<Option<Range>>, i: nat): seq<Range>
    decreases |slots| - i
  {
    if i >= |slots| then []
    else match slots[i]
      case None => CondenseFrom(slots, i + 1)
      case Some(range) =>
        var (slots', merged) := Absorb(slots, range, i + 1);
        [merged] + CondenseFrom(slots', i + 1)
  }

  function Slots(rs: seq<Range>): (slots: seq<Option<Range>>)
    ensures |slots| == |rs| && forall i :: 0 <= i < |rs| ==> slots[i] == Some(rs[i])
  {
    if |rs| == 0 then [] else [Some(rs[0])] + Slots(rs[1..])
  }

  /** `condensed`: the sorted ranges, merged. */
  function Condense(rs: seq<Range>): seq<Range> {
    CondenseFrom(Slots(SortByStart(rs)), 0)
  }

  // ---------------------------------------------------------------------------
  // Coverage: merging keeps exactly the same ids
  // ---------------------------------------------------------------------------

  function CoversSeq(rs: seq<Range>, x: int): bool {
    if |rs| == 0 then false else In(rs[0], x) || CoversSeq(rs[1..], x)
  }

  lemma {:induction false} CoversSeqExists(rs: seq<Range>, x: int)
    ensures CoversSeq(rs, x) <==> exists r :: r in rs && In(r, x)
    decreases |rs|
  {
    if |rs| > 0 {
      CoversSeqExists(rs[1..], x);
      assert forall r :: r in rs <==> r == rs[0] || r in rs[1..];
    }
  }

  lemma {:induction false} SlotsCoverFrom(slots: seq<Option<Range>>, t: nat, x: int)
    ensures SlotsCover(slots, t, x) <==> exists j :: t <= j < |slots| && slots[j].Some? && In(slots[j].value, x)
    decreases |slots| - t
  {
    if t < |slots| {
      SlotsCoverFrom(slots, t + 1, x);
    }
  }

  /** Absorbing moves ids from the remaining slots into the current range, losing none and adding none. */
  lemma {:induction false} AbsorbCovers(slots: seq<Option<Range>>, cur: Range, t: nat, x: int)
    requires t <= |slots|
    requires forall j :: t <= j < |slots| && slots[j].Some? ==> slots[j].value.lo >= cur.lo
    ensures var r := Absorb(slots, cur, t);
      (In(r.1, x) || SlotsCover(r.0, t, x)) <==> (In(cur, x) || SlotsCover(slots, t, x))
    decreases |slots| - t
  {
    if t < |slots| {
      if slots[t].Some? && slots[t].value.lo <= cur.hi + 1 {
        var next := Range(cur.lo, Max(cur.hi, slots[t].value.hi));
        var slots' := slots[t := None];
        AbsorbCovers(slots', next, t + 1, x);
        SlotsCoverTail(slots, slots', t + 1, x);
        SlotsCoverTail(Absorb(slots', next, t + 1).0, Absorb(slots', next, t + 1).0, t + 1, x);
      } else {
        AbsorbCovers(slots, cur, t + 1, x);
      }
    }
  }

  /** Slot coverage from t on looks only at the slots from t on. */
  lemma {:induction false} SlotsCoverTail(a: seq<Option<Range>>, b: seq<Option<Range>>, t: nat, x: int)
    requires |a| == |b| && forall j :: t <= j < |a| ==> a[j] == b[j]
    ensures SlotsCover(a, t, x) == SlotsCover(b, t, x)
    decreases |a| - t
  {
    if t < |a| {
      SlotsCoverTail(a, b, t + 1, x);
    }
  }

  /** Absorbing only nulls slots. */
  lemma {:induction false} AbsorbNulls(slots: seq<Option<Range>>, cur: Range, t: nat)
    requires t <= |slots|
    ensures forall j :: 0 <= j < |slots| ==> Absorb(slots, cur, t).0[j] in {slots[j], None}
    decreases |slots| - t
  {
    if t < |slots| {
      if slots[t].Some? && slots[t].value.lo <= cur.hi + 1 {
        AbsorbNulls(slots[t := None], Range(cur.lo, Max(cur.hi, slots[t].value.hi)), t + 1);
      } else {
        AbsorbNulls(slots, cur, t + 1);
      }
    }
  }

  /** The merged ranges cover exactly the ids the live slots from i on cover. */
  lemma {:induction false} CondenseCovers(slots: seq<Option<Range>>, i: nat, x: int)
    requires SortedFrom(slots, i)
    ensures CoversSeq(CondenseFrom(slots, i), x) <==> SlotsCover(slots, i, x)
    decreases |slots| - i
  {
    if i < |slots| {
      match slots[i]
      case None =>
        CondenseCovers(slots, i + 1, x);
      case Some(range) =>
        var (slots', merged) := Absorb(slots, range, i + 1);
        AbsorbCovers(slots, range, i + 1, x);
        AbsorbNulls(slots, range, i + 1);
        CondenseCovers(slots', i + 1, x);
        assert ([merged] + CondenseFrom(slots', i + 1))[1..] == CondenseFrom(slots', i + 1);
    }
  }

  /** The slots of a sequence cover what the sequence covers. */
  lemma {:induction false} SlotsCoverSeq(rs: seq<Range>, x: int)
    ensures SlotsCover(Slots(rs), 0, x) <==> CoversSeq(rs, x)
  {
    SlotsCoverFrom(Slots(rs), 0, x);
    CoversSeqExists(rs, x);
    if CoversSeq(rs, x) {
      var r :| r in rs && In(r, x);
      var j :| 0 <= j < |rs| && rs[j] == r;
      assert Slots(rs)[j] == Some(r);
    }
  }

  /** Sorting and merging neither loses an id nor adds one. */
  lemma CondenseCoversSame(rs: seq<Range>, x: int)
    ensures CoversSeq(Condense(rs), x) <==> CoversSeq(rs, x)
  {
    var sorted := SortByStart(rs);
    CondenseCovers(Slots(sorted), 0, x);
    SlotsCoverSeq(sorted, x);
    CoversSeqExists(sorted, x);
    CoversSeqExists(rs, x);
    assert forall r :: r in sorted <==> r in rs by {
      forall r ensures r in sorted <==> r in rs {
        assert r in sorted <==> r in multiset(sorted);
        assert r in rs <==> r in multiset(rs);
      }
    }
  }

  // ---------------------------------------------------------------------------
  // Separation: merged ranges are apart by at least one missing id
  // ---------------------------------------------------------------------------

  /** Each merged range starts more than one past the end of the one before it. */
  ghost predicate Separated(rs: seq<Range>) {
    forall a :: 0 <= a < |rs| - 1 ==> rs[a + 1].lo > rs[a].hi + 1
  }

  /** Nothing is absorbed when every live slot starts beyond the current end. */
  lemma {:induction false} AbsorbNothing(slots: seq<Option<Range>>, cur: Range, t: nat)
    requires t <= |slots|
    requires forall j :: t <= j < |slots| && slots[j].Some? ==> slots[j].value.lo > cur.hi + 1
    ensures Absorb(slots, cur, t) == (slots, cur)
    decreases |slots| - t
  {
    if t < |slots| {
      AbsorbNothing(slots, cur, t + 1);
    }
  }

  /** After absorbing, every live slot left starts beyond the merged end. */
  lemma {:induction false} AbsorbLeavesApart(slots: seq<Option<Range>>, cur: Range, t: nat)
    requires t <= |slots|
    requires SortedFrom(slots, t)
    ensures forall j :: t <= j < |slots| && Absorb(slots, cur, t).0[j].Some? ==>
      Absorb(slots, cur, t).0[j].value.lo > Absorb(slots, cur, t).1.hi + 1
    decreases |slots| - t
  {
    if t < |slots| {
      if slots[t].Some? && slots[t].value.lo <= cur.hi + 1 {
        var next := Range(cur.lo, Max(cur.hi, slots[t].value.hi));
        var slots' := slots[t := None];
        var r := Absorb(slots', next, t + 1);
        assert Absorb(slots, cur, t) == r;
        assert SortedFrom(slots', t + 1);
        AbsorbLeavesApart(slots', next, t + 1);
        assert r.0[t] == r.0[..t + 1][t] == slots'[..t + 1][t] == None;
      } else if slots[t].Some? {
        AbsorbNothing(slots, cur, t + 1);
        assert Absorb(slots, cur, t) == (slots, cur);
      } else {
        AbsorbLeavesApart(slots, cur, t + 1);
        var r := Absorb(slots, cur, t + 1);
        assert Absorb(slots, cur, t) == r;
        assert r.0[t] == r.0[..t + 1][t] == slots[..t + 1][t] == None;
      }
    }
  }

  /** Merged ranges from live slots all starting above bound start above it too. */
  lemma {:induction false} CondenseStartsAbove(slots: seq<Option<Range>>, i: nat, bound: int)
    requires forall j :: i <= j < |slots| && slots[j].Some? ==> slots[j].value.lo > bound
    ensures forall a :: 0 <= a < |CondenseFrom(slots, i)| ==> CondenseFrom(slots, i)[a].lo > bound
    decreases |slots| - i
  {
    if i < |slots| {
      match slots[i]
      case None =>
        CondenseStartsAbove(slots, i + 1, bound);
      case Some(range) =>
        var (slots', merged) := Absorb(slots, range, i + 1);
        AbsorbNulls(slots, range, i + 1);
        CondenseStartsAbove(slots', i + 1, bound);
    }
  }

  lemma {:induction false} CondenseSeparated(slots: seq<Option<Range>>, i: nat)
    requires SortedFrom(slots, i)
    ensures Separated(CondenseFrom(slots, i))
    decreases |slots| - i
  {
    if i < |slots| {
      match slots[i]
      case None =>
        CondenseSeparated(slots, i + 1);
      case Some(range) =>
        var (slots', merged) := Absorb(slots, range, i + 1);
        AbsorbNulls(slots, range, i + 1);
        AbsorbLeavesApart(slots, range, i + 1);
        CondenseSeparated(slots', i + 1);
        CondenseStartsAbove(slots', i + 1, merged.hi + 1);
        var rest := CondenseFrom(slots', i + 1);
        assert forall a :: 1 <= a < |[merged] + rest| ==> ([merged] + rest)[a] == rest[a - 1];
    }
  }

  lemma SlotsSorted(rs: seq<Range>)
    requires forall i, j :: 0 <= i < j < |rs| ==> rs[i].lo <= rs[j].lo
    ensures SortedFrom(Slots(rs), 0)
  {
  }

  /** The merged ranges are separated: no two overlap or touch. */
  lemma CondenseIsSeparated(rs: seq<Range>)
    ensures Separated(Condense(rs))
  {
    SlotsSorted(SortByStart(rs));
    CondenseSeparated(Slots(SortByStart(rs)), 0);
  }

  // ---------------------------------------------------------------------------
  // Counting: the sizes of the merged ranges add up to the ids covered
  // ---------------------------------------------------------------------------

  ghost predicate Valid(rs: seq<Range>) {
    forall a :: 0 <= a < |rs| ==> rs[a].lo <= rs[a].hi
  }

  /** Merging keeps ranges valid: a merged range is an input range with its end raised. */
  lemma {:induction false} CondenseValid(slots: seq<Option<Range>>, i: nat)
    requires forall j :: i <= j < |slots| && slots[j].Some? ==> slots[j].value.lo <= slots[j].value.hi
    ensures Valid(CondenseFrom(slots, i))
    decreases |slots| - i
  {
    if i < |slots| {
      match slots[i]
      case None =>
        CondenseValid(slots, i + 1);
      case Some(range) =>
        var (slots', merged) := Absorb(slots, range, i + 1);
        AbsorbNulls(slots, range, i + 1);
        CondenseValid(slots', i + 1);
    }
  }

  /** The `for (let range of ranges)` sum of `range[1] - range[0] + 1`. */
  function Size(rs: seq<Range>): int {
    if |rs| == 0 then 0 else rs[0].hi - rs[0].lo + 1 + Size(rs[1..])
  }

  /** The ids of one range. */
  function Span(r: Range): (s: set<int>)
    ensures forall x :: x in s <==> In(r, x)
    ensures r.lo <= r.hi + 1 ==> |s| == r.hi - r.lo + 1
    decreases r.hi - r.lo
  {
    if r.hi < r.lo then {}
    else
      var shorter := Span(Range(r.lo, r.hi - 1));
      assert r.hi !in shorter;
      shorter + {r.hi}
  }

  /** Every id the ranges cover. */
  function Covered(rs: seq<Range>): (s: set<int>)
    ensures forall x :: x in s <==> CoversSeq(rs, x)
  {
    if |rs| == 0 then {} else Span(rs[0]) + Covered(rs[1..])
  }

  lemma {:induction false} SeparatedAbove(rs: seq<Range>)
    requires Valid(rs) && Separated(rs) && |rs| > 0
    ensures forall x :: x in Covered(rs) ==> x >= rs[0].lo
    decreases |rs|
  {
    if |rs| > 1 {
      assert Separated(rs[1..]);
      SeparatedAbove(rs[1..]);
    }
  }

  /** For separated valid ranges the summed sizes are the number of ids covered. */
  lemma {:induction false} SizeCountsCovered(rs: seq<Range>)
    requires Valid(rs) && Separated(rs)
    ensures Size(rs) == |Covered(rs)|
    decreases |rs|
  {
    if |rs| > 0 {
      assert Valid(rs[1..]) && Separated(rs[1..]);
      SizeCountsCovered(rs[1..]);
      if |rs| > 1 {
        SeparatedAbove(rs[1..]);
      }
      forall x | x in Covered(rs[1..]) ensures x !in Span(rs[0]) {
        assert x >= rs[1].lo > rs[0].hi + 1;
      }
      assert Span(rs[0]) * Covered(rs[1..]) == {};
    }
  }

  /** The answer: the merged sizes add up to the number of distinct ids any input range covers. */
  lemma CountIsDistinctIds(rs: seq<Range>)
    requires Valid(rs)
    ensures Size(Condense(rs)) == |Covered(rs)|
  {
    CondenseKeepsValid(rs);
    CondenseIsSeparated(rs);
    SizeCountsCovered(Condense(rs));
    CondenseCovered(rs);
  }

  /** Merging valid ranges gives valid ranges. */
  lemma CondenseKeepsValid(rs: seq<Range>)
    requires Valid(rs)
    ensures Valid(Condense(rs))
  {
    var sorted := SortByStart(rs);
    forall a | 0 <= a < |sorted| ensures sorted[a].lo <= sorted[a].hi {
      assert sorted[a] in multiset(rs);
    }
    CondenseValid(Slots(sorted), 0);
  }

  /** Merging covers exactly the ids the input covers. */
  lemma CondenseCovered(rs: seq<Range>)
    ensures Covered(Condense(rs)) == Covered(rs)
  {
    forall x ensures x in Covered(Condense(rs)) <==> x in Covered(rs) {
      CondenseCoversSame(rs, x);
    }
  }
}

=== FILE: repeated_ids.dfy ===
/**
 * 2/index.mjs: an id is invalid when its decimal text is one block repeated
 * at least twice; the answer adds every invalid id of every `from-to` range.
 */
module RepeatedIds {
  import opened Text

  /** `substring.repeat(n)`. */
  function Repeat(t: string, n: nat): (r: string)
    ensures |r| == n * |t|
  {
    if n == 0 then [] else t + Repeat(t, n - 1)
  }

  lemma MulAtLeast(d: int, m: int)
    requires d >= 1 && m > 0
    ensures d * m >= m
  {
  }

  lemma Distrib(q: int, q': int, m: int)
    ensures (q - q') * m == q * m - q' * m
  {
  }

  /** Euclidean division has only one quotient and remainder. */
  lemma ModUnique(a: int, m: int, q: int, r: int)
    requires m > 0 && 0 <= r < m && a == q * m + r
    ensures a % m == r && a / m == q
  {
    var q' := a / m;
    Distrib(q, q', m);
    Distrib(q', q, m);
    if q > q' {
      MulAtLeast(q - q', m);
    } else if q < q' {
      MulAtLeast(q' - q, m);
    }
  }

  lemma ModShift(i: int, m: int)
    requires m > 0 && i >= m
    ensures (i - m) % m == i % m
  {
    Distrib(i / m, 1, m);
    ModUnique(i - m, m, i / m - 1, i % m);
  }

  lemma {:induction false} RepeatAt(t: string, n: nat, i: nat)
    requires |t| > 0 && i < n * |t|
    ensures Repeat(t, n)[i] == t[i % |t|]
    decreases n
  {
    if i >= |t| {
      ModShift(i, |t|);
      RepeatAt(t, n - 1, i - |t|);
    }
  }

  /** The text repeats with period k: every character equals the one k places before it. */
  ghost predicate Periodic(s: string, k: nat)
    requires k > 0
  {
    forall i :: 0 <= i < |s| ==> s[i] == s[i % k]
  }

  /** The `repeated === val` test is exactly periodicity, for a block length dividing the text. */
  lemma RepeatIffPeriodic(s: string, k: nat)
    requires 1 <= k <= |s| && |s| % k == 0
    ensures Repeat(s[..k], |s| / k) == s <==> Periodic(s, k)
  {
    var r := Repeat(s[..k], |s| / k);
    assert |s| / k * k == |s|;
    forall i | 0 <= i < |s| ensures r[i] == s[i % k] {
      RepeatAt(s[..k], |s| / k, i);
    }
  }

  /** The loop of `isRepetetion`, from block length len on. */
  function RepetitionFrom(s: string, len: nat): bool
    requires len >= 1
    decreases |s| - len
  {
    if len > |s| / 2 then false
    else if |s| % len == 0 && Repeat(s[..len], |s| / len) == s then true
    else RepetitionFrom(s, len + 1)
  }

  /** Some block length from lo to half the text divides it and repeats. */
  ghost predicate HasBlockFrom(s: string, lo: nat) {
    exists k :: lo <= k <= |s| / 2 && k >= 1 && |s| % k == 0 && Periodic(s, k)
  }

  lemma {:induction false} RepetitionFromSpec(s: string, len: nat)
    requires len >= 1
    ensures RepetitionFrom(s, len) <==> HasBlockFrom(s, len)
    decreases |s| - len
  {
    if len <= |s| / 2 {
      if |s| % len == 0 {
        RepeatIffPeriodic(s, len);
      }
      RepetitionFromSpec(s, len + 1);
      if HasBlockFrom(s, len) && !HasBlockFrom(s, len + 1) {
        var k :| len <= k <= |s| / 2 && k >= 1 && |s| % k == 0 && Periodic(s, k);
        assert k == len;
      }
    }
  }

  /** `isRepetetion(v)`. */
  function IsRepetition(v: nat): bool {
    RepetitionFrom(Decimal(v), 1)
  }

  /** An id is a repetition exactly when some proper block length divides its text and repeats. */
  lemma IsRepetitionSpec(v: nat)
    ensures IsRepetition(v) <==> HasBlockFrom(Decimal(v), 1)
  {
    RepetitionFromSpec(Decimal(v), 1);
  }

  /** Single-digit ids are never repetitions: the loop has no block length to try. */
  lemma SingleDigitNever(v: nat)
    requires v < 10
    ensures !IsRepetition(v)
  {
  }

  /** `isRepetetionTwice(v)`: the text is its first half written twice. */
  function IsRepetitionTwice(v: nat): (r: bool)
    ensures r <==> |Decimal(v)| % 2 == 0 && Decimal(v)[..|Decimal(v)| / 2] == Decimal(v)[|Decimal(v)| / 2..]
  {
    var s := Decimal(v);
    var half := s[..|s| / 2];
    var r := half + half == s;
    assert r ==> s[|s| / 2..] == half;
    assert |s| % 2 == 0 && half == s[|s| / 2..] ==> half + half == s by {
      if |s| % 2 == 0 && half == s[|s| / 2..] {
        assert s == s[..|s| / 2] + s[|s| / 2..];
      }
    }
    r
  }

  /** A doubled id is a repetition, through the block length of half its text. */
  lemma TwiceIsRepetition(v: nat)
    requires IsRepetitionTwice(v)
    ensures IsRepetition(v)
  {
    var s := Decimal(v);
    var k := |s| / 2;
    assert s == s[..k] + s[..k] by {
      assert s == s[..k] + s[k..];
    }
    assert Repeat(s[..k], 2) == s[..k] + s[..k];
    assert |s| / k == 2;
    RepeatIffPeriodic(s, k);
    IsRepetitionSpec(v);
  }

  /** The invalid ids from `from` through `to`, added up. */
  function InvalidSum(from: nat, to: int): nat
    decreases to - from + 1
  {
    if to < from then 0
    else InvalidSum(from, to - 1) + (if IsRepetition(to) then to else 0)
  }

  /** The inner `for` loop of `main` over one range. */
  method SumRange(from: nat, to: int) returns (sum: nat)
    ensures sum == InvalidSum(from, to)
    ensures to < from ==> sum == 0
  {
    sum := 0;
    var i := from;
    while i <= to
      invariant from <= i && (i <= to + 1 || i == from)
      invariant sum == InvalidSum(from, i - 1)
    {
      if IsRepetition(i) {
        sum := sum + i;
      }
      i := i + 1;
    }
  }

  /** `+splt[0]` and `+splt[1]` of one `from-to` piece; None when either is NaN. */
  function ParseRange(piece: string): (r: Option<(nat, nat)>)
  {
    var splt := Split(piece, "-");
    SplitPiecesAvoidSep(piece, '-');
    if |splt| < 2 then None
    else
      assert splt[0] in splt && splt[1] in splt;
      match (NumberOf(splt[0]), NumberOf(splt[1]))
      case (Some(a), Some(b)) => Some((a, b))
      case _ => None
  }

  /** A piece written out as `from-to` reads back as those two bounds. */
  lemma ParseRangeText(from: nat, to: nat)
    ensures ParseRange(Decimal(from) + "-" + Decimal(to)) == Some((from, to))
  {
    DecimalAvoids(from, '-');
    DecimalAvoids(to, '-');
    SplitPair(Decimal(from), Decimal(to), '-');
    NumberOfDecimal(from);
    NumberOfDecimal(to);
  }

  /** The answer: every range's invalid ids added up; a range with a NaN bound adds nothing. */
  function Answer(input: string): nat {
    RangesSum(Split(input, ","))
  }

  function RangesSum(pieces: seq<string>): nat {
    if |pieces| == 0 then 0
    else
      var here := match ParseRange(pieces[0])
        case Some((a, b)) => InvalidSum(a, b)
        case None => 0;
      here + RangesSum(pieces[1..])
  }

  /** An input holding the one range `from-to` sums exactly that range's invalid ids. */
  lemma AnswerOneRange(from: nat, to: nat)
    ensures Answer(Decimal(from) + "-" + Decimal(to)) == InvalidSum(from, to)
  {
    var piece := Decimal(from) + "-" + Decimal(to);
    DecimalAvoids(from, ',');
    DecimalAvoids(to, ',');
    assert ',' !in piece;
    NoOccurrence(piece, ',');
    ParseRangeText(from, to);
    assert RangesSum([piece]) == InvalidSum(from, to) + RangesSum([]);
  }

  lemma ExampleRepetitions()
    ensures IsRepetition(1212) && IsRepetitionTwice(1212)
    ensures IsRepetition(111) && !IsRepetitionTwice(111)
  {
    assert Decimal(1212) == "1212";
    assert Decimal(111) == "111";
    assert Repeat("1", 3) == "111";
    assert Repeat("12", 2) == "1212";
  }
}

=== FILE: reports.dfy ===
/**
 * _2024/2/index.mjs: a report (a row of levels) is safe when its levels move
 * in one direction by steps of 1 to 3; a report also counts when dropping a
 * single level makes it safe.
 */
module Reports {
  import opened Text

  /** `line.split(' ').map(t => +t)`; None when some piece is NaN. */
  function ParseRow(line: string): (r: Option<seq<int>>)
  {
    NumbersOf(Split(line, " "))
  }

  function Abs(a: int): nat {
    if a < 0 then -a else a
  }

  /** The step into index i passes every test of the loop body, for the fixed direction. */
  predicate StepOk(row: seq<int>, isUp: bool, i: int)
    requires 1 <= i < |row|
  {
    && row[i - 1] != row[i]
    && Abs(row[i - 1] - row[i]) <= 3
    && !(isUp && row[i - 1] > row[i])
    && !(!isUp && row[i - 1] < row[i])
  }

  /** The loop of `isSafe` from index i on. */
  function SafeFrom(row: seq<int>, isUp: bool, i: nat): (r: bool)
    requires i >= 1
    ensures r <==> forall k :: i <= k < |row| ==> StepOk(row, isUp, k)
    decreases |row| - i
  {
    if i >= |row| then true
    else
      assert !StepOk(row, isUp, i) ==> !(forall k :: i <= k < |row| ==> StepOk(row, isUp, k));
      if row[i - 1] == row[i] then false
      else if Abs(row[i - 1] - row[i]) > 3 then false
      else if isUp && row[i - 1] > row[i] then false
      else if !isUp && row[i - 1] < row[i] then false
      else SafeFrom(row, isUp, i + 1)
  }

  /** Every step rises (up) or falls (down) by 1, 2 or 3. */
  ghost predicate Gradual(row: seq<int>, up: bool) {
    forall i :: 1 <= i < |row| ==>
      if up then 1 <= row[i] - row[i - 1] <= 3 else 1 <= row[i - 1] - row[i] <= 3
  }

  /**
   * `isSafe(row)`: the direction is fixed by the first two levels (`row[1]` is
   * undefined for a shorter row, so the comparison is false).
   */
  function IsSafe(row: seq<int>): bool {
    var isUp := |row| >= 2 && row[0] < row[1];
    SafeFrom(row, isUp, 1)
  }

  /** A report is safe exactly when it is short or moves gradually in one direction. */
  lemma IsSafeGradual(row: seq<int>)
    ensures IsSafe(row) <==> |row| < 2 || Gradual(row, true) || Gradual(row, false)
  {
    var isUp := |row| >= 2 && row[0] < row[1];
    var r := SafeFrom(row, isUp, 1);
    assert r ==> Gradual(row, isUp) by {
      if r {
        forall i | 1 <= i < |row| ensures if isUp then 1 <= row[i] - row[i - 1] <= 3 else 1 <= row[i - 1] - row[i] <= 3 {
          assert StepOk(row, isUp, i);
        }
      }
    }
    assert |row| >= 2 && Gradual(row, true) ==> isUp && r;
    assert |row| >= 2 && Gradual(row, false) ==> !isUp && r;
  }

  /** `row.filter((_, k) => k !== i)`. */
  function RemoveAt(row: seq<int>, i: nat): (r: seq<int>)
    requires i < |row|
    ensures |r| == |row| - 1
    ensures forall k :: 0 <= k < |r| ==> r[k] == if k < i then row[k] else row[k + 1]
  {
    row[..i] + row[i + 1..]
  }

  /** The report is safe outright or after dropping one level. */
  ghost predicate Tolerable(row: seq<int>) {
    IsSafe(row) || exists i :: 0 <= i < |row| && IsSafe(RemoveAt(row, i))
  }

  /** The body of the `forEach`: whether this report adds one to the count. */
  method Dampened(row: seq<int>) returns (counted: bool)
    ensures counted <==> Tolerable(row)
  {
    if IsSafe(row) {
      return true;
    }
    var i := 0;
    while i < |row|
      invariant 0 <= i <= |row|
      invariant forall k :: 0 <= k < i ==> !IsSafe(RemoveAt(row, k))
    {
      if IsSafe(RemoveAt(row, i)) {
        return true;
      }
      i := i + 1;
    }
    return false;
  }

  /** The number of tolerable reports. */
  ghost function TolerableCount(rows: seq<seq<int>>): nat {
    if |rows| == 0 then 0
    else TolerableCount(rows[..|rows| - 1]) + (if Tolerable(rows[|rows| - 1]) then 1 else 0)
  }

  /** `safes`: each report adds at most one, exactly when it is tolerable. */
  method CountSafe(rows: seq<seq<int>>) returns (safes: nat)
    ensures safes == TolerableCount(rows)
    ensures safes <= |rows|
  {
    safes := 0;
    var i := 0;
    while i < |rows|
      invariant 0 <= i <= |rows|
      invariant safes == TolerableCount(rows[..i])
      invariant safes <= i
    {
      var counted := Dampened(rows[i]);
      assert rows[..i + 1][..i] == rows[..i];
      if counted {
        safes := safes + 1;
      }
      i := i + 1;
    }
    assert rows[..|rows|] == rows;
  }

  /** A blank line reads as the report [0], which is safe and so is counted. */
  lemma BlankLineIsSafe()
    ensures ParseRow("") == Some([0])
    ensures IsSafe([0])
  {
    assert Split("", " ") == [""];
    ParseBlank();
  }

  lemma ParseBlank()
    ensures NumbersOf([""]) == Some([0])
  {
    NumberOfBlank("");
    assert [""][1..] == [];
    assert NumbersOf([]) == Some([]);
    assert [0] + [] == [0];
  }
}

=== FILE: shapes.dfy ===
/**
 * 12/index.mjs: present shapes (polyominoes drawn with `#`) are packed into
 * rectangular areas under the tree. A shape is the list of its cells; it is
 * normalised (moved to the origin and sorted row by row), turned and mirrored
 * into its up to eight orientations, and a backtracking search places the
 * requested number of copies of each shape on a grid without overlap.
 */
module Shapes {
  import opened Text
  import opened Sorting

  /** A cell `[x, y]`: x is the column, y the row. */
  datatype Cell = Cell(x: int, y: int)

  type Shape = seq<Cell>

  /** The comparator `a[1] - b[1] || a[0] - b[0]` is negative: row first, then column. */
  predicate Before(a: Cell, b: Cell) {
    a.y < b.y || (a.y == b.y && a.x < b.x)
  }

  lemma BeforeTotal()
    ensures StrictTotalOrder(Before)
  {
  }

  /** Strictly increasing in row-major order, hence free of repeats. */
  predicate RowMajor(s: Shape) {
    forall i, j :: 0 <= i < j < |s| ==> Before(s[i], s[j])
  }

  // ---------------------------------------------------------------------------
  // Reading a pattern
  // ---------------------------------------------------------------------------

  /** The `#` cells of one pattern line, left to right. */
  function RowCells(row: string, y: int): (r: Shape)
    ensures forall c :: c in r <==> c.y == y && 0 <= c.x < |row| && row[c.x] == '#'
    ensures RowMajor(r)
  {
    if |row| == 0 then []
    else
      var init := RowCells(row[..|row| - 1], y);
      if row[|row| - 1] == '#' then init + [Cell(|row| - 1, y)] else init
  }

  /**
   * `parseShape`: the cells `[x, y]` with `pattern[y][x] == '#'`, listed row by
   * row and left to right within a row.
   */
  function ParseShape(pattern: seq<string>): (r: Shape)
    ensures forall c :: c in r <==>
      0 <= c.y < |pattern| && 0 <= c.x < |pattern[c.y]| && pattern[c.y][c.x] == '#'
    ensures RowMajor(r)
  {
    if |pattern| == 0 then []
    else
      var init := ParseShape(pattern[..|pattern| - 1]);
      var last := RowCells(pattern[|pattern| - 1], |pattern| - 1);
      assert forall c :: c in init ==> c.y < |pattern| - 1;
      assert forall c :: c in last ==> c.y == |pattern| - 1;
      init + last
  }

  // ---------------------------------------------------------------------------
  // Translating, turning and mirroring
  // ---------------------------------------------------------------------------

  function Move(c: Cell, dx: int, dy: int): Cell {
    Cell(c.x + dx, c.y + dy)
  }

  /** (x, y) to (-y, x). */
  function Quarter(c: Cell): Cell {
    Cell(-c.y, c.x)
  }

  /** (x, y) to (-x, y). */
  function Mirror(c: Cell): Cell {
    Cell(-c.x, c.y)
  }

  /** The translate of a shape by (dx, dy). */
  function Shift(cs: Shape, dx: int, dy: int): (r: Shape)
    ensures |r| == |cs|
  {
    seq(|cs|, i requires 0 <= i < |cs| => Move(cs[i], dx, dy))
  }

  /** `rotate`: a quarter turn of every cell. */
  function Rotate(cs: Shape): (r: Shape)
    ensures |r| == |cs|
  {
    seq(|cs|, i requires 0 <= i < |cs| => Quarter(cs[i]))
  }

  /** `flip`: the mirror image of every cell. */
  function Flip(cs: Shape): (r: Shape)
    ensures |r| == |cs|
  {
    seq(|cs|, i requires 0 <= i < |cs| => Mirror(cs[i]))
  }

  /** The shape after k quarter turns. */
  function Turns(cs: Shape, k: nat): (r: Shape)
    ensures |r| == |cs|
  {
    if k == 0 then cs else Rotate(Turns(cs, k - 1))
  }

  lemma TurnsNext(cs: Shape, k: nat)
    ensures Turns(cs, k + 1) == Rotate(Turns(cs, k))
  {
  }

  /** Four quarter turns give back the shape. */
  lemma TurnFour(cs: Shape)
    ensures Turns(cs, 4) == cs
  {
    var t1 := Rotate(cs);
    var t2 := Rotate(t1);
    var t3 := Rotate(t2);
    var t4 := Rotate(t3);
    assert Turns(cs, 1) == t1;
    assert Turns(cs, 2) == t2;
    assert Turns(cs, 3) == t3;
    assert Turns(cs, 4) == t4;
    forall i | 0 <= i < |cs| ensures t4[i] == cs[i] {
      assert t2[i] == Cell(-cs[i].x, -cs[i].y);
    }
  }

  /** Mirroring is an involution. */
  lemma FlipTwice(cs: Shape)
    ensures Flip(Flip(cs)) == cs
  {
    forall i | 0 <= i < |cs| ensures Flip(Flip(cs))[i] == cs[i] {
    }
  }

  /** Mirroring after a quarter turn is three quarter turns after mirroring. */
  lemma FlipRotate(cs: Shape)
    ensures Flip(Rotate(cs)) == Turns(Flip(cs), 3)
  {
    var f := Flip(cs);
    var t3 := Rotate(Rotate(Rotate(f)));
    assert Turns(f, 1) == Rotate(f);
    assert Turns(f, 2) == Rotate(Rotate(f));
    assert Turns(f, 3) == t3;
    forall i | 0 <= i < |cs| ensures Flip(Rotate(cs))[i] == t3[i] {
      assert Rotate(f)[i] == Cell(-cs[i].y, -cs[i].x);
      assert Rotate(Rotate(f))[i] == Cell(cs[i].x, -cs[i].y);
    }
  }

  lemma {:induction false} TurnsAdd(cs: Shape, a: nat, b: nat)
    ensures Turns(Turns(cs, a), b) == Turns(cs, a + b)
  {
    if b > 0 {
      TurnsAdd(cs, a, b - 1);
    }
  }

  /** Only the number of quarter turns modulo four matters. */
  lemma {:induction false} TurnsMod(cs: Shape, k: nat)
    ensures Turns(cs, k) == Turns(cs, k % 4)
    decreases k
  {
    if k >= 4 {
      TurnsMod(cs, k - 4);
      TurnsAdd(cs, k - 4, 4);
      TurnFour(Turns(cs, k - 4));
    }
  }

  lemma ShiftShift(cs: Shape, a: int, b: int, c: int, d: int)
    ensures Shift(Shift(cs, a, b), c, d) == Shift(cs, a + c, b + d)
  {
    forall i | 0 <= i < |cs| ensures Shift(Shift(cs, a, b), c, d)[i] == Shift(cs, a + c, b + d)[i] {
    }
  }

  lemma RotateShift(cs: Shape, dx: int, dy: int)
    ensures Rotate(Shift(cs, dx, dy)) == Shift(Rotate(cs), -dy, dx)
  {
    forall i | 0 <= i < |cs| ensures Rotate(Shift(cs, dx, dy))[i] == Shift(Rotate(cs), -dy, dx)[i] {
    }
  }

  lemma FlipShift(cs: Shape, dx: int, dy: int)
    ensures Flip(Shift(cs, dx, dy)) == Shift(Flip(cs), -dx, dy)
  {
    forall i | 0 <= i < |cs| ensures Flip(Shift(cs, dx, dy))[i] == Shift(Flip(cs), -dx, dy)[i] {
    }
  }

  /** The offset (dx, dy) after k quarter turns. */
  function TurnedOffset(dx: int, dy: int, k: nat): Cell {
    if k == 0 then Cell(dx, dy) else Quarter(TurnedOffset(dx, dy, k - 1))
  }

  /** Turning a translate is translating the turned shape by the turned offset. */
  lemma {:induction false} TurnsShift(cs: Shape, dx: int, dy: int, k: nat)
    ensures Turns(Shift(cs, dx, dy), k)
         == Shift(Turns(cs, k), TurnedOffset(dx, dy, k).x, TurnedOffset(dx, dy, k).y)
  {
    if k > 0 {
      TurnsShift(cs, dx, dy, k - 1);
      var o := TurnedOffset(dx, dy, k - 1);
      RotateShift(Turns(cs, k - 1), o.x, o.y);
    }
  }

  // ---------------------------------------------------------------------------
  // Normal form
  // ---------------------------------------------------------------------------

  /** The index of a cell of least column (the first one, scanning from the end). */
  function LowX(cs: Shape): (k: nat)
    requires |cs| > 0
    ensures k < |cs|
    ensures forall i :: 0 <= i < |cs| ==> cs[k].x <= cs[i].x
  {
    if |cs| == 1 then 0
    else
      var rest := LowX(cs[..|cs| - 1]);
      if cs[|cs| - 1].x < cs[rest].x then |cs| - 1 else rest
  }

  /** The index of a cell of least row. */
  function LowY(cs: Shape): (k: nat)
    requires |cs| > 0
    ensures k < |cs|
    ensures forall i :: 0 <= i < |cs| ==> cs[k].y <= cs[i].y
  {
    if |cs| == 1 then 0
    else
      var rest := LowY(cs[..|cs| - 1]);
      if cs[|cs| - 1].y < cs[rest].y then |cs| - 1 else rest
  }

  /** `Math.min(...coords.map(c => c[0]))`. */
  function MinX(cs: Shape): int
    requires |cs| > 0
  {
    cs[LowX(cs)].x
  }

  /** `Math.min(...coords.map(c => c[1]))`. */
  function MinY(cs: Shape): int
    requires |cs| > 0
  {
    cs[LowY(cs)].y
  }

  /** Every cell has non-negative coordinates, and column 0 and row 0 are both used. */
  predicate AtOrigin(s: Shape) {
    && (forall i :: 0 <= i < |s| ==> 0 <= s[i].x && 0 <= s[i].y)
    && (exists i :: 0 <= i < |s| && s[i].x == 0)
    && (exists i :: 0 <= i < |s| && s[i].y == 0)
  }

  /** The translate of a non-empty shape by minus its minima sits at the origin. */
  lemma ToOrigin(cs: Shape)
    requires |cs| > 0
    ensures AtOrigin(Shift(cs, -MinX(cs), -MinY(cs)))
  {
    var mx, my := MinX(cs), MinY(cs);
    var s := Shift(cs, -mx, -my);
    forall i | 0 <= i < |s| ensures 0 <= s[i].x && 0 <= s[i].y {
      assert mx <= cs[i].x && my <= cs[i].y;
    }
    assert s[LowX(cs)].x == 0;
    assert s[LowY(cs)].y == 0;
  }

  /** Being at the origin depends only on the multiset of cells. */
  lemma AtOriginPerm(a: Shape, b: Shape)
    requires multiset(a) == multiset(b) && AtOrigin(a)
    ensures AtOrigin(b)
  {
    forall i | 0 <= i < |b| ensures 0 <= b[i].x && 0 <= b[i].y {
      assert b[i] in multiset(a);
      var j :| 0 <= j < |a| && a[j] == b[i];
    }
    var i :| 0 <= i < |a| && a[i].x == 0;
    assert a[i] in multiset(b);
    var j :| 0 <= j < |b| && b[j] == a[i];
    var k :| 0 <= k < |a| && a[k].y == 0;
    assert a[k] in multiset(b);
    var l :| 0 <= l < |b| && b[l] == a[k];
  }

  /**
   * `normalize`: the empty shape stays empty; otherwise the shape is moved so
   * that its least column and least row are 0, and sorted row by row.
   */
  function Normalize(cs: Shape): (r: Shape)
    ensures |r| == |cs|
    ensures |cs| > 0 ==> multiset(r) == multiset(Shift(cs, -MinX(cs), -MinY(cs)))
  {
    if |cs| == 0 then [] else SortBy(Shift(cs, -MinX(cs), -MinY(cs)), Before)
  }

  /** A normal form lists its cells row by row, left to right. */
  lemma NormalizeSorted(cs: Shape)
    ensures SortedBy(Normalize(cs), Before)
  {
    if |cs| > 0 {
      BeforeTotal();
      SortBySorted(Shift(cs, -MinX(cs), -MinY(cs)), Before);
    }
  }

  /** The normal form of a non-empty shape sits at the origin. */
  lemma NormalizeOrigin(cs: Shape)
    requires |cs| > 0
    ensures AtOrigin(Normalize(cs))
  {
    ToOrigin(cs);
    AtOriginPerm(Shift(cs, -MinX(cs), -MinY(cs)), Normalize(cs));
  }

  /** The least column of a shape at the origin is 0, and so is its least row. */
  lemma OriginMin(s: Shape)
    requires |s| > 0 && AtOrigin(s)
    ensures MinX(s) == 0 && MinY(s) == 0
  {
    var c :| 0 <= c < |s| && s[c].x == 0;
    var d :| 0 <= d < |s| && s[d].y == 0;
    assert s[LowX(s)].x <= s[c].x && s[LowY(s)].y <= s[d].y;
  }

  lemma ShiftZero(cs: Shape)
    ensures Shift(cs, 0, 0) == cs
  {
  }

  /** `normalize` is idempotent: a normal form is its own normal form. */
  lemma NormalizeIdempotent(cs: Shape)
    ensures Normalize(Normalize(cs)) == Normalize(cs)
  {
    var s := Normalize(cs);
    if |s| > 0 {
      NormalizeOrigin(cs);
      OriginMin(s);
      ShiftZero(s);
      BeforeTotal();
      SortBySorted(s, Before);
      NormalizeSorted(cs);
      SortedUnique(SortBy(s, Before), s, Before);
    }
  }

  /** The minima move with a translation. */
  lemma ShiftMin(cs: Shape, dx: int, dy: int)
    requires |cs| > 0
    ensures MinX(Shift(cs, dx, dy)) == MinX(cs) + dx
    ensures MinY(Shift(cs, dx, dy)) == MinY(cs) + dy
  {
    var s := Shift(cs, dx, dy);
    var i, j := LowX(s), LowX(cs);
    assert s[i].x <= s[j].x && cs[j].x <= cs[i].x;
    var k, l := LowY(s), LowY(cs);
    assert s[k].y <= s[l].y && cs[l].y <= cs[k].y;
  }

  lemma NormalizeMoved(cs: Shape, m: Shape)
    requires |cs| > 0 && Shift(cs, -MinX(cs), -MinY(cs)) == m
    ensures Normalize(cs) == SortBy(m, Before)
  {
  }

  /** `normalize` forgets where the shape was: every translate has the same normal form. */
  lemma NormalizeShift(cs: Shape, dx: int, dy: int)
    ensures Normalize(Shift(cs, dx, dy)) == Normalize(cs)
  {
    var s := Shift(cs, dx, dy);
    if |cs| > 0 {
      ShiftMin(cs, dx, dy);
      var a, b := -MinX(s), -MinY(s);
      ShiftShift(cs, dx, dy, a, b);
      assert dx + a == -MinX(cs) && dy + b == -MinY(cs);
      var m := Shift(cs, -MinX(cs), -MinY(cs));
      assert Shift(s, a, b) == m;
      NormalizeMoved(s, m);
      NormalizeMoved(cs, m);
    }
  }

  // ---------------------------------------------------------------------------
  // Orientations
  // ---------------------------------------------------------------------------

  /** The k-th shape `getAllOrientations` normalises: turns 0-3 of the shape, then of its mirror image. */
  function Raw(cs: Shape, k: nat): Shape {
    Turns(if k < 4 then cs else Flip(cs), k % 4)
  }

  function Candidates(cs: Shape): (r: seq<Shape>)
    ensures |r| == 8
  {
    seq(8, k requires 0 <= k < 8 => Normalize(Raw(cs, k)))
  }

  /** Keeps the first occurrence of every element, in order (the `seen` set of keys). */
  function Dedup(s: seq<Shape>): (r: seq<Shape>)
    ensures |r| <= |s|
  {
    if |s| == 0 then []
    else
      var d := Dedup(s[..|s| - 1]);
      if s[|s| - 1] in d then d else d + [s[|s| - 1]]
  }

  /** `Dedup` keeps every element once and only once, and the first element first. */
  lemma {:induction false} DedupKeeps(s: seq<Shape>)
    ensures forall x :: x in Dedup(s) <==> x in s
    ensures forall i, j :: 0 <= i < j < |Dedup(s)| ==> Dedup(s)[i] != Dedup(s)[j]
    ensures |s| > 0 ==> |Dedup(s)| > 0 && Dedup(s)[0] == s[0]
  {
    if |s| > 0 {
      var init := s[..|s| - 1];
      DedupKeeps(init);
      assert s == init + [s[|s| - 1]];
      if |init| > 0 {
        assert init[0] == s[0];
      }
    }
  }

  /** The `seen` set holds exactly the kept shapes. */
  ghost predicate Mirrors(seen: set<Shape>, kept: seq<Shape>) {
    forall o :: o in seen <==> o in kept
  }

  lemma MirrorsAdd(seen: set<Shape>, kept: seq<Shape>, x: Shape)
    requires Mirrors(seen, kept)
    ensures Mirrors(seen + {x}, kept + [x])
  {
  }

  /** One more element for `Dedup`, with the kept elements also held as a set. */
  lemma DedupStep(s: seq<Shape>, k: nat, seen: set<Shape>, kept: seq<Shape>)
    requires k < |s| && kept == Dedup(s[..k]) && Mirrors(seen, kept)
    ensures Dedup(s[..k + 1]) == if s[k] in seen then kept else kept + [s[k]]
  {
    assert s[..k + 1][..k] == s[..k];
  }


  lemma CandidateAt(cs: Shape, k: nat)
    requires k < 8
    ensures Candidates(cs)[k] == Normalize(Raw(cs, k))
  {
  }

  lemma RawAt(cs: Shape, f: nat, r: nat)
    requires f < 2 && r < 4
    ensures Raw(cs, 4 * f + r) == Turns(if f == 0 then cs else Flip(cs), r)
  {
    assert (4 * f + r) % 4 == r;
  }

  /** `getAllOrientations`: the distinct normal forms among the eight candidates. */
  function Orientations(cs: Shape): (r: seq<Shape>)
    ensures forall o :: o in r <==> o in Candidates(cs)
  {
    DedupKeeps(Candidates(cs));
    Dedup(Candidates(cs))
  }

  /**
   * There are one to eight orientations, all different, the first is the
   * normal form of the shape itself, and each is a normal form with as many
   * cells as the shape.
   */
  lemma OrientationsShape(cs: Shape)
    ensures 1 <= |Orientations(cs)| <= 8
    ensures Orientations(cs)[0] == Normalize(cs)
    ensures forall i, j :: 0 <= i < j < |Orientations(cs)| ==> Orientations(cs)[i] != Orientations(cs)[j]
    ensures forall o :: o in Orientations(cs) ==> Normalize(o) == o && |o| == |cs|
  {
    var cands := Candidates(cs);
    CandidateAt(cs, 0);
    DedupKeeps(cands);
    forall o | o in Orientations(cs) ensures Normalize(o) == o && |o| == |cs| {
      assert o in cands;
      var k :| 0 <= k < 8 && cands[k] == o;
      CandidateAt(cs, k);
      NormalizeIdempotent(Raw(cs, k));
    }
  }

  /** The running shape of the inner loop, one entry per pass. */
  ghost function Quarters(base: Shape): (q: seq<Shape>)
    ensures |q| == 4 && q[0] == base
    ensures forall i :: 0 <= i < 3 ==> q[i + 1] == Rotate(q[i])
  {
    [base, Rotate(base), Rotate(Rotate(base)), Rotate(Rotate(Rotate(base)))]
  }

  lemma QuartersTurns(base: Shape, r: nat)
    requires r < 4
    ensures Quarters(base)[r] == Turns(base, r)
  {
    var q := Quarters(base);
    assert Turns(base, 1) == q[1];
    assert Turns(base, 2) == q[2];
    assert Turns(base, 3) == q[3];
    assert r == 0 || r == 1 || r == 2 || r == 3;
  }

  /** The four entries from k0 on are the normal forms of the quarter turns of base. */
  ghost predicate TurnNorms(cands: seq<Shape>, k0: nat, base: Shape) {
    && k0 + 4 <= |cands|
    && forall r :: 0 <= r < 4 ==> cands[k0 + r] == Normalize(Quarters(base)[r])
  }

  lemma TurnNormsAt(cs: Shape, f: nat)
    requires f < 2
    ensures TurnNorms(Candidates(cs), 4 * f, if f == 0 then cs else Flip(cs))
  {
    var base := if f == 0 then cs else Flip(cs);
    forall r | 0 <= r < 4 ensures Candidates(cs)[4 * f + r] == Normalize(Quarters(base)[r]) {
      CandidateAt(cs, 4 * f + r);
      RawAt(cs, f, r);
      QuartersTurns(base, r);
    }
  }

  /** One candidate: kept only when its normal form has not been seen. */
  method KeepOne(norm: Shape, kept: seq<Shape>, seen: set<Shape>, ghost cands: seq<Shape>, ghost k: nat)
    returns (kept': seq<Shape>, seen': set<Shape>)
    requires k < |cands| && cands[k] == norm
    requires kept == Dedup(cands[..k]) && Mirrors(seen, kept)
    ensures kept' == Dedup(cands[..k + 1]) && Mirrors(seen', kept')
  {
    DedupStep(cands, k, seen, kept);
    kept', seen' := kept, seen;
    if norm !in seen {
      MirrorsAdd(seen, kept, norm);
      seen' := seen + {norm};
      kept' := kept + [norm];
    }
  }

  /**
   * The inner loop of `getAllOrientations`: four quarter turns of the running
   * shape, keeping each normal form not seen before.
   */
  method KeepTurns(base: Shape, kept: seq<Shape>, seen: set<Shape>, ghost cands: seq<Shape>, ghost k0: nat)
    returns (kept': seq<Shape>, seen': set<Shape>)
    requires TurnNorms(cands, k0, base)
    requires kept == Dedup(cands[..k0]) && Mirrors(seen, kept)
    ensures kept' == Dedup(cands[..k0 + 4]) && Mirrors(seen', kept')
  {
    kept', seen' := kept, seen;
    var current := base;
    var r := 0;
    while r < 4
      invariant 0 <= r <= 4
      invariant kept' == Dedup(cands[..k0 + r]) && Mirrors(seen', kept')
      invariant r < 4 ==> current == Quarters(base)[r]
    {
      var norm := Normalize(current);
      kept', seen' := KeepOne(norm, kept', seen', cands, k0 + r);
      current := Rotate(current);
      r := r + 1;
    }
  }

  /**
   * The loop of `getAllOrientations` as written: the running shape starts as
   * the shape and then as its mirror image; a set holds the normal forms
   * already kept.
   */
  method AllOrientations(coords: Shape) returns (orientations: seq<Shape>)
    ensures orientations == Orientations(coords)
  {
    ghost var cands := Candidates(coords);
    orientations := [];
    var seen: set<Shape> := {};
    var current := coords;
    var f := 0;
    while f < 2
      invariant 0 <= f <= 2
      invariant orientations == Dedup(cands[..4 * f]) && Mirrors(seen, orientations)
      invariant f == 0 ==> current == coords
      invariant f == 1 ==> current == Flip(coords)
    {
      TurnNormsAt(coords, f);
      orientations, seen := KeepTurns(current, orientations, seen, cands, 4 * f);
      current := Flip(coords);
      f := f + 1;
    }
    assert cands[..8] == cands;
  }

  /** Where the k-th candidate of the turned shape sits among the candidates of the shape. */
  function RotatedIndex(k: nat): nat {
    if k < 3 then k + 1 else if k == 3 then 0 else if k == 4 then 7 else k - 1
  }

  function UnrotatedIndex(j: nat): nat {
    if j == 0 then 3 else if j < 4 then j - 1 else if j == 7 then 4 else j + 1
  }

  /** Two lists that are re-orderings of each other by an onto index map hold the same elements. */
  lemma Reindexed(a: seq<Shape>, b: seq<Shape>, f: nat -> nat, g: nat -> nat)
    requires forall k :: 0 <= k < |a| ==> f(k) < |b| && a[k] == b[f(k)]
    requires forall j :: 0 <= j < |b| ==> g(j) < |a| && f(g(j)) == j
    ensures forall o :: o in a <==> o in b
  {
    forall o | o in a ensures o in b {
      var k :| 0 <= k < |a| && a[k] == o;
      assert b[f(k)] == o;
    }
    forall o | o in b ensures o in a {
      var j :| 0 <= j < |b| && b[j] == o;
      assert a[g(j)] == o;
    }
  }

  lemma RawRotate(cs: Shape, k: nat)
    requires k < 8
    ensures Raw(Rotate(cs), k) == Raw(cs, RotatedIndex(k))
  {
    var j := RotatedIndex(k);
    if k < 4 {
      assert Raw(Rotate(cs), k) == Turns(Rotate(cs), k) by {
        assert k % 4 == k;
      }
      assert Raw(cs, j) == Turns(cs, (k + 1) % 4) by {
        assert j < 4 && j % 4 == (k + 1) % 4;
      }
      assert Rotate(cs) == Turns(cs, 1);
      TurnsAdd(cs, 1, k);
      TurnsMod(cs, k + 1);
    } else {
      // The mirror image of a quarter turn is three quarter turns of the mirror image.
      var m := k - 4;
      assert Raw(Rotate(cs), k) == Turns(Flip(Rotate(cs)), m) by {
        assert k % 4 == m;
      }
      assert Raw(cs, j) == Turns(Flip(cs), (3 + m) % 4) by {
        assert j >= 4 && j % 4 == (3 + m) % 4;
      }
      FlipRotate(cs);
      TurnsAdd(Flip(cs), 3, m);
      TurnsMod(Flip(cs), 3 + m);
    }
  }

  /** Turning the input a quarter gives the same set of orientations. */
  lemma OrientationsRotate(cs: Shape)
    ensures forall o :: o in Orientations(Rotate(cs)) <==> o in Orientations(cs)
  {
    var a := Candidates(Rotate(cs));
    var b := Candidates(cs);
    forall k | 0 <= k < 8 ensures a[k] == b[RotatedIndex(k)] {
      CandidateAt(Rotate(cs), k);
      CandidateAt(cs, RotatedIndex(k));
      RawRotate(cs, k);
    }
    Reindexed(a, b, RotatedIndex, UnrotatedIndex);
  }

  /** Where the k-th candidate of the mirror image sits among the candidates of the shape. */
  function MirroredIndex(k: nat): nat {
    if k < 4 then k + 4 else k - 4
  }

  lemma RawFlip(cs: Shape, k: nat)
    requires k < 8
    ensures Raw(Flip(cs), k) == Raw(cs, MirroredIndex(k))
  {
    FlipTwice(cs);
    assert MirroredIndex(k) % 4 == k % 4;
  }

  /** Mirroring the input gives the same set of orientations. */
  lemma OrientationsFlip(cs: Shape)
    ensures forall o :: o in Orientations(Flip(cs)) <==> o in Orientations(cs)
  {
    var a := Candidates(Flip(cs));
    var b := Candidates(cs);
    forall k | 0 <= k < 8 ensures a[k] == b[MirroredIndex(k)] {
      CandidateAt(Flip(cs), k);
      CandidateAt(cs, MirroredIndex(k));
      RawFlip(cs, k);
    }
    Reindexed(a, b, MirroredIndex, MirroredIndex);
  }

  /** The orientations of a shape do not depend on where it was drawn. */
  lemma OrientationsShift(cs: Shape, dx: int, dy: int)
    ensures Orientations(Shift(cs, dx, dy)) == Orientations(cs)
  {
    var a := Candidates(Shift(cs, dx, dy));
    var b := Candidates(cs);
    forall k | 0 <= k < 8 ensures a[k] == b[k] {
      CandidateAt(Shift(cs, dx, dy), k);
      CandidateAt(cs, k);
      var base := if k < 4 then cs else Flip(cs);
      var ex := if k < 4 then dx else -dx;
      if k >= 4 {
        FlipShift(cs, dx, dy);
      }
      TurnsShift(base, ex, dy, k % 4);
      var o := TurnedOffset(ex, dy, k % 4);
      NormalizeShift(Turns(base, k % 4), o.x, o.y);
    }
    assert a == b;
  }
}

=== FILE: similarity.dfy ===
/**
 * _2024/1/index.mjs: two columns of location ids; the similarity score adds,
 * for every id of the left column, the id times the number of times it occurs
 * in the right column.
 */
module Similarity {
  import opened Text

  /** `line.split('   ')`, then `+nums[0]` and `+nums[1]`; None when either is NaN or missing. */
  function ParseLine(line: string): (r: Option<(int, int)>)
    ensures r.Some? ==> |Split(line, "   ")| >= 2
  {
    var nums := Split(line, "   ");
    if |nums| < 2 then None
    else match (NumberOf(nums[0]), NumberOf(nums[1]))
      case (Some(x), Some(y)) => Some((x, y))
      case _ => None
  }

  /** Two ids written out three spaces apart read back as the pair. */
  lemma ParseLineText(x: nat, y: nat)
    ensures ParseLine(Decimal(x) + "   " + Decimal(y)) == Some((x, y))
  {
    DecimalAvoids(x, ' ');
    DecimalAvoids(y, ' ');
    SplitPairBy(Decimal(x), Decimal(y), "   ");
    NumberOfDecimal(x);
    NumberOfDecimal(y);
  }

  /** `b.filter(bi => bi == x).length`. */
  function Count(b: seq<int>, x: int): (n: nat)
    ensures n == multiset(b)[x]
  {
    if |b| == 0 then 0
    else
      assert b == b[..|b| - 1] + [b[|b| - 1]];
      Count(b[..|b| - 1], x) + (if b[|b| - 1] == x then 1 else 0)
  }

  /** The score after the loop over every index of a. */
  function Score(a: seq<int>, b: seq<int>): int {
    if |a| == 0 then 0
    else Score(a[..|a| - 1], b) + a[|a| - 1] * Count(b, a[|a| - 1])
  }

  /** Left ids that never occur on the right add nothing; each repeated left id adds again. */
  lemma {:induction false} ScoreOnlyMatches(a: seq<int>, b: seq<int>, x: int)
    requires x !in b
    ensures Score(a + [x], b) == Score(a, b)
    ensures Score([x, x] + a, b) == Score(a, b)
  {
    assert (a + [x])[..|a|] == a;
    assert multiset(b)[x] == 0;
    ScorePrefix([x, x], a, b);
    assert Score([x, x], b) == 0 by {
      assert [x, x][..1] == [x];
      assert [x][..0] == [];
      assert Count(b, x) == 0;
      assert Score([x], b) == Score([], b) + x * Count(b, x);
      assert Score([x, x], b) == Score([x], b) + x * Count(b, x);
    }
  }

  /** The score of a concatenated left column is the sum of the scores of its parts. */
  lemma {:induction false} ScorePrefix(a: seq<int>, a': seq<int>, b: seq<int>)
    ensures Score(a + a', b) == Score(a, b) + Score(a', b)
    decreases |a'|
  {
    if |a'| == 0 {
      assert a + a' == a;
    } else {
      var last := a'[|a'| - 1];
      assert (a + a')[..|a + a'| - 1] == a + a'[..|a'| - 1];
      ScorePrefix(a, a'[..|a'| - 1], b);
    }
  }

  /** The score sees the right column only through how often each id occurs in it. */
  lemma {:induction false} ScoreReorder(a: seq<int>, b: seq<int>, b': seq<int>)
    requires multiset(b) == multiset(b')
    ensures Score(a, b) == Score(a, b')
    decreases |a|
  {
    if |a| > 0 {
      ScoreReorder(a[..|a| - 1], b, b');
    }
  }

  /** One more id on the right adds it once for each of its occurrences on the left. */
  lemma {:induction false} ScoreAppendRight(a: seq<int>, b: seq<int>, y: int)
    ensures Score(a, b + [y]) == Score(a, b) + y * Count(a, y)
    decreases |a|
  {
    if |a| > 0 {
      var a' := a[..|a| - 1];
      var l := a[|a| - 1];
      ScoreAppendRight(a', b, y);
      assert a == a' + [l];
      var ca := Count(a', y);
      var cb := Count(b, l);
      var e := if l == y then 1 else 0;
      assert Count(a, y) == ca + e;
      assert Count(b + [y], l) == cb + e by {
        assert (b + [y])[..|b|] == b;
      }
      assert Score(a, b + [y]) == Score(a', b + [y]) + l * Count(b + [y], l);
      assert Score(a, b) == Score(a', b) + l * cb;
      Regroup(Score(a', b), y, ca, l, cb, e);
    }
  }

  lemma Regroup(s: int, y: int, ca: int, l: int, cb: int, e: int)
    requires e == (if l == y then 1 else 0)
    ensures s + y * ca + l * (cb + e) == s + l * cb + y * (ca + e)
  {
  }

  lemma {:induction false} ScoreEmptyRight(a: seq<int>)
    ensures Score(a, []) == 0
    decreases |a|
  {
    if |a| > 0 {
      ScoreEmptyRight(a[..|a| - 1]);
    }
  }

  /** Swapping the two columns gives the same similarity score. */
  lemma {:induction false} ScoreSymmetric(a: seq<int>, b: seq<int>)
    ensures Score(a, b) == Score(b, a)
    decreases |b|
  {
    if |b| > 0 {
      var b' := b[..|b| - 1];
      var y := b[|b| - 1];
      assert b == b' + [y];
      ScoreSymmetric(a, b');
      ScoreAppendRight(a, b', y);
      assert Score(b, a) == Score(b', a) + y * Count(a, y);
    } else {
      ScoreEmptyRight(a);
    }
  }
}

=== FILE: sorting.dfy ===
/**
 * `Array.prototype.sort(compare)` as the solutions use it: a stable sort in
 * which a goes before b exactly when `compare(a, b) < 0`. Modelled as a stable
 * insertion sort over a "strictly before" relation `lt`; StableSort says when
 * that is the engine's own result.
 */
module Sorting {

  /** No element comes strictly after a later one. */
  predicate SortedBy<T>(s: seq<T>, lt: (T, T) -> bool) {
    forall i, j :: 0 <= i < j < |s| ==> !lt(s[j], s[i])
  }

  ghost predicate StrictOrder<T(!new)>(lt: (T, T) -> bool) {
    && (forall a :: !lt(a, a))
    && (forall a, b, c :: lt(a, b) && lt(b, c) ==> lt(a, c))
  }

  /** Irreflexive and transitive on the elements of d. */
  ghost predicate StrictOrderOn<T>(lt: (T, T) -> bool, d: set<T>) {
    && (forall a :: a in d ==> !lt(a, a))
    && (forall a, b, c :: a in d && b in d && c in d && lt(a, b) && lt(b, c) ==> lt(a, c))
  }

  ghost predicate StrictTotalOrder<T(!new)>(lt: (T, T) -> bool) {
    && StrictOrder(lt)
    && (forall a, b :: a != b ==> lt(a, b) || lt(b, a))
  }

  /** Puts x in front of the first element it comes strictly before, else at the end. */
  function Insert<T(==)>(x: T, t: seq<T>, lt: (T, T) -> bool): (r: seq<T>)
    ensures |r| == |t| + 1
    ensures multiset(r) == multiset(t) + multiset{x}
  {
    if |t| == 0 then [x]
    else if lt(x, t[0]) then [x] + t
    else
      assert t == [t[0]] + t[1..];
      [t[0]] + Insert(x, t[1..], lt)
  }

  /** Stable insertion sort: each element goes after every earlier one it does not come strictly before. */
  function SortBy<T(==)>(s: seq<T>, lt: (T, T) -> bool): (r: seq<T>)
    ensures |r| == |s|
    ensures multiset(r) == multiset(s)
  {
    if |s| == 0 then []
    else
      assert s == s[..|s| - 1] + [s[|s| - 1]];
      Insert(s[|s| - 1], SortBy(s[..|s| - 1], lt), lt)
  }

  lemma {:induction false} InsertSorted<T>(x: T, t: seq<T>, lt: (T, T) -> bool, d: set<T>)
    requires StrictOrderOn(lt, d)
    requires x in d && forall y :: y in t ==> y in d
    requires SortedBy(t, lt)
    ensures SortedBy(Insert(x, t, lt), lt)
    decreases |t|
  {
    if |t| > 0 && !lt(x, t[0]) {
      var rest := Insert(x, t[1..], lt);
      InsertSorted(x, t[1..], lt, d);
      forall k | 0 <= k < |rest| ensures !lt(rest[k], t[0]) {
        assert rest[k] in multiset(rest);
        assert rest[k] == x || rest[k] in multiset(t[1..]);
        if rest[k] != x {
          var j :| 0 <= j < |t[1..]| && t[1..][j] == rest[k];
          assert t[j + 1] == rest[k];
        }
      }
    } else if |t| > 0 {
      assert t[0] in t;
      forall k | 0 <= k < |t| ensures !lt(t[k], x) {
        assert t[k] in t;
        if k > 0 {
          assert !lt(t[k], t[0]);
        }
      }
    }
  }

  /** When lt is a strict order on the elements sorted, the insertion sort's output is sorted. */
  lemma {:induction false} SortBySortedOn<T>(s: seq<T>, lt: (T, T) -> bool, d: set<T>)
    requires StrictOrderOn(lt, d)
    requires forall y :: y in s ==> y in d
    ensures SortedBy(SortBy(s, lt), lt)
    decreases |s|
  {
    if |s| > 0 {
      var init := s[..|s| - 1];
      assert forall y :: y in init ==> y in s;
      SortBySortedOn(init, lt, d);
      forall y | y in SortBy(init, lt) ensures y in d {
        assert y in multiset(SortBy(init, lt));
        assert y in init;
      }
      InsertSorted(s[|s| - 1], SortBy(init, lt), lt, d);
    }
  }

  /** With a strict order the insertion sort's output is sorted. */
  lemma SortBySorted<T(!new)>(s: seq<T>, lt: (T, T) -> bool)
    requires StrictOrder(lt)
    ensures SortedBy(SortBy(s, lt), lt)
  {
    SortBySortedOn(s, lt, set y | y in s);
  }

  // ---------------------------------------------------------------------------
  // Stability, and why it pins the result down
  // ---------------------------------------------------------------------------

  /** The first element of a non-empty sequence, taken out of its multiset. */
  lemma HeadMultiset<T>(s: seq<T>)
    requires |s| > 0
    ensures multiset(s) == multiset{s[0]} + multiset(s[1..])
    ensures multiset(s[1..]) == multiset(s) - multiset{s[0]}
  {
    assert s == [s[0]] + s[1..];
  }

  /** Two sorted arrangements of one multiset start with the same element. */
  lemma SortedHeads<T(!new)>(s: seq<T>, t: seq<T>, lt: (T, T) -> bool)
    requires StrictTotalOrder(lt)
    requires SortedBy(s, lt) && SortedBy(t, lt)
    requires multiset(s) == multiset(t) && |s| > 0 && |t| > 0
    ensures s[0] == t[0]
  {
    assert s[0] in multiset(t);
    var j :| 0 <= j < |t| && t[j] == s[0];
    assert t[0] in multiset(s);
    var i :| 0 <= i < |s| && s[i] == t[0];
    assert !lt(s[0], t[0]) by {
      if j > 0 {
        assert !lt(t[j], t[0]);
      }
    }
    assert !lt(t[0], s[0]) by {
      if i > 0 {
        assert !lt(s[i], s[0]);
      }
    }
  }

  /** Under a strict total order there is only one sorted arrangement of a multiset. */
  lemma {:induction false} SortedUnique<T(!new)>(s: seq<T>, t: seq<T>, lt: (T, T) -> bool)
    requires StrictTotalOrder(lt)
    requires SortedBy(s, lt) && SortedBy(t, lt)
    requires multiset(s) == multiset(t)
    ensures s == t
    decreases |s|
  {
    assert |s| == |multiset(s)| == |multiset(t)| == |t|;
    if |s| > 0 {
      SortedHeads(s, t, lt);
      HeadMultiset(s);
      HeadMultiset(t);
      assert multiset(s[1..]) == multiset(t[1..]);
      SortedUnique(s[1..], t[1..], lt);
      assert forall k :: 0 < k < |s| ==> s[k] == s[1..][k - 1];
    }
  }
}

=== FILE: stable_sort.dfy ===
/**
 * Section 23.1.3.30 of ECMAScript 2024 fixes the result of `sort` only when
 * the comparator is consistent, which for a "strictly before" relation `lt`
 * means a strict weak order on the elements sorted. Then there is exactly one
 * sorted arrangement that keeps tied elements in their input order, and the
 * insertion sort of Sorting is it (SortByIsTheStableSort).
 */
module StableSort {
  import opened Sorting

  /** Neither comes strictly before the other. */
  predicate Tied<T>(lt: (T, T) -> bool, a: T, b: T) {
    !lt(a, b) && !lt(b, a)
  }

  /** A strict order on d whose ties are transitive too: a consistent comparator. */
  ghost predicate StrictWeakOrderOn<T>(lt: (T, T) -> bool, d: set<T>) {
    && StrictOrderOn(lt, d)
    && (forall a, b, c :: a in d && b in d && c in d && Tied(lt, a, b) && Tied(lt, b, c) ==> Tied(lt, a, c))
  }

  /** The elements of s tied with x, in the order s has them. */
  function TiedWith<T>(s: seq<T>, x: T, lt: (T, T) -> bool): seq<T> {
    if |s| == 0 then []
    else (if Tied(lt, s[0], x) then [s[0]] else []) + TiedWith(s[1..], x, lt)
  }

  lemma TiedWithCons<T>(s: seq<T>, x: T, lt: (T, T) -> bool)
    requires |s| > 0
    ensures TiedWith(s, x, lt) == (if Tied(lt, s[0], x) then [s[0]] else []) + TiedWith(s[1..], x, lt)
  {
  }

  /** r keeps every group of tied elements of s in the order s has them. */
  ghost predicate Stable<T>(r: seq<T>, s: seq<T>, lt: (T, T) -> bool) {
    forall x :: x in s ==> TiedWith(r, x, lt) == TiedWith(s, x, lt)
  }

  lemma {:induction false} TiedWithAppend<T>(a: seq<T>, b: seq<T>, x: T, lt: (T, T) -> bool)
    ensures TiedWith(a + b, x, lt) == TiedWith(a, x, lt) + TiedWith(b, x, lt)
    decreases |a|
  {
    if |a| > 0 {
      assert (a + b)[1..] == a[1..] + b;
      TiedWithAppend(a[1..], b, x, lt);
    } else {
      assert a + b == b;
    }
  }

  /** A sequence with no element tied with x has no tied group for x. */
  lemma {:induction false} NoneTied<T>(s: seq<T>, x: T, lt: (T, T) -> bool)
    requires forall k :: 0 <= k < |s| ==> !Tied(lt, s[k], x)
    ensures TiedWith(s, x, lt) == []
    decreases |s|
  {
    if |s| > 0 {
      NoneTied(s[1..], x, lt);
    }
  }

  /** Every element tied with x: the whole sequence is x's group. */
  lemma {:induction false} AllTied<T>(s: seq<T>, x: T, lt: (T, T) -> bool)
    requires forall k :: 0 <= k < |s| ==> Tied(lt, s[k], x)
    ensures TiedWith(s, x, lt) == s
    decreases |s|
  {
    if |s| > 0 {
      AllTied(s[1..], x, lt);
      assert s == [s[0]] + s[1..];
    }
  }

  /** In a strict weak order, whatever b is, a < c puts b after a or before c. */
  lemma WeakSplit<T>(a: T, b: T, c: T, lt: (T, T) -> bool, d: set<T>)
    requires StrictWeakOrderOn(lt, d)
    requires a in d && b in d && c in d && lt(a, c)
    ensures lt(a, b) || lt(b, c)
  {
    if !lt(a, b) && !lt(b, c) {
      assert Tied(lt, a, b) && Tied(lt, b, c);
    }
  }

  /** Nothing in a sorted t is tied with x when x is tied with some y before t[0]. */
  lemma BelowAllTied<T>(y: T, t: seq<T>, x: T, lt: (T, T) -> bool, d: set<T>)
    requires StrictWeakOrderOn(lt, d)
    requires x in d && y in d && forall z :: z in t ==> z in d
    requires SortedBy(t, lt) && |t| > 0 && lt(y, t[0]) && Tied(lt, y, x)
    ensures TiedWith(t, x, lt) == []
  {
    forall k | 0 <= k < |t| ensures !Tied(lt, t[k], x) {
      assert t[k] in t && t[0] in t;
      if k > 0 {
        WeakSplit(y, t[k], t[0], lt, d);
      }
    }
    NoneTied(t, x, lt);
  }

  /** Inserting y into a sorted sequence puts it last among the elements it is tied with. */
  lemma {:induction false} InsertTied<T>(y: T, t: seq<T>, x: T, lt: (T, T) -> bool, d: set<T>)
    requires StrictWeakOrderOn(lt, d)
    requires x in d && y in d && forall z :: z in t ==> z in d
    requires SortedBy(t, lt)
    ensures TiedWith(Insert(y, t, lt), x, lt) == TiedWith(t, x, lt) + (if Tied(lt, y, x) then [y] else [])
    decreases |t|
  {
    var tail := if Tied(lt, y, x) then [y] else [];
    if |t| == 0 {
    } else if lt(y, t[0]) {
      InsertTiedFront(y, t, x, lt, d);
    } else {
      assert forall z :: z in t[1..] ==> z in t;
      InsertTied(y, t[1..], x, lt, d);
      InsertTiedStep(y, t, x, lt);
    }
  }

  /** The case of InsertTied where y goes in front of t. */
  lemma InsertTiedFront<T>(y: T, t: seq<T>, x: T, lt: (T, T) -> bool, d: set<T>)
    requires StrictWeakOrderOn(lt, d)
    requires x in d && y in d && forall z :: z in t ==> z in d
    requires SortedBy(t, lt) && |t| > 0 && lt(y, t[0])
    ensures TiedWith(Insert(y, t, lt), x, lt) == TiedWith(t, x, lt) + (if Tied(lt, y, x) then [y] else [])
  {
    assert Insert(y, t, lt) == [y] + t;
    TiedWithAppend([y], t, x, lt);
    if Tied(lt, y, x) {
      BelowAllTied(y, t, x, lt, d);
    }
  }

  /** The step of InsertTied where y goes past t[0]: t[0]'s group is untouched. */
  lemma InsertTiedStep<T>(y: T, t: seq<T>, x: T, lt: (T, T) -> bool)
    requires |t| > 0 && !lt(y, t[0])
    requires TiedWith(Insert(y, t[1..], lt), x, lt) == TiedWith(t[1..], x, lt) + (if Tied(lt, y, x) then [y] else [])
    ensures TiedWith(Insert(y, t, lt), x, lt) == TiedWith(t, x, lt) + (if Tied(lt, y, x) then [y] else [])
  {
    var rest := Insert(y, t[1..], lt);
    var head := if Tied(lt, t[0], x) then [t[0]] else [];
    var tail := if Tied(lt, y, x) then [y] else [];
    assert Insert(y, t, lt) == [t[0]] + rest;
    TiedWithAppend([t[0]], rest, x, lt);
    assert TiedWith([t[0]], x, lt) == head;
    TiedWithCons(t, x, lt);
    ConcatAssoc(head, TiedWith(t[1..], x, lt), tail);
  }

  lemma ConcatAssoc<T>(a: seq<T>, b: seq<T>, c: seq<T>)
    ensures a + (b + c) == (a + b) + c
  {
  }

  /** The insertion sort keeps tied elements in their input order. */
  lemma {:induction false} SortByStable<T>(s: seq<T>, x: T, lt: (T, T) -> bool, d: set<T>)
    requires StrictWeakOrderOn(lt, d)
    requires x in d && forall y :: y in s ==> y in d
    ensures TiedWith(SortBy(s, lt), x, lt) == TiedWith(s, x, lt)
    decreases |s|
  {
    if |s| > 0 {
      var init := s[..|s| - 1];
      assert forall y :: y in init ==> y in s;
      SortByStable(init, x, lt, d);
      SortBySortedOn(init, lt, d);
      forall y | y in SortBy(init, lt) ensures y in d {
        assert y in multiset(SortBy(init, lt));
        assert y in init;
      }
      InsertTied(s[|s| - 1], SortBy(init, lt), x, lt, d);
      SortByLast(s, lt);
      TiedWithLast(s, x, lt);
    }
  }

  lemma SortByLast<T>(s: seq<T>, lt: (T, T) -> bool)
    requires |s| > 0
    ensures SortBy(s, lt) == Insert(s[|s| - 1], SortBy(s[..|s| - 1], lt), lt)
  {
  }

  /** The tied group of s is that of all but its last element, then possibly the last. */
  lemma TiedWithLast<T>(s: seq<T>, x: T, lt: (T, T) -> bool)
    requires |s| > 0
    ensures TiedWith(s, x, lt) == TiedWith(s[..|s| - 1], x, lt) + (if Tied(lt, s[|s| - 1], x) then [s[|s| - 1]] else [])
  {
    var init, last := s[..|s| - 1], s[|s| - 1];
    assert s == init + [last];
    TiedWithAppend(init, [last], x, lt);
    TiedWithCons([last], x, lt);
    assert [last][1..] == [];
  }

  /**
   * Two sorted arrangements of one multiset that keep every tied group in the
   * same order are equal.
   */
  lemma {:induction false} StableSortUnique<T>(a: seq<T>, b: seq<T>, lt: (T, T) -> bool)
    requires forall y :: y in a ==> !lt(y, y)
    requires SortedBy(a, lt) && SortedBy(b, lt)
    requires multiset(a) == multiset(b)
    requires forall x :: x in a ==> TiedWith(a, x, lt) == TiedWith(b, x, lt)
    ensures a == b
    decreases |a|
  {
    assert |a| == |multiset(a)| == |multiset(b)| == |b|;
    if |a| > 0 {
      assert a[0] in a;
      assert b[0] in multiset(a) && a[0] in multiset(b);
      StableHeads(a, b, lt);
      HeadMultiset(a);
      HeadMultiset(b);
      StableTails(a, b, lt);
      forall y | y in a[1..] ensures !lt(y, y) {
        assert y in a;
      }
      StableSortUnique(a[1..], b[1..], lt);
      assert a == [a[0]] + a[1..] && b == [b[0]] + b[1..];
    }
  }

  /** Sorted arrangements that hold each other's first element and agree on its group start alike. */
  lemma StableHeads<T>(a: seq<T>, b: seq<T>, lt: (T, T) -> bool)
    requires |a| > 0 && |b| > 0 && !lt(a[0], a[0])
    requires SortedBy(a, lt) && SortedBy(b, lt)
    requires b[0] in a && a[0] in b
    requires TiedWith(a, a[0], lt) == TiedWith(b, a[0], lt)
    ensures a[0] == b[0]
  {
    var i :| 0 <= i < |a| && a[i] == b[0];
    var j :| 0 <= j < |b| && b[j] == a[0];
    if i > 0 {
      assert !lt(a[i], a[0]);
    }
    if j > 0 {
      assert !lt(b[j], b[0]);
    }
    TiedWithCons(a, a[0], lt);
    TiedWithCons(b, a[0], lt);
    assert TiedWith(a, a[0], lt)[0] == a[0];
    assert TiedWith(b, a[0], lt)[0] == b[0];
  }

  /** Dropping one common first element keeps every tied group in the same order. */
  lemma StableTails<T>(a: seq<T>, b: seq<T>, lt: (T, T) -> bool)
    requires |a| > 0 && |b| > 0 && a[0] == b[0]
    requires forall x :: x in a ==> TiedWith(a, x, lt) == TiedWith(b, x, lt)
    ensures forall x :: x in a[1..] ==> TiedWith(a[1..], x, lt) == TiedWith(b[1..], x, lt)
  {
    forall x | x in a[1..] ensures TiedWith(a[1..], x, lt) == TiedWith(b[1..], x, lt) {
      assert x in a;
      TiedWithCons(a, x, lt);
      TiedWithCons(b, x, lt);
      PrefixCancel(if Tied(lt, a[0], x) then [a[0]] else [], TiedWith(a[1..], x, lt), TiedWith(b[1..], x, lt));
    }
  }

  lemma PrefixCancel<T>(h: seq<T>, u: seq<T>, v: seq<T>)
    requires h + u == h + v
    ensures u == v
  {
    assert u == (h + u)[|h|..];
    assert v == (h + v)[|h|..];
  }

  /**
   * Under a strict weak order on its elements, the insertion sort gives the
   * only sorted permutation of s that keeps tied elements in input order: any
   * stable sort returns exactly SortBy(s, lt).
   */
  lemma SortByIsTheStableSort<T>(s: seq<T>, r: seq<T>, lt: (T, T) -> bool)
    requires StrictWeakOrderOn(lt, set y | y in s)
    requires multiset(r) == multiset(s) && SortedBy(r, lt) && Stable(r, s, lt)
    ensures r == SortBy(s, lt)
  {
    var d := set y | y in s;
    SortBySortedOn(s, lt, d);
    forall x | x in r ensures TiedWith(r, x, lt) == TiedWith(SortBy(s, lt), x, lt) {
      assert x in multiset(r);
      SortByStable(s, x, lt, d);
    }
    forall y | y in r ensures !lt(y, y) {
      assert y in multiset(r);
    }
    StableSortUnique(r, SortBy(s, lt), lt);
  }
}

=== FILE: text.dfy ===
/**
 * The JavaScript string and number coercions the puzzle solutions lean on:
 * decimal digit strings, `String(n)`, `Number(s)`, `parseInt(s)`, `trim`,
 * `indexOf` and `split`. Every solution module imports this one; it holds no
 * state.
 */
module Text {

  datatype Option<+T> = None | Some(value: T)

  // ---------------------------------------------------------------------------
  // Digits and decimal strings
  // ---------------------------------------------------------------------------

  predicate IsDigit(c: char) {
    '0' <= c <= '9'
  }

  function DigitValue(c: char): (d: nat)
    requires IsDigit(c)
    ensures d < 10
  {
    c as int - '0' as int
  }

  function DigitChar(d: nat): (c: char)
    requires d < 10
    ensures IsDigit(c) && DigitValue(c) == d
  {
    ('0' as int + d) as char
  }

  predicate AllDigits(s: string) {
    forall i :: 0 <= i < |s| ==> IsDigit(s[i])
  }

  function Pow10(k: nat): (p: nat)
    ensures p >= 1
  {
    if k == 0 then 1 else 10 * Pow10(k - 1)
  }

  /** The value of a string of decimal digits, most significant first; "" is 0. */
  function DigitsValue(s: string): nat
    requires AllDigits(s)
  {
    if |s| == 0 then 0 else DigitsValue(s[..|s| - 1]) * 10 + DigitValue(s[|s| - 1])
  }

  /** `String(n)` for a non-negative integer: no sign, no leading zero. */
  function Decimal(n: nat): (s: string)
    ensures 1 <= |s| && AllDigits(s)
    ensures |s| > 1 ==> s[0] != '0'
  {
    if n < 10 then [DigitChar(n)] else Decimal(n / 10) + [DigitChar(n % 10)]
  }

  lemma {:induction false} DigitsValueBound(s: string)
    requires AllDigits(s)
    ensures DigitsValue(s) < Pow10(|s|)
    decreases |s|
  {
    if |s| > 0 {
      DigitsValueBound(s[..|s| - 1]);
    }
  }

  /** Reading back what `String(n)` printed gives n. */
  lemma {:induction false} DecimalRoundTrip(n: nat)
    ensures DigitsValue(Decimal(n)) == n
    decreases n
  {
    if n >= 10 {
      var s := Decimal(n);
      assert s[..|s| - 1] == Decimal(n / 10);
      DecimalRoundTrip(n / 10);
    }
  }

  lemma ShiftDecimal(a: int, p: int, b: int, d: int)
    ensures (a * p + b) * 10 + d == a * (10 * p) + (b * 10 + d)
  {
  }

  /** Appending digits shifts the value left by their count. */
  lemma {:induction false} DigitsValueAppend(s: string, t: string)
    requires AllDigits(s) && AllDigits(t)
    ensures AllDigits(s + t)
    ensures DigitsValue(s + t) == DigitsValue(s) * Pow10(|t|) + DigitsValue(t)
    decreases |t|
  {
    if |t| > 0 {
      var t' := t[..|t| - 1];
      var d := DigitValue(t[|t| - 1]);
      assert (s + t)[..|s + t| - 1] == s + t';
      assert (s + t)[|s + t| - 1] == t[|t| - 1];
      DigitsValueAppend(s, t');
      var a, b := DigitsValue(s), DigitsValue(t');
      calc {
        DigitsValue(s + t);
        DigitsValue(s + t') * 10 + d;
        (a * Pow10(|t'|) + b) * 10 + d;
        { ShiftDecimal(a, Pow10(|t'|), b, d); }
        a * (10 * Pow10(|t'|)) + (b * 10 + d);
        a * Pow10(|t|) + (b * 10 + d);
      }
    } else {
      assert s + t == s;
    }
  }

  // ---------------------------------------------------------------------------
  // Whitespace and trimming
  // ---------------------------------------------------------------------------

  /** The characters ECMAScript's `trim` and `Number` treat as white space or line terminators. */
  predicate IsJsSpace(c: char) {
    || c in {'\t', '\n', '\U{0B}', '\U{0C}', '\r', ' ', '\U{A0}', '\U{1680}'}
    || ('\U{2000}' <= c <= '\U{200A}')
    || c in {'\U{2028}', '\U{2029}', '\U{202F}', '\U{205F}', '\U{3000}', '\U{FEFF}'}
  }

  function TrimStart(s: string): (t: string)
    ensures |t| <= |s| && t == s[|s| - |t|..]
    ensures |t| > 0 ==> !IsJsSpace(t[0])
    ensures forall i :: 0 <= i < |s| - |t| ==> IsJsSpace(s[i])
  {
    if |s| > 0 && IsJsSpace(s[0]) then TrimStart(s[1..]) else s
  }

  function TrimEnd(s: string): (t: string)
    ensures |t| <= |s| && t == s[..|t|]
    ensures |t| > 0 ==> !IsJsSpace(t[|t| - 1])
    ensures forall i :: |t| <= i < |s| ==> IsJsSpace(s[i])
  {
    if |s| > 0 && IsJsSpace(s[|s| - 1]) then TrimEnd(s[..|s| - 1]) else s
  }

  /** `s.trim()`. */
  function Trim(s: string): string {
    TrimEnd(TrimStart(s))
  }

  lemma TrimNoSpace(s: string)
    requires forall i :: 0 <= i < |s| ==> !IsJsSpace(s[i])
    ensures Trim(s) == s
  {
  }

  // ---------------------------------------------------------------------------
  // Number(s) and parseInt(s)
  // ---------------------------------------------------------------------------

  /**
   * `Number(s)` restricted to decimal integers: white space around the text is
   * ignored, blank text is 0, an optional sign may precede the digits; any other
   * text is NaN (None).
   */
  function NumberOf(s: string): Option<int> {
    var t := Trim(s);
    if |t| == 0 then Some(0)
    else if t[0] == '-' && |t| > 1 && AllDigits(t[1..]) then Some(0 - DigitsValue(t[1..]))
    else if t[0] == '+' && |t| > 1 && AllDigits(t[1..]) then Some(DigitsValue(t[1..]))
    else if AllDigits(t) then Some(DigitsValue(t))
    else None
  }

  /** Blank text reads as 0. */
  lemma NumberOfBlank(s: string)
    requires Blank(s)
    ensures NumberOf(s) == Some(0)
  {
    BlankIsTrimEmpty(s);
  }

  /** A plain string of digits reads as its value. */
  lemma NumberOfDigits(s: string)
    requires AllDigits(s) && |s| > 0
    ensures NumberOf(s) == Some(DigitsValue(s))
  {
    TrimNoSpace(s);
    assert Trim(s) == s;
    assert s[0] != '-' && s[0] != '+';
  }

  /** Text without a minus sign never reads as a negative number. */
  lemma NumberOfNoMinus(s: string)
    requires '-' !in s
    ensures NumberOf(s).Some? ==> NumberOf(s).value >= 0
  {
    var t0 := TrimStart(s);
    var t := Trim(s);
    assert t0 == s[|s| - |t0|..];
    assert t == t0[..|t|];
    assert '-' !in t;
  }

  /** `parts.map(Number)` when no piece is NaN: every piece read, in order; None otherwise. */
  function NumbersOf(parts: seq<string>): (r: Option<seq<int>>)
    ensures r.Some? ==> |r.value| == |parts| && forall i :: 0 <= i < |parts| ==> NumberOf(parts[i]) == Some(r.value[i])
  {
    if |parts| == 0 then Some([])
    else
      match (NumberOf(parts[0]), NumbersOf(parts[1..]))
      case (Some(x), Some(xs)) => Some([x] + xs)
      case _ => None
  }

  /** The list reads exactly when every piece reads. */
  lemma {:induction false} NumbersOfReads(parts: seq<string>)
    ensures NumbersOf(parts).Some? <==> forall i :: 0 <= i < |parts| ==> NumberOf(parts[i]).Some?
  {
    if |parts| > 0 {
      NumbersOfReads(parts[1..]);
      if forall i :: 0 <= i < |parts| ==> NumberOf(parts[i]).Some? {
        assert forall i :: 0 <= i < |parts| - 1 ==> parts[1..][i] == parts[i + 1];
      }
    }
  }

  /** The longest prefix of s made of decimal digits. */
  function DigitPrefix(s: string): (d: string)
    ensures AllDigits(d) && |d| <= |s| && d == s[..|d|]
    ensures |d| < |s| ==> !IsDigit(s[|d|])
  {
    if |s| > 0 && IsDigit(s[0]) then [s[0]] + DigitPrefix(s[1..]) else []
  }

  /**
   * `parseInt(s)` in base 10: leading white space and one sign are skipped, then
   * the longest run of digits is read and the rest ignored; no digit is NaN.
   */
  function ParseInt(s: string): Option<int> {
    var t := TrimStart(s);
    var negative := |t| > 0 && t[0] == '-';
    var body := if |t| > 0 && (t[0] == '-' || t[0] == '+') then t[1..] else t;
    var d := DigitPrefix(body);
    if |d| == 0 then None
    else if negative then Some(0 - DigitsValue(d))
    else Some(DigitsValue(d))
  }

  /** `parseInt` of a non-empty digit string is its value. */
  lemma ParseIntDigits(s: string)
    requires AllDigits(s) && |s| > 0
    ensures ParseInt(s) == Some(DigitsValue(s))
  {
    assert IsDigit(s[0]) && !IsJsSpace(s[0]);
    assert TrimStart(s) == s;
    assert s[0] != '-' && s[0] != '+';
    DigitPrefixAll(s);
  }

  /** `parseInt` reads back what `String(n)` printed. */
  lemma ParseIntDecimal(n: nat)
    ensures ParseInt(Decimal(n)) == Some(n)
  {
    ParseIntDigits(Decimal(n));
    DecimalRoundTrip(n);
  }

  lemma {:induction false} DigitPrefixAll(s: string)
    requires AllDigits(s)
    ensures DigitPrefix(s) == s
    decreases |s|
  {
    if |s| > 0 {
      DigitPrefixAll(s[1..]);
    }
  }

  // ---------------------------------------------------------------------------
  // indexOf and split
  // ---------------------------------------------------------------------------

  /** sub occurs in s starting at index k. */
  predicate OccursAt(s: string, sub: string, k: int) {
    0 <= k && k + |sub| <= |s| && s[k..k + |sub|] == sub
  }

  /** `s.indexOf(sub, from)`: the first occurrence at or after from, or -1. */
  function IndexOf(s: string, sub: string, from: nat): (r: int)
    requires from <= |s|
    ensures r == -1 || (from <= r && OccursAt(s, sub, r))
    ensures forall k :: from <= k && (r == -1 || k < r) ==> !OccursAt(s, sub, k)
    decreases |s| - from
  {
    if from + |sub| > |s| then -1
    else if s[from..from + |sub|] == sub then from
    else if from == |s| then -1
    else IndexOf(s, sub, from + 1)
  }

  /** `s.split(sep)` for a non-empty separator. */
  function Split(s: string, sep: string): (parts: seq<string>)
    requires |sep| > 0
    ensures |parts| >= 1
    decreases |s|
  {
    var k := IndexOf(s, sep, 0);
    if k < 0 then [s] else [s[..k]] + Split(s[k + |sep|..], sep)
  }

  /** `parts.join(sep)`. */
  function Join(parts: seq<string>, sep: string): string
    requires |parts| >= 1
  {
    if |parts| == 1 then parts[0] else parts[0] + sep + Join(parts[1..], sep)
  }

  /** Joining the pieces back with the separator restores the text. */
  lemma {:induction false} SplitJoin(s: string, sep: string)
    requires |sep| > 0
    ensures Join(Split(s, sep), sep) == s
    decreases |s|
  {
    var k := IndexOf(s, sep, 0);
    if k >= 0 {
      var rest := s[k + |sep|..];
      var parts := Split(s, sep);
      assert parts == [s[..k]] + Split(rest, sep);
      assert parts[1..] == Split(rest, sep);
      SplitJoin(rest, sep);
      calc {
        Join(parts, sep);
        parts[0] + sep + Join(parts[1..], sep);
        s[..k] + sep + rest;
        { assert s[k..k + |sep|] == sep; assert s == s[..k] + s[k..k + |sep|] + rest; }
        s;
      }
    }
  }

  /** No piece of a one-character split contains the separator character. */
  lemma {:induction false} SplitPiecesAvoidSep(s: string, c: char)
    ensures forall p :: p in Split(s, [c]) ==> c !in p
    decreases |s|
  {
    var k := IndexOf(s, [c], 0);
    if k < 0 {
      forall i | 0 <= i < |s| ensures s[i] != c {
        assert s[i..i + 1] == [s[i]];
        assert !OccursAt(s, [c], i);
      }
    } else {
      var rest := s[k + 1..];
      SplitPiecesAvoidSep(rest, c);
      forall i | 0 <= i < k ensures s[i] != c {
        assert s[i..i + 1] == [s[i]];
        assert !OccursAt(s, [c], i);
      }
    }
  }

  /** A character absent from the text is absent from every piece of a split. */
  lemma {:induction false} SplitPiecesAvoid(s: string, sep: string, c: char)
    requires |sep| > 0 && c !in s
    ensures forall p :: p in Split(s, sep) ==> c !in p
    decreases |s|
  {
    var k := IndexOf(s, sep, 0);
    if k >= 0 {
      var head, rest := s[..k], s[k + |sep|..];
      assert Split(s, sep) == [head] + Split(rest, sep);
      assert c !in head by {
        assert forall i :: 0 <= i < |head| ==> head[i] == s[i];
      }
      assert c !in rest by {
        assert forall i :: 0 <= i < |rest| ==> rest[i] == s[k + |sep| + i];
      }
      SplitPiecesAvoid(rest, sep, c);
    }
  }

  /** Splitting a joined list of separator-free pieces gives the pieces back. */
  lemma {:induction false} JoinSplit(parts: seq<string>, c: char)
    requires |parts| >= 1
    requires forall p :: p in parts ==> c !in p
    ensures Split(Join(parts, [c]), [c]) == parts
    decreases |parts|
  {
    var s := Join(parts, [c]);
    if |parts| == 1 {
      NoOccurrence(s, c);
    } else {
      var rest := Join(parts[1..], [c]);
      assert s == parts[0] + [c] + rest;
      var n := |parts[0]|;
      assert OccursAt(s, [c], n);
      forall k | 0 <= k < n ensures !OccursAt(s, [c], k) {
        assert s[k] == parts[0][k];
        assert parts[0] in parts;
        assert s[k..k + 1] == [s[k]];
      }
      assert IndexOf(s, [c], 0) == n;
      assert s[..n] == parts[0];
      assert s[n + 1..] == rest;
      JoinSplit(parts[1..], c);
    }
  }

  /** Two separator-free pieces joined by the separator split back into the two. */
  lemma SplitPair(a: string, b: string, c: char)
    requires c !in a && c !in b
    ensures Split(a + [c] + b, [c]) == [a, b]
  {
    assert Join([a, b], [c]) == a + [c] + Join([b], [c]);
    JoinSplit([a, b], c);
  }

  /** Text without the separator's first character holds no occurrence of it. */
  lemma SplitWhole(s: string, sep: string)
    requires |sep| > 0 && sep[0] !in s
    ensures Split(s, sep) == [s]
  {
    forall k | 0 <= k ensures !OccursAt(s, sep, k) {
      if k + |sep| <= |s| {
        assert s[k..k + |sep|][0] == s[k];
      }
    }
  }

  /** Two pieces without the separator's first character, joined by it, split back into the two. */
  lemma SplitPairBy(a: string, b: string, sep: string)
    requires |sep| > 0 && sep[0] !in a && sep[0] !in b
    ensures Split(a + sep + b, sep) == [a, b]
  {
    var s := a + sep + b;
    var n := |a|;
    assert s[n..n + |sep|] == sep;
    forall k | 0 <= k < n ensures !OccursAt(s, sep, k) {
      if k + |sep| <= |s| {
        assert s[k..k + |sep|][0] == s[k] == a[k];
      }
    }
    var r := IndexOf(s, sep, 0);
    assert OccursAt(s, sep, n);
    assert r == -1 || r > n ==> !OccursAt(s, sep, n);
    assert r == n;
    assert s[..n] == a && s[n + |sep|..] == b;
    SplitWhole(b, sep);
  }

  /** `Number(String(n))` is n again. */
  lemma NumberOfDecimal(n: nat)
    ensures NumberOf(Decimal(n)) == Some(n)
  {
    NumberOfDigits(Decimal(n));
    DecimalRoundTrip(n);
  }

  /** A decimal string holds no character other than digits. */
  lemma DecimalAvoids(n: nat, c: char)
    requires !IsDigit(c)
    ensures c !in Decimal(n)
  {
  }

  lemma NoOccurrence(s: string, c: char)
    requires c !in s
    ensures Split(s, [c]) == [s]
  {
    forall i | 0 <= i < |s| ensures !OccursAt(s, [c], i) {
      assert s[i..i + 1] == [s[i]];
    }
  }

  /** `s.replaceAll('\r', '')`: the text with every carriage return removed. */
  function RemoveCR(s: string): (t: string)
    ensures '\r' !in t && |t| <= |s|
    ensures '\r' !in s ==> t == s
  {
    if |s| == 0 then [] else (if s[0] == '\r' then [] else [s[0]]) + RemoveCR(s[1..])
  }

  // ---------------------------------------------------------------------------
  // Two-part inputs: `for (line of lines)` with an `isSecond` flag
  // ---------------------------------------------------------------------------

  /** `line.trim() === ''`: nothing but white space (see `BlankIsTrimEmpty`). */
  predicate Blank(line: string) {
    forall i :: 0 <= i < |line| ==> IsJsSpace(line[i])
  }

  lemma BlankIsTrimEmpty(line: string)
    ensures Blank(line) <==> Trim(line) == ""
  {
  }

  /** The non-blank lines, in order. */
  function NonBlank(lines: seq<string>): (r: seq<string>)
    ensures forall i :: 0 <= i < |r| ==> !Blank(r[i])
  {
    if |lines| == 0 then []
    else if Blank(lines[0]) then NonBlank(lines[1..])
    else [lines[0]] + NonBlank(lines[1..])
  }

  /**
   * The reading loop of a two-part input: a blank line switches to the second
   * part and is skipped; every other line goes to the part in force.
   */
  function Sections(lines: seq<string>, isSecond: bool): (r: (seq<string>, seq<string>))
    ensures isSecond ==> r.0 == []
  {
    if |lines| == 0 then ([], [])
    else if Blank(lines[0]) then Sections(lines[1..], true)
    else
      var rest := Sections(lines[1..], isSecond);
      if isSecond then (rest.0, [lines[0]] + rest.1) else ([lines[0]] + rest.0, rest.1)
  }

  lemma {:induction false} SectionsSecond(lines: seq<string>)
    ensures Sections(lines, true) == ([], NonBlank(lines))
    decreases |lines|
  {
    if |lines| > 0 {
      SectionsSecond(lines[1..]);
    }
  }

  /** A non-blank line in the first part goes to the first part. */
  lemma SectionsCons(line: string, rest: seq<string>)
    requires !Blank(line)
    ensures Sections([line] + rest, false) == ([line] + Sections(rest, false).0, Sections(rest, false).1)
  {
    assert ([line] + rest)[1..] == rest;
  }

  /** The first part is every line before the first blank one; the second, the non-blank lines after it. */
  lemma {:induction false} SectionsAtFirstBlank(pre: seq<string>, blank: string, post: seq<string>)
    requires forall i :: 0 <= i < |pre| ==> !Blank(pre[i])
    requires Blank(blank)
    ensures Sections(pre + [blank] + post, false) == (pre, NonBlank(post))
    decreases |pre|
  {
    if |pre| == 0 {
      assert pre + [blank] + post == [blank] + post;
      assert ([blank] + post)[1..] == post;
      SectionsSecond(post);
    } else {
      var rest := pre[1..] + [blank] + post;
      calc {
        Sections(pre + [blank] + post, false);
        { assert pre + [blank] + post == [pre[0]] + rest; }
        Sections([pre[0]] + rest, false);
        { SectionsCons(pre[0], rest); }
        ([pre[0]] + Sections(rest, false).0, Sections(rest, false).1);
        { SectionsAtFirstBlank(pre[1..], blank, post); }
        ([pre[0]] + pre[1..], NonBlank(post));
        { assert [pre[0]] + pre[1..] == pre; }
        (pre, NonBlank(post));
      }
    }
  }
}

=== FILE: xmas.dfy ===
/**
 * _2024/4/index.mjs: an X-MAS is an `A` whose two diagonals each read `MAS`
 * in one direction or the other; the answer counts the `A` cells that centre
 * one.
 */
module XMas {
  import opened Text

  /** The puzzle text split into rows, `\r` removed. */
  type Grid = seq<string>

  /** `input.replaceAll('\r', '').split('\n')`. */
  function ReadGrid(input: string): Grid {
    Split(RemoveCR(input), "\n")
  }

  /**
   * `map[r][c]` where `!map[r] || !map[r][c]` is false: the row exists and is
   * not empty, and the column is inside it.
   */
  function At(grid: Grid, r: int, c: int): (ch: Option<char>)
    ensures ch.Some? <==> 0 <= r < |grid| && 0 <= c < |grid[r]|
  {
    if 0 <= r < |grid| && |grid[r]| > 0 && 0 <= c < |grid[r]| then Some(grid[r][c]) else None
  }

  /** An offset from the centre cell. */
  datatype Offset = Offset(dr: int, dc: int)

  /** `dirs2.d1`: north-west and south-east. */
  const D1: (Offset, Offset) := (Offset(-1, -1), Offset(1, 1))
  /** `dirs2.d2`: north-east and south-west. */
  const D2: (Offset, Offset) := (Offset(-1, 1), Offset(1, -1))

  /** `checkPair(pair)` for the centre (r, c): both cells exist and hold M and S, in either order. */
  function CheckPair(grid: Grid, r: int, c: int, pair: (Offset, Offset)): bool {
    var (pos1, pos2) := pair;
    match (At(grid, r + pos1.dr, c + pos1.dc), At(grid, r + pos2.dr, c + pos2.dc))
    case (Some(char1), Some(char2)) => (char1 == 'M' && char2 == 'S') || (char1 == 'S' && char2 == 'M')
    case _ => false
  }

  /** `findNextLetter(r, c)`. */
  function FindNextLetter(grid: Grid, r: nat, c: nat): (n: nat)
    requires r < |grid| && c < |grid[r]|
    ensures n <= 1
  {
    if grid[r][c] != 'A' then 0
    else if CheckPair(grid, r, c, D1) && CheckPair(grid, r, c, D2) then 1
    else 0
  }

  /** The three cells from a through the centre to b read `MAS`, forwards or backwards. */
  ghost predicate ReadsMas(grid: Grid, a: (int, int), centre: (int, int), b: (int, int)) {
    && At(grid, a.0, a.1).Some? && At(grid, centre.0, centre.1).Some? && At(grid, b.0, b.1).Some?
    && var w := [At(grid, a.0, a.1).value, At(grid, centre.0, centre.1).value, At(grid, b.0, b.1).value];
       w == "MAS" || w == "SAM"
  }

  /** The cell centres an X-MAS: both diagonals through it read `MAS` one way or the other. */
  ghost predicate IsCentre(grid: Grid, r: int, c: int) {
    && ReadsMas(grid, (r - 1, c - 1), (r, c), (r + 1, c + 1))
    && ReadsMas(grid, (r - 1, c + 1), (r, c), (r + 1, c - 1))
  }

  /** The test gives 1 exactly at the centre of an X-MAS, else 0. */
  lemma FindNextLetterSpec(grid: Grid, r: nat, c: nat)
    requires r < |grid| && c < |grid[r]|
    ensures FindNextLetter(grid, r, c) == 1 <==> IsCentre(grid, r, c)
    ensures FindNextLetter(grid, r, c) == 0 <==> !IsCentre(grid, r, c)
  {
  }

  /** X-MAS centres among the first k cells of row r. */
  ghost function RowCentres(grid: Grid, r: nat, k: nat): nat
    requires r < |grid| && k <= |grid[r]|
  {
    if k == 0 then 0 else RowCentres(grid, r, k - 1) + (if IsCentre(grid, r, k - 1) then 1 else 0)
  }

  /** X-MAS centres in the first n rows. */
  ghost function Centres(grid: Grid, n: nat): nat
    requires n <= |grid|
  {
    if n == 0 then 0 else Centres(grid, n - 1) + RowCentres(grid, n - 1, |grid[n - 1]|)
  }

  /** `main`: the two loops over rows and columns, adding the test at every `A`. */
  method CountWords(grid: Grid) returns (words: nat)
    ensures words == Centres(grid, |grid|)
  {
    words := 0;
    var r := 0;
    while r < |grid|
      invariant 0 <= r <= |grid|
      invariant words == Centres(grid, r)
    {
      var c := 0;
      while c < |grid[r]|
        invariant 0 <= c <= |grid[r]|
        invariant words == Centres(grid, r) + RowCentres(grid, r, c)
      {
        FindNextLetterSpec(grid, r, c);
        if grid[r][c] == 'A' {
          var currWords := FindNextLetter(grid, r, c);
          words := words + currWords;
        }
        c := c + 1;
      }
      r := r + 1;
    }
  }

  /** A cross needs room on every side: no centre on the border. */
  lemma NoCentreOnBorder(grid: Grid, r: nat, c: nat)
    requires r < |grid| && c < |grid[r]|
    requires r == 0 || c == 0 || r == |grid| - 1
    ensures FindNextLetter(grid, r, c) == 0
  {
    FindNextLetterSpec(grid, r, c);
  }

  lemma Example()
    ensures FindNextLetter(["M.S", ".A.", "M.S"], 1, 1) == 1
    ensures FindNextLetter(["M.M", ".A.", "M.S"], 1, 1) == 0
  {
  }
}
